=== FILE: README.md ===
# chunkfs in Dafny

A model of the sequential core of chunkfs, a Rust library for benchmarking
content-defined chunking. chunkfs is a deduplicating file system: a file is a
list of hashed spans, and the chunk bytes live in a key-value store under
their hashes. The model covers:

- `Chunker`, `FixedSize`: the `Chunk` range contract and the two fixed-size
  chunkers. The covering variant in src/chunker.rs keeps the short last
  chunk. The one in src/chunkers/fixed_size.rs withholds that chunk as `rest`.
- `Hashers`: `SimpleHasher` (the identity, hence collision-free) and the
  reset discipline of `Sha256Hasher` over an abstract digest.
- `Storage`: `ChunkStorage` and `StorageWriter`.
  - Data is cut into `SEG_SIZE` pieces.
  - The last chunk of every batch is carried forward.
  - The other chunks are stored under their hash, and the first write wins.
  - Retrieval is by hash, including target chunks.
  - It also models the size accounting and the two clears.
- `Database`, `BlockDatabase`, `DiskDatabase`, `DataBlock`, `Device`,
  `Bincode`: the database code, in four parts.
  - The `Database` trait's default methods and the `HashMap` store.
  - The block-based `DiskDatabase` of src/system/database.rs.
  - The extent-based `DiskDatabase` of src/system/disk_database.rs, with its
    `DataBlock` padding and grouping arithmetic.
  - The device is a byte sequence, and bincode is an abstract codec whose
    decoder undoes its encoder.
- `FileLayer`, `FileSystem`: named files of spans, handles, append and read,
  the per-file hash distribution, and the facade's NotFound,
  PermissionDenied and replace-on-create rules.
- `Fuse`: the FUSE adapter's tables and rules.
  - The inode, name and handle tables.
  - `check_access` (the file access permission rules of POSIX.1-2017, Base
    Definitions section 4.5).
  - Open-mode decoding.
  - The append-only `write`, `setattr`, `create`, `lookup` and `getattr`,
    with errno replies as a datatype.
- `Bench`: `TimeMeasurement` arithmetic (durations in nanoseconds),
  `avg_measurement`, the chunk-size distribution, and when
  `measure_multi`/`measure_repeated` clear the database.
- `Cli`, `Lib`: the command-line tool's chunker construction, report-path
  check, measure loop and file naming, and the batch driver's iteration
  order and distribution paths.
- `Plotting`: the row filter, label shortening, metric selection, axis
  labels and file names of plotting/measurements.py.
- `Text`, `Arith`, `Wrappers`: shared helpers.
  - Decimal rendering, prefix before a separator, replace, strip and
    title-casing.
  - Division facts.
  - `Result`, `Option`, the I/O error kinds, and byte-sequence concatenation.

**Parameters.** The chunker, the hasher's digest, the bincode codec, a
measurement run, reading files and parsing TOML are all function-valued
parameters. A measurement run is a function of the file-system state and
the run's index in its loop; the clock readings and fresh file names a run
draws are part of that function at that index. The FUSE handlers take the
current time as an input. The storage round trip is proved for any chunker
whose chunks tile its input and any injective hasher.

**Deviations from the source.** Several source files are snapshots of one
API taken at different times, so they do not quite fit together.

- `WriteMeasurements` has three fields in src/system/storage.rs but is
  destructured with two in src/bench/mod.rs.
- The `impl Database` in src/system/disk_database.rs defines an
  `insert_multi` that the trait in src/system/database.rs lacks.
- Two different `DiskDatabase` types exist.
- `CDCFixture` takes three type parameters in src/bench/mod.rs and two in
  chunkfs-cli.

Each function is modelled as its own file writes it. The model does not
force the files to fit together.

Some quirks are modelled literally.

- `FileLayer::read` never moves a handle past the start of the file's last
  span (`FileLayer.ReadStallsAtLastSpan`). At that offset it returns the last
  hash again, so a loop that reads until it gets an empty result does not
  end on a non-empty file.
- `StorageWriter` never asks the chunker for its remainder. The tail that
  `FSChunker` withholds is therefore never stored, and the storage round
  trip needs a chunker that tiles its whole input.
- `FileSystem::create_file` passes `create_new = true`. It therefore replaces
  an existing file instead of reporting AlreadyExists.
- `FileLayer::open` gives a handle at offset 0 even on a file that already
  has spans, and `write` places new spans at the handle's offset. Writing
  through a reopened handle therefore appends spans whose offsets restart at
  0. `read` and `chunk_count_distribution` then subtract a larger `usize`
  offset from a smaller one, which panics in a debug build. The model
  returns None for that outcome. `FileLayer.ReopenedWriteUnderflows` proves
  that reopening and writing reaches it, and `FileLayer.Read` and
  `FileLayer.ChunkCountDistribution` prove that a file whose offsets ascend
  never does.
- A handle outlives its file: after `clear_database`, writing and closing
  through it are NotFound, but `read_file_complete`, `read_from_file` and
  `chunk_count_distribution` reach the `unwrap` in `FileLayer::find_file`
  and panic. The model returns None for that outcome
  (`FileSystem.ClearThenWrite`).
- A reader error in `write_from_stream` is returned after the earlier reads
  have already been chunked into the storage and counted in `size_written`.
  Nothing is appended to the file in that case.

## Model

| member | source | states |
|---|---|---|
| Chunker.Range | src/chunker.rs:18-20 | a chunk's range starts at its offset and is exactly its length long |
| Chunker.Bytes | src/chunker.rs:92 | the bytes a chunk selects are as many as its length |
| Chunker.TilesFromConcat | src/chunker.rs:31-43 | chunks that tile a range, concatenated, give back exactly the bytes of that range |
| Chunker.TilesFromLength | src/chunker.rs:31-43 | the lengths of tiling chunks add up to the length they tile |
| Chunker.FixedChunks | src/chunker.rs:82-88 | the loop emits one chunk every chunk-size bytes from the start offset, each as long as the chunk size or the bytes left, and together they tile the rest of the data |
| Chunker.ChunkData | src/chunker.rs:81-97 | the chunks tile the whole data, the k-th starts at k times the chunk size, and the remainder is the last chunk's bytes exactly when that chunk is short, empty otherwise |
| Chunker.FixedChunksCount | src/chunker.rs:82-88 | the loop emits the ceiling of the remaining length over the chunk size chunks |
| Chunker.EstimateBoundsChunkCount | src/chunker.rs:103-105 | the estimate `len / size + 1` is never below the number of chunks returned |
| FixedSize.New | src/chunkers/fixed_size.rs:15-20 | a new chunker has the given chunk size and an empty remainder |
| FixedSize.ChunkData | src/chunkers/fixed_size.rs:30-47 | every returned chunk is full and they tile the data up to the withheld tail, which is shorter than a chunk and is the data's last bytes |
| FixedSize.FullChunks | src/chunkers/fixed_size.rs:33-37 | every chunk of the loop but the last is a full chunk at its multiple of the chunk size, and the last is no longer than a chunk |
| FixedSize.TailIsLengthModChunkSize | src/chunkers/fixed_size.rs:39-55 | the withheld tail is `len mod size` bytes, `len / size` chunks are returned, one fewer than the estimate, and `remainder` yields the tail |
| Hashers.SimpleHashInjective | src/hashers.rs:12-18 | the simple hash is the data itself: equal keys exactly for equal chunks, and the key length is the chunk length |
| Hashers.Sha256Hash | src/hashers.rs:29-32 | hashing leaves the hasher reset |
| Hashers.OutputDependsOnlyOnCurrentData | src/hashers.rs:29-32 | because of `finalize_reset`, each of a series of hashes is the digest of its own input alone |
| Hashers.Sha256LenIsDigestLength | src/hashers.rs:34-36 | the reported hash length is 32, the size of an `Output<Sha256>` digest |
| Bincode.DecodeEncoded | src/system/database.rs:219-251 | decoding the bytes a value was encoded to gives the value back |
| Device.ReadAt | src/system/database.rs:243-249 | a positioned read returns the device's bytes in range and zeros past its end |
| Device.WriteAt | src/system/database.rs:231-233 | a positioned write puts the data at the offset, grows the device with zeros if needed, and leaves every other byte alone |
| Device.ReadAfterWrite | src/system/database.rs:231-249 | reading back the range just written returns the written bytes |
| Device.ReadOutsideWrite | src/system/database.rs:231-249 | a read that does not overlap a write is unaffected by it |
| DataBlock.PaddingToMultipleBlockSize | src/system/data_block.rs:167-177 | the padding is zero for a multiple of the block size and below the block size otherwise, and completes the length to the next multiple |
| DataBlock.PaddingIsUnique | src/system/data_block.rs:167-177 | the padding is the only completion below the block size that reaches a multiple |
| DataBlock.StartAndEndPadding | src/system/data_block.rs:179-190 | no padding without alignment; with it, the start padding reaches back to a block boundary and the end padding, below a block, makes the padded length a multiple of the block size |
| DataBlock.FromDataInfos | src/system/data_block.rs:55-78 | InvalidData exactly for no infos; otherwise a zeroed buffer spanning the infos plus both paddings, whose offset lies the start padding before the first info |
| DataBlock.InfosFrom | src/system/data_block.rs:96-103 | the i-th info starts after the lengths of the values before it and is as long as the i-th value |
| DataBlock.InfosFromContiguous | src/system/data_block.rs:96-103 | the infos of consecutive values are contiguous, each starting where the previous one ends |
| DataBlock.FromValues | src/system/data_block.rs:80-120 | InvalidData exactly for no values; otherwise contiguous infos from the offset, one per value, over the values' bytes between the zero paddings |
| DataBlock.Slice | src/system/data_block.rs:153-157 | the bytes read for an info are as many as its length |
| DataBlock.FromValuesSlice | src/system/data_block.rs:86-157 | in a block built from values, the bytes read for the i-th info are exactly the i-th value |
| DataBlock.AddToGroups | src/system/data_block.rs:131-140 | a grouping step keeps every group non-empty |
| DataBlock.Groups | src/system/data_block.rs:125-142 | there are groups exactly when there are infos, and none is empty |
| DataBlock.GroupsSplitAtGaps | src/system/data_block.rs:122-142 | each group is contiguous, no group continues the previous one, and flattening the groups gives back the input |
| DataBlock.GroupBlock | src/system/data_block.rs:144 | the block built for a group carries that group and is well formed |
| DataBlock.SplitToDatablocks | src/system/data_block.rs:122-147 | one well-formed block per group, carrying that group's infos |
| DataBlock.SplitFlattensBack | src/system/data_block.rs:122-147 | no blocks exactly for no infos, and the blocks' infos flatten back to the input |
| DataBlock.DecodeAll | src/system/data_block.rs:149-164 | decoding succeeds exactly when every slice decodes, giving the values in order; otherwise InvalidData |
| DataBlock.FromValuesDecodes | src/system/data_block.rs:86-164 | decoding a block built from encoded values gives the values back in order |
| BlockDatabase.Init | src/system/database.rs:172-207 | a zero block size is InvalidData; otherwise an empty database over the whole device with no block used |
| BlockDatabase.InitOnRegularFile | src/system/database.rs:147-170 | an empty database over a zeroed file of the given size with 512-byte blocks |
| BlockDatabase.Write | src/system/database.rs:218-241 | OutOfMemory exactly when the value would reach the end of the device; otherwise the padded value is written at the first free block, the info records that block and the length, and the used blocks grow by the blocks it takes |
| BlockDatabase.Insert | src/system/database.rs:268-272 | fails exactly when the write fails; otherwise the key points at the written value and nothing else in the index changes |
| BlockDatabase.TryInsert | src/system/database.rs:261-266 | a stored key leaves the database unchanged |
| BlockDatabase.Get | src/system/database.rs:274-277 | an unknown key is NotFound |
| BlockDatabase.Clear | src/system/database.rs:316-320 | every key is forgotten and every block freed, the device bytes are kept, and validity is preserved |
| BlockDatabase.GetAfterClear | src/system/database.rs:316-320 | after clearing, every lookup is NotFound |
| BlockDatabase.InsertedKeyReadsBack | src/system/database.rs:243-277 | when the value fits before the end of the device, the insert succeeds and the key reads back its value |
| BlockDatabase.InsertKeepsOthers | src/system/database.rs:218-277 | when the value fits, the insert succeeds and leaves every other stored key reading back what it did before |
| BlockDatabase.InsertKeepsValid | src/system/database.rs:218-272 | when the value fits, the insert succeeds and every stored value still lies within the used blocks |
| BlockDatabase.TryInsertThenGet | src/system/database.rs:261-277 | `try_insert` succeeds for a stored key or a value that fits; then a new key reads back its value, and every stored key still reads back what it did |
| Database.TryInsertMulti | src/system/database.rs:29-35 | the pairs are inserted left to right and the first error ends the loop |
| Database.GetMulti | src/system/database.rs:37-40 | succeeds exactly when every key's lookup does, with the values in key order; an error is some key's lookup error |
| Database.TryInsert | src/system/database.rs:75-78 | never fails, adds an absent key and keeps the value of a present one |
| Database.Insert | src/system/database.rs:80-83 | never fails, sets the key's value and keeps every other key's |
| Database.Get | src/system/database.rs:85-87 | succeeds exactly for a stored key, with its value; NotFound otherwise |
| Database.Clear | src/system/database.rs:114-117 | no key is left |
| Database.MapTryInsertMultiOk | src/system/database.rs:29-35 | on a hash map, `try_insert_multi` never fails |
| Database.MapTryInsertMultiFirstWins | src/system/database.rs:29-35 | on a hash map the stored keys are the old ones plus those of the pairs; a stored key keeps its value and a new one gets the value of its first pair |
| Database.MapGetMulti | src/system/database.rs:37-40 | on a hash map `get_multi` fails with NotFound exactly when some key is absent, and otherwise returns the stored values in key order |
| Device.ReadInsideWrite | src/system/database.rs:231-249 | a read inside a written range returns the written bytes it covers |
| Device.ReadSlice | src/system/database.rs:243-249 | a sub-range of a read is the read of that sub-range |
| Plotting.DropExcluded | plotting/measurements.py:12 | no kept row has the excluded fixed-size label, and every kept row is a row of the input |
| Plotting.DropExcludedAppend | plotting/measurements.py:12 | the filter works row by row, so it commutes with concatenation and keeps order |
| Plotting.DropExcludedKeepsOthers | plotting/measurements.py:12 | rows with other labels are all kept, unchanged and in order |
| Plotting.ShortLabel | plotting/measurements.py:13 | the short label holds no comma and neither starts nor ends with whitespace |
| Plotting.ShortLabelSlice | plotting/measurements.py:13 | with `k` the position of the label's first comma, or its end, the short label is a slice `text[i..j]` with `j <= k`, only whitespace before `i`, and only whitespace between `j` and `k` |
| Plotting.ShortLabelUnique | plotting/measurements.py:13 | any slice of the label before its first comma with only whitespace before it and between it and that comma or the end, and no whitespace at its own ends, is the short label, so `split(',')[0].strip()` has exactly one value |
| Plotting.ShortenLabels | plotting/measurements.py:13 | every row keeps its name and cells, and its label becomes the short label |
| Plotting.Metrics | plotting/measurements.py:15 | the metrics exist exactly when `dedup_ratio` is a column; they are the suffix of the columns starting at it |
| Plotting.UnitSuffix | plotting/measurements.py:23-26 | " (MB/s)" when the label mentions Throughput, otherwise " (s)" when it mentions Time, otherwise nothing |
| Plotting.AxisLabel | plotting/measurements.py:22-26 | the label is the title-cased, underscore-free key followed by its unit suffix |
| Plotting.AxisLabelWords | plotting/measurements.py:22 | the label holds no underscore, and each letter is upper case exactly where it starts a word of the key |
| Plotting.ChartFileName | plotting/measurements.py:40 | the file is named `graph_` followed by the raw column name, ending in `.png` |
| Plotting.ChartFilesDistinct | plotting/measurements.py:18-40 | different metrics are saved to different files |
| Plotting.DrawCharts | plotting/measurements.py:18-41 | one chart per metric, in column order, each with its file name and axis label and drawn from the same rows |
| Plotting.CreateCharts | plotting/measurements.py:5-41 | a missing file gives no charts; a table without `dedup_ratio` raises; otherwise there is one chart per metric drawn from the filtered rows with short labels |
| Text.Decimal | chunkfs-cli/src/lib.rs:50-53 | the decimal text of a number is a nonempty digit string with no leading zero except for zero itself |
| Text.DecimalRoundTrip | chunkfs-cli/src/lib.rs:50-53 | reading the digits back gives the number |
| Text.Before | chunkfs-cli/src/lib.rs:44-47 | the result is a prefix free of the separator that ends at the first separator or at the end |
| Text.BeforeUnique | chunkfs-cli/src/lib.rs:44-47 | it is the only such prefix |
| Text.Replace | plotting/measurements.py:22 | the result has the same length, with every occurrence of the character replaced and every other character kept |
| Text.StripSlice | plotting/measurements.py:13 | the stripped text is the slice of the input between its leading and trailing whitespace |
| Text.StripUnique | plotting/measurements.py:13 | a slice with only whitespace cut off on either side and no whitespace at its own ends is the stripped text |
| Text.TitleChars | plotting/measurements.py:22 | each letter is upper-cased when it starts a word and lower-cased otherwise |
| Text.Contains | plotting/measurements.py:23-25 | true exactly when the substring occurs at some position |
| DiskDatabase.Init | src/system/disk_database.rs:96-142 | a zero block size is InvalidData; otherwise an empty database with nothing used, aligned by the block size exactly when O_DIRECT is asked for |
| DiskDatabase.InitOnRegularFile | src/system/disk_database.rs:53-94 | an empty database over a zeroed file of the given size, aligned by 512-byte blocks |
| DiskDatabase.WriteMulti | src/system/disk_database.rs:167-190 | no values is a no-op; OutOfMemory exactly when the encoded values would reach the end of the device; otherwise the index is kept, the used size grows by at least the encoded length, and one info per value is returned |
| DiskDatabase.WriteMultiKeepsValid | src/system/disk_database.rs:167-190 | a write keeps the database valid and every returned info ends below the new used size |
| DiskDatabase.WriteMultiReadsBack | src/system/disk_database.rs:184-189 | each returned info reads back its value's encoding from the new device |
| DiskDatabase.WriteMultiBlock | src/system/disk_database.rs:184-189 | a non-empty write puts the block built from the encoded values at the used size and returns that block's infos |
| DiskDatabase.WriteMultiFrame | src/system/disk_database.rs:184-187 | a write leaves every byte below the old used size unchanged |
| DiskDatabase.WriteMultiStaysOnDevice | src/system/disk_database.rs:179-187 | on a device whose size is a multiple of the block size, the used size never passes the end of the device |
| DiskDatabase.NewPairs | src/system/disk_database.rs:219-226 | only pairs whose key is not stored are kept for writing |
| DiskDatabase.NewPairsLastValue | src/system/disk_database.rs:219-226 | dropping the stored keys does not change which value is last for a key that is not stored |
| DiskDatabase.ExtendLookup | src/system/disk_database.rs:228-229 | after `extend`, a key is present exactly when it was or is among the new keys, and maps to the info of its last occurrence or keeps its old info |
| DiskDatabase.InsertMulti | src/system/disk_database.rs:218-231 | fails, with OutOfMemory, exactly when writing the values of the unstored keys fails |
| DiskDatabase.InsertMultiLookup | src/system/disk_database.rs:218-231 | afterwards a key is stored exactly when it was or is among the pairs; old keys keep their info and a new key points at the info written for its last pair |
| DiskDatabase.Insert | src/system/disk_database.rs:210-212 | inserting a stored key leaves the database unchanged |
| DiskDatabase.Lookup | src/system/disk_database.rs:234-241 | the infos of all keys in order, or NotFound exactly when some key is not stored |
| DiskDatabase.FillBlock | src/system/disk_database.rs:148-151 | a filled block keeps its offset, infos and buffer length |
| DiskDatabase.Fill | src/system/disk_database.rs:144-154 | every block's buffer is read from the device at the block's offset |
| DiskDatabase.GetMulti | src/system/disk_database.rs:233-243 | a key that is not stored makes the whole lookup NotFound |
| DiskDatabase.Get | src/system/disk_database.rs:214-216 | an unknown key is NotFound |
| DiskDatabase.Clear | src/system/disk_database.rs:282-286 | no key is left, the used size is zero and validity is preserved |
| DiskDatabase.GetAfterClear | src/system/disk_database.rs:282-286 | after clearing, every lookup is NotFound |
| DiskDatabase.FilledSlices | src/system/disk_database.rs:144-165 | the slices of filled blocks are the device bytes at their infos |
| DiskDatabase.ReadMultiPointwise | src/system/disk_database.rs:156-165 | however the infos are grouped into blocks, each value is decoded from exactly the device bytes at its info |
| DiskDatabase.GetDecodesStoredBytes | src/system/disk_database.rs:214-243 | `get` of a stored key decodes the device bytes at its info, or is InvalidData when they do not decode |
| DiskDatabase.InsertMultiKeepsValid | src/system/disk_database.rs:218-231 | a batch insert keeps the database valid |
| DiskDatabase.InsertMultiKeepsOthers | src/system/disk_database.rs:218-243 | every key stored before a batch insert still reads back what it did |
| DiskDatabase.InsertMultiThenGet | src/system/disk_database.rs:210-243 | after a batch insert, old keys read back what they did, and a new key reads back the value of its last pair in the batch |
| DiskDatabase.InsertThenGet | src/system/disk_database.rs:210-243 | a key that was not stored reads back the inserted value |
| FileLayer.Create | src/system/file_layer.rs:82-98 | AlreadyExists exactly when `create_new` is unset and the name exists; otherwise an empty file under the name, replacing any old one, every other file kept, and a writable handle at offset 0 |
| FileLayer.Open | src/system/file_layer.rs:100-106 | succeeds exactly for an existing name, with a writable handle on it at offset 0; NotFound otherwise |
| FileLayer.OpenReadonly | src/system/file_layer.rs:108-113 | succeeds exactly for an existing name, with a handle without a chunker at offset 0; NotFound otherwise |
| FileLayer.Write | src/system/file_layer.rs:134-146 | only the handle's file changes, the handle keeps its file and chunker, and its measurements are the sum of the old ones and the writer's |
| FileLayer.WriteAppends | src/system/file_layer.rs:134-146 | the earlier spans stay, the new ones carry the input hashes in order, the first at the handle's offset and each next one the previous length further on, and the handle ends past them |
| FileLayer.WriteAddsHashes | src/system/file_layer.rs:125-146 | after a write, `read_complete` is the old hashes followed by the input hashes, and the handle moved by their total length |
| FileLayer.WriteKeepsOrder | src/system/file_layer.rs:134-146 | when the file's offsets ascend and no span starts after the handle's offset, appending through the handle keeps both facts |
| FileLayer.ReopenedWriteUnderflows | src/system/file_layer.rs:100-106 | reopening a file whose last span starts past 0 and within `SEG_SIZE`, then writing to it, breaks the order: a read from the start and the chunk count distribution both underflow |
| FileLayer.TakeRunMeetsEarlier | src/system/file_layer.rs:155-163 | a run over ascending spans within `SEG_SIZE` reaches the span after them and underflows when that span starts earlier |
| FileLayer.GapsAscend | src/system/file_layer.rs:188-192 | the gaps are computed without underflow exactly when the file's offsets ascend |
| FileLayer.Gaps | src/system/file_layer.rs:188-192 | one gap per span but the last, the i-th being the distance from span i to span i + 1 |
| FileLayer.ChunkCountDistribution | src/system/file_layer.rs:182-201 | None exactly where the source panics: when the handle's file is gone (the `find_file` unwrap) or its offsets do not ascend; otherwise every hash of the spans but the last is entered, with how many of them carry it and the gap after the first of them, and nothing else is entered |
| FileLayer.SpanDistribution | src/system/file_layer.rs:186-200 | the same on the spans themselves |
| FileLayer.TakeRun | src/system/file_layer.rs:159-163 | ascending spans from the last offset on never underflow, and `bytes_read` never decreases |
| FileLayer.ReadSpans | src/system/file_layer.rs:155-163 | ascending spans are read without underflow |
| FileLayer.FirstAtOrAfterSplits | src/system/file_layer.rs:158 | `skip_while` drops exactly the leading spans that start before the offset |
| FileLayer.TakeRunReads | src/system/file_layer.rs:159-163 | `take_while` keeps the spans that start less than `SEG_SIZE` past the origin, and `bytes_read` reaches the start of the span that stopped it, or of the last span taken |
| FileLayer.ReadRun | src/system/file_layer.rs:148-170 | `read` returns the hashes from the first span at or after the handle's offset up to the first at or after `SEG_SIZE` past it, and moves the offset to the start of that span, or of the last span at the end of the file |
| FileLayer.ReadStallsAtLastSpan | src/system/file_layer.rs:148-170 | at the start of the last span, `read` returns that span's hash again and the offset stays where it is |
| FileLayer.Clear | src/system/file_layer.rs:177-180 | no file is left |
| FileLayer.DistributionCounts | src/system/file_layer.rs:182-201 | a hash is entered exactly when a counted span carries it, with the number of such spans and the gap after the first of them |
| FileLayer.CreateThenRead | src/system/file_layer.rs:82-132 | after `create` the file exists, `open` finds it and `read_complete` is empty, whether or not the name existed |
| FileLayer.Empty | src/system/file_layer.rs:25 | the default layer holds no files |
| FileLayer.NewHandle | src/system/file_layer.rs:52-59 | a new handle names the file, starts at offset 0 with zero measurements, and carries the chunker |
| FileLayer.NewReadonly | src/system/file_layer.rs:61-68 | a read-only handle names the file, starts at offset 0 with zero measurements, and has no chunker |
| FileLayer.ReadComplete | src/system/file_layer.rs:115-132 | None exactly when the handle's file is gone, where `find_file` unwraps and panics; otherwise one hash per span of the file: the i-th is the i-th span's hash, in file order |
| FileLayer.Read | src/system/file_layer.rs:148-170 | None when the handle's file is gone (the `find_file` unwrap panics); an existing file whose offsets ascend is always read; a read keeps the handle's file, chunker and measurements and never moves its offset back |
| FileLayer.Distribution | src/system/file_layer.rs:193-198 | every count entered is positive |
| Storage.AddTimes | src/system/file_layer.rs:145 | adding measurements adds each of the save, chunk and hash times |
| Storage.MakeTarget | src/system/storage.rs:391-394 | the container then holds the given target keys |
| Storage.UnwrapChunk | src/system/storage.rs:406-416 | the bytes returned are the container's chunk: wrapping them again gives the container |
| Storage.New | src/system/storage.rs:64-72 | a new storage over the given databases has written nothing |
| Storage.Cut | src/system/storage.rs:322-334 | every chunk but the last is cut out of the buffer with its own length, and the last is carried forward |
| Storage.CutTiles | src/system/storage.rs:309-334 | when the chunks tile the buffer, the cut chunks followed by the carried bytes are the buffer again |
| Storage.SpansOf | src/system/storage.rs:339-343 | one span per chunk, with the chunk's hash and length |
| Storage.ChunkPairs | src/system/storage.rs:345-349 | one (hash, chunk container) pair per chunk, in order |
| Storage.WriterWrite | src/system/storage.rs:302-359 | no chunks leaves everything unchanged; otherwise one span per chunk but the last, with its length, and the last chunk becomes the new carried bytes |
| Storage.Flush | src/system/storage.rs:361-387 | nothing when no bytes are carried; otherwise they are stored under their hash and reported as one span of their length, with no chunking time |
| Storage.Hashes | src/system/file_layer.rs:125-132 | the hashes of the spans, in order |
| Storage.Retain | src/system/storage.rs:98 | only results with a non-zero total length are kept |
| Storage.Pieces | src/system/storage.rs:81-93 | the data is cut into non-empty pieces of at most `SEG_SIZE` bytes, all but the last exactly `SEG_SIZE`, that concatenate back to the data |
| Storage.Write | src/system/storage.rs:74-103 | `size_written` grows by the data length, the target map is untouched, and every result returned has a non-zero length |
| Storage.WriteFromStream | src/system/storage.rs:105-137 | fails exactly when the reader fails, with the reader's error; the target map is untouched, `size_written` never shrinks, and every result returned has a non-zero length |
| Storage.StreamFailureKeepsStored | src/system/storage.rs:118-125 | after a failing read the database stays consistent and keeps every earlier entry, and the stream that ends there instead stores everything the failing one did and counts at least as many bytes |
| Storage.Resolve | src/system/storage.rs:144-155 | a chunk container gives its bytes; a target container gives its keys' target-map values concatenated, and NotFound exactly when one is missing |
| Storage.Retrieve | src/system/storage.rs:139-156 | succeeds exactly when every hash is stored and resolves, giving the bytes of each hash in order; NotFound otherwise |
| Storage.ClearDatabase | src/system/storage.rs:237-241 | nothing written and no chunk stored afterwards; the target map is kept |
| Storage.ClearDatabaseFull | src/system/storage.rs:263-268 | nothing written, no chunk stored and the target map emptied |
| Storage.InsertChunksStores | src/system/storage.rs:345-351 | with a collision-free hash, inserting chunks keeps the database consistent, changes no stored entry and leaves every chunk stored |
| Storage.InsertChunksPresent | src/system/storage.rs:345-351 | inserting chunks that are all stored already changes nothing |
| Storage.RecoveredLength | src/system/storage.rs:336-343 | the chunks the spans recover are as long as the spans say |
| Storage.TilingCuts | src/system/storage.rs:312-320 | a chunker whose chunks tile its input returns at least one non-empty chunk for non-empty input |
| Storage.WriterWriteLengths | src/system/storage.rs:302-359 | with a tiling chunker, the reported total plus the new carried bytes account for the old carried bytes plus the data |
| Storage.WriterWriteStores | src/system/storage.rs:302-359 | with a tiling chunker and a collision-free hash, the database stays consistent and keeps its entries, and the chunks the spans recover followed by the carried bytes are the old carried bytes plus the data |
| Storage.FlushStores | src/system/storage.rs:361-387 | `flush` stores the carried bytes under their hash and its spans recover exactly those bytes |
| Storage.WriteAllLengths | src/system/storage.rs:84-93 | over all pieces, the reported totals plus the final carried bytes account for the pieces |
| Storage.WriteAllStores | src/system/storage.rs:84-93 | over all pieces, the chunks all spans recover followed by the final carried bytes are the pieces concatenated |
| Storage.RetainKeepsSpans | src/system/storage.rs:98 | dropping the results without length drops no span |
| Storage.RetrieveRecovered | src/system/storage.rs:139-156 | retrieving the hashes of recoverable spans returns the stored chunks |
| Storage.RetrieveAppend | src/system/storage.rs:139-156 | retrieving two requests together succeeds exactly when both succeed, with the results concatenated |
| Storage.RetrieveExtends | src/system/storage.rs:139-156 | a successful request keeps its result while the database only grows |
| Storage.WriteAndFlushStores | src/system/storage.rs:78-98 | a fresh writer fed the pieces and flushed recovers exactly the pieces, keeps the database consistent and changes nothing stored |
| Storage.WriteAndFlushLengths | src/system/storage.rs:78-98 | the reported totals of a fed and flushed writer add up to the pieces' length |
| Storage.WriteThenRetrieve | src/system/storage.rs:74-156 | retrieving the hashes of the spans `write` returns gives back exactly the written data, the span lengths add up to its length, and nothing stored before changes |
| Storage.WriteKeepsRetrievable | src/system/storage.rs:74-156 | a write keeps every earlier retrieval as it was |
| Storage.StreamMatchesWrite | src/system/storage.rs:74-137 | with a tiling chunker, a stream of the data's `SEG_SIZE` pieces that then ends succeeds and gives the same database, spans and `size_written` as `write` |
| Storage.TotalCdcSizeRemove | src/system/storage.rs:192-200 | `total_cdc_size` does not depend on the order the entries are counted in |
| Storage.TotalCdcSizeTryInsert | src/system/storage.rs:192-200 | a `try_insert` adds the chunk's length to `total_cdc_size` exactly when the key is new |
| Storage.TotalCdcSizeOfCopies | src/system/storage.rs:192-200 | any number of copies of one chunk stored in an empty database count once |
| Storage.ClearForgets | src/system/storage.rs:237-268 | after either clear nothing is counted and no hash can be retrieved |
| Storage.WriteAll | src/system/storage.rs:84-93 | one writer result per piece fed |
| Storage.WriteAndFlush | src/system/storage.rs:78-98 | one result per piece plus the flush's |
| FileSystem.New | src/system/mod.rs:209-216 | a new file system has no files and has written nothing |
| FileSystem.OpenFile | src/system/mod.rs:64-72 | succeeds exactly for an existing file, with a writable handle on it; NotFound otherwise |
| FileSystem.OpenFileReadonly | src/system/mod.rs:74-79 | succeeds exactly for an existing file, with a read-only handle on it; NotFound otherwise |
| FileSystem.CreateFile | src/system/mod.rs:81-89 | never fails: the name then holds an empty file, every other file and the storage are kept, and the handle starts at offset 0 and carries the chunker |
| FileSystem.AppendAll | src/system/mod.rs:107-109 | appending the writer results changes only the handle's file and keeps the handle's file and chunker |
| FileSystem.AppendAllAppends | src/system/mod.rs:107-109 | appending the writer results adds their hashes in order to the end of the file and moves the handle by their total length |
| FileSystem.AppendAllKeepsOrder | src/system/mod.rs:107-109 | when the file's offsets ascend and no span starts after the handle's offset, appending the writer results keeps both facts |
| FileSystem.WriteToFile | src/system/mod.rs:91-112 | NotFound for a missing file, else PermissionDenied for a read-only handle, and no other failure; on success the files are kept, the target map is untouched and `size_written` grows by the data length |
| FileSystem.WriteFromStream | src/system/mod.rs:114-138 | NotFound for a missing file, else PermissionDenied for a read-only handle, both leaving the file system as it was; else the reader's error when it fails, with the files and the target map kept; no other failure, and on success the files and the target map are kept |
| FileSystem.CloseFile | src/system/mod.rs:140-148 | NotFound exactly for a missing file, otherwise the measurements the handle gathered |
| FileSystem.ReadFileComplete | src/system/mod.rs:150-154 | None exactly when the handle's file is gone, where the file layer panics; otherwise succeeds exactly when every hash of the file can be retrieved, and is NotFound otherwise |
| FileSystem.ReadFromFile | src/system/mod.rs:156-162 | None exactly when the file layer's read panics: a missing file, or an underflow, which an existing file whose offsets ascend never meets. Otherwise the handle comes back as `read` moved it, on the error path too, since the move precedes the retrieval; it never moves back; the bytes are Ok exactly when every hash read can be retrieved, and NotFound otherwise |
| FileSystem.ClearDatabase | src/system/mod.rs:271-278 | never fails: no file is left, no chunk is stored, nothing is written and the target map is kept |
| FileSystem.ClearFileSystem | src/system/mod.rs:294-298 | never fails: no file, no chunk and no target-map entry is left |
| FileSystem.WriteThenReadBack | src/system/mod.rs:91-154 | with a tiling chunker and a collision-free hash, a file reads back as before followed by the data written, and the handle moves by the data length |
| FileSystem.CreateThenReadEmpty | src/system/mod.rs:81-154 | a freshly created file reads back empty |
| FileSystem.CreateWriteRead | src/system/mod.rs:81-154 | create a file, write data to it, and reading it back gives the data |
| FileSystem.StreamMatchesWrite | src/system/mod.rs:91-138 | writing from a stream of the data's `SEG_SIZE` pieces that then ends is writing the data: the same failures, and on success the same file system and handle |
| FileSystem.ClearThenWrite | src/system/mod.rs:271-278 | after `clear_database` a handle's file is gone: writing through it and closing it are NotFound, and reading through it with either read panics |
| Fuse.U32 | src/system/fuse_filesystem.rs:411 | the `as u32` cast of the count written is below 2^32 and leaves smaller counts as they are |
| Fuse.New | src/system/fuse_filesystem.rs:64-111 | ".." is inode 0 and "." inode 1, the root is a 0755 directory, no handle is open, and the bookkeeping holds |
| Fuse.GetNewFh | src/system/fuse_filesystem.rs:117-121 | the fh returned is the old counter, the counter moves past it, and it is above every fh in use |
| Fuse.FhsIncrease | src/system/fuse_filesystem.rs:117-121 | two fhs in a row are increasing and neither was in use |
| Fuse.GetNewInode | src/system/fuse_filesystem.rs:113-115 | the new inode is the number of known names |
| Fuse.FreshInode | src/system/fuse_filesystem.rs:113-115 | the inode `create` is meant to hand out is not in use |
| Fuse.CheckAccess | src/system/fuse_filesystem.rs:124-158 | existence is always granted |
| Fuse.CheckAccessRoot | src/system/fuse_filesystem.rs:139-147 | root is granted a mask exactly when it asks for no execute or some execute bit is set |
| Fuse.CheckAccessClass | src/system/fuse_filesystem.rs:149-157 | anyone but root is granted a mask exactly when the bits of their class (owner, group or other) cover it |
| Fuse.DecodeOpen | src/system/fuse_filesystem.rs:270-290 | EINVAL exactly for an invalid access mode, EACCES exactly for a truncating read-only open; otherwise the handle writes exactly when the mode is not read-only, reads exactly when it is not write-only, and asks for execute exactly for an exec open |
| Fuse.Open | src/system/fuse_filesystem.rs:264-316 | ENOENT for an unknown inode, then the decoding error, then EACCES when the check refuses, each leaving the state alone; a success passed all three, returns the next fh and moves the counter |
| Fuse.OpenRegular | src/system/fuse_filesystem.rs:264-316 | an allowed open of a known regular file succeeds with a fh never handed out |
| Fuse.OpenKeepsValid | src/system/fuse_filesystem.rs:264-316 | every open keeps the bookkeeping |
| Fuse.WriteWith | src/system/fuse_filesystem.rs:362-412 | EBADF, ESTALE, ENOENT, EINVAL and EACCES in the source's order, else EIO when the wrapped write fails, each leaving the state alone; a success passed every check and replies with the count written |
| Fuse.WriteAsWritten | src/system/fuse_filesystem.rs:391 | a write as written succeeds only when the caller has read access |
| Fuse.Write | src/system/fuse_filesystem.rs:362-412 | a write as intended succeeds only when the caller has write access, and a refused one changes nothing |
| Fuse.WriteSucceeds | src/system/fuse_filesystem.rs:396-403 | with the bookkeeping in place, a write succeeds exactly when it passes the checks: the wrapped write never fails |
| Fuse.WriteKeepsValid | src/system/fuse_filesystem.rs:362-412 | a write keeps the bookkeeping |
| Fuse.WriteEffects | src/system/fuse_filesystem.rs:396-411 | a successful write grows the size by the data length, bumps the generation, sets mtime and ctime, and changes nothing else but the handle's file |
| Fuse.WriteAppendsContent | src/system/fuse_filesystem.rs:396-411 | a successful write appends the data to what the handle's file reads back |
| Fuse.WriteOnlyFileRefused | src/system/fuse_filesystem.rs:391 | the owner of a write-only file, through a handle opened for writing, is refused by the write as written and served by the intended one |
| Fuse.WriteGranted | src/system/fuse_filesystem.rs:386-411 | a writable handle on a file that grants the caller write access accepts an appending write |
| Fuse.SetTime | src/system/fuse_filesystem.rs:224-258 | EPERM exactly when someone other than the owner or root sets an explicit time; EACCES only for a non-owner without write access; otherwise that time and ctime are set and nothing else |
| Fuse.SetAttr | src/system/fuse_filesystem.rs:187-262 | ENOENT for an unknown inode; a mode change is EPERM exactly for a caller who is neither root nor the owner, and otherwise sets the permission bits and ctime; no other inode and no table changes |
| Fuse.ChmodThenReadable | src/system/fuse_filesystem.rs:212-222 | after the owner grants themselves read access, an open for reading passes the check |
| Fuse.CreateMode | src/system/fuse_filesystem.rs:517-526 | no mode exactly for an invalid access mode; the handle reads exactly when the mode is not write-only and writes exactly when it is not read-only |
| Fuse.NewPerm | src/system/fuse_filesystem.rs:508 | each permission bit of a new file is set exactly when the mode has it and the umask does not |
| Fuse.CreateAt | src/system/fuse_filesystem.rs:473-552 | EINVAL for a parent other than the root; otherwise a fh is taken and the file created in the wrapped file system before an invalid access mode is refused; a success records an empty regular file with the chosen inode |
| Fuse.CreateAsWritten | src/system/fuse_filesystem.rs:497 | the inode created as written is the number of known names |
| Fuse.Create | src/system/fuse_filesystem.rs:473-552 | the inode created as intended is the number of entries in the inode table, and the new name maps to it |
| Fuse.CreateReusesInode | src/system/fuse_filesystem.rs:497-550 | as written, re-creating a known name and then creating a new one gives both names the same inode |
| Fuse.CreateFresh | src/system/fuse_filesystem.rs:473-552 | the intended create hands out an inode no file had and a fh never handed out, and keeps every other inode |
| Fuse.CreateKeepsValid | src/system/fuse_filesystem.rs:473-552 | the intended create keeps the bookkeeping |
| Fuse.CreateThenReadEmpty | src/system/fuse_filesystem.rs:488-551 | the handle `create` returns reads back an empty file |
| Fuse.Lookup | src/system/fuse_filesystem.rs:165-178 | EINVAL outside the root, ENOENT for an unknown name, otherwise the attributes and generation of its inode; with the bookkeeping in place a known name is always found |
| Fuse.GetAttr | src/system/fuse_filesystem.rs:180-185 | the attributes exactly for a known inode, ENOENT otherwise |
| Fuse.CreateThenLookup | src/system/fuse_filesystem.rs:165-185 | a created file is found by name with the attributes `create` reported, generation 0 and size 0 |
| Fuse.CreateReadyToWrite | src/system/fuse_filesystem.rs:362-552 | the handle of a writable create on a mode that lets the owner write passes every check of an appending write at offset 0 |
| Fuse.CreateThenWrite | src/system/fuse_filesystem.rs:362-552 | a write through the handle `create` returned is accepted and the size becomes the data length |
| Fuse.AllowedWrite | src/system/fuse_filesystem.rs:362-412 | an allowed write to an empty file succeeds and sets its size to the data length |
| Fuse.Mode16 | src/system/fuse_filesystem.rs:217 | the `mode as u16` cast keeps the low sixteen bits of the mode |
| Fuse.RootExec | src/system/fuse_filesystem.rs:139-147 | root is granted a request exactly when it asks for no execute bit or some execute bit is set |
| Fuse.ClassBits | src/system/fuse_filesystem.rs:149-157 | for a mask of read, write and execute bits, a class is granted exactly when the permission has every requested bit for that class |
| Fuse.WriteKeepsBounded | src/system/fuse_filesystem.rs:362-412 | a write keeps the chunker of every open handle |
| Bench.Add | src/bench/mod.rs:407-418 | each of the four durations of `a + b` is the sum of the operands' durations |
| Bench.AddAssign | src/bench/mod.rs:420-427 | `self += rhs` raises every field of `self` by exactly the field of `rhs` |
| Bench.AddAssignIsAdd | src/bench/mod.rs:407-427 | `a += b` and `a + b` produce the same measurement |
| Bench.AddMonoid | src/bench/mod.rs:407-418 | the default measurement is a two-sided unit and `+` is commutative and associative, so the fold may regroup |
| Bench.Sum | src/bench/mod.rs:449-453 | the sum of no measurements is the default, of one it is that measurement, and every field of the sum is that field totalled over all measurements |
| Bench.SumAppend | src/bench/mod.rs:449-453 | the sum of a concatenation is the sum of the two partial sums |
| Bench.DivDurationIsFloor | src/bench/mod.rs:328-331 | dividing a duration by a nonzero `u32` the way `Duration` does (seconds and nanoseconds separately, carrying the remainder) gives the floor of nanoseconds over the divisor, with the nanosecond part below one second |
| Bench.AvgMeasurement | src/bench/mod.rs:323-333 | each field of the average is the field of the sum divided by the count taken modulo 2^32; a count whose residue is zero is excluded, since the division panics |
| Bench.AvgIsFloorMean | src/bench/mod.rs:323-333 | for 1 to 2^32-1 measurements, n times each averaged field is at most the field's total and n times one more exceeds it |
| Bench.AvgOfCopies | src/bench/mod.rs:323-333 | averaging n copies of one measurement gives that measurement back |
| Bench.Bucket | src/bench/mod.rs:177 | a chunk of length `len` is filed under the multiple of `adjustment` with `b <= len < b + adjustment` |
| Bench.BucketUnique | src/bench/mod.rs:177 | that multiple is the only one in the half-open window, so buckets never overlap |
| Bench.SizeDistribution | src/bench/mod.rs:169-183 | every bucket present has a positive count and is a multiple of `adjustment` |
| Bench.DistributionCounts | src/bench/mod.rs:169-183 | over an enumeration of the chunk database, a bucket is present exactly when some stored chunk falls in it, and its count is the number of such chunks |
| Bench.DistributionOrderFree | src/bench/mod.rs:169-183 | two iteration orders of the same database give the same distribution |
| Bench.DistributionTotal | src/bench/mod.rs:169-183 | the counts add up to the number of chunks visited |
| Bench.Clear | src/bench/mod.rs:105 | `clear_database` always succeeds here and leaves no file records, an empty chunk database and a zero written-size counter |
| Bench.MultiRuns | src/bench/mod.rs:109-114 | on success there are n runs with consecutive indices, each measured on a freshly cleared database: the first on the given state cleared, each later one on the state the run before it left, cleared; each result is what the measurement reported on its run's input at its index |
| Bench.MultiRunsFails | src/bench/mod.rs:109-114 | a failed loop fails with an error the measurement gives as one of the loop's runs on a cleared state |
| Bench.MeasureMulti | src/bench/mod.rs:96-115 | succeeds exactly when the loop of n cleared runs, numbered from 0, does, with one result per run, each what the measurement reported on that run's input at its index; its error is the loop's |
| Bench.MeasureMultiReports | src/bench/mod.rs:96-115 | on success result k is what the measurement reports as run k on a cleared state; on failure the error is one the measurement gives as one of runs 0 to n-1 on a cleared state |
| Bench.MultiResultsMayDiffer | src/bench/mod.rs:109-114 | runs on equal cleared states need not agree: a measurement that reports what its run drew gives 0 and 1 from two runs |
| Bench.RepeatedRuns | src/bench/mod.rs:134-136 | on success there are m runs with consecutive indices, the first on the given state and each later one on the state the run before it left; each result is what the measurement reported on its run's input at its index |
| Bench.RepeatedRunsFails | src/bench/mod.rs:134-136 | a failed loop fails with an error the measurement gives as one of the loop's runs |
| Bench.MeasureRepeated | src/bench/mod.rs:121-137 | succeeds exactly when the loop of m back-to-back runs from the cleared state, numbered from 0, does, with one result per run, each what the measurement reported on that run's input at its index; its error is the loop's |
| Bench.MeasureRepeatedReports | src/bench/mod.rs:121-137 | on success result k is what the measurement reports as run k, run 0 on a cleared state and each later run on the state the run before it left; on failure the error is one the measurement gives as one of runs 0 to m-1 |
| Bench.RepeatedFirstCleared | src/bench/mod.rs:117-137 | only the first of the repeated runs is guaranteed a cleared database |
| Cli.ToOperationMode | chunkfs-cli/src/cli.rs:24-31 | the increasing mode maps to increasing and the decreasing one to decreasing |
| Cli.OperationModeBijective | chunkfs-cli/src/cli.rs:24-31 | the conversion is one-to-one and reaches both modes |
| Cli.GetChunker | chunkfs-cli/src/cli.rs:45-65 | the chunker kind is the one selected; the sizes are the arguments times KB; fixed size takes the scaled minimum; SeqCDC gets the converted mode, and without a mode it panics (None) and only then |
| Cli.Start | chunkfs-cli/src/cli.rs:187-221 | without a config the command-line arguments are used; with one, a read error passes through and a TOML error becomes `Other`; in both cases a report path that is not a directory gives InvalidInput, otherwise the command runs |
| Cli.ReportPathCheckedFirst | chunkfs-cli/src/cli.rs:196-221 | whatever the command would do, a report path that is not a directory ends in InvalidInput |
| Cli.FillWith | chunkfs-cli/src/cli.rs:333-350 | no fill paths, or an empty list, leave the state unchanged |
| Cli.FillWithAppend | chunkfs-cli/src/cli.rs:342-348 | filling from `a` then from `b` is filling from `a + b`, stopping at the first error |
| Cli.FillWithOne | chunkfs-cli/src/cli.rs:342-347 | a single path is filled by the per-path fill: its error or its new state is the result |
| Cli.CleanupSteps | chunkfs-cli/src/cli.rs:277-286 | there are n steps with consecutive indices; each starts from the database cleared and refilled after the previous measurement; each records its measurement at its index and the distribution of the state it left |
| Cli.KeptSteps | chunkfs-cli/src/cli.rs:287-295 | there are n steps with consecutive indices, the first from the filled state and each later one from the state the previous measurement left |
| Cli.MeasureLoop | chunkfs-cli/src/cli.rs:272-295 | there are `count` steps, step i measured as run i, with distributions at the given adjustment (1000 by default); with cleanup every step starts from a refilled database, without it the database is filled once and the steps run back to back |
| Cli.DistributionFileName | chunkfs-cli/src/cli.rs:309 | the file is named `distribution.` followed by the index, ending in `.json` |
| Cli.DistributionFilesDistinct | chunkfs-cli/src/cli.rs:306-314 | different indices give different file names |
| Cli.DistributionFiles | chunkfs-cli/src/cli.rs:306-314 | one file per measurement, in order; each holds that measurement's distribution, and no two share a name |
| Lib.ChunkerName | chunkfs-cli/src/lib.rs:44-48 | the name is the prefix of the chunker's `Debug` text before its first comma, or all of it when it has none |
| Lib.DistributionPath | chunkfs-cli/src/lib.rs:50-53 | the path lies under `distributions/distribution-` and ends in `.json` |
| Lib.PathsDistinctByAdjustment | chunkfs-cli/src/lib.rs:24-27 | for one dataset and chunker, the three adjustments are saved to three different files |
| Lib.SaveDistribution | chunkfs-cli/src/lib.rs:36-58 | the saved pairs are exactly the map's entries, one pair per key, under the path built from name, chunker and adjustment |
| Lib.Product | chunkfs-cli/src/lib.rs:16 | `iproduct!` yields one pair per dataset and chunker |
| Lib.ProductAt | chunkfs-cli/src/lib.rs:16 | pair number `i * chunkers + j` is dataset i with chunker j: datasets in the outer loop |
| Lib.SaveAll | chunkfs-cli/src/lib.rs:24-28 | one saved distribution for each of the adjustments 100, 500 and 1000, in that order, all of the state the measurement left |
| Lib.RunPairs | chunkfs-cli/src/lib.rs:16-31 | on success every pair is measured, as the run with its position, on a cleared database and its three distributions are saved |
| Lib.MeasureDatasets | chunkfs-cli/src/lib.rs:13-34 | on success run k measured the k-th pair of the product, as run k, on a cleared database and saved its three distributions |

## Left out

- Third-party chunkers (Rabin, SuperCDC, UltraCDC, LeapCDC, FastCDC, SeqCDC): they are thin wrappers over crates outside this model. A chunker is a function from a buffer to its chunks. The tool's chunker is recorded as the constructor it picks and its parameters.
- The SHA-256 digest, the bincode wire format and the mutex around `ChunkerRef` are foreign code or concurrency. They are an abstract digest, an abstract codec with a left-inverse decoder, and plain values.
- Device I/O: block-device size queries, `O_DIRECT`, file creation and removal. The device is a byte sequence with positioned reads and writes.
- Integer widths: `usize`/`u64` overflow is not modelled, because sizes, offsets and counters are unbounded naturals. The two narrowing casts that matter are written out: `n as u32` in `avg_measurement` and `mode as u16` in `setattr`/`create`.
- Floating point: the dedup ratios, `Throughput` and the pandas mean in `pivot_table`.
- Clocks and fresh names: a FUSE handler's `SystemTime` is an input. A benchmark run's `Instant::now` readings (src/bench/mod.rs:58 and :191) and its `Uuid::new_v4` file name (:226) are folded into the measurement at the run's index, so each run may see different ones. Durations are only added and divided.
- CSV and JSON writing, clap and TOML parsing, and matplotlib drawing are I/O or foreign code. The model keeps the file names, the paths and the pairs written.
- The `DedupRatio` and `RunConfig` commands are not modelled, because they only wire I/O together. The sleep between runs and the `println!` progress lines are left out too.
- The FUSE `read`, `release` and `readdir` handlers and the fuser session plumbing are not modelled.
- SledStorage, the fio generator, the dataset loader, the scrubber, and the older snapshots of the same API (src/storage.rs, src/database.rs, src/system.rs and the other pre-`system` files) are not part of this model.
- Letter case: `str.title()` and `str.strip()` are modelled on ASCII letters and Python's whitespace set, with no Unicode case mapping.
- FileLayer.Read: its own contract states only when it panics and that the handle keeps its file, chunker and measurements and never moves back. The hashes returned and the new offset are stated by `FileLayer.ReadRun`, for files whose offsets ascend. On a file whose offsets do not ascend, the model stops at the panic of a debug build. A release build wraps the `usize` subtraction and reads on, and that outcome is not modelled.
- BlockDatabase.Get: its own contract states only that an unknown key is NotFound. What a stored key reads back is stated by `BlockDatabase.InsertedKeyReadsBack`, `BlockDatabase.InsertKeepsOthers` and `BlockDatabase.TryInsertThenGet`.
- BlockDatabase.TryInsert: its own contract states only that a stored key changes nothing. The effect on a new key is stated by `BlockDatabase.TryInsertThenGet`.
- DataBlock.Slice: its own contract states only the slice's length. Which bytes it holds is stated by `DataBlock.FromValuesSlice`.
- DiskDatabase.Insert: its own contract states only that a stored key changes nothing. The effect on a new key is stated by `DiskDatabase.InsertThenGet` and `DiskDatabase.InsertMultiThenGet`.
- DiskDatabase.Get: its own contract states only that an unknown key is NotFound. What a stored key reads back is stated by `DiskDatabase.GetDecodesStoredBytes` and `DiskDatabase.InsertThenGet`.
- Hashers.Sha256Hash: its own contract states only that the digest state is reset. What the outputs are is stated by `Hashers.OutputDependsOnlyOnCurrentData`.
- Lib.Product: its own contract states only the number of pairs. Their order is stated by `Lib.ProductAt`.
- FileLayer.Distribution: its own contract states only that the counts are positive. What each count is, and the gap kept with it, is stated by `FileLayer.DistributionCounts` and `FileLayer.ChunkCountDistribution`.
- FileLayer.ChunkCountDistribution: on a file whose offsets do not ascend, the model stops at the panic of a debug build. The wrapped gaps of a release build are not modelled. FileSystem.ReadFromFile does the same through `FileLayer.Read`.
- FileLayer.Write: requires the handle's file to exist. Otherwise `find_file_mut` unwraps and panics (src/system/file_layer.rs:121-123). Every caller in `FileSystem` checks `file_exists` first, so the facade never reaches that panic.
- FileSystem.WriteToFile: `ChunkStorage` and `FileSystem` are generic over any `Database` (src/system/storage.rs:45-50) and pass its errors on with `?`. The model fixes the chunk database and the target map to the `HashMap` store, whose `try_insert` and lookups never fail on the paths used. So "no other failure" holds only for that store; a `DiskDatabase` can also fail, for instance with OutOfMemory.
- FileSystem.WriteFromStream: "no other failure" holds only for the `HashMap` chunk database, as for FileSystem.WriteToFile.
- Fuse.WriteSucceeds: "the wrapped write never fails" holds only for the `HashMap` chunk database, as for FileSystem.WriteToFile.
- Bench.AvgMeasurement: requires a count whose residue modulo 2^32 is not zero. On the empty input, or a count that is a multiple of 2^32, `n as u32` is 0 and the division at src/bench/mod.rs:328-331 panics; that panic is not modelled.
- Bench.MeasureMulti: its own contract ties the results to the loop `Bench.MultiRuns`. What they are without the loop is stated by `Bench.MeasureMultiReports`. The file-system state a failed run leaves behind is not returned.
- Bench.MeasureRepeated: its own contract ties the results to the loop `Bench.RepeatedRuns`. What they are without the loop is stated by `Bench.MeasureRepeatedReports`.
- Cli.FillWith: its own contract states only the cases with no paths. That each path is filled by the per-path fill, in order and stopping at the first error, is stated by `Cli.FillWithOne` and `Cli.FillWithAppend`.
- Plotting.ShortLabel: its own contract states only that the result holds no comma and has no whitespace at its ends. Which slice of the label it is, and that no other slice qualifies, is stated by `Plotting.ShortLabelSlice` and `Plotting.ShortLabelUnique`.
- FileLayer.WriteKeepsOrder: holds only for a handle at or past the start of every span of its file. A handle from `open` starts at 0, and writing through it breaks the order, as `FileLayer.ReopenedWriteUnderflows` shows. FileSystem.AppendAllKeepsOrder has the same precondition.
- Cli.Start: requires a configuration file or command-line arguments. With neither, `args.unwrap()` at chunkfs-cli/src/cli.rs:197 panics, and that panic is not modelled.
- Fuse.CheckAccess: its own contract states only that existence is always granted. The root rule and the class rule are stated by `Fuse.CheckAccessRoot` and `Fuse.CheckAccessClass`.
- Storage.WriteAll: its own contract states only the number of results. The lengths and stored chunks are stated by `Storage.WriteAllLengths` and `Storage.WriteAllStores`.
- Storage.WriteAndFlush: its own contract states only the number of results. Their content is stated by `Storage.WriteAndFlushLengths` and `Storage.WriteAndFlushStores`.

## Findings

| source | as written | input that shows it | evidently intended | confidence | as-written member | corrected member |
|---|---|---|---|---|---|---|
| src/system/fuse_filesystem.rs:391 | `write` asks `check_access` for `R_OK` | the owner (not root) of a file with mode 0o200 opens it `O_WRONLY`, which is granted, and then writes at the end of the file: the reply is EACCES | a write checks `W_OK` | not executed; medium | Fuse.WriteOnlyFileRefused | Fuse.WriteGranted |
| src/system/fuse_filesystem.rs:113-115 | `get_new_inode` returns the number of known names, and `create` of a known name adds no name | on a fresh adapter (names ".." and "." hold inodes 0 and 1), create "a" (inode 2) and create "a" again (inode 3, still three names), then create "b": it gets inode 3 too, and the entry of the second "a" is overwritten | a new inode is one no file has | not executed; medium | Fuse.CreateReusesInode | Fuse.CreateFresh |

=== FILE: arith.dfy ===
/** Facts about Euclidean division and multiplication on naturals that the
    size and offset arithmetic of the model relies on. */
module Arith {

  lemma DivAddOne(x: nat, d: nat)
    requires d > 0
    ensures (x + d) / d == x / d + 1
  {
    DivUnique(x + d, d, x / d + 1, x % d);
  }

  /** Euclidean division is determined by quotient and remainder. */
  lemma DivUnique(x: int, d: int, q: int, r: int)
    requires d > 0 && 0 <= r < d && x == q * d + r
    ensures x / d == q && x % d == r
  {
    var q', r' := x / d, x % d;
    assert x == q' * d + r';
    assert (q' - q) * d == r - r';
    if q' > q {
      MulAtLeast(q' - q, d);
    } else if q' < q {
      MulAtLeast(q - q', d);
    }
  }

  lemma {:induction false} MulAtLeast(k: nat, d: nat)
    requires k >= 1
    ensures k * d >= d
  {
    if k > 1 {
      MulAtLeast(k - 1, d);
      assert k * d == (k - 1) * d + d;
    }
  }

  lemma DivMonotone(a: nat, b: nat, d: nat)
    requires d > 0 && a <= b
    ensures a / d <= b / d
  {
    if a / d > b / d {
      MulAtLeast(a / d - b / d, d);
    }
  }

  lemma MulMonotone(a: nat, b: nat, d: nat)
    requires a <= b
    ensures a * d <= b * d
  {
    if a < b {
      MulAtLeast(b - a, d);
      assert b * d == a * d + (b - a) * d;
    }
  }

  /** The sum of two multiples of `d` is a multiple of `d`. */
  lemma AddMultiples(x: nat, y: nat, d: nat)
    requires d > 0 && x % d == 0 && y % d == 0
    ensures (x + y) % d == 0
  {
    DivUnique(x + y, d, x / d + y / d, 0);
  }

  /** Of two multiples of `d`, one below the other plus `d` is at most the
      other. */
  lemma MultipleBelow(x: nat, y: nat, d: nat)
    requires d > 0 && x % d == 0 && y % d == 0 && x < y + d
    ensures x <= y
  {
    if x > y {
      DivUnique(x - y, d, x / d - y / d, 0);
      MulAtLeast(x / d - y / d, d);
    }
  }

  /** The floor quotient times the divisor is at most the dividend, and one
      more times the divisor exceeds it. */
  lemma FloorBounds(x: nat, d: nat)
    requires d > 0
    ensures x / d * d <= x < (x / d + 1) * d
  {
    var q := x / d;
    assert x == q * d + x % d;
    assert (q + 1) * d == q * d + d;
  }
}

=== FILE: bench.dfy ===
/** The benchmark arithmetic of src/bench/mod.rs and src/bench/report.rs:
    time measurements added field-wise and averaged, the chunk-size
    distribution of the chunk database, and the order in which the
    fixture clears its database around repeated measurements.

    Durations are natural numbers of nanoseconds. A measurement itself
    (writing a dataset, timing it, reading it back) is a function-valued
    parameter: it runs clocks and files the model does not see. */
module Bench {
  import opened Wrappers
  import Arith
  import Storage
  import FileLayer
  import FileSystem

  /** Nanoseconds in a second, `NANOS_PER_SEC` of `std::time::Duration`. */
  const NanosPerSec: nat := 1_000_000_000

  /** 2^32: `n as u32` keeps the residue of `n` modulo this. */
  const U32Modulus: nat := 0x1_0000_0000

  /** `TimeMeasurement`: four durations in nanoseconds. */
  datatype TimeMeasurement = TimeMeasurement(writeTime: nat, readTime: nat, chunkTime: nat, hashTime: nat)

  /** The four duration fields, so that properties can range over them. */
  datatype Field = WriteTime | ReadTime | ChunkTime | HashTime

  /** The duration a field names. */
  function Get(m: TimeMeasurement, f: Field): nat
  {
    match f
    case WriteTime => m.writeTime
    case ReadTime => m.readTime
    case ChunkTime => m.chunkTime
    case HashTime => m.hashTime
  }

  /** `TimeMeasurement::default()`: every duration is zero. */
  const Zero := TimeMeasurement(0, 0, 0, 0)

  /** `impl Add for TimeMeasurement`: every field of the result is the sum
      of the operands' fields. */
  function Add(a: TimeMeasurement, b: TimeMeasurement): (r: TimeMeasurement)
    ensures forall f :: Get(r, f) == Get(a, f) + Get(b, f)
  {
    TimeMeasurement(a.writeTime + b.writeTime, a.readTime + b.readTime,
                    a.chunkTime + b.chunkTime, a.hashTime + b.hashTime)
  }

  /** `impl AddAssign for TimeMeasurement`: `self` after `self += rhs`. */
  function AddAssign(self: TimeMeasurement, rhs: TimeMeasurement): (r: TimeMeasurement)
    ensures forall f :: Get(r, f) - Get(self, f) == Get(rhs, f)
  {
    self.(readTime := self.readTime + rhs.readTime)
        .(writeTime := self.writeTime + rhs.writeTime)
        .(chunkTime := self.chunkTime + rhs.chunkTime)
        .(hashTime := self.hashTime + rhs.hashTime)
  }

  /** `a += b` leaves `a` equal to `a + b`. */
  lemma AddAssignIsAdd(a: TimeMeasurement, b: TimeMeasurement)
    ensures AddAssign(a, b) == Add(a, b)
  {
  }

  /** The default is a unit of `+` on both sides, and `+` is commutative
      and associative, so a fold may regroup its operands. */
  lemma AddMonoid(a: TimeMeasurement, b: TimeMeasurement, c: TimeMeasurement)
    ensures Add(Zero, a) == a && Add(a, Zero) == a
    ensures Add(a, b) == Add(b, a)
    ensures Add(Add(a, b), c) == Add(a, Add(b, c))
  {
  }

  /** `impl Sum for TimeMeasurement`: a left fold of `+` from the default. */
  function Sum(ms: seq<TimeMeasurement>): (r: TimeMeasurement)
    ensures |ms| == 0 ==> r == Zero
    ensures |ms| == 1 ==> r == ms[0]
    ensures forall f :: Get(r, f) == FieldSum(ms, f)
    decreases |ms|
  {
    if |ms| == 0 then
      Zero
    else
      var init, last := ms[..|ms| - 1], ms[|ms| - 1];
      assert ms == init + [last];
      assert forall f :: FieldSum(ms, f) == FieldSum(init, f) + Get(last, f) by {
        forall f
          ensures FieldSum(ms, f) == FieldSum(init, f) + Get(last, f)
        {
          FieldSumAppend(init, [last], f);
          assert FieldSum([last], f) == Get(last, f) + FieldSum([last][1..], f);
        }
      }
      Add(Sum(init), last)
  }

  /** The total of one field over a sequence, added from the front. */
  function FieldSum(ms: seq<TimeMeasurement>, f: Field): nat
    decreases |ms|
  {
    if |ms| == 0 then 0 else Get(ms[0], f) + FieldSum(ms[1..], f)
  }

  /** A field total splits at any point of the sequence. */
  lemma {:induction false} FieldSumAppend(a: seq<TimeMeasurement>, b: seq<TimeMeasurement>, f: Field)
    ensures FieldSum(a + b, f) == FieldSum(a, f) + FieldSum(b, f)
    decreases |a|
  {
    if |a| > 0 {
      assert (a + b)[1..] == a[1..] + b;
      FieldSumAppend(a[1..], b, f);
    } else {
      assert a + b == b;
    }
  }

  /** The sum of a concatenation is the sum of the sums. */
  lemma SumAppend(a: seq<TimeMeasurement>, b: seq<TimeMeasurement>)
    ensures Sum(a + b) == Add(Sum(a), Sum(b))
  {
    forall f
      ensures Get(Sum(a + b), f) == Get(Add(Sum(a), Sum(b)), f)
    {
      FieldSumAppend(a, b, f);
    }
    assert Get(Sum(a + b), WriteTime) == Get(Add(Sum(a), Sum(b)), WriteTime);
    assert Get(Sum(a + b), ReadTime) == Get(Add(Sum(a), Sum(b)), ReadTime);
    assert Get(Sum(a + b), ChunkTime) == Get(Add(Sum(a), Sum(b)), ChunkTime);
    assert Get(Sum(a + b), HashTime) == Get(Add(Sum(a), Sum(b)), HashTime);
  }

  /** A duration split as `std::time::Duration` stores it: whole seconds
      and the nanoseconds below one second. */
  datatype SecsNanos = SecsNanos(secs: nat, nanos: nat)

  /** Quotient of naturals. */
  function Quot(x: nat, y: nat): nat
    requires y > 0
  {
    x / y
  }

  /** Remainder of naturals. */
  function Rem(x: nat, y: nat): nat
    requires y > 0
  {
    x % y
  }

  /** The steps of `Duration::checked_div` by a nonzero `u32`: whole
      seconds and nanoseconds are divided separately, and the seconds'
      remainder, carried into nanoseconds together with the nanoseconds'
      remainder, is divided once more. */
  function DivParts(d: nat, rhs: nat): SecsNanos
    requires 0 < rhs < U32Modulus
  {
    var secs := Quot(d, NanosPerSec);
    var nanos := Rem(d, NanosPerSec);
    var carried := Quot(Rem(secs, rhs) * NanosPerSec + Rem(nanos, rhs), rhs);
    SecsNanos(Quot(secs, rhs), Quot(nanos, rhs) + carried)
  }

  /** `Duration / u32`, on a duration of `d` nanoseconds. */
  function DivDuration(d: nat, rhs: nat): nat
    requires 0 < rhs < U32Modulus
  {
    DivParts(d, rhs).secs * NanosPerSec + DivParts(d, rhs).nanos
  }

  /** The standard library's split division keeps its nanosecond part below
      a second and yields exactly the floor of the quotient. */
  lemma DivDurationIsFloor(d: nat, rhs: nat)
    requires 0 < rhs < U32Modulus
    ensures DivParts(d, rhs).nanos < NanosPerSec
    ensures DivDuration(d, rhs) == d / rhs
  {
    var g := NanosPerSec;
    var secs, nanos := d / g, d % g;
    var q, es := secs / rhs, secs % rhs;
    var n0, en := nanos / rhs, nanos % rhs;
    var u, w := (es * g + en) / rhs, (es * g + en) % rhs;
    assert DivParts(d, rhs) == SecsNanos(q, n0 + u);
    SplitValue(g, rhs, secs, nanos, q, es, n0, en, u, w);
    SplitNanos(g, rhs, nanos, es, n0, en, u, w);
    Arith.DivUnique(d, rhs, q * g + n0 + u, w);
  }

  /** The value identity behind the split division: dividing seconds and
      nanoseconds separately and carrying the seconds' remainder loses
      nothing. */
  lemma SplitValue(g: int, rhs: int, secs: int, nanos: int, q: int, es: int, n0: int, en: int, u: int, w: int)
    requires secs == q * rhs + es && nanos == n0 * rhs + en && es * g + en == u * rhs + w
    ensures secs * g + nanos == (q * g + n0 + u) * rhs + w
  {
    calc {
      secs * g + nanos;
      (q * rhs + es) * g + n0 * rhs + en;
      { assert (q * rhs + es) * g == q * rhs * g + es * g; }
      q * rhs * g + es * g + n0 * rhs + en;
      q * rhs * g + n0 * rhs + u * rhs + w;
      { assert q * rhs * g + n0 * rhs + u * rhs == (q * g + n0 + u) * rhs; }
      (q * g + n0 + u) * rhs + w;
    }
  }

  /** The nanosecond part of the split division stays below a second:
      (n0 + u) * rhs <= nanos + es * g < g + (rhs - 1) * g. */
  lemma SplitNanos(g: nat, rhs: nat, nanos: nat, es: nat, n0: nat, en: nat, u: nat, w: nat)
    requires 0 < rhs && nanos < g && es < rhs
    requires nanos == n0 * rhs + en && es * g + en == u * rhs + w
    ensures n0 + u < g
  {
    Arith.MulMonotone(es, rhs - 1, g);
    assert (n0 + u) * rhs == n0 * rhs + u * rhs;
    assert (n0 + u) * rhs < g + (rhs - 1) * g;
    assert g + (rhs - 1) * g == rhs * g;
    if n0 + u >= g {
      Arith.MulMonotone(g, n0 + u, rhs);
    }
  }

  /** `avg_measurement`: every field of the sum divided by `n as u32`,
      where n is the number of measurements. The cast keeps n modulo 2^32,
      and a zero divisor panics, so that residue must be nonzero. */
  function AvgMeasurement(ms: seq<TimeMeasurement>): (r: TimeMeasurement)
    requires |ms| % U32Modulus != 0
    ensures forall f :: Get(r, f) == Get(Sum(ms), f) / (|ms| % U32Modulus)
  {
    var n := |ms| % U32Modulus;
    var s := Sum(ms);
    DivDurationIsFloor(s.writeTime, n);
    DivDurationIsFloor(s.readTime, n);
    DivDurationIsFloor(s.chunkTime, n);
    DivDurationIsFloor(s.hashTime, n);
    TimeMeasurement(DivDuration(s.writeTime, n), DivDuration(s.readTime, n),
                    DivDuration(s.chunkTime, n), DivDuration(s.hashTime, n))
  }

  /** For fewer than 2^32 measurements the average is the floor mean of
      every field: n times it is at most the field's total, and n times
      one more exceeds it. */
  lemma {:induction false} AvgIsFloorMean(ms: seq<TimeMeasurement>, f: Field)
    requires 0 < |ms| < U32Modulus
    ensures Get(AvgMeasurement(ms), f) * |ms| <= FieldSum(ms, f)
    ensures FieldSum(ms, f) < (Get(AvgMeasurement(ms), f) + 1) * |ms|
  {
    var n := |ms|;
    assert n % U32Modulus == n;
    var total := FieldSum(ms, f);
    assert Get(Sum(ms), f) == total;
    assert Get(AvgMeasurement(ms), f) == total / n;
    Arith.FloorBounds(total, n);
  }

  /** The average of n copies of one measurement is that measurement. */
  lemma {:induction false} AvgOfCopies(m: TimeMeasurement, n: nat)
    requires 0 < n < U32Modulus
    ensures AvgMeasurement(seq(n, _ => m)) == m
  {
    var ms := seq(n, _ => m);
    assert |ms| % U32Modulus == n;
    forall f
      ensures Get(AvgMeasurement(ms), f) == Get(m, f)
    {
      CopiesFieldSum(m, n, f);
      Arith.DivUnique(Get(m, f) * n, n, Get(m, f), 0);
    }
    assert Get(AvgMeasurement(ms), WriteTime) == Get(m, WriteTime);
    assert Get(AvgMeasurement(ms), ReadTime) == Get(m, ReadTime);
    assert Get(AvgMeasurement(ms), ChunkTime) == Get(m, ChunkTime);
    assert Get(AvgMeasurement(ms), HashTime) == Get(m, HashTime);
  }

  /** A field totalled over n copies of one measurement is n times it. */
  lemma {:induction false} CopiesFieldSum(m: TimeMeasurement, n: nat, f: Field)
    ensures FieldSum(seq(n, _ => m), f) == Get(m, f) * n
    decreases n
  {
    if n > 0 {
      assert seq(n, _ => m)[1..] == seq(n - 1, _ => m);
      CopiesFieldSum(m, n - 1, f);
      assert Get(m, f) * n == Get(m, f) * (n - 1) + Get(m, f);
    }
  }

  /** The bucket `size_distribution` files a chunk of `len` bytes under:
      the largest multiple of `adjustment` not above `len`. */
  function Bucket(len: nat, adjustment: nat): (b: nat)
    requires adjustment > 0
    ensures b % adjustment == 0
    ensures b <= len < b + adjustment
  {
    var q := len / adjustment;
    Arith.DivUnique(q * adjustment, adjustment, q, 0);
    assert len == q * adjustment + len % adjustment;
    q * adjustment
  }

  /** A multiple of `adjustment` in (len - adjustment, len] is the bucket:
      bucket boundaries are unique. */
  lemma BucketUnique(len: nat, adjustment: nat, b: nat)
    requires adjustment > 0 && b % adjustment == 0 && b <= len < b + adjustment
    ensures Bucket(len, adjustment) == b
  {
    var c := Bucket(len, adjustment);
    Arith.MultipleBelow(b, c, adjustment);
    Arith.MultipleBelow(c, b, adjustment);
  }

  /** Every listed key is stored, as a plain chunk: `unwrap_chunk` panics on
      a target chunk. */
  predicate AllChunks<H, K>(db: map<H, Storage.DataContainer<K>>, order: seq<H>)
  {
    forall i :: 0 <= i < |order| ==> order[i] in db && db[order[i]].data.Chunk?
  }

  /** `order` lists every key of the database once: the order in which the
      database's iterator yields its entries. */
  predicate Enumerates<H, K>(order: seq<H>, db: map<H, Storage.DataContainer<K>>)
  {
    && (forall i, j :: 0 <= i < j < |order| ==> order[i] != order[j])
    && db.Keys == set i | 0 <= i < |order| :: order[i]
  }

  /** The bucket of the chunk stored under `k`. */
  function BucketOf<H, K>(db: map<H, Storage.DataContainer<K>>, k: H, adjustment: nat): nat
    requires adjustment > 0 && k in db && db[k].data.Chunk?
  {
    Bucket(|db[k].data.bytes|, adjustment)
  }

  /** `CDCFixture::size_distribution`: the entries visited in `order`, each
      counted in its bucket (`and_modify(+1).or_insert(1)`). The database is
      read only. */
  function SizeDistribution<H, K>(db: map<H, Storage.DataContainer<K>>, order: seq<H>, adjustment: nat)
    : (r: map<nat, nat>)
    requires adjustment > 0 && AllChunks(db, order)
    ensures forall b :: b in r ==> r[b] > 0 && b % adjustment == 0
    decreases |order|
  {
    if |order| == 0 then
      map[]
    else
      var init := order[..|order| - 1];
      assert AllChunks(db, init) by {
        assert forall i :: 0 <= i < |init| ==> init[i] == order[i];
      }
      var counts := SizeDistribution(db, init, adjustment);
      var b := BucketOf(db, order[|order| - 1], adjustment);
      if b in counts then counts[b := counts[b] + 1] else counts[b := 1]
  }

  /** The keys of `keys` whose chunk falls in bucket `b`. */
  ghost function InBucket<H, K>(db: map<H, Storage.DataContainer<K>>, keys: seq<H>, adjustment: nat, b: nat)
    : set<H>
    requires adjustment > 0 && AllChunks(db, keys)
  {
    set k | k in keys && BucketOf(db, k, adjustment) == b
  }

  /** Visiting distinct keys, each bucket's count is the number of visited
      keys whose chunk falls in it, and the buckets present are exactly the
      nonempty ones. */
  lemma {:induction false} DistributionCountsPrefix<H, K>(
    db: map<H, Storage.DataContainer<K>>, keys: seq<H>, adjustment: nat)
    requires adjustment > 0 && AllChunks(db, keys)
    requires forall i, j :: 0 <= i < j < |keys| ==> keys[i] != keys[j]
    ensures forall b :: b in SizeDistribution(db, keys, adjustment) <==> |InBucket(db, keys, adjustment, b)| > 0
    ensures forall b :: b in SizeDistribution(db, keys, adjustment) ==>
      SizeDistribution(db, keys, adjustment)[b] == |InBucket(db, keys, adjustment, b)|
    decreases |keys|
  {
    if |keys| == 0 {
      forall b
        ensures InBucket(db, keys, adjustment, b) == {}
      {
      }
    } else {
      var init := keys[..|keys| - 1];
      var last := keys[|keys| - 1];
      assert keys == init + [last];
      assert AllChunks(db, init) by {
        assert forall i :: 0 <= i < |init| ==> init[i] == keys[i];
      }
      DistributionCountsPrefix(db, init, adjustment);
      assert last !in init;
      var lb := BucketOf(db, last, adjustment);
      var counts := SizeDistribution(db, init, adjustment);
      assert SizeDistribution(db, keys, adjustment) == if lb in counts then counts[lb := counts[lb] + 1] else counts[lb := 1];
      forall b
        ensures b in SizeDistribution(db, keys, adjustment) <==> |InBucket(db, keys, adjustment, b)| > 0
        ensures b in SizeDistribution(db, keys, adjustment) ==>
          SizeDistribution(db, keys, adjustment)[b] == |InBucket(db, keys, adjustment, b)|
      {
        InBucketSnoc(db, init, last, adjustment, b);
        if b == lb {
          assert last !in InBucket(db, init, adjustment, lb);
        }
        CountStep(counts, lb, b, InBucket(db, init, adjustment, b), InBucket(db, keys, adjustment, b), last);
      }
    }
  }

  /** One counting step on one bucket: the count of `b` tracks the size of
      its set of keys when `last` joins bucket `lb`. */
  lemma CountStep<H>(counts: map<nat, nat>, lb: nat, b: nat, before: set<H>, after: set<H>, last: H)
    requires b in counts <==> |before| > 0
    requires b in counts ==> counts[b] == |before|
    requires after == if b == lb then before + {last} else before
    requires b == lb ==> last !in before
    ensures var next := if lb in counts then counts[lb := counts[lb] + 1] else counts[lb := 1];
      && (b in next <==> |after| > 0)
      && (b in next ==> next[b] == |after|)
  {
  }

  /** Visiting one more key adds it to its own bucket only. */
  lemma InBucketSnoc<H, K>(db: map<H, Storage.DataContainer<K>>, init: seq<H>, last: H, adjustment: nat, b: nat)
    requires adjustment > 0 && AllChunks(db, init + [last])
    requires AllChunks(db, init) && last in db && db[last].data.Chunk?
    ensures InBucket(db, init + [last], adjustment, b) ==
      if b == BucketOf(db, last, adjustment) then InBucket(db, init, adjustment, b) + {last}
      else InBucket(db, init, adjustment, b)
  {
    assert forall i :: 0 <= i < |init| ==> init[i] == (init + [last])[i];
    assert (init + [last])[|init|] == last;
  }

  /** Over an enumeration of the database, each bucket counts the stored
      chunks whose length falls in it, every nonempty bucket is present,
      and so the result does not depend on the iteration order. */
  lemma DistributionCounts<H, K>(db: map<H, Storage.DataContainer<K>>, order: seq<H>, adjustment: nat)
    requires adjustment > 0 && AllChunks(db, order) && Enumerates(order, db)
    ensures forall b :: b in SizeDistribution(db, order, adjustment) <==>
      exists k :: k in db && BucketOf(db, k, adjustment) == b
    ensures forall b :: b in SizeDistribution(db, order, adjustment) ==>
      SizeDistribution(db, order, adjustment)[b] == |set k | k in db && BucketOf(db, k, adjustment) == b|
  {
    DistributionCountsPrefix(db, order, adjustment);
    forall b
      ensures InBucket(db, order, adjustment, b) == set k | k in db && BucketOf(db, k, adjustment) == b
    {
    }
    forall b
      ensures (exists k :: k in db && BucketOf(db, k, adjustment) == b) <==> |InBucket(db, order, adjustment, b)| > 0
    {
      if k :| k in db && BucketOf(db, k, adjustment) == b {
        assert k in InBucket(db, order, adjustment, b);
      }
      if |InBucket(db, order, adjustment, b)| > 0 {
        var k :| k in InBucket(db, order, adjustment, b);
        assert k in db;
      }
    }
  }

  /** Two iteration orders of the same database give the same
      distribution. */
  lemma DistributionOrderFree<H, K>(
    db: map<H, Storage.DataContainer<K>>, order1: seq<H>, order2: seq<H>, adjustment: nat)
    requires adjustment > 0 && AllChunks(db, order1) && Enumerates(order1, db)
    requires AllChunks(db, order2) && Enumerates(order2, db)
    ensures SizeDistribution(db, order1, adjustment) == SizeDistribution(db, order2, adjustment)
  {
    DistributionCounts(db, order1, adjustment);
    DistributionCounts(db, order2, adjustment);
  }

  /** The total of a map's counts. */
  ghost function Total(m: map<nat, nat>): nat
    decreases |m|
  {
    if |m| == 0 then 0 else m[Pick(m)] + Total(m - {Pick(m)})
  }

  /** Some bucket of a nonempty map. */
  ghost function Pick(m: map<nat, nat>): (b: nat)
    requires |m| > 0
    ensures b in m
  {
    assert m.Keys != {};
    var b :| b in m; b
  }

  /** Any one bucket can be taken out of the total first. */
  lemma {:induction false} TotalRemove(m: map<nat, nat>, b: nat)
    requires b in m
    ensures Total(m) == m[b] + Total(m - {b})
    decreases |m|
  {
    var c := Pick(m);
    if c != b {
      TotalRemove(m - {c}, b);
      TotalRemove(m - {b}, c);
      assert m - {c} - {b} == m - {b} - {c};
    }
  }

  /** Counting one more entry in a bucket adds one to the total. */
  lemma TotalIncrement(m: map<nat, nat>, b: nat)
    ensures Total(if b in m then m[b := m[b] + 1] else m[b := 1]) == Total(m) + 1
  {
    if b in m {
      TotalBump(m, b);
    } else {
      TotalAdd(m, b);
    }
  }

  /** Counting one more entry in a present bucket. */
  lemma TotalBump(m: map<nat, nat>, b: nat)
    requires b in m
    ensures Total(m[b := m[b] + 1]) == Total(m) + 1
  {
    var m' := m[b := m[b] + 1];
    TotalRemove(m', b);
    TotalRemove(m, b);
    assert m' - {b} == m - {b};
  }

  /** Counting the first entry of a new bucket. */
  lemma TotalAdd(m: map<nat, nat>, b: nat)
    requires b !in m
    ensures Total(m[b := 1]) == Total(m) + 1
  {
    var m' := m[b := 1];
    TotalRemove(m', b);
    assert m' - {b} == m;
  }

  /** The bucket counts add up to the number of entries visited: every
      stored chunk is counted once. */
  lemma {:induction false} DistributionTotal<H, K>(
    db: map<H, Storage.DataContainer<K>>, order: seq<H>, adjustment: nat)
    requires adjustment > 0 && AllChunks(db, order)
    ensures Total(SizeDistribution(db, order, adjustment)) == |order|
    decreases |order|
  {
    if |order| > 0 {
      var init := order[..|order| - 1];
      assert AllChunks(db, init) by {
        assert forall i :: 0 <= i < |init| ==> init[i] == order[i];
      }
      DistributionTotal(db, init, adjustment);
      TotalIncrement(SizeDistribution(db, init, adjustment), BucketOf(db, order[|order| - 1], adjustment));
    }
  }

  /** The state `clear_database` leaves: no files and no stored chunks. */
  predicate Cleared<H, K>(fs: FileSystem.Fs<H, K>)
  {
    && fs.files.files == map[]
    && fs.storage.database == map[]
    && fs.storage.sizeWritten == 0
  }

  /** The state `clear_database` leaves from `fs`. */
  function Clear<H, K>(fs: FileSystem.Fs<H, K>): (r: FileSystem.Fs<H, K>)
    ensures Cleared(r)
    ensures FileSystem.ClearDatabase(fs) == Ok(r)
  {
    var r := FileSystem.ClearDatabase(fs).value;
    assert forall name :: name !in r.files.files by {
      forall name
        ensures name !in r.files.files
      {
        assert !FileSystem.FileExists(r, name);
      }
    }
    r
  }

  /** One measurement: the file-system state it started from, its place in
      its loop, and what it reported. */
  datatype Run<H, K, R> = Run(input: FileSystem.Fs<H, K>, index: nat, result: R)

  /** The measurement, as a function of the file-system state it starts
      from and the run's place in its loop, to the state it leaves and its
      result, or an I/O error. A run also reads the clock (`Instant::now` at
      src/bench/mod.rs:58 and :191) and writes a file under a fresh
      `Uuid::new_v4` name (:226); what the k-th run of a loop draws from
      them is part of `measure` at index k, so two runs on equal states may
      report different results. */
  type Measure<!H, !K, !R> = (FileSystem.Fs<H, K>, nat) -> Result<(FileSystem.Fs<H, K>, R)>

  /** `measure` reported `results` on the runs, one by one and in order,
      each from its input state at its index. */
  ghost predicate Reports<H, K, R>(runs: seq<Run<H, K, R>>, results: seq<R>, measure: Measure<H, K, R>)
  {
    && |runs| == |results|
    && forall i :: 0 <= i < |runs| ==>
      measure(runs[i].input, runs[i].index).Ok? && results[i] == measure(runs[i].input, runs[i].index).value.1
  }

  /** `measure` fails with `e` as run `k` on the state `fs`. */
  ghost predicate Fails<H, K, R>(measure: Measure<H, K, R>, fs: FileSystem.Fs<H, K>, k: nat, e: IoError)
  {
    measure(fs, k).Err? && measure(fs, k).error == e
  }

  /** The loop of `measure_multi` for the `n` runs from index `next` on:
      clear, then measure; each run starts from the state the previous one
      left, cleared, and the first error ends the loop with that error. */
  function MultiRuns<H, K, R>(fs: FileSystem.Fs<H, K>, next: nat, n: nat, measure: Measure<H, K, R>)
    : (r: Result<(FileSystem.Fs<H, K>, seq<Run<H, K, R>>)>)
    ensures r.Ok? ==> |r.value.1| == n
    ensures r.Ok? ==> forall i :: 0 <= i < n ==> Cleared(r.value.1[i].input) && r.value.1[i].index == next + i
    ensures r.Ok? ==> Reports(r.value.1, RunResults(r.value.1), measure)
    ensures r.Ok? && n > 0 ==> r.value.1[0].input == Clear(fs)
    ensures r.Ok? ==> forall i :: 0 <= i < n - 1 ==>
      r.value.1[i + 1].input == Clear(measure(r.value.1[i].input, next + i).value.0)
    decreases n
  {
    if n == 0 then
      Ok((fs, []))
    else
      var cleared := Clear(fs);
      var first := measure(cleared, next);
      if first.Err? then
        Err(first.error)
      else
        var rest := MultiRuns(first.value.0, next + 1, n - 1, measure);
        if rest.Err? then
          Err(rest.error)
        else
          var runs := [Run(cleared, next, first.value.1)] + rest.value.1;
          assert forall i :: 0 < i < n ==> runs[i] == rest.value.1[i - 1];
          assert n > 1 ==> runs[1].input == Clear(first.value.0);
          Ok((rest.value.0, runs))
  }

  /** A failed `measure_multi` loop fails with an error `measure` gives as
      one of the loop's runs on a cleared state. */
  lemma {:induction false} MultiRunsFails<H, K, R>(fs: FileSystem.Fs<H, K>, next: nat, n: nat, measure: Measure<H, K, R>)
    ensures var r := MultiRuns(fs, next, n, measure);
      r.Err? ==> exists c, k: nat :: next <= k < next + n && Cleared(c) && Fails(measure, c, k, r.error)
    decreases n
  {
    if n > 0 {
      var cleared := Clear(fs);
      if measure(cleared, next).Err? {
        assert Cleared(cleared) && Fails(measure, cleared, next, measure(cleared, next).error);
      } else {
        MultiRunsFails(measure(cleared, next).value.0, next + 1, n - 1, measure);
      }
    }
  }

  /** `CDCFixture::measure_multi`: clear the database, then run `n`
      measurements, each on a freshly cleared database; the results are
      what `measure` reported on the loop's runs (`MeasureMultiReports`
      says what they are without the loop). */
  function MeasureMulti<H, K, R>(fs: FileSystem.Fs<H, K>, n: nat, measure: Measure<H, K, R>)
    : (r: Result<seq<R>>)
    ensures r.Ok? ==> |r.value| == n
    ensures r.Ok? <==> MultiRuns(Clear(fs), 0, n, measure).Ok?
    ensures r.Ok? ==> Reports(MultiRuns(Clear(fs), 0, n, measure).value.1, r.value, measure)
    ensures r.Err? ==> r.error == MultiRuns(Clear(fs), 0, n, measure).error
  {
    var runs := MultiRuns(Clear(fs), 0, n, measure);
    if runs.Err? then Err(runs.error) else Ok(RunResults(runs.value.1))
  }

  /** What `measure_multi` returns: on success, what `measure` reports as
      runs 0 to n - 1, each on a cleared state; on failure, an error
      `measure` gives as one of those runs on a cleared state. */
  lemma MeasureMultiReports<H, K, R>(fs: FileSystem.Fs<H, K>, n: nat, measure: Measure<H, K, R>)
    ensures var r := MeasureMulti(fs, n, measure);
      && (r.Ok? ==> exists runs: seq<Run<H, K, R>> ::
           && Reports(runs, r.value, measure)
           && forall i :: 0 <= i < |runs| ==> Cleared(runs[i].input) && runs[i].index == i)
      && (r.Err? ==> exists c, k: nat :: k < n && Cleared(c) && Fails(measure, c, k, r.error))
  {
    var runs := MultiRuns(Clear(fs), 0, n, measure);
    MultiRunsFails(Clear(fs), 0, n, measure);
    if runs.Ok? {
      assert Reports(runs.value.1, MeasureMulti(fs, n, measure).value, measure);
    }
  }

  /** Runs on equal cleared states need not agree: a measurement that
      reports what its run drew gives a different result each run. */
  lemma MultiResultsMayDiffer<H, K>(fs: FileSystem.Fs<H, K>)
    ensures MeasureMulti(fs, 2, (s: FileSystem.Fs<H, K>, k: nat) => Ok((s, k))) == Ok([0, 1])
  {
    var measure := (s: FileSystem.Fs<H, K>, k: nat) => Ok((s, k));
    var runs := MultiRuns(Clear(fs), 0, 2, measure);
    assert runs.Ok?;
    assert RunResults(runs.value.1) == [0, 1];
  }

  /** The results of some runs, in order. */
  function RunResults<H, K, R>(runs: seq<Run<H, K, R>>): (r: seq<R>)
    ensures |r| == |runs| && forall i :: 0 <= i < |runs| ==> r[i] == runs[i].result
  {
    seq(|runs|, i requires 0 <= i < |runs| => runs[i].result)
  }

  /** The loop of `measure_repeated` for the `m` runs from index `next` on:
      each run starts where the previous one ended, with nothing cleared in
      between; the first error ends the loop with that error. */
  function RepeatedRuns<H, K, R>(fs: FileSystem.Fs<H, K>, next: nat, m: nat, measure: Measure<H, K, R>)
    : (r: Result<(FileSystem.Fs<H, K>, seq<Run<H, K, R>>)>)
    ensures r.Ok? ==> |r.value.1| == m
    ensures r.Ok? && m > 0 ==> r.value.1[0].input == fs
    ensures r.Ok? ==> forall i :: 0 <= i < m ==> r.value.1[i].index == next + i
    ensures r.Ok? ==> Reports(r.value.1, RunResults(r.value.1), measure)
    ensures r.Ok? ==> forall i :: 0 <= i < m - 1 ==>
      r.value.1[i + 1].input == measure(r.value.1[i].input, next + i).value.0
    decreases m
  {
    if m == 0 then
      Ok((fs, []))
    else
      var first := measure(fs, next);
      if first.Err? then
        Err(first.error)
      else
        var rest := RepeatedRuns(first.value.0, next + 1, m - 1, measure);
        if rest.Err? then Err(rest.error) else Ok((rest.value.0, [Run(fs, next, first.value.1)] + rest.value.1))
  }

  /** A failed `measure_repeated` loop fails with an error `measure` gives
      as one of the loop's runs. */
  lemma {:induction false} RepeatedRunsFails<H, K, R>(fs: FileSystem.Fs<H, K>, next: nat, m: nat, measure: Measure<H, K, R>)
    ensures var r := RepeatedRuns(fs, next, m, measure);
      r.Err? ==> exists c, k: nat :: next <= k < next + m && Fails(measure, c, k, r.error)
    decreases m
  {
    if m > 0 {
      if measure(fs, next).Err? {
        assert Fails(measure, fs, next, measure(fs, next).error);
      } else {
        RepeatedRunsFails(measure(fs, next).value.0, next + 1, m - 1, measure);
      }
    }
  }

  /** `CDCFixture::measure_repeated`: clear the database once, then run `m`
      measurements back to back; the results are what `measure` reported on
      the loop's runs (`MeasureRepeatedReports` says what they are without
      the loop). */
  function MeasureRepeated<H, K, R>(fs: FileSystem.Fs<H, K>, m: nat, measure: Measure<H, K, R>)
    : (r: Result<seq<R>>)
    ensures r.Ok? ==> |r.value| == m
    ensures r.Ok? <==> RepeatedRuns(Clear(fs), 0, m, measure).Ok?
    ensures r.Ok? ==> Reports(RepeatedRuns(Clear(fs), 0, m, measure).value.1, r.value, measure)
    ensures r.Err? ==> r.error == RepeatedRuns(Clear(fs), 0, m, measure).error
  {
    var runs := RepeatedRuns(Clear(fs), 0, m, measure);
    if runs.Err? then Err(runs.error) else Ok(RunResults(runs.value.1))
  }

  /** What `measure_repeated` returns: on success, what `measure` reports
      as runs 0 to m - 1, the first on a cleared state and each later one on
      the state the run before it left; on failure, an error `measure` gives
      as one of those runs. */
  lemma MeasureRepeatedReports<H, K, R>(fs: FileSystem.Fs<H, K>, m: nat, measure: Measure<H, K, R>)
    ensures var r := MeasureRepeated(fs, m, measure);
      && (r.Ok? ==> exists runs: seq<Run<H, K, R>> ::
           && Reports(runs, r.value, measure)
           && (m > 0 ==> Cleared(runs[0].input))
           && (forall i :: 0 <= i < m ==> runs[i].index == i)
           && forall i :: 0 <= i < m - 1 ==> runs[i + 1].input == measure(runs[i].input, i).value.0)
      && (r.Err? ==> exists c, k: nat :: k < m && Fails(measure, c, k, r.error))
  {
    var runs := RepeatedRuns(Clear(fs), 0, m, measure);
    RepeatedRunsFails(Clear(fs), 0, m, measure);
    if runs.Ok? {
      assert Reports(runs.value.1, MeasureRepeated(fs, m, measure).value, measure);
    }
  }

  /** Only the first repeated measurement is guaranteed a cleared database. */
  lemma RepeatedFirstCleared<H, K, R>(fs: FileSystem.Fs<H, K>, m: nat, measure: Measure<H, K, R>)
    requires m > 0
    requires RepeatedRuns(FileSystem.ClearDatabase(fs).value, 0, m, measure).Ok?
    ensures Cleared(RepeatedRuns(FileSystem.ClearDatabase(fs).value, 0, m, measure).value.1[0].input)
  {
    var cleared := FileSystem.ClearDatabase(fs).value;
    forall name
      ensures name !in cleared.files.files
    {
      assert !FileSystem.FileExists(cleared, name);
    }
  }
}

=== FILE: bincode.dfy ===
/** The bincode serialization the databases use (standard configuration),
    kept abstract: an encoder, and a decoder that reads a value from the
    front of a byte string (as `decode_from_slice`, which ignores the bytes
    after the value) or reports a decode error. */
module Bincode {
  import opened Wrappers

  datatype Codec<!V> = Codec(encode: V -> seq<byte>, decode: seq<byte> -> Option<V>)

  /** Decoding an encoded value followed by any bytes gives the value back. */
  ghost predicate PrefixInverse<V(!new)>(c: Codec<V>)
  {
    forall v: V, tail: seq<byte> :: c.decode(c.encode(v) + tail) == Some(v)
  }

  /** In particular, decoding exactly an encoded value gives it back. */
  lemma DecodeEncoded<V(!new)>(c: Codec<V>, v: V)
    requires PrefixInverse(c)
    ensures c.decode(c.encode(v)) == Some(v)
  {
    assert c.encode(v) + [] == c.encode(v);
  }
}

=== FILE: block_database.dfy ===
/** The block-based `DiskDatabase` of src/system/database.rs: every value is
    written at the first free block, padded to whole blocks, and located by
    its start block and encoded length. */
module BlockDatabase {
  import opened Wrappers
  import opened Bincode
  import opened Device
  import DataBlock
  import Arith

  /** Where a value lies: its first block and its encoded length. */
  datatype BlockInfo = BlockInfo(startBlock: nat, length: nat)

  datatype BlockDb<K> = BlockDb(
    device: seq<byte>,
    index: map<K, BlockInfo>,
    totalSize: nat,
    blockSize: nat,
    usedBlocks: nat)

  /** The number of whole blocks an encoded value of `length` bytes takes. */
  function Blocks(length: nat, blockSize: nat): nat
    requires blockSize > 0
  {
    DataBlock.DivCeil(length, blockSize)
  }

  /** `DiskDatabase::init` after the device queries: a zero block size is
      InvalidData; otherwise an empty database over the whole device. */
  function Init<K>(device: seq<byte>, totalSize: nat, blockSize: nat): (r: Result<BlockDb<K>>)
    ensures r.Err? <==> blockSize == 0
    ensures r.Err? ==> r.error == InvalidData
    ensures r.Ok? ==> Valid(r.value) && r.value.index == map[] && r.value.usedBlocks == 0
    ensures r.Ok? ==> r.value.totalSize == totalSize && r.value.blockSize == blockSize
  {
    if blockSize == 0 then Err(InvalidData) else Ok(BlockDb(device, map[], totalSize, blockSize, 0))
  }

  /** `DiskDatabase::init_on_regular_file`: a zero-filled file of the given
      size with 512-byte blocks. */
  function InitOnRegularFile<K>(totalSize: nat): (db: BlockDb<K>)
    ensures Valid(db) && db.index == map[] && db.usedBlocks == 0 && db.blockSize == 512
    ensures |db.device| == db.totalSize == totalSize
  {
    BlockDb(Repeat(0, totalSize), map[], totalSize, 512, 0)
  }

  /** Every stored value lies in the used blocks. */
  predicate Valid<K>(db: BlockDb<K>)
  {
    && db.blockSize > 0
    && forall k :: k in db.index ==>
      db.index[k].startBlock + Blocks(db.index[k].length, db.blockSize) <= db.usedBlocks
  }

  /** The used blocks and `len` more bytes stay below the end of the
      device: the condition under which `write` succeeds. */
  predicate Fits<K>(db: BlockDb<K>, len: nat)
  {
    db.usedBlocks * db.blockSize + len < db.totalSize
  }

  /** `DiskDatabase::write`: OutOfMemory when the encoded value would reach
      the end of the device; otherwise the value and its padding are written
      at the first free block, which the returned info records, and the used
      blocks grow by the blocks it takes. */
  function Write<K, V>(db: BlockDb<K>, value: V, codec: Codec<V>): (r: Result<(BlockDb<K>, BlockInfo)>)
    requires db.blockSize > 0
    ensures r.Ok? <==> Fits(db, |codec.encode(value)|)
    ensures r.Err? ==> r.error == OutOfMemory
    ensures r.Ok? ==>
      var (db', info) := r.value;
      && info == BlockInfo(db.usedBlocks, |codec.encode(value)|)
      && db'.usedBlocks == db.usedBlocks + Blocks(info.length, db.blockSize)
      && db'.index == db.index && db'.totalSize == db.totalSize && db'.blockSize == db.blockSize
    ensures r.Ok? ==>
      var encoded := codec.encode(value);
      r.value.0.device == WriteAt(db.device, db.usedBlocks * db.blockSize,
        encoded + Repeat(0, DataBlock.PaddingToMultipleBlockSize(|encoded|, db.blockSize)))
  {
    var encoded := codec.encode(value);
    var len := |encoded|;
    if db.usedBlocks * db.blockSize + len >= db.totalSize then
      Err(OutOfMemory)
    else
      var padding := DataBlock.PaddingToMultipleBlockSize(len, db.blockSize);
      var device := WriteAt(db.device, db.usedBlocks * db.blockSize, encoded + Repeat(0, padding));
      Ok((db.(device := device, usedBlocks := db.usedBlocks + Blocks(len, db.blockSize)),
          BlockInfo(db.usedBlocks, len)))
  }

  /** `DiskDatabase::read`: reads the value's padded blocks and decodes them;
      a decode error is InvalidData. */
  function Read<K, V>(db: BlockDb<K>, info: BlockInfo, codec: Codec<V>): (r: Result<V>)
    requires db.blockSize > 0
  {
    var padding := DataBlock.PaddingToMultipleBlockSize(info.length, db.blockSize);
    match codec.decode(ReadAt(db.device, info.startBlock * db.blockSize, info.length + padding))
    case None => Err(InvalidData)
    case Some(v) => Ok(v)
  }

  /** `Database::insert`: writes the value and points the key at it. */
  function Insert<K, V>(db: BlockDb<K>, key: K, value: V, codec: Codec<V>): (r: Result<BlockDb<K>>)
    requires db.blockSize > 0
    ensures r.Err? <==> Write(db, value, codec).Err?
    ensures r.Ok? ==> r.value.index == db.index[key := Write(db, value, codec).value.1]
  {
    var (db', info) :- Write(db, value, codec);
    Ok(db'.(index := db'.index[key := info]))
  }

  /** `Database::try_insert`: a stored key is left alone; otherwise insert. */
  function TryInsert<K, V>(db: BlockDb<K>, key: K, value: V, codec: Codec<V>): (r: Result<BlockDb<K>>)
    requires db.blockSize > 0
    ensures key in db.index ==> r == Ok(db)
  {
    if key in db.index then Ok(db) else Insert(db, key, value, codec)
  }

  /** `Database::get`: NotFound for an unknown key, else the decoded value. */
  function Get<K, V>(db: BlockDb<K>, key: K, codec: Codec<V>): (r: Result<V>)
    requires db.blockSize > 0
    ensures key !in db.index ==> r == Err(NotFound)
  {
    if key !in db.index then Err(NotFound) else Read(db, db.index[key], codec)
  }

  predicate Contains<K>(db: BlockDb<K>, key: K)
  {
    key in db.index
  }

  /** `IterableDatabase::clear`: forgets every key and frees every block; the
      device bytes are left as they are. */
  function Clear<K>(db: BlockDb<K>): (r: BlockDb<K>)
    ensures Valid(db) ==> Valid(r)
    ensures r.index == map[] && r.usedBlocks == 0 && r.device == db.device
  {
    db.(index := map[], usedBlocks := 0)
  }

  /** After `clear`, every `get` fails with NotFound. */
  lemma GetAfterClear<K, V>(db: BlockDb<K>, key: K, codec: Codec<V>)
    requires db.blockSize > 0
    ensures Get(Clear(db), key, codec) == Err(NotFound)
  {
  }

  /** The bytes a stored value occupies end within its blocks. */
  lemma InfoEnd(info: BlockInfo, bs: nat, usedBlocks: nat)
    requires bs > 0 && info.startBlock + Blocks(info.length, bs) <= usedBlocks
    ensures info.startBlock * bs + info.length + DataBlock.PaddingToMultipleBlockSize(info.length, bs)
      <= usedBlocks * bs
  {
    Arith.MulMonotone(info.startBlock + Blocks(info.length, bs), usedBlocks, bs);
    assert (info.startBlock + Blocks(info.length, bs)) * bs
      == info.startBlock * bs + Blocks(info.length, bs) * bs;
  }

  /** A newly inserted key reads back its value. */
  lemma {:induction false} InsertedKeyReadsBack<K, V(!new)>(db: BlockDb<K>, key: K, value: V, codec: Codec<V>)
    requires db.blockSize > 0 && PrefixInverse(codec)
    requires Fits(db, |codec.encode(value)|)
    ensures Insert(db, key, value, codec).Ok?
    ensures Get(Insert(db, key, value, codec).value, key, codec) == Ok(value)
  {
    var encoded := codec.encode(value);
    var written := encoded + Repeat(0, DataBlock.PaddingToMultipleBlockSize(|encoded|, db.blockSize));
    ReadAfterWrite(db.device, db.usedBlocks * db.blockSize, written);
    assert codec.decode(written) == Some(value);
  }

  /** An insert leaves every stored key reading back what it did before. */
  lemma {:induction false} InsertKeepsOthers<K, V>(
    db: BlockDb<K>, key: K, value: V, codec: Codec<V>, other: K)
    requires Valid(db) && Fits(db, |codec.encode(value)|)
    requires other in db.index && other != key
    ensures Insert(db, key, value, codec).Ok?
    ensures Get(Insert(db, key, value, codec).value, other, codec) == Get(db, other, codec)
  {
    var bs := db.blockSize;
    var encoded := codec.encode(value);
    var written := encoded + Repeat(0, DataBlock.PaddingToMultipleBlockSize(|encoded|, bs));
    var info := db.index[other];
    var db' := Insert(db, key, value, codec).value;
    assert db'.index[other] == info && db'.blockSize == bs;
    var n := info.length + DataBlock.PaddingToMultipleBlockSize(info.length, bs);
    var at, offset := info.startBlock * bs, db.usedBlocks * bs;
    InfoEnd(info, bs, db.usedBlocks);
    assert at + n <= offset;
    ReadOutsideWrite(db.device, offset, written, at, n);
    assert Get(db', other, codec) == Read(db', info, codec);
  }

  /** An insert keeps every stored value within the used blocks. */
  lemma InsertKeepsValid<K, V>(db: BlockDb<K>, key: K, value: V, codec: Codec<V>)
    requires Valid(db) && Fits(db, |codec.encode(value)|)
    ensures Insert(db, key, value, codec).Ok?
    ensures Valid(Insert(db, key, value, codec).value)
  {
  }

  /** `try_insert` followed by `get` round-trips: a new key reads back its
      value, a stored key is untouched, and every other stored key still
      reads back what it did before, because a write only touches blocks
      past the used ones. */
  lemma {:induction false} TryInsertThenGet<K, V(!new)>(
    db: BlockDb<K>, key: K, value: V, codec: Codec<V>, other: K)
    requires Valid(db) && PrefixInverse(codec)
    requires key in db.index || Fits(db, |codec.encode(value)|)
    ensures TryInsert(db, key, value, codec).Ok?
    ensures Valid(TryInsert(db, key, value, codec).value)
    ensures key !in db.index ==> Get(TryInsert(db, key, value, codec).value, key, codec) == Ok(value)
    ensures other in db.index ==>
      Get(TryInsert(db, key, value, codec).value, other, codec) == Get(db, other, codec)
  {
    if key !in db.index {
      InsertKeepsValid(db, key, value, codec);
      InsertedKeyReadsBack(db, key, value, codec);
      if other in db.index {
        InsertKeepsOthers(db, key, value, codec, other);
      }
    }
  }
}

=== FILE: chunker.dfy ===
/** The chunking contract of src/chunker.rs: a `Chunk` is an (offset, length)
    pair describing a range of the data, and the covering variant of the
    fixed-size chunker keeps its final short chunk in the result. */
module Chunker {
  import opened Wrappers
  import opened Arith

  /** `Chunk::new(offset, length)`; the datatype fields are the `offset()` and
      `length()` accessors. */
  datatype Chunk = Chunk(offset: nat, length: nat)

  /** `Chunk::range`: the half-open interval `offset..offset + length`,
      returned as its two bounds. */
  function Range(c: Chunk): (r: (nat, nat))
    ensures r.0 == c.offset && r.0 <= r.1 && r.1 - r.0 == c.length
  {
    (c.offset, c.offset + c.length)
  }

  /** `data[chunk.range()]`. */
  function Bytes(data: seq<byte>, c: Chunk): (r: seq<byte>)
    requires c.offset + c.length <= |data|
    ensures |r| == c.length
  {
    data[Range(c).0..Range(c).1]
  }

  /** The chunks lie inside a buffer of length `n`. */
  predicate InBounds(chunks: seq<Chunk>, n: nat)
  {
    forall i :: 0 <= i < |chunks| ==> chunks[i].offset + chunks[i].length <= n
  }

  /** The chunks follow each other without gap or overlap, the first starting
      at `start` and the last ending at `end`. */
  predicate TilesFrom(chunks: seq<Chunk>, start: nat, end: nat)
    decreases |chunks|
  {
    if |chunks| == 0 then start == end
    else chunks[0].offset == start && TilesFrom(chunks[1..], start + chunks[0].length, end)
  }

  /** The chunks tile the whole buffer `0..n`. */
  predicate Tiles(chunks: seq<Chunk>, n: nat)
  {
    TilesFrom(chunks, 0, n)
  }

  /** The byte strings the chunks select from `data`, in order. */
  function AllBytes(data: seq<byte>, chunks: seq<Chunk>): (r: seq<seq<byte>>)
    requires InBounds(chunks, |data|)
    ensures |r| == |chunks|
    ensures forall i :: 0 <= i < |r| ==> r[i] == Bytes(data, chunks[i])
  {
    seq(|chunks|, i requires 0 <= i < |chunks| => Bytes(data, chunks[i]))
  }

  lemma {:induction false} TilesFromBounds(chunks: seq<Chunk>, start: nat, end: nat)
    requires TilesFrom(chunks, start, end)
    ensures start <= end
    ensures InBounds(chunks, end)
    ensures forall i :: 0 <= i < |chunks| ==> start <= chunks[i].offset
    decreases |chunks|
  {
    if |chunks| > 0 {
      TilesFromBounds(chunks[1..], start + chunks[0].length, end);
      forall i | 0 <= i < |chunks|
        ensures start <= chunks[i].offset && chunks[i].offset + chunks[i].length <= end
      {
        if i > 0 {
          assert chunks[i] == chunks[1..][i - 1];
        }
      }
    }
  }

  /** Concatenating the bytes of chunks that tile `start..end` gives back
      exactly `data[start..end]`. */
  lemma {:induction false} TilesFromConcat(data: seq<byte>, chunks: seq<Chunk>, start: nat, end: nat)
    requires TilesFrom(chunks, start, end) && end <= |data|
    ensures InBounds(chunks, |data|)
    ensures start <= end
    ensures Concat(AllBytes(data, chunks)) == data[start..end]
    decreases |chunks|
  {
    TilesFromBounds(chunks, start, end);
    if |chunks| > 0 {
      var next := start + chunks[0].length;
      TilesFromConcat(data, chunks[1..], next, end);
      assert AllBytes(data, chunks)[1..] == AllBytes(data, chunks[1..]);
      assert data[start..end] == data[start..next] + data[next..end];
    }
  }

  /** In a tiling, each chunk ends where the next one starts. */
  lemma {:induction false} TilesFromConsecutive(chunks: seq<Chunk>, start: nat, end: nat)
    requires TilesFrom(chunks, start, end)
    ensures forall k :: 0 <= k < |chunks| - 1 ==>
      chunks[k].offset + chunks[k].length == chunks[k + 1].offset
    decreases |chunks|
  {
    if |chunks| > 1 {
      TilesFromConsecutive(chunks[1..], start + chunks[0].length, end);
      assert forall k :: 1 <= k < |chunks| ==> chunks[k] == chunks[1..][k - 1];
    }
  }

  /** The lengths of tiling chunks add up to the tiled length. */
  lemma {:induction false} TilesFromLength(chunks: seq<Chunk>, start: nat, end: nat)
    requires TilesFrom(chunks, start, end)
    ensures start + SumChunkLengths(chunks) == end
    decreases |chunks|
  {
    if |chunks| > 0 {
      TilesFromLength(chunks[1..], start + chunks[0].length, end);
    }
  }

  function SumChunkLengths(chunks: seq<Chunk>): nat
  {
    if |chunks| == 0 then 0 else chunks[0].length + SumChunkLengths(chunks[1..])
  }

  /** Splitting tiling chunks before their last one: the prefix tiles up to
      where the last chunk starts. */
  lemma {:induction false} TilesFromSplitLast(chunks: seq<Chunk>, start: nat, end: nat)
    requires TilesFrom(chunks, start, end) && |chunks| > 0
    ensures TilesFrom(chunks[..|chunks| - 1], start, chunks[|chunks| - 1].offset)
    ensures chunks[|chunks| - 1].offset + chunks[|chunks| - 1].length == end
    decreases |chunks|
  {
    if |chunks| > 1 {
      TilesFromSplitLast(chunks[1..], start + chunks[0].length, end);
      assert chunks[..|chunks| - 1][1..] == chunks[1..][..|chunks[1..]| - 1];
    }
  }

  /** The covering fixed-size chunking loop from `offset` on: one chunk every
      `chunkSize` bytes, the last one possibly shorter. */
  function FixedChunks(len: nat, chunkSize: nat, offset: nat): (r: seq<Chunk>)
    requires chunkSize > 0
    ensures forall k :: 0 <= k < |r| ==>
      r[k].offset == offset + k * chunkSize
      && r[k].offset < len
      && r[k].length == Min(chunkSize, len - r[k].offset)
    ensures offset <= len ==> TilesFrom(r, offset, len)
    ensures offset >= len ==> r == []
    decreases len - offset
  {
    if offset < len then
      var rest := FixedChunks(len, chunkSize, offset + chunkSize);
      var head := Chunk(offset, Min(chunkSize, len - offset));
      FixedChunksCons(len, chunkSize, offset, head, rest);
      [head] + rest
    else
      []
  }

  /** One step of the fixed-size loop: a chunk at `offset` followed by the
      chunks from the next offset on. */
  lemma FixedChunksCons(len: nat, chunkSize: nat, offset: nat, head: Chunk, rest: seq<Chunk>)
    requires chunkSize > 0 && offset < len && head == Chunk(offset, Min(chunkSize, len - offset))
    requires forall k :: 0 <= k < |rest| ==>
      rest[k].offset == offset + chunkSize + k * chunkSize
      && rest[k].offset < len
      && rest[k].length == Min(chunkSize, len - rest[k].offset)
    requires offset + chunkSize <= len ==> TilesFrom(rest, offset + chunkSize, len)
    requires offset + chunkSize >= len ==> rest == []
    ensures var r := [head] + rest;
      && (forall k :: 0 <= k < |r| ==>
            r[k].offset == offset + k * chunkSize
            && r[k].offset < len
            && r[k].length == Min(chunkSize, len - r[k].offset))
      && TilesFrom(r, offset, len)
  {
    var r := [head] + rest;
    assert r[1..] == rest;
    forall k | 1 <= k < |r|
      ensures r[k] == rest[k - 1] && offset + k * chunkSize == offset + chunkSize + (k - 1) * chunkSize
    {
      StepBack(k, chunkSize);
    }
  }

  /** One step down a multiple. */
  lemma StepBack(k: nat, d: nat)
    requires k >= 1
    ensures k * d == d + (k - 1) * d
  {
  }

  function Min(a: nat, b: nat): nat
  {
    if a <= b then a else b
  }

  /** The covering `FSChunker` of src/chunker.rs, with its `rest` field. */
  datatype FsChunker = FsChunker(chunkSize: nat, rest: seq<byte>)

  /** `FSChunker::chunk_data` (covering variant): returns every chunk,
      including a final short one, and sets `rest` to the bytes of that final
      chunk iff it is shorter than `chunkSize`. Empty data is outside the
      domain (the source unwraps `chunks.last()`), and so is `chunkSize == 0`
      (the loop would never advance). */
  function ChunkData(c: FsChunker, data: seq<byte>): (r: (seq<Chunk>, FsChunker))
    requires c.chunkSize > 0 && |data| > 0
    ensures Tiles(r.0, |data|)
    ensures |r.0| > 0
    ensures forall k :: 0 <= k < |r.0| ==>
      r.0[k].offset == k * c.chunkSize
      && r.0[k].offset < |data|
      && r.0[k].length == Min(c.chunkSize, |data| - r.0[k].offset)
    ensures r.1.chunkSize == c.chunkSize
    ensures var last := r.0[|r.0| - 1];
      && last.offset + last.length == |data|
      && (last.length < c.chunkSize ==> r.1.rest == data[last.offset..])
      && (last.length >= c.chunkSize ==> r.1.rest == [])
  {
    var chunks := FixedChunks(|data|, c.chunkSize, 0);
    assert |chunks| > 0;
    var last := chunks[|chunks| - 1];
    TilesFromSplitLast(chunks, 0, |data|);
    assert last.offset + last.length == |data|;
    if last.length < c.chunkSize then
      (chunks, c.(rest := data[last.offset..]))
    else
      (chunks, c.(rest := []))
  }

  /** `remainder()`: the `rest` left by the latest `chunk_data` call. */
  function Remainder(c: FsChunker): seq<byte>
  {
    c.rest
  }

  /** `estimate_chunk_count = len / chunk_size + 1`. */
  function EstimateChunkCount(c: FsChunker, data: seq<byte>): nat
    requires c.chunkSize > 0
  {
    |data| / c.chunkSize + 1
  }

  /** The number of chunks the covering chunker emits is `ceil(len / size)`,
      and the estimate is an upper bound for it. */
  lemma {:induction false} FixedChunksCount(len: nat, chunkSize: nat, offset: nat)
    requires chunkSize > 0 && offset <= len
    ensures |FixedChunks(len, chunkSize, offset)| == (len - offset + chunkSize - 1) / chunkSize
    decreases len - offset
  {
    var m := len - offset;
    if offset < len {
      var rest := FixedChunks(len, chunkSize, offset + chunkSize);
      assert |FixedChunks(len, chunkSize, offset)| == 1 + |rest|;
      if offset + chunkSize <= len {
        FixedChunksCount(len, chunkSize, offset + chunkSize);
        assert |rest| == (m - 1) / chunkSize;
        DivAddOne(m - 1, chunkSize);
        assert m + chunkSize - 1 == (m - 1) + chunkSize;
      } else {
        assert rest == [];
        DivUnique(m + chunkSize - 1, chunkSize, 1, m - 1);
      }
    } else {
      DivUnique(chunkSize - 1, chunkSize, 0, chunkSize - 1);
    }
  }

  /** The estimate of src/chunker.rs never undercounts the covering chunker. */
  lemma EstimateBoundsChunkCount(c: FsChunker, data: seq<byte>)
    requires c.chunkSize > 0 && |data| > 0
    ensures |ChunkData(c, data).0| == (|data| + c.chunkSize - 1) / c.chunkSize
    ensures |ChunkData(c, data).0| <= EstimateChunkCount(c, data)
  {
    var n, size := |data|, c.chunkSize;
    assert ChunkData(c, data).0 == FixedChunks(n, size, 0);
    FixedChunksCount(n, size, 0);
    assert n + size - 1 == (n - 1) + size;
    DivAddOne(n - 1, size);
    DivMonotone(n - 1, n, size);
  }
}

=== FILE: cli.dfy ===
/** The decision logic of the command-line tool, chunkfs-cli/src/cli.rs:
    building the chunker from the size arguments, checking the report
    path, and the order of clearing, filling, measuring and taking
    distributions in the `measure` command, with the names of the files
    the distributions go to.

    The third-party chunkers are opaque: a chunker is recorded as the
    constructor the tool picks and the parameters it passes. Reading the
    configuration file, parsing TOML, asking whether a path is a
    directory, filling the database from files and taking one measurement
    are function-valued parameters. */
module Cli {
  import opened Wrappers
  import Text
  import FileSystem
  import Bench

  /** `KB`: the size arguments are given in units of 1024 bytes. */
  const KB: nat := 1024

  /** The `seq-mode` argument. */
  datatype SeqOperationMode = SeqIncreasing | SeqDecreasing

  /** `OperationMode` of the SeqCDC chunker. */
  datatype OperationMode = Increasing | Decreasing

  /** `From<SeqOperationMode> for OperationMode`. */
  function ToOperationMode(m: SeqOperationMode): (r: OperationMode)
    ensures r.Increasing? <==> m.SeqIncreasing?
  {
    match m
    case SeqIncreasing => Increasing
    case SeqDecreasing => Decreasing
  }

  /** The conversion is one-to-one and reaches both modes. */
  lemma OperationModeBijective(a: SeqOperationMode, b: SeqOperationMode, target: OperationMode)
    ensures ToOperationMode(a) == ToOperationMode(b) ==> a == b
    ensures exists m :: ToOperationMode(m) == target
  {
    if target.Increasing? {
      assert ToOperationMode(SeqIncreasing) == target;
    } else {
      assert ToOperationMode(SeqDecreasing) == target;
    }
  }

  /** The `chunker` argument. */
  datatype CliChunker = Super | Rabin | Seq | Ultra | Leap | FixedSize | Fast

  /** `SizeParams`: minimum, average and maximum chunk size in bytes. */
  datatype SizeParams = SizeParams(min: nat, avg: nat, max: nat)

  /** The chunker the tool builds: which constructor, with which
      parameters. */
  datatype ChunkerConfig =
    | SuperCdc(params: SizeParams)
    | RabinCdc(params: SizeParams)
    | SeqCdc(mode: OperationMode, params: SizeParams)
    | UltraCdc(params: SizeParams)
    | LeapCdc(params: SizeParams)
    | FixedSizeCdc(chunkSize: nat)
    | FastCdc(params: SizeParams)

  /** The argument value a built chunker corresponds to. */
  function KindOf(c: ChunkerConfig): CliChunker
  {
    match c
    case SuperCdc(_) => Super
    case RabinCdc(_) => Rabin
    case SeqCdc(_, _) => Seq
    case UltraCdc(_) => Ultra
    case LeapCdc(_) => Leap
    case FixedSizeCdc(_) => FixedSize
    case FastCdc(_) => Fast
  }

  /** The shared arguments, `CliArgs`. The database and hasher choices only
      select types and are not modelled. */
  datatype CliArgs = CliArgs(
    chunker: CliChunker,
    seqMode: Option<SeqOperationMode>,
    min: nat,
    avg: nat,
    max: nat,
    reportPath: string)

  /** `get_chunker`: the size arguments scaled by `KB`; the fixed-size
      chunker takes the scaled minimum as its chunk size; SeqCDC without a
      `seq-mode` panics (None). */
  function GetChunker(args: CliArgs): (r: Option<ChunkerConfig>)
    ensures r.None? <==> args.chunker == Seq && args.seqMode.None?
    ensures r.Some? ==> KindOf(r.value) == args.chunker
    ensures r.Some? && r.value.FixedSizeCdc? ==> r.value.chunkSize == args.min * KB
    ensures r.Some? && !r.value.FixedSizeCdc? ==>
      r.value.params == SizeParams(args.min * KB, args.avg * KB, args.max * KB)
    ensures r.Some? && r.value.SeqCdc? ==> r.value.mode == ToOperationMode(args.seqMode.value)
  {
    var params := SizeParams(args.min * KB, args.avg * KB, args.max * KB);
    match args.chunker
    case Super => Some(SuperCdc(params))
    case Rabin => Some(RabinCdc(params))
    case Seq =>
      if args.seqMode.None? then None else Some(SeqCdc(ToOperationMode(args.seqMode.value), params))
    case Ultra => Some(UltraCdc(params))
    case Leap => Some(LeapCdc(params))
    case FixedSize => Some(FixedSizeCdc(params.min))
    case Fast => Some(FastCdc(params))
  }

  /** The `measure`, `dedup-ratio` and `run-config` commands. */
  datatype Command =
    | Measure(
        datasetPath: string,
        datasetName: string,
        count: nat,
        cleanup: bool,
        fillPaths: Option<seq<string>>,
        adjustment: Option<nat>)
    | DedupRatio(datasetPath: string, datasetName: string)
    | RunConfig

  /** The parsed command line: a configuration file path, or the arguments
      and a command. */
  datatype Invocation = Invocation(config: Option<string>, args: Option<CliArgs>, command: Command)

  /** A configuration file: arguments and a command. */
  datatype Config = Config(args: CliArgs, command: Command)

  /** `Cli::start` with `parse_cli_args` and `parse_config`: the arguments
      come from the configuration file when one is given (read errors pass
      through, a TOML error is `Other`), and a report path that is not a
      directory is InvalidInput before the command runs. Without a
      configuration file the arguments must be present (the source
      unwraps them). */
  function Start(
    cli: Invocation,
    readFile: string -> Result<string>,
    parseToml: string -> Option<Config>,
    isDir: string -> bool,
    execute: (CliArgs, Command) -> Result<()>)
    : (r: Result<()>)
    requires cli.config.Some? || cli.args.Some?
    ensures cli.config.None? ==>
      r == if isDir(cli.args.value.reportPath) then execute(cli.args.value, cli.command) else Err(InvalidInput)
    ensures cli.config.Some? && readFile(cli.config.value).Err? ==> r == Err(readFile(cli.config.value).error)
    ensures cli.config.Some? && readFile(cli.config.value).Ok? ==>
      var config := parseToml(readFile(cli.config.value).value);
      && (config.None? ==> r == Err(Other))
      && (config.Some? && !isDir(config.value.args.reportPath) ==> r == Err(InvalidInput))
      && (config.Some? && isDir(config.value.args.reportPath) ==>
            r == execute(config.value.args, config.value.command))
  {
    if cli.config.Some? then
      var text :- readFile(cli.config.value);
      match parseToml(text)
      case None => Err(Other)
      case Some(config) =>
        if !isDir(config.args.reportPath) then Err(InvalidInput) else execute(config.args, config.command)
    else
      var args := cli.args.value;
      if !isDir(args.reportPath) then Err(InvalidInput) else execute(args, cli.command)
  }

  /** The arguments `Start` checks: those of the configuration file when
      there is one, else those of the command line. */
  function EffectiveArgs(cli: Invocation, readFile: string -> Result<string>, parseToml: string -> Option<Config>)
    : Option<CliArgs>
    requires cli.config.Some? || cli.args.Some?
  {
    if cli.config.None? then cli.args
    else if readFile(cli.config.value).Err? then None
    else match parseToml(readFile(cli.config.value).value)
      case None => None
      case Some(config) => Some(config.args)
  }

  /** A report path that is not a directory is refused before any work:
      the outcome is InvalidInput whatever the command would have done. */
  lemma ReportPathCheckedFirst(
    cli: Invocation,
    readFile: string -> Result<string>,
    parseToml: string -> Option<Config>,
    isDir: string -> bool,
    execute1: (CliArgs, Command) -> Result<()>,
    execute2: (CliArgs, Command) -> Result<()>)
    requires cli.config.Some? || cli.args.Some?
    ensures var args := EffectiveArgs(cli, readFile, parseToml);
      args.Some? && !isDir(args.value.reportPath) ==>
        && Start(cli, readFile, parseToml, isDir, execute1) == Err(InvalidInput)
        && Start(cli, readFile, parseToml, isDir, execute2) == Err(InvalidInput)
  {
  }

  /** `fill_with`: each fill path in order fills the database; the first
      error ends it, and no paths leave the state as it is. */
  function FillWith<H, K>(
    fs: FileSystem.Fs<H, K>,
    fillPaths: Option<seq<string>>,
    fillOne: (FileSystem.Fs<H, K>, string) -> Result<FileSystem.Fs<H, K>>)
    : (r: Result<FileSystem.Fs<H, K>>)
    ensures fillPaths.None? || fillPaths.value == [] ==> r == Ok(fs)
    decreases if fillPaths.Some? then |fillPaths.value| else 0
  {
    if fillPaths.None? || |fillPaths.value| == 0 then
      Ok(fs)
    else
      var next :- fillOne(fs, fillPaths.value[0]);
      FillWith(next, Some(fillPaths.value[1..]), fillOne)
  }

  /** Filling from two lists of paths one after the other is filling from
      their concatenation. */
  lemma {:induction false} FillWithAppend<H, K>(
    fs: FileSystem.Fs<H, K>,
    a: seq<string>,
    b: seq<string>,
    fillOne: (FileSystem.Fs<H, K>, string) -> Result<FileSystem.Fs<H, K>>)
    ensures FillWith(fs, Some(a + b), fillOne) ==
      match FillWith(fs, Some(a), fillOne)
      case Err(e) => Err(e)
      case Ok(s) => FillWith(s, Some(b), fillOne)
    decreases |a|
  {
    if |a| > 0 {
      assert (a + b)[0] == a[0];
      assert (a + b)[1..] == a[1..] + b;
      if fillOne(fs, a[0]).Ok? {
        FillWithAppend(fillOne(fs, a[0]).value, a[1..], b, fillOne);
      }
    } else {
      assert a + b == b;
    }
  }

  /** A single fill path is filled by `fillOne`: its result, error or new
      state, is the fill's. With `FillWithAppend` this fixes the fill of
      every list of paths. */
  lemma FillWithOne<H, K>(
    fs: FileSystem.Fs<H, K>,
    path: string,
    fillOne: (FileSystem.Fs<H, K>, string) -> Result<FileSystem.Fs<H, K>>)
    ensures FillWith(fs, Some([path]), fillOne) == fillOne(fs, path)
  {
    assert [path][1..] == [];
  }

  /** `adjustment.unwrap_or_else(|| 1000)`. */
  const DefaultAdjustment: nat := 1000

  /** One iteration of the `measure` loop: the state the measurement
      started from, its place in the loop, its result, and the size
      distribution taken right after it. */
  datatype Step<H, K, R> = Step(input: FileSystem.Fs<H, K>, index: nat, result: R, distribution: map<nat, nat>)

  /** The chunk-size distribution of a state for an adjustment
      (`CDCFixture::size_distribution`). */
  type Distribution<!H, !K> = (FileSystem.Fs<H, K>, nat) -> map<nat, nat>

  /** The state a step with cleanup starts from: `previous` cleared, then
      filled. */
  predicate RefilledFrom<H, K>(
    fill: FileSystem.Fs<H, K> -> Result<FileSystem.Fs<H, K>>, previous: FileSystem.Fs<H, K>, s: FileSystem.Fs<H, K>)
  {
    fill(Bench.Clear(previous)) == Ok(s)
  }

  /** What a step's measurement gave: the state it left and its result,
      or its error. */
  function Measured<H, K, R>(step: Step<H, K, R>, measure: Bench.Measure<H, K, R>): Result<(FileSystem.Fs<H, K>, R)>
  {
    measure(step.input, step.index)
  }

  /** The loop with cleanup for the `n` steps from index `next` on: before
      each measurement the database is cleared and filled again. */
  function CleanupSteps<H, K, R>(
    fs: FileSystem.Fs<H, K>,
    next: nat,
    n: nat,
    adjustment: nat,
    fill: FileSystem.Fs<H, K> -> Result<FileSystem.Fs<H, K>>,
    measure: Bench.Measure<H, K, R>,
    distribution: Distribution<H, K>)
    : (r: Result<(FileSystem.Fs<H, K>, seq<Step<H, K, R>>)>)
    ensures r.Ok? ==> |r.value.1| == n
    ensures r.Ok? && n > 0 ==> RefilledFrom(fill, fs, r.value.1[0].input)
    ensures r.Ok? ==> forall i :: 0 <= i < n - 1 ==>
      Measured(r.value.1[i], measure).Ok? &&
      RefilledFrom(fill, Measured(r.value.1[i], measure).value.0, r.value.1[i + 1].input)
    ensures r.Ok? ==> forall i :: 0 <= i < n ==>
      r.value.1[i].index == next + i && StepTaken(r.value.1[i], adjustment, measure, distribution)
    decreases n
  {
    if n == 0 then
      Ok((fs, []))
    else
      var filled :- fill(Bench.Clear(fs));
      var (after, result) :- measure(filled, next);
      var step := Step(filled, next, result, distribution(after, adjustment));
      var rest :- CleanupSteps(after, next + 1, n - 1, adjustment, fill, measure, distribution);
      Ok((rest.0, [step] + rest.1))
  }

  /** A step records a successful measurement from its input at its index
      and the distribution of the state it left. */
  ghost predicate StepTaken<H, K, R>(
    step: Step<H, K, R>, adjustment: nat, measure: Bench.Measure<H, K, R>, distribution: Distribution<H, K>)
  {
    && Measured(step, measure).Ok?
    && step.result == Measured(step, measure).value.1
    && step.distribution == distribution(Measured(step, measure).value.0, adjustment)
  }

  /** The loop without cleanup for the `n` steps from index `next` on: each
      measurement starts from the state the previous one left. */
  function KeptSteps<H, K, R>(
    fs: FileSystem.Fs<H, K>,
    next: nat,
    n: nat,
    adjustment: nat,
    measure: Bench.Measure<H, K, R>,
    distribution: Distribution<H, K>)
    : (r: Result<(FileSystem.Fs<H, K>, seq<Step<H, K, R>>)>)
    ensures r.Ok? ==> |r.value.1| == n
    ensures r.Ok? && n > 0 ==> r.value.1[0].input == fs
    ensures r.Ok? ==> forall i :: 0 <= i < n ==>
      r.value.1[i].index == next + i && StepTaken(r.value.1[i], adjustment, measure, distribution)
    ensures r.Ok? ==> forall i :: 0 <= i < n - 1 ==>
      Measured(r.value.1[i], measure).Ok? && r.value.1[i + 1].input == Measured(r.value.1[i], measure).value.0
    decreases n
  {
    if n == 0 then
      Ok((fs, []))
    else
      var (after, result) :- measure(fs, next);
      var step := Step(fs, next, result, distribution(after, adjustment));
      var rest :- KeptSteps(after, next + 1, n - 1, adjustment, measure, distribution);
      Ok((rest.0, [step] + rest.1))
  }

  /** The `measure` command's loop: with cleanup, the database is cleared
      and refilled before each of the `count` measurements; without, it is
      filled once. The i-th measurement is run i, and every distribution
      uses the given adjustment, 1000 by default. */
  function MeasureLoop<H, K, R>(
    fs: FileSystem.Fs<H, K>,
    count: nat,
    cleanup: bool,
    adjustment: Option<nat>,
    fill: FileSystem.Fs<H, K> -> Result<FileSystem.Fs<H, K>>,
    measure: Bench.Measure<H, K, R>,
    distribution: Distribution<H, K>)
    : (r: Result<(FileSystem.Fs<H, K>, seq<Step<H, K, R>>)>)
    ensures r.Ok? ==> |r.value.1| == count
    ensures r.Ok? ==> forall i :: 0 <= i < count ==>
      && r.value.1[i].index == i
      && StepTaken(r.value.1[i], if adjustment.Some? then adjustment.value else 1000, measure, distribution)
    ensures r.Ok? && cleanup && count > 0 ==> RefilledFrom(fill, fs, r.value.1[0].input)
    ensures r.Ok? && cleanup ==> forall i :: 0 <= i < count - 1 ==>
      Measured(r.value.1[i], measure).Ok? &&
      RefilledFrom(fill, Measured(r.value.1[i], measure).value.0, r.value.1[i + 1].input)
    ensures r.Ok? && !cleanup && count > 0 ==> fill(fs).Ok? && r.value.1[0].input == fill(fs).value
    ensures r.Ok? && !cleanup ==> forall i :: 0 <= i < count - 1 ==>
      Measured(r.value.1[i], measure).Ok? && r.value.1[i + 1].input == Measured(r.value.1[i], measure).value.0
  {
    var adj := if adjustment.Some? then adjustment.value else DefaultAdjustment;
    if cleanup then
      CleanupSteps(fs, 0, count, adj, fill, measure, distribution)
    else
      var filled :- fill(fs);
      KeptSteps(filled, 0, count, adj, measure, distribution)
  }

  /** `distribution.{index}.json`. */
  function DistributionFileName(index: nat): (name: string)
    ensures "distribution." <= name
    ensures name[|name| - 5..] == ".json"
  {
    "distribution." + Text.Decimal(index) + ".json"
  }

  /** Distinct measurements write distinct distribution files, so none
      overwrites another. */
  lemma DistributionFilesDistinct(i: nat, j: nat)
    requires i != j
    ensures DistributionFileName(i) != DistributionFileName(j)
  {
    if DistributionFileName(i) == DistributionFileName(j) {
      Text.WrappedInjective("distribution.", Text.Decimal(i), Text.Decimal(j), ".json");
      Text.DecimalInjective(i, j);
    }
  }

  /** The distribution files of a run, in measurement order: the i-th
      measurement's distribution goes to `distribution.{i}.json`. */
  function DistributionFiles<H, K, R>(steps: seq<Step<H, K, R>>): (r: seq<(string, map<nat, nat>)>)
    ensures |r| == |steps|
    ensures forall i :: 0 <= i < |steps| ==> r[i].1 == steps[i].distribution
    ensures forall i, j :: 0 <= i < j < |steps| ==> r[i].0 != r[j].0
  {
    var r := seq(|steps|, i requires 0 <= i < |steps| => (DistributionFileName(i), steps[i].distribution));
    assert forall i, j :: 0 <= i < j < |steps| ==> r[i].0 != r[j].0 by {
      forall i, j | 0 <= i < j < |steps|
        ensures r[i].0 != r[j].0
      {
        DistributionFilesDistinct(i, j);
      }
    }
    r
  }
}

=== FILE: data_block.dfy ===
/** The read-side layout helper of src/system/data_block.rs: the location of
    a stored value (`DataInfo`), block-size padding, and `DataBlock`s, which
    are contiguous runs of values read or written with one device request. */
module DataBlock {
  import opened Wrappers
  import opened Bincode
  import Arith

  /** Where a serialized value lies on the device. */
  datatype DataInfo = DataInfo(offset: nat, length: nat)

  function End(info: DataInfo): nat
  {
    info.offset + info.length
  }

  /** `Alignment::None` or `Alignment::ByBlockSize(b)`. */
  datatype Alignment = NoAlignment | ByBlockSize(blockSize: nat)

  /** A block size of zero would make every padding computation divide by
      zero; the databases never build one. */
  predicate ValidAlignment(a: Alignment)
  {
    a.ByBlockSize? ==> a.blockSize > 0
  }

  datatype DataBlock = DataBlock(data: seq<byte>, offset: nat, infos: seq<DataInfo>)

  /** Each info ends where the next one starts. */
  predicate Contiguous(infos: seq<DataInfo>)
  {
    forall i :: 0 <= i < |infos| - 1 ==> End(infos[i]) == infos[i + 1].offset
  }

  /** `u64::div_ceil`. */
  function DivCeil(x: nat, d: nat): nat
    requires d > 0
  {
    if x % d > 0 then x / d + 1 else x / d
  }

  /** `padding_to_multiple_block_size`: the number of bytes that completes
      `length` to a multiple of the block size (1000 with 512 gives 24). */
  function PaddingToMultipleBlockSize(length: nat, blockSize: nat): (p: nat)
    requires blockSize > 0
    ensures length % blockSize == 0 ==> p == 0
    ensures length % blockSize != 0 ==> 0 < p < blockSize
    ensures (length + p) % blockSize == 0
    ensures length + p == DivCeil(length, blockSize) * blockSize
  {
    var q := length / blockSize;
    if length % blockSize == 0 then
      0
    else
      assert (q + 1) * blockSize == q * blockSize + blockSize;
      Arith.DivUnique((q + 1) * blockSize, blockSize, q + 1, 0);
      (q + 1) * blockSize - length
  }

  /** The padding is the only completion below the block size: any `q < b`
      that makes `length + q` a multiple of `b` is the padding. */
  lemma PaddingIsUnique(length: nat, blockSize: nat, q: nat)
    requires blockSize > 0 && q < blockSize && (length + q) % blockSize == 0
    ensures q == PaddingToMultipleBlockSize(length, blockSize)
  {
    var p := PaddingToMultipleBlockSize(length, blockSize);
    var n := length / blockSize;
    var r := length % blockSize;
    var k := (length + q) / blockSize;
    assert length + q == k * blockSize;
    if r == 0 {
      Arith.DivUnique(length + q, blockSize, n, q);
    } else {
      assert length + p == (n + 1) * blockSize;
      Arith.DivUnique(length + q, blockSize, k, 0);
      Arith.DivUnique(length, blockSize, k - 1, blockSize - q);
    }
  }

  /** `start_and_end_padding_of_datablock`: the padding that extends
      `start..end` at both sides to block boundaries. */
  function StartAndEndPadding(start: nat, end: nat, alignment: Alignment): (r: (nat, nat))
    requires start <= end && ValidAlignment(alignment)
    ensures alignment.NoAlignment? ==> r == (0, 0)
    ensures alignment.ByBlockSize? ==>
      var b := alignment.blockSize;
      && r.0 == start % b
      && r.0 <= start
      && (start - r.0) % b == 0
      && r.1 < b
      && (end - start + r.0 + r.1) % b == 0
  {
    match alignment
    case ByBlockSize(b) =>
      var sp := start % b;
      assert (start / b) * b >= 0;
      Arith.DivUnique(start - sp, b, start / b, 0);
      (sp, PaddingToMultipleBlockSize(end - start + sp, b))
    case NoAlignment =>
      (0, 0)
  }

  /** Contiguous infos lie between the first offset and the last end. */
  lemma ContiguousWithin(infos: seq<DataInfo>)
    requires Contiguous(infos) && |infos| > 0
    ensures forall i :: 0 <= i < |infos| ==>
      infos[0].offset <= infos[i].offset && End(infos[i]) <= End(infos[|infos| - 1])
  {
    forall i | 0 <= i < |infos|
      ensures infos[0].offset <= infos[i].offset
    {
      var j := 0;
      while j < i
        invariant j <= i && infos[0].offset <= infos[j].offset
      {
        j := j + 1;
      }
    }
    forall i | 0 <= i < |infos|
      ensures End(infos[i]) <= End(infos[|infos| - 1])
    {
      var j := i;
      while j < |infos| - 1
        invariant i <= j <= |infos| - 1 && End(infos[i]) <= End(infos[j])
      {
        j := j + 1;
      }
    }
  }

  /** `DataBlock::from_data_infos`: a zeroed buffer covering the infos and
      their alignment padding, to be filled from the device. */
  function FromDataInfos(alignment: Alignment, infos: seq<DataInfo>): (r: Result<DataBlock>)
    requires ValidAlignment(alignment)
    requires |infos| > 0 ==> infos[0].offset <= End(infos[|infos| - 1])
    ensures r.Err? <==> |infos| == 0
    ensures r.Err? ==> r.error == InvalidData
    ensures r.Ok? ==>
      var first, end := infos[0].offset, End(infos[|infos| - 1]);
      var pad := StartAndEndPadding(first, end, alignment);
      && |r.value.data| == end - first + pad.0 + pad.1
      && r.value.offset + pad.0 == first
      && r.value.infos == infos
      && (forall i :: 0 <= i < |r.value.data| ==> r.value.data[i] == 0)
  {
    if |infos| == 0 then
      Err(InvalidData)
    else
      var first, last := infos[0], infos[|infos| - 1];
      var (sp, ep) := StartAndEndPadding(first.offset, End(last), alignment);
      Ok(DataBlock(Repeat(0, End(last) - first.offset + sp + ep), first.offset - sp, infos))
  }

  /** The infos of values laid out one after another from `offset`: the i-th
      starts after the lengths of the values before it. */
  function InfosFrom(values: seq<seq<byte>>, offset: nat): (r: seq<DataInfo>)
    ensures |r| == |values|
    ensures forall i :: 0 <= i < |r| ==>
      r[i].offset == offset + SumLengths(values[..i]) && r[i].length == |values[i]|
    decreases |values|
  {
    if |values| == 0 then
      []
    else
      var rest := InfosFrom(values[1..], offset + |values[0]|);
      var r := [DataInfo(offset, |values[0]|)] + rest;
      forall i | 1 <= i < |r|
        ensures r[i].offset == offset + SumLengths(values[..i])
      {
        assert r[i] == rest[i - 1];
        assert values[..i][1..] == values[1..][..i - 1];
      }
      r
  }

  /** Consecutive values get contiguous infos. */
  lemma InfosFromContiguous(values: seq<seq<byte>>, offset: nat)
    ensures Contiguous(InfosFrom(values, offset))
  {
    var infos := InfosFrom(values, offset);
    forall i | 0 <= i < |infos| - 1
      ensures End(infos[i]) == infos[i + 1].offset
    {
      SumLengthsSnoc(values, i);
    }
  }

  /** `DataBlock::from_values`: the values with their infos laid out from
      `offset`, padded at both ends when aligned. */
  function FromValues(alignment: Alignment, values: seq<seq<byte>>, offset: nat): (r: Result<DataBlock>)
    requires ValidAlignment(alignment)
    ensures r.Err? <==> |values| == 0
    ensures r.Err? ==> r.error == InvalidData
    ensures r.Ok? ==>
      && |r.value.infos| == |values|
      && r.value.infos[0].offset == offset
      && Contiguous(r.value.infos)
      && (forall i :: 0 <= i < |values| ==> r.value.infos[i].length == |values[i]|)
    ensures r.Ok? ==>
      var pad := StartAndEndPadding(offset, offset + SumLengths(values), alignment);
      && r.value.data == Repeat(0, pad.0) + Concat(values) + Repeat(0, pad.1)
      && r.value.offset + pad.0 == offset
  {
    if |values| == 0 then
      Err(InvalidData)
    else
      var infos := InfosFrom(values, offset);
      var last := infos[|infos| - 1];
      SumLengthsSnoc(values, |values| - 1);
      assert values[..|values|] == values;
      InfosFromContiguous(values, offset);
      assert End(last) == offset + SumLengths(values);
      var (sp, ep) := StartAndEndPadding(offset, End(last), alignment);
      var padded := [Repeat(0, sp)] + values + [Repeat(0, ep)];
      ConcatAppend([Repeat(0, sp)] + values, [Repeat(0, ep)]);
      ConcatAppend([Repeat(0, sp)], values);
      assert Concat([Repeat(0, sp)]) == Repeat(0, sp) + Concat<byte>([]);
      assert Concat([Repeat(0, ep)]) == Repeat(0, ep) + Concat<byte>([]);
      Ok(DataBlock(Concat(padded), offset - sp, infos))
  }

  /** Every info of the block selects a range inside its buffer. */
  predicate WellFormed(b: DataBlock)
  {
    forall i :: 0 <= i < |b.infos| ==>
      b.offset <= b.infos[i].offset && b.infos[i].offset - b.offset + b.infos[i].length <= |b.data|
  }

  /** The bytes `decode_datablocks` reads for the i-th info of a block. */
  function Slice(b: DataBlock, i: nat): (r: seq<byte>)
    requires WellFormed(b) && i < |b.infos|
    ensures |r| == b.infos[i].length
  {
    var start := b.infos[i].offset - b.offset;
    b.data[start..start + b.infos[i].length]
  }

  /** In a block built by `from_values`, the slice read for the i-th info is
      exactly the i-th value. */
  lemma {:induction false} FromValuesSlice(alignment: Alignment, values: seq<seq<byte>>, offset: nat, i: nat)
    requires ValidAlignment(alignment) && i < |values|
    ensures FromValues(alignment, values, offset).Ok?
    ensures WellFormed(FromValues(alignment, values, offset).value)
    ensures Slice(FromValues(alignment, values, offset).value, i) == values[i]
  {
    var b := FromValues(alignment, values, offset).value;
    var pad := StartAndEndPadding(offset, offset + SumLengths(values), alignment);
    assert b.infos == InfosFrom(values, offset);
    PaddedBlockSlice(b, pad.0, values, pad.1, offset, i);
  }

  /** A block holding the values between `sp` and `ep` zeros, with the
      infos `InfosFrom` lays out, is well formed and selects the values. */
  lemma PaddedBlockSlice(b: DataBlock, sp: nat, values: seq<seq<byte>>, ep: nat, offset: nat, i: nat)
    requires b.data == Repeat(0, sp) + Concat(values) + Repeat(0, ep)
    requires b.offset + sp == offset && b.infos == InfosFrom(values, offset) && i < |values|
    ensures WellFormed(b) && Slice(b, i) == values[i]
  {
    forall j | 0 <= j < |b.infos|
      ensures b.offset <= b.infos[j].offset
      ensures b.infos[j].offset - b.offset + b.infos[j].length <= |b.data|
    {
      PaddedInfo(b, sp, values, ep, offset, j);
    }
    PaddedInfo(b, sp, values, ep, offset, i);
  }

  /** The j-th info of such a block selects the j-th value. */
  lemma PaddedInfo(b: DataBlock, sp: nat, values: seq<seq<byte>>, ep: nat, offset: nat, j: nat)
    requires b.data == Repeat(0, sp) + Concat(values) + Repeat(0, ep)
    requires b.offset + sp == offset && b.infos == InfosFrom(values, offset) && j < |values|
    ensures b.offset <= b.infos[j].offset
    ensures b.infos[j].offset - b.offset + b.infos[j].length <= |b.data|
    ensures b.data[b.infos[j].offset - b.offset..b.infos[j].offset - b.offset + b.infos[j].length] == values[j]
  {
    PaddedSlice(sp, values, ep, j);
    assert b.infos[j].offset - b.offset == sp + SumLengths(values[..j]);
  }

  /** The i-th value inside `sp` zeros, the values, and `ep` zeros. */
  lemma PaddedSlice(sp: nat, values: seq<seq<byte>>, ep: nat, i: nat)
    requires i < |values|
    ensures var data := Repeat(0, sp) + Concat(values) + Repeat(0, ep);
      var start := sp + SumLengths(values[..i]);
      && start + |values[i]| <= |data|
      && data[start..start + |values[i]|] == values[i]
  {
    ConcatSlice(values, i);
    var data := Repeat(0, sp) + Concat(values) + Repeat(0, ep);
    var start := SumLengths(values[..i]);
    assert data[sp + start..sp + start + |values[i]|] == Concat(values)[start..start + |values[i]|];
  }

  function Last<T>(s: seq<T>): T
    requires |s| > 0
  {
    s[|s| - 1]
  }

  /** One step of the grouping loop of `split_to_datablocks`: the next info
      joins the current (last) group when it starts where that group's last
      info ends, and opens a new group otherwise. */
  function AddToGroups(g: seq<seq<DataInfo>>, next: DataInfo): (r: seq<seq<DataInfo>>)
    requires |g| > 0 && forall j :: 0 <= j < |g| ==> |g[j]| > 0
    ensures |r| > 0 && forall j :: 0 <= j < |r| ==> |r[j]| > 0
  {
    if next.offset == End(Last(Last(g))) then
      g[..|g| - 1] + [Last(g) + [next]]
    else
      g + [[next]]
  }

  /** The groups the loop of `split_to_datablocks` builds from `infos`. */
  function Groups(infos: seq<DataInfo>): (g: seq<seq<DataInfo>>)
    ensures |g| == 0 <==> |infos| == 0
    ensures forall j :: 0 <= j < |g| ==> |g[j]| > 0
    decreases |infos|
  {
    if |infos| <= 1 then
      if |infos| == 0 then [] else [infos]
    else
      AddToGroups(Groups(infos[..|infos| - 1]), infos[|infos| - 1])
  }

  /** The groups are contiguous runs, consecutive groups are not contiguous
      with each other, and flattening the groups gives back the input. So a
      new group starts exactly where an info does not begin at the previous
      info's end. */
  lemma {:induction false} GroupsSplitAtGaps(infos: seq<DataInfo>)
    ensures forall j :: 0 <= j < |Groups(infos)| ==> Contiguous(Groups(infos)[j])
    ensures forall j :: 0 <= j < |Groups(infos)| - 1 ==>
      End(Last(Groups(infos)[j])) != Groups(infos)[j + 1][0].offset
    ensures Concat(Groups(infos)) == infos
    decreases |infos|
  {
    if |infos| == 1 {
      assert Concat([infos]) == infos + Concat<DataInfo>([]);
    } else if |infos| > 1 {
      var n := |infos|;
      var init := Groups(infos[..n - 1]);
      GroupsSplitAtGaps(infos[..n - 1]);
      AddToGroupsKeepsSplit(init, infos[n - 1]);
      assert infos == infos[..n - 1] + [infos[n - 1]];
    }
  }

  /** One grouping step keeps the three properties of `GroupsSplitAtGaps`. */
  lemma AddToGroupsKeepsSplit(g: seq<seq<DataInfo>>, next: DataInfo)
    requires |g| > 0 && forall j :: 0 <= j < |g| ==> |g[j]| > 0
    requires forall j :: 0 <= j < |g| ==> Contiguous(g[j])
    requires forall j :: 0 <= j < |g| - 1 ==> End(Last(g[j])) != g[j + 1][0].offset
    ensures var r := AddToGroups(g, next);
      && (forall j :: 0 <= j < |r| ==> Contiguous(r[j]))
      && (forall j :: 0 <= j < |r| - 1 ==> End(Last(r[j])) != r[j + 1][0].offset)
      && Concat(r) == Concat(g) + [next]
  {
    var group := Last(g);
    ConcatAppend(g[..|g| - 1], [group]);
    assert g == g[..|g| - 1] + [group];
    assert Concat([group]) == group + Concat<DataInfo>([]);
    if next.offset == End(Last(group)) {
      ConcatAppend(g[..|g| - 1], [group + [next]]);
      assert Concat([group + [next]]) == group + [next] + Concat<DataInfo>([]);
    } else {
      ConcatAppend(g, [[next]]);
      assert Concat([[next]]) == [next] + Concat<DataInfo>([]);
    }
  }

  /** The last element of a concatenation of non-empty groups is the last
      element of the last group. */
  lemma ConcatLastOfLast<T>(g: seq<seq<T>>)
    requires |g| > 0 && forall j :: 0 <= j < |g| ==> |g[j]| > 0
    ensures |Concat(g)| > 0 && Last(Concat(g)) == Last(Last(g))
  {
    assert g == g[..|g| - 1] + [Last(g)];
    ConcatAppend(g[..|g| - 1], [Last(g)]);
    assert Concat([Last(g)]) == Last(g) + Concat<T>([]);
  }

  /** The zeroed block `from_data_infos` builds for one contiguous group. */
  function GroupBlock(alignment: Alignment, group: seq<DataInfo>): (b: DataBlock)
    requires ValidAlignment(alignment) && |group| > 0 && Contiguous(group)
    ensures b.infos == group && WellFormed(b)
  {
    ContiguousWithin(group);
    FromDataInfos(alignment, group).value
  }

  /** `DataBlock::split_to_datablocks`: one zeroed block per group. */
  function SplitToDatablocks(alignment: Alignment, infos: seq<DataInfo>): (r: seq<DataBlock>)
    requires ValidAlignment(alignment)
    ensures |r| == |Groups(infos)|
    ensures forall j :: 0 <= j < |r| ==> r[j].infos == Groups(infos)[j] && WellFormed(r[j])
  {
    var g := Groups(infos);
    GroupsSplitAtGaps(infos);
    seq(|g|, j requires 0 <= j < |g| => GroupBlock(alignment, g[j]))
  }

  /** The infos of each block. */
  function InfosOf(blocks: seq<DataBlock>): (r: seq<seq<DataInfo>>)
    ensures |r| == |blocks| && forall j :: 0 <= j < |r| ==> r[j] == blocks[j].infos
  {
    seq(|blocks|, j requires 0 <= j < |blocks| => blocks[j].infos)
  }

  /** Splitting never loses, reorders or invents an info: flattening the
      blocks' infos gives back the input. Together with the contract of
      `Groups`, a block boundary falls exactly where an info does not start
      at the previous one's end. */
  lemma {:induction false} SplitFlattensBack(alignment: Alignment, infos: seq<DataInfo>)
    requires ValidAlignment(alignment)
    ensures |infos| == 0 <==> SplitToDatablocks(alignment, infos) == []
    ensures Concat(InfosOf(SplitToDatablocks(alignment, infos))) == infos
  {
    GroupsSplitAtGaps(infos);
    assert InfosOf(SplitToDatablocks(alignment, infos)) == Groups(infos);
  }

  /** Decoding byte strings in order, stopping at the first that does not
      decode. */
  function DecodeAll<V>(slices: seq<seq<byte>>, codec: Codec<V>): (r: Result<seq<V>>)
    ensures r.Ok? <==> forall i :: 0 <= i < |slices| ==> codec.decode(slices[i]).Some?
    ensures r.Ok? ==> |r.value| == |slices|
    ensures r.Ok? ==> forall i :: 0 <= i < |slices| ==> codec.decode(slices[i]) == Some(r.value[i])
    ensures r.Err? ==> r.error == InvalidData
    decreases |slices|
  {
    if |slices| == 0 then
      Ok([])
    else
      match codec.decode(slices[0])
      case None => Err(InvalidData)
      case Some(v) =>
        var rest := DecodeAll(slices[1..], codec);
        if rest.Err? then
          assert exists i :: 1 <= i < |slices| && codec.decode(slices[i]).None? by {
            var i :| 0 <= i < |slices[1..]| && codec.decode(slices[1..][i]).None?;
            assert slices[1..][i] == slices[i + 1];
          }
          rest
        else
          var r := [v] + rest.value;
          assert forall i :: 1 <= i < |slices| ==> slices[i] == slices[1..][i - 1] && r[i] == rest.value[i - 1];
          Ok(r)
  }

  /** The slices of all infos of all blocks, block by block. */
  function AllSlices(blocks: seq<DataBlock>): seq<seq<byte>>
    requires forall j :: 0 <= j < |blocks| ==> WellFormed(blocks[j])
    decreases |blocks|
  {
    if |blocks| == 0 then
      []
    else
      seq(|blocks[0].infos|, i requires 0 <= i < |blocks[0].infos| => Slice(blocks[0], i)) + AllSlices(blocks[1..])
  }

  /** `DataBlock::decode_datablocks`: decodes the slice of every info of every
      block, in order; a decode failure is InvalidData. */
  function DecodeDatablocks<V>(blocks: seq<DataBlock>, codec: Codec<V>): (r: Result<seq<V>>)
    requires forall j :: 0 <= j < |blocks| ==> WellFormed(blocks[j])
  {
    DecodeAll(AllSlices(blocks), codec)
  }

  /** Decoding a block built by `from_values` from encoded values gives the
      values back, in order. */
  lemma FromValuesDecodes<V(!new)>(alignment: Alignment, vs: seq<V>, codec: Codec<V>, offset: nat)
    requires ValidAlignment(alignment) && |vs| > 0 && PrefixInverse(codec)
    ensures var values := seq(|vs|, i requires 0 <= i < |vs| => codec.encode(vs[i]));
      && FromValues(alignment, values, offset).Ok?
      && WellFormed(FromValues(alignment, values, offset).value)
      && DecodeDatablocks([FromValues(alignment, values, offset).value], codec) == Ok(vs)
  {
    var values := seq(|vs|, i requires 0 <= i < |vs| => codec.encode(vs[i]));
    var b := FromValues(alignment, values, offset).value;
    FromValuesSlice(alignment, values, offset, 0);
    var slices := AllSlices([b]);
    assert [b][1..] == [] && [b][0] == b;
    assert slices == seq(|b.infos|, i requires 0 <= i < |b.infos| => Slice(b, i)) + AllSlices([]);
    assert |slices| == |vs|;
    forall i | 0 <= i < |vs|
      ensures codec.decode(slices[i]) == Some(vs[i])
    {
      FromValuesSlice(alignment, values, offset, i);
      DecodeEncoded(codec, vs[i]);
    }
    var r := DecodeDatablocks([b], codec);
    assert r.Ok?;
    assert r.value == vs;
  }
}

=== FILE: database.dfy ===
/** The key-value store interface of src/system/database.rs: the default
    methods of the `Database` trait, written for any store state `S` and its
    `try_insert`/`get`, and the `HashMap` implementation, whose state is a
    map. */
module Database {
  import opened Wrappers

  /** `Database::try_insert_multi`: `try_insert` applied to the pairs left to
      right, stopping at the first error. */
  function TryInsertMulti<S, K, V>(s: S, pairs: seq<(K, V)>, tryInsert: (S, K, V) -> Result<S>)
    : (r: Result<S>)
    ensures |pairs| == 0 ==> r == Ok(s)
    ensures |pairs| > 0 && tryInsert(s, pairs[0].0, pairs[0].1).Err? ==>
      r == Err(tryInsert(s, pairs[0].0, pairs[0].1).error)
    ensures |pairs| > 0 && tryInsert(s, pairs[0].0, pairs[0].1).Ok? ==>
      r == TryInsertMulti(tryInsert(s, pairs[0].0, pairs[0].1).value, pairs[1..], tryInsert)
    decreases |pairs|
  {
    if |pairs| == 0 then
      Ok(s)
    else
      var next :- tryInsert(s, pairs[0].0, pairs[0].1);
      TryInsertMulti(next, pairs[1..], tryInsert)
  }

  /** `Database::get_multi`: the values of the keys in key order, or the
      error of the first key whose `get` fails. */
  function GetMulti<S, K, V>(s: S, keys: seq<K>, get: (S, K) -> Result<V>): (r: Result<seq<V>>)
    ensures r.Ok? <==> forall i :: 0 <= i < |keys| ==> get(s, keys[i]).Ok?
    ensures r.Ok? ==> |r.value| == |keys|
    ensures r.Ok? ==> forall i :: 0 <= i < |keys| ==> r.value[i] == get(s, keys[i]).value
    ensures r.Err? ==> exists i :: 0 <= i < |keys| && get(s, keys[i]) == Err(r.error)
    decreases |keys|
  {
    if |keys| == 0 then
      Ok([])
    else
      match get(s, keys[0])
      case Err(e) => Err(e)
      case Ok(v) =>
        var rest := GetMulti(s, keys[1..], get);
        assert forall i :: 1 <= i < |keys| ==> keys[i] == keys[1..][i - 1];
        if rest.Err? then
          Err(rest.error)
        else
          Ok([v] + rest.value)
  }

  /** `HashMap::try_insert` (`entry(key).or_insert(value)`): never fails,
      adds an absent key and keeps the value of a present one. */
  function TryInsert<K, V>(m: map<K, V>, key: K, value: V): (r: Result<map<K, V>>)
    ensures r.Ok?
    ensures r.value.Keys == m.Keys + {key}
    ensures forall k :: k in m ==> r.value[k] == m[k]
    ensures key !in m ==> r.value[key] == value
  {
    if key in m then Ok(m) else Ok(m[key := value])
  }

  /** `HashMap::insert`: never fails and overwrites any existing value. */
  function Insert<K, V>(m: map<K, V>, key: K, value: V): (r: Result<map<K, V>>)
    ensures r.Ok?
    ensures r.value.Keys == m.Keys + {key}
    ensures r.value[key] == value
    ensures forall k :: k in m && k != key ==> r.value[k] == m[k]
  {
    Ok(m[key := value])
  }

  /** `HashMap::contains`. */
  predicate Contains<K, V>(m: map<K, V>, key: K)
  {
    key in m
  }

  /** `HashMap::get`: the stored value, or NotFound. */
  function Get<K, V>(m: map<K, V>, key: K): (r: Result<V>)
    ensures r.Ok? <==> Contains(m, key)
    ensures r.Ok? ==> r.value == m[key]
    ensures r.Err? ==> r.error == NotFound
  {
    if key in m then Ok(m[key]) else Err(NotFound)
  }

  /** `HashMap::clear`: no key is stored afterwards. */
  function Clear<K, V>(m: map<K, V>): (r: Result<map<K, V>>)
    ensures r.Ok? && r.value.Keys == {}
  {
    Ok(map[])
  }

  /** On a map, `try_insert_multi` never fails. */
  lemma {:induction false} MapTryInsertMultiOk<K, V>(m: map<K, V>, pairs: seq<(K, V)>)
    ensures TryInsertMulti(m, pairs, TryInsert).Ok?
    decreases |pairs|
  {
    if |pairs| > 0 {
      MapTryInsertMultiOk(TryInsert(m, pairs[0].0, pairs[0].1).value, pairs[1..]);
    }
  }

  /** The value of the first pair with key `key`, if any. */
  function FirstValue<K(==), V>(pairs: seq<(K, V)>, key: K): Option<V>
    decreases |pairs|
  {
    if |pairs| == 0 then None
    else if pairs[0].0 == key then Some(pairs[0].1)
    else FirstValue(pairs[1..], key)
  }

  /** On a map, `try_insert_multi` succeeds; the first write of a key wins:
      a stored key keeps its value, and an absent key gets the value of its
      first pair. */
  lemma {:induction false} MapTryInsertMultiFirstWins<K(!new), V>(m: map<K, V>, pairs: seq<(K, V)>)
    ensures TryInsertMulti(m, pairs, TryInsert).Ok?
    ensures forall k :: k in TryInsertMulti(m, pairs, TryInsert).value <==>
      k in m || FirstValue(pairs, k).Some?
    ensures forall k :: k in TryInsertMulti(m, pairs, TryInsert).value ==>
      TryInsertMulti(m, pairs, TryInsert).value[k]
        == if k in m then m[k] else FirstValue(pairs, k).value
    decreases |pairs|
  {
    if |pairs| > 0 {
      var m' := TryInsert(m, pairs[0].0, pairs[0].1).value;
      MapTryInsertMultiFirstWins(m', pairs[1..]);
    }
  }

  /** On a map, `get_multi` fails with NotFound exactly when some key is
      absent, and otherwise returns the stored values in key order. */
  lemma MapGetMulti<K, V>(m: map<K, V>, keys: seq<K>)
    ensures GetMulti(m, keys, Get).Ok? <==> forall i :: 0 <= i < |keys| ==> keys[i] in m
    ensures GetMulti(m, keys, Get).Err? ==> GetMulti(m, keys, Get).error == NotFound
    ensures GetMulti(m, keys, Get).Ok? ==>
      GetMulti(m, keys, Get).value == seq(|keys|, i requires 0 <= i < |keys| && keys[i] in m => m[keys[i]])
  {
  }
}

=== FILE: device.dfy ===
/** A storage device (a block device or a regular file) as a byte sequence,
    with the positioned reads and writes the databases issue: `read_at`,
    `write_all_at`, and `seek` followed by `write_all`. */
module Device {
  import opened Wrappers

  /** Reading `n` bytes at `offset` into a zeroed buffer: bytes past the end
      of the device stay zero. */
  function ReadAt(device: seq<byte>, offset: nat, n: nat): (r: seq<byte>)
    ensures |r| == n
    ensures forall i :: 0 <= i < n && offset + i < |device| ==> r[i] == device[offset + i]
    ensures forall i :: 0 <= i < n && offset + i >= |device| ==> r[i] == 0
  {
    seq(n, i requires 0 <= i < n => if offset + i < |device| then device[offset + i] else 0)
  }

  /** Writing `data` at `offset`: the device grows (zero-filled) if the write
      ends past its current end. */
  function WriteAt(device: seq<byte>, offset: nat, data: seq<byte>): (r: seq<byte>)
    ensures |r| == if offset + |data| <= |device| then |device| else offset + |data|
    ensures forall i :: 0 <= i < |data| ==> r[offset + i] == data[i]
    ensures forall i :: 0 <= i < |r| && (i < offset || i >= offset + |data|) ==>
      r[i] == if i < |device| then device[i] else 0
  {
    var len := if offset + |data| <= |device| then |device| else offset + |data|;
    seq(len, i requires 0 <= i < len =>
      if offset <= i < offset + |data| then data[i - offset]
      else if i < |device| then device[i]
      else 0)
  }

  /** Reading back the bytes just written returns them. */
  lemma ReadAfterWrite(device: seq<byte>, offset: nat, data: seq<byte>)
    ensures ReadAt(WriteAt(device, offset, data), offset, |data|) == data
  {
  }

  /** A read inside a write returns the written bytes it covers. */
  lemma ReadInsideWrite(device: seq<byte>, offset: nat, data: seq<byte>, a: nat, n: nat)
    requires a + n <= |data|
    ensures ReadAt(WriteAt(device, offset, data), offset + a, n) == data[a..a + n]
  {
    var written := WriteAt(device, offset, data);
    var read, want := ReadAt(written, offset + a, n), data[a..a + n];
    forall k | 0 <= k < n
      ensures read[k] == want[k]
    {
      assert written[offset + (a + k)] == data[a + k];
    }
  }

  /** A read that ends before a write starts, or starts after it ends, is
      unaffected by it. */
  lemma ReadOutsideWrite(device: seq<byte>, offset: nat, data: seq<byte>, at: nat, n: nat)
    requires at + n <= offset || offset + |data| <= at
    ensures ReadAt(WriteAt(device, offset, data), at, n) == ReadAt(device, at, n)
  {
  }

  /** A sub-range of a read is the read of that sub-range. */
  lemma ReadSlice(device: seq<byte>, offset: nat, n: nat, a: nat, b: nat)
    requires a <= b <= n
    ensures ReadAt(device, offset, n)[a..b] == ReadAt(device, offset + a, b - a)
  {
  }
}

=== FILE: disk_database.dfy ===
/** The extent-based `DiskDatabase` of src/system/disk_database.rs: values
    are appended as one contiguous `DataBlock` per batch at `used_size`,
    located by `DataInfo`s, and read back in contiguous runs. */
module DiskDatabase {
  import opened Wrappers
  import opened Bincode
  import opened Device
  import opened DataBlock
  import Arith

  datatype DiskDb<K> = DiskDb(
    device: seq<byte>,
    index: map<K, DataInfo>,
    totalSize: nat,
    usedSize: nat,
    alignment: Alignment)

  /** A valid alignment, and `used_size` on a block boundary when aligned. */
  predicate Aligned<K>(db: DiskDb<K>)
  {
    && ValidAlignment(db.alignment)
    && (db.alignment.ByBlockSize? ==> db.usedSize % db.alignment.blockSize == 0)
  }

  /** The allocator's invariant: aligned, and every stored value below
      `used_size`. */
  predicate Valid<K>(db: DiskDb<K>)
  {
    && Aligned(db)
    && forall k :: k in db.index ==> End(db.index[k]) <= db.usedSize
  }

  /** `DiskDatabase::init` after the device queries: a zero block size is
      InvalidData; the block size is used for alignment only with O_DIRECT. */
  function Init<K>(device: seq<byte>, totalSize: nat, blockSize: nat, oDirect: bool): (r: Result<DiskDb<K>>)
    ensures r.Err? <==> blockSize == 0
    ensures r.Err? ==> r.error == InvalidData
    ensures r.Ok? ==> Valid(r.value) && r.value.index == map[] && r.value.usedSize == 0
    ensures r.Ok? ==> r.value.alignment == if oDirect then ByBlockSize(blockSize) else NoAlignment
  {
    if blockSize == 0 then
      Err(InvalidData)
    else
      var alignment := if oDirect then ByBlockSize(blockSize) else NoAlignment;
      Ok(DiskDb(device, map[], totalSize, 0, alignment))
  }

  /** `DiskDatabase::init_on_regular_file`: a zero-filled file of the given
      size, aligned by 512-byte blocks whether or not O_DIRECT is asked for. */
  function InitOnRegularFile<K>(dbSize: nat, oDirect: bool): (db: DiskDb<K>)
    ensures Valid(db) && db.index == map[] && db.usedSize == 0
    ensures db.alignment == ByBlockSize(512)
    ensures |db.device| == db.totalSize == dbSize
  {
    DiskDb(Repeat(0, dbSize), map[], dbSize, 0, ByBlockSize(512))
  }

  function Encoded<V>(values: seq<V>, codec: Codec<V>): (r: seq<seq<byte>>)
    ensures |r| == |values| && forall i :: 0 <= i < |r| ==> r[i] == codec.encode(values[i])
  {
    seq(|values|, i requires 0 <= i < |values| => codec.encode(values[i]))
  }

  /** `DiskDatabase::write_multi`: no values is a no-op; OutOfMemory when the
      encoded values would reach the end of the device; otherwise one block
      holding all of them is written at `used_size`, which grows by the
      block's padded length, and the infos of the values are returned. */
  function WriteMulti<K, V>(db: DiskDb<K>, values: seq<V>, codec: Codec<V>)
    : (r: Result<(DiskDb<K>, seq<DataInfo>)>)
    requires ValidAlignment(db.alignment)
    ensures |values| == 0 ==> r == Ok((db, []))
    ensures r.Err? <==> |values| > 0 && db.usedSize + SumLengths(Encoded(values, codec)) >= db.totalSize
    ensures r.Err? ==> r.error == OutOfMemory
    ensures r.Ok? ==>
      var (db', infos) := r.value;
      && db'.index == db.index && db'.totalSize == db.totalSize && db'.alignment == db.alignment
      && db'.usedSize >= db.usedSize + SumLengths(Encoded(values, codec))
      && |infos| == |values| && Contiguous(infos)
      && (|values| > 0 ==> infos[0].offset == db.usedSize)
      && (forall i :: 0 <= i < |infos| ==> infos[i].length == |codec.encode(values[i])|)
  {
    if |values| == 0 then
      Ok((db, []))
    else
      var encoded := Encoded(values, codec);
      if db.usedSize + SumLengths(encoded) >= db.totalSize then
        Err(OutOfMemory)
      else
        var block := FromValues(db.alignment, encoded, db.usedSize).value;
        ConcatLength(encoded);
        Ok((db.(device := WriteAt(db.device, db.usedSize, block.data), usedSize := db.usedSize + |block.data|),
            block.infos))
  }

  /** A successful `write_multi` on a valid database keeps it valid, and
      the new values lie below the new `used_size`. */
  lemma {:induction false} WriteMultiKeepsValid<K, V>(db: DiskDb<K>, values: seq<V>, codec: Codec<V>)
    requires Valid(db) && WriteMulti(db, values, codec).Ok?
    ensures var (db', infos) := WriteMulti(db, values, codec).value;
      && Valid(db')
      && (forall i :: 0 <= i < |infos| ==> End(infos[i]) <= db'.usedSize)
  {
    if |values| > 0 {
      var encoded := Encoded(values, codec);
      var used := db.usedSize;
      var pad := StartAndEndPadding(used, used + SumLengths(encoded), db.alignment);
      var (db', infos) := WriteMulti(db, values, codec).value;
      ConcatLength(encoded);
      if db.alignment.ByBlockSize? {
        Arith.AddMultiples(used, SumLengths(encoded) + pad.1, db.alignment.blockSize);
      }
      forall i | 0 <= i < |infos|
        ensures End(infos[i]) <= db'.usedSize
      {
        FromValuesSlice(db.alignment, encoded, used, i);
      }
    }
  }

  /** Every info `write_multi` returns reads back its encoded value from the
      new device, on a valid database. */
  lemma {:induction false} WriteMultiReadsBack<K, V>(db: DiskDb<K>, values: seq<V>, codec: Codec<V>, i: nat)
    requires Aligned(db) && WriteMulti(db, values, codec).Ok? && i < |values|
    ensures var (db', infos) := WriteMulti(db, values, codec).value;
      ReadAt(db'.device, infos[i].offset, infos[i].length) == codec.encode(values[i])
  {
    var encoded := Encoded(values, codec);
    var used := db.usedSize;
    var block := FromValues(db.alignment, encoded, used).value;
    assert StartAndEndPadding(used, used + SumLengths(encoded), db.alignment).0 == 0;
    assert block.offset == used;
    WriteMultiBlock(db, values, codec);
    FromValuesSlice(db.alignment, encoded, used, i);
    BlockReadsBack(db.device, block, i);
  }

  /** What a non-empty `write_multi` writes: the block `from_values` builds
      at `used_size`. */
  lemma WriteMultiBlock<K, V>(db: DiskDb<K>, values: seq<V>, codec: Codec<V>)
    requires ValidAlignment(db.alignment) && WriteMulti(db, values, codec).Ok? && |values| > 0
    ensures var block := FromValues(db.alignment, Encoded(values, codec), db.usedSize).value;
      && WriteMulti(db, values, codec).value.0.device == WriteAt(db.device, db.usedSize, block.data)
      && WriteMulti(db, values, codec).value.1 == block.infos
  {
  }

  /** A block written at its own offset reads back each of its slices. */
  lemma BlockReadsBack(device: seq<byte>, block: DataBlock, i: nat)
    requires WellFormed(block) && i < |block.infos|
    ensures ReadAt(WriteAt(device, block.offset, block.data), block.infos[i].offset, block.infos[i].length)
      == Slice(block, i)
  {
    var start := block.infos[i].offset - block.offset;
    ReadInsideWrite(device, block.offset, block.data, start, block.infos[i].length);
    assert block.offset + start == block.infos[i].offset;
  }

  /** `write_multi` leaves every byte below the old `used_size` unchanged. */
  lemma WriteMultiFrame<K, V>(db: DiskDb<K>, values: seq<V>, codec: Codec<V>, at: nat, n: nat)
    requires ValidAlignment(db.alignment) && WriteMulti(db, values, codec).Ok? && at + n <= db.usedSize
    ensures ReadAt(WriteMulti(db, values, codec).value.0.device, at, n) == ReadAt(db.device, at, n)
  {
    if |values| > 0 {
      var block := FromValues(db.alignment, Encoded(values, codec), db.usedSize).value;
      ReadOutsideWrite(db.device, db.usedSize, block.data, at, n);
    }
  }

  /** With a device size that is a multiple of the block size (or no
      alignment), `write_multi` never allocates past the end of the device. */
  lemma WriteMultiStaysOnDevice<K, V>(db: DiskDb<K>, values: seq<V>, codec: Codec<V>)
    requires Valid(db) && WriteMulti(db, values, codec).Ok?
    requires db.alignment.ByBlockSize? ==> db.totalSize % db.alignment.blockSize == 0
    requires db.usedSize <= db.totalSize
    ensures WriteMulti(db, values, codec).value.0.usedSize <= db.totalSize
  {
    if |values| > 0 {
      var encoded := Encoded(values, codec);
      var used := db.usedSize;
      var pad := StartAndEndPadding(used, used + SumLengths(encoded), db.alignment);
      ConcatLength(encoded);
      if db.alignment.ByBlockSize? {
        var b := db.alignment.blockSize;
        Arith.AddMultiples(used, SumLengths(encoded) + pad.1, b);
        Arith.MultipleBelow(used + SumLengths(encoded) + pad.1, db.totalSize, b);
      }
    }
  }

  /** The pairs whose key is not stored yet, in order. */
  function NewPairs<K, V>(pairs: seq<(K, V)>, index: map<K, DataInfo>): (r: seq<(K, V)>)
    ensures forall i :: 0 <= i < |r| ==> r[i].0 !in index
    decreases |pairs|
  {
    if |pairs| == 0 then
      []
    else
      var n := |pairs| - 1;
      var front := NewPairs(pairs[..n], index);
      if pairs[n].0 in index then front else front + [pairs[n]]
  }

  function Keys<K, V>(pairs: seq<(K, V)>): (r: seq<K>)
    ensures |r| == |pairs| && forall i :: 0 <= i < |r| ==> r[i] == pairs[i].0
  {
    seq(|pairs|, i requires 0 <= i < |pairs| => pairs[i].0)
  }

  function Values<K, V>(pairs: seq<(K, V)>): (r: seq<V>)
    ensures |r| == |pairs| && forall i :: 0 <= i < |r| ==> r[i] == pairs[i].1
  {
    seq(|pairs|, i requires 0 <= i < |pairs| => pairs[i].1)
  }

  /** The position of the last occurrence of `k`. */
  function LastIndex<K(==)>(keys: seq<K>, k: K): (i: nat)
    requires k in keys
    ensures i < |keys| && keys[i] == k
    ensures forall j :: i < j < |keys| ==> keys[j] != k
    decreases |keys|
  {
    var n := |keys| - 1;
    if keys[n] == k then
      n
    else
      assert k in keys[..n] by {
        var j :| 0 <= j < |keys| && keys[j] == k;
        assert keys[..n][j] == k;
      }
      LastIndex(keys[..n], k)
  }

  /** The value of the last pair with key `k`, if any. */
  function LastValue<K(==), V>(pairs: seq<(K, V)>, k: K): Option<V>
  {
    if k in Keys(pairs) then Some(pairs[LastIndex(Keys(pairs), k)].1) else None
  }

  /** Appending a pair makes it the last one of its key and hides nothing
      else. */
  lemma LastValueSnoc<K, V>(s: seq<(K, V)>, p: (K, V), k: K)
    ensures LastValue(s + [p], k) == if p.0 == k then Some(p.1) else LastValue(s, k)
  {
    var keys := Keys(s + [p]);
    assert keys == Keys(s) + [p.0];
    assert keys[..|s|] == Keys(s);
    if p.0 != k && k in Keys(s) {
      assert (s + [p])[LastIndex(Keys(s), k)] == s[LastIndex(Keys(s), k)];
    }
  }

  /** Dropping the stored keys does not change which value is last for a
      key that is not stored. */
  lemma {:induction false} NewPairsLastValue<K, V>(pairs: seq<(K, V)>, index: map<K, DataInfo>, k: K)
    requires k !in index
    ensures LastValue(NewPairs(pairs, index), k) == LastValue(pairs, k)
    decreases |pairs|
  {
    if |pairs| > 0 {
      var n := |pairs| - 1;
      NewPairsLastValue(pairs[..n], index, k);
      assert pairs == pairs[..n] + [pairs[n]];
      LastValueSnoc(pairs[..n], pairs[n], k);
      if pairs[n].0 !in index {
        LastValueSnoc(NewPairs(pairs[..n], index), pairs[n], k);
      }
    }
  }

  /** `HashMap::extend` with keys zipped to infos: the pairs are inserted in
      order, so a later pair overrides an earlier one with the same key. */
  function Extend<K>(index: map<K, DataInfo>, keys: seq<K>, infos: seq<DataInfo>): map<K, DataInfo>
    requires |keys| == |infos|
    decreases |keys|
  {
    if |keys| == 0 then
      index
    else
      var n := |keys| - 1;
      Extend(index, keys[..n], infos[..n])[keys[n] := infos[n]]
  }

  /** After `extend`, a key is present iff it was or is among the new keys;
      it maps to the info of its last occurrence, or keeps its old info. */
  lemma {:induction false} ExtendLookup<K>(index: map<K, DataInfo>, keys: seq<K>, infos: seq<DataInfo>, k: K)
    requires |keys| == |infos|
    ensures k in Extend(index, keys, infos) <==> k in index || k in keys
    ensures k in keys ==> Extend(index, keys, infos)[k] == infos[LastIndex(keys, k)]
    ensures k !in keys && k in index ==> Extend(index, keys, infos)[k] == index[k]
    decreases |keys|
  {
    if |keys| > 0 {
      var n := |keys| - 1;
      ExtendLookup(index, keys[..n], infos[..n], k);
      assert keys == keys[..n] + [keys[n]];
      if k in keys && keys[n] != k {
        assert k in keys[..n];
      }
    }
  }

  /** `DiskDatabase::insert_multi`: writes, in one batch, the pairs whose key
      is not stored yet, and points their keys at the written values. */
  function InsertMulti<K, V>(db: DiskDb<K>, pairs: seq<(K, V)>, codec: Codec<V>): (r: Result<DiskDb<K>>)
    requires ValidAlignment(db.alignment)
    ensures r.Err? <==> WriteMulti(db, Values(NewPairs(pairs, db.index)), codec).Err?
    ensures r.Err? ==> r.error == OutOfMemory
  {
    var unique := NewPairs(pairs, db.index);
    var written :- WriteMulti(db, Values(unique), codec);
    var (db', infos) := written;
    Ok(db'.(index := Extend(db'.index, Keys(unique), infos)))
  }

  /** After `insert_multi`, a key is stored iff it was stored or is among the
      pairs' keys; a key stored before keeps its info, and a new key points
      at the info written for its last pair. */
  lemma InsertMultiLookup<K, V>(db: DiskDb<K>, pairs: seq<(K, V)>, codec: Codec<V>, k: K)
    requires ValidAlignment(db.alignment) && InsertMulti(db, pairs, codec).Ok?
    ensures var r := InsertMulti(db, pairs, codec).value;
      && (k in r.index <==> k in db.index || k in Keys(pairs))
      && (k in db.index ==> r.index[k] == db.index[k])
    ensures var unique := NewPairs(pairs, db.index);
      k !in db.index && k in Keys(pairs) ==>
        && k in Keys(unique)
        && InsertMulti(db, pairs, codec).value.index[k]
          == WriteMulti(db, Values(unique), codec).value.1[LastIndex(Keys(unique), k)]
  {
    var unique := NewPairs(pairs, db.index);
    var infos := WriteMulti(db, Values(unique), codec).value.1;
    ExtendLookup(db.index, Keys(unique), infos, k);
    if k in Keys(unique) {
      var i := LastIndex(Keys(unique), k);
      assert unique[i].0 !in db.index;
    }
    if k !in db.index {
      NewPairsLastValue(pairs, db.index, k);
    }
  }

  /** `Database::insert`: `insert_multi` of the one pair. */
  function Insert<K, V>(db: DiskDb<K>, key: K, value: V, codec: Codec<V>): (r: Result<DiskDb<K>>)
    requires ValidAlignment(db.alignment)
    ensures key in db.index ==> r == Ok(db)
  {
    if key in db.index then
      assert NewPairs([(key, value)], db.index) == [];
      InsertMulti(db, [(key, value)], codec)
    else
      InsertMulti(db, [(key, value)], codec)
  }

  /** The infos of the keys, or NotFound if one is not stored. */
  function Lookup<K>(index: map<K, DataInfo>, keys: seq<K>): (r: Result<seq<DataInfo>>)
    ensures r.Ok? <==> forall i :: 0 <= i < |keys| ==> keys[i] in index
    ensures r.Ok? ==> |r.value| == |keys| && forall i :: 0 <= i < |keys| ==> r.value[i] == index[keys[i]]
    ensures r.Err? ==> r.error == NotFound
  {
    if forall i :: 0 <= i < |keys| ==> keys[i] in index then
      Ok(seq(|keys|, i requires 0 <= i < |keys| => index[keys[i]]))
    else
      Err(NotFound)
  }

  /** A block with its buffer read from the device at the block's offset. */
  function FillBlock(device: seq<byte>, b: DataBlock): (r: DataBlock)
    requires WellFormed(b)
    ensures WellFormed(r) && r.infos == b.infos && r.offset == b.offset && |r.data| == |b.data|
  {
    b.(data := ReadAt(device, b.offset, |b.data|))
  }

  /** `fill_datablocks`: each block's buffer is read from the device. */
  function Fill(device: seq<byte>, blocks: seq<DataBlock>): (r: seq<DataBlock>)
    requires forall j :: 0 <= j < |blocks| ==> WellFormed(blocks[j])
    ensures |r| == |blocks| && forall j :: 0 <= j < |r| ==> r[j] == FillBlock(device, blocks[j])
  {
    seq(|blocks|, j requires 0 <= j < |blocks| => FillBlock(device, blocks[j]))
  }

  /** `read_multi`: no infos read nothing; otherwise the infos are split into
      contiguous blocks, the blocks are filled from the device, and every
      value is decoded. */
  function ReadMulti<K, V>(db: DiskDb<K>, infos: seq<DataInfo>, codec: Codec<V>): (r: Result<seq<V>>)
    requires ValidAlignment(db.alignment)
  {
    if |infos| == 0 then Ok([])
    else DecodeDatablocks(Fill(db.device, SplitToDatablocks(db.alignment, infos)), codec)
  }

  /** `Database::get_multi`: NotFound if a key is not stored, else the values
      of the keys in key order. */
  function GetMulti<K, V>(db: DiskDb<K>, keys: seq<K>, codec: Codec<V>): (r: Result<seq<V>>)
    requires ValidAlignment(db.alignment)
    ensures (exists i :: 0 <= i < |keys| && keys[i] !in db.index) ==> r == Err(NotFound)
  {
    var infos :- Lookup(db.index, keys);
    ReadMulti(db, infos, codec)
  }

  /** `Database::get`: `get_multi` of the one key. */
  function Get<K, V>(db: DiskDb<K>, key: K, codec: Codec<V>): (r: Result<V>)
    requires ValidAlignment(db.alignment)
    ensures key !in db.index ==> r == Err(NotFound)
  {
    var values :- GetMulti(db, [key], codec);
    if |values| == 0 then Err(InvalidData) else Ok(values[0])
  }

  predicate Contains<K>(db: DiskDb<K>, key: K)
  {
    key in db.index
  }

  /** `IterableDatabase::clear`: forgets every key and rewinds `used_size`. */
  function Clear<K>(db: DiskDb<K>): (r: DiskDb<K>)
    ensures Valid(db) ==> Valid(r)
    ensures r.index == map[] && r.usedSize == 0
  {
    db.(index := map[], usedSize := 0)
  }

  /** After `clear`, every `get` fails with NotFound. */
  lemma GetAfterClear<K, V>(db: DiskDb<K>, key: K, codec: Codec<V>)
    requires ValidAlignment(db.alignment)
    ensures Get(Clear(db), key, codec) == Err(NotFound)
  {
  }

  /** The bytes at each info, read straight from the device. */
  function Reads(device: seq<byte>, infos: seq<DataInfo>): (r: seq<seq<byte>>)
    ensures |r| == |infos| && forall i :: 0 <= i < |r| ==> r[i] == ReadAt(device, infos[i].offset, infos[i].length)
  {
    seq(|infos|, i requires 0 <= i < |infos| => ReadAt(device, infos[i].offset, infos[i].length))
  }

  /** A block whose buffer was read from the device at its offset. */
  predicate FilledFrom(device: seq<byte>, b: DataBlock)
  {
    b.data == ReadAt(device, b.offset, |b.data|)
  }

  /** The slices of filled blocks are the device bytes at their infos. */
  lemma {:induction false} FilledSlices(device: seq<byte>, blocks: seq<DataBlock>)
    requires forall j :: 0 <= j < |blocks| ==> WellFormed(blocks[j]) && FilledFrom(device, blocks[j])
    ensures AllSlices(blocks) == Reads(device, Concat(InfosOf(blocks)))
    decreases |blocks|
  {
    if |blocks| > 0 {
      var b := blocks[0];
      FilledSlices(device, blocks[1..]);
      assert InfosOf(blocks) == [b.infos] + InfosOf(blocks[1..]);
      var rest := Concat(InfosOf(blocks[1..]));
      assert Concat(InfosOf(blocks)) == b.infos + rest;
      BlockSlices(device, b);
      ReadsAppend(device, b.infos, rest);
    }
  }

  /** The slices of one filled block are the device bytes at its infos. */
  lemma BlockSlices(device: seq<byte>, b: DataBlock)
    requires WellFormed(b) && FilledFrom(device, b)
    ensures seq(|b.infos|, i requires 0 <= i < |b.infos| => Slice(b, i)) == Reads(device, b.infos)
  {
    var first := seq(|b.infos|, i requires 0 <= i < |b.infos| => Slice(b, i));
    forall i | 0 <= i < |b.infos|
      ensures first[i] == ReadAt(device, b.infos[i].offset, b.infos[i].length)
    {
      var start := b.infos[i].offset - b.offset;
      ReadSlice(device, b.offset, |b.data|, start, start + b.infos[i].length);
    }
  }

  /** Reading a concatenation of infos reads each part. */
  lemma ReadsAppend(device: seq<byte>, a: seq<DataInfo>, b: seq<DataInfo>)
    ensures Reads(device, a + b) == Reads(device, a) + Reads(device, b)
  {
    assert forall i :: 0 <= i < |a + b| ==> Reads(device, a + b)[i] == (Reads(device, a) + Reads(device, b))[i];
  }

  /** However `read_multi` groups the infos into blocks, it decodes each
      value from exactly the device bytes at its info. */
  lemma ReadMultiPointwise<K, V>(db: DiskDb<K>, infos: seq<DataInfo>, codec: Codec<V>)
    requires ValidAlignment(db.alignment)
    ensures ReadMulti(db, infos, codec) == DecodeAll(Reads(db.device, infos), codec)
  {
    if |infos| > 0 {
      var blocks := SplitToDatablocks(db.alignment, infos);
      var filled := Fill(db.device, blocks);
      SplitFlattensBack(db.alignment, infos);
      assert InfosOf(filled) == InfosOf(blocks);
      FilledSlices(db.device, filled);
    }
  }

  /** `get` decodes the device bytes at the key's info. */
  lemma GetDecodesStoredBytes<K, V>(db: DiskDb<K>, key: K, codec: Codec<V>)
    requires ValidAlignment(db.alignment) && key in db.index
    ensures var info := db.index[key];
      Get(db, key, codec) == match codec.decode(ReadAt(db.device, info.offset, info.length))
        case None => Err(InvalidData)
        case Some(v) => Ok(v)
  {
    var info := db.index[key];
    ReadMultiPointwise(db, [info], codec);
    var infos := Lookup(db.index, [key]);
    assert [key][0] == key;
    assert infos.Ok? && infos.value == [info];
    assert Reads(db.device, [info]) == [ReadAt(db.device, info.offset, info.length)];
  }

  /** `insert_multi` on a valid database keeps it valid. */
  lemma {:induction false} InsertMultiKeepsValid<K, V>(db: DiskDb<K>, pairs: seq<(K, V)>, codec: Codec<V>)
    requires Valid(db) && InsertMulti(db, pairs, codec).Ok?
    ensures Valid(InsertMulti(db, pairs, codec).value)
  {
    var unique := NewPairs(pairs, db.index);
    WriteMultiKeepsValid(db, Values(unique), codec);
    var db' := InsertMulti(db, pairs, codec).value;
    forall k | k in db'.index
      ensures End(db'.index[k]) <= db'.usedSize
    {
      InsertMultiLookup(db, pairs, codec, k);
    }
  }

  /** Every key stored before `insert_multi` still reads back what it did
      before: the batch is written past `used_size`. */
  lemma {:induction false} InsertMultiKeepsOthers<K, V>(db: DiskDb<K>, pairs: seq<(K, V)>, codec: Codec<V>, other: K)
    requires Valid(db) && InsertMulti(db, pairs, codec).Ok? && other in db.index
    ensures Get(InsertMulti(db, pairs, codec).value, other, codec) == Get(db, other, codec)
  {
    var unique := NewPairs(pairs, db.index);
    var db' := InsertMulti(db, pairs, codec).value;
    var info := db.index[other];
    InsertMultiLookup(db, pairs, codec, other);
    WriteMultiFrame(db, Values(unique), codec, info.offset, info.length);
    GetDecodesStoredBytes(db, other, codec);
    GetDecodesStoredBytes(db', other, codec);
  }

  /** Insert-multi-then-get round-trips, provided decoding inverts encoding:
      a key stored before is untouched, and a new key reads back the value of
      its LAST pair in the batch (`extend` overrides earlier entries). */
  lemma {:induction false} InsertMultiThenGet<K, V(!new)>(db: DiskDb<K>, pairs: seq<(K, V)>, codec: Codec<V>, k: K)
    requires Valid(db) && PrefixInverse(codec)
    requires InsertMulti(db, pairs, codec).Ok?
    ensures k in db.index ==> Get(InsertMulti(db, pairs, codec).value, k, codec) == Get(db, k, codec)
    ensures k !in db.index && k in Keys(pairs) ==>
      Get(InsertMulti(db, pairs, codec).value, k, codec) == Ok(LastValue(pairs, k).value)
  {
    if k in db.index {
      InsertMultiKeepsOthers(db, pairs, codec, k);
    } else if k in Keys(pairs) {
      var unique := NewPairs(pairs, db.index);
      var db' := InsertMulti(db, pairs, codec).value;
      InsertMultiLookup(db, pairs, codec, k);
      NewPairsLastValue(pairs, db.index, k);
      var i := LastIndex(Keys(unique), k);
      WriteMultiReadsBack(db, Values(unique), codec, i);
      GetDecodesStoredBytes(db', k, codec);
      DecodeEncoded(codec, unique[i].1);
    }
  }

  /** Insert-then-get round-trips: a key that was not stored reads back the
      inserted value, provided decoding inverts encoding. */
  lemma {:induction false} InsertThenGet<K, V(!new)>(db: DiskDb<K>, key: K, value: V, codec: Codec<V>)
    requires Valid(db) && PrefixInverse(codec) && key !in db.index
    requires Insert(db, key, value, codec).Ok?
    ensures Get(Insert(db, key, value, codec).value, key, codec) == Ok(value)
  {
    var pairs := [(key, value)];
    assert Keys(pairs) == [key];
    InsertMultiThenGet(db, pairs, codec, key);
  }
}

=== FILE: file_layer.dfy ===
/** The file layer of src/system/file_layer.rs: a file is a name and a list
    of hashed spans, each at the byte offset it was written at; handles
    carry the write offset, the measurements made while open and, when
    writable, the chunker. */
module FileLayer {
  import opened Wrappers
  import Storage

  /** A hashed span of a file, starting at `offset`. */
  datatype FileSpan<H> = FileSpan(hash: H, offset: nat)

  /** A named file: the hashes of its contents, not the contents. */
  datatype File<H> = File(name: string, spans: seq<FileSpan<H>>)

  /** A handle for an open file; a read-only handle has no chunker. */
  datatype FileHandle = FileHandle(
    fileName: string,
    offset: nat,
    measurements: Storage.WriteMeasurements,
    chunker: Option<Storage.ChunkFn>)

  /** `FileLayer`: the files by name. */
  datatype Layer<H> = Layer(files: map<string, File<H>>)

  /** `FileLayer::default()`. */
  function Empty<H>(): (fl: Layer<H>)
    ensures fl.files.Keys == {}
  {
    Layer(map[])
  }

  /** `FileHandle::new`: a writable handle at offset 0. */
  function NewHandle<H>(file: File<H>, chunker: Storage.ChunkFn): (h: FileHandle)
    ensures h.fileName == file.name && h.offset == 0 && h.measurements == Storage.NoTime
    ensures h.chunker.Some? && h.chunker.value == chunker
  {
    FileHandle(file.name, 0, Storage.NoTime, Some(chunker))
  }

  /** `FileHandle::new_readonly`: a handle at offset 0 without a chunker. */
  function NewReadonly<H>(file: File<H>): (h: FileHandle)
    ensures h.fileName == file.name && h.offset == 0 && h.measurements == Storage.NoTime
    ensures h.chunker.None?
  {
    FileHandle(file.name, 0, Storage.NoTime, None)
  }

  /** `FileHandle::close`: the measurements made while the handle was open. */
  function Close(h: FileHandle): Storage.WriteMeasurements
  {
    h.measurements
  }

  /** `FileLayer::create`: with `create_new` unset, an existing name is
      AlreadyExists and nothing changes; otherwise an empty file is stored
      under the name, replacing any file of that name, and a writable handle
      at offset 0 is returned. */
  function Create<H>(fl: Layer<H>, name: string, chunker: Storage.ChunkFn, createNew: bool)
    : (r: Result<(Layer<H>, FileHandle)>)
    ensures r.Err? <==> !createNew && name in fl.files
    ensures r.Err? ==> r.error == AlreadyExists
    ensures r.Ok? ==>
      var (fl', h) := r.value;
      && fl'.files.Keys == fl.files.Keys + {name}
      && fl'.files[name] == File(name, [])
      && (forall n :: n in fl.files && n != name ==> fl'.files[n] == fl.files[n])
      && h.fileName == name && h.offset == 0 && h.measurements == Storage.NoTime
      && h.chunker.Some? && h.chunker.value == chunker
  {
    if !createNew && name in fl.files then
      Err(AlreadyExists)
    else
      var file := File(name, []);
      Ok((Layer(fl.files[name := file]), NewHandle(file, chunker)))
  }

  /** `FileLayer::open`: NotFound for an unknown name, else a writable handle
      at offset 0. */
  function Open<H>(fl: Layer<H>, name: string, chunker: Storage.ChunkFn): (r: Result<FileHandle>)
    ensures r.Ok? <==> name in fl.files
    ensures r.Err? ==> r.error == NotFound
    ensures r.Ok? ==> r.value.fileName == fl.files[name].name && r.value.offset == 0 && r.value.chunker.Some?
  {
    if name in fl.files then Ok(NewHandle(fl.files[name], chunker)) else Err(NotFound)
  }

  /** `FileLayer::open_readonly`: NotFound for an unknown name, else a
      handle at offset 0 without a chunker. */
  function OpenReadonly<H>(fl: Layer<H>, name: string): (r: Result<FileHandle>)
    ensures r.Ok? <==> name in fl.files
    ensures r.Err? ==> r.error == NotFound
    ensures r.Ok? ==> r.value.fileName == fl.files[name].name && r.value.offset == 0 && r.value.chunker.None?
  {
    if name in fl.files then Ok(NewReadonly(fl.files[name])) else Err(NotFound)
  }

  /** The hashes of the spans, in order. */
  function HashesOf<H>(spans: seq<FileSpan<H>>): (r: seq<H>)
    ensures |r| == |spans| && forall i :: 0 <= i < |spans| ==> r[i] == spans[i].hash
  {
    seq(|spans|, i requires 0 <= i < |spans| => spans[i].hash)
  }

  /** `FileLayer::read_complete`: every span hash of the handle's file, in
      file order. None when the handle's file is gone, where `find_file`
      unwraps and the source panics. */
  function ReadComplete<H>(fl: Layer<H>, h: FileHandle): (r: Option<seq<H>>)
    ensures r.Some? <==> h.fileName in fl.files
    ensures r.Some? ==> |r.value| == |fl.files[h.fileName].spans|
    ensures r.Some? ==> forall i :: 0 <= i < |r.value| ==> r.value[i] == fl.files[h.fileName].spans[i].hash
  {
    if h.fileName in fl.files then Some(HashesOf(fl.files[h.fileName].spans)) else None
  }

  /** The file spans of the storage spans, placed one after another from
      `offset` on. */
  function Place<H>(spans: seq<Storage.Span<H>>, offset: nat): (r: seq<FileSpan<H>>)
    ensures |r| == |spans|
    decreases |spans|
  {
    if |spans| == 0 then [] else [FileSpan(spans[0].hash, offset)] + Place(spans[1..], offset + spans[0].length)
  }

  /** `FileLayer::write`: appends one span per input span, each at the
      handle's current offset, which advances by the span's length; the
      writer's measurements are added to the handle's. The handle's file
      must exist (the source unwraps). */
  function Write<H>(fl: Layer<H>, h: FileHandle, info: Storage.SpansInfo<H>): (r: (Layer<H>, FileHandle))
    requires h.fileName in fl.files
    ensures r.0.files.Keys == fl.files.Keys
    ensures forall n :: n in fl.files && n != h.fileName ==> r.0.files[n] == fl.files[n]
    ensures r.0.files[h.fileName].name == fl.files[h.fileName].name
    ensures r.1.fileName == h.fileName && r.1.chunker == h.chunker
    ensures r.1.measurements == Storage.AddTimes(h.measurements, info.measurements)
  {
    var file := fl.files[h.fileName];
    var placed := Place(info.spans, h.offset);
    (Layer(fl.files[h.fileName := file.(spans := file.spans + placed)]),
     h.(offset := h.offset + Storage.SpanTotal(info.spans),
        measurements := Storage.AddTimes(h.measurements, info.measurements)))
  }

  /** Span offsets never decrease along the file. */
  predicate Ascending<H>(spans: seq<FileSpan<H>>)
  {
    forall i, j :: 0 <= i < j < |spans| ==> spans[i].offset <= spans[j].offset
  }

  /** No span starts after `offset`. */
  predicate Behind<H>(spans: seq<FileSpan<H>>, offset: nat)
  {
    forall i :: 0 <= i < |spans| ==> spans[i].offset <= offset
  }

  /** The index of the first span starting at or after `offset`: the spans
      before it are the ones `skip_while(span.offset < offset)` drops. */
  function FirstAtOrAfter<H>(spans: seq<FileSpan<H>>, offset: nat): (k: nat)
    ensures k <= |spans|
    decreases |spans|
  {
    if |spans| == 0 || spans[0].offset >= offset then 0 else 1 + FirstAtOrAfter(spans[1..], offset)
  }

  /** The spans before `FirstAtOrAfter` start before `offset`, and the span
      at it, if any, does not. */
  lemma {:induction false} FirstAtOrAfterSplits<H>(spans: seq<FileSpan<H>>, offset: nat)
    ensures var k := FirstAtOrAfter(spans, offset);
      && (forall i :: 0 <= i < k ==> spans[i].offset < offset)
      && (k < |spans| ==> spans[k].offset >= offset)
    decreases |spans|
  {
    if |spans| > 0 && spans[0].offset < offset {
      FirstAtOrAfterSplits(spans[1..], offset);
      assert forall i :: 1 <= i < |spans| ==> spans[i] == spans[1..][i - 1];
    }
  }

  /** The `take_while` of `FileLayer::read`: each span adds its distance
      from the previous offset to `bytes_read`, and is taken while
      `bytes_read` stays below `SEG_SIZE`; the span that stops the run has
      already added its distance. Returns the taken hashes and the final
      `bytes_read`, or None when a span starts before the previous one: the
      `usize` subtraction `span.offset - last_offset` then underflows, which
      panics. Ascending spans from `lastOffset` on never underflow. */
  function TakeRun<H>(spans: seq<FileSpan<H>>, bytesRead: nat, lastOffset: nat): (r: Option<(seq<H>, nat)>)
    ensures Ascending(spans) && (|spans| > 0 ==> lastOffset <= spans[0].offset) ==> r.Some?
    ensures r.Some? ==> r.value.1 >= bytesRead
    decreases |spans|
  {
    if |spans| == 0 then
      Some(([], bytesRead))
    else if spans[0].offset < lastOffset then
      None
    else
      var read := bytesRead + (spans[0].offset - lastOffset);
      if read < Storage.SegSize then
        AscendingSuffix(spans, 1);
        var rest := TakeRun(spans[1..], read, spans[0].offset);
        if rest.None? then None else Some(([spans[0].hash] + rest.value.0, rest.value.1))
      else
        Some(([], read))
  }

  /** `FileLayer::read`: the hashes of the spans from the first one at or
      after the handle's offset, while they start less than `SEG_SIZE` past
      it; the offset advances by the `bytes_read` of the run. None when the
      run meets a span that starts before the one before it, where the
      source panics on a `usize` underflow, and when the handle's file is
      gone, where `find_file` unwraps; a file whose offsets ascend is
      always read. */
  function Read<H>(fl: Layer<H>, h: FileHandle): (r: Option<(seq<H>, FileHandle)>)
    ensures h.fileName !in fl.files ==> r.None?
    ensures h.fileName in fl.files && Ascending(fl.files[h.fileName].spans) ==> r.Some?
    ensures r.Some? ==> r.value.1.offset >= h.offset
    ensures r.Some? ==>
      r.value.1.fileName == h.fileName && r.value.1.chunker == h.chunker && r.value.1.measurements == h.measurements
  {
    if h.fileName !in fl.files then
      None
    else
      var run := ReadSpans(fl.files[h.fileName].spans, h.offset);
      if run.None? then None else Some((run.value.0, h.(offset := h.offset + run.value.1)))
  }

  /** The hashes `read` takes from the spans for a handle at `offset`, and
      its `bytes_read`; None on an underflow. */
  function ReadSpans<H>(spans: seq<FileSpan<H>>, offset: nat): (r: Option<(seq<H>, nat)>)
    ensures Ascending(spans) ==> r.Some?
  {
    var k := FirstAtOrAfter(spans, offset);
    FirstAtOrAfterSplits(spans, offset);
    AscendingSuffix(spans, k);
    TakeRun(spans[k..], 0, offset)
  }

  /** `FileLayer::file_exists`. */
  predicate FileExists<H>(fl: Layer<H>, name: string)
  {
    name in fl.files
  }

  /** `FileLayer::clear`: no file is left. */
  function Clear<H>(fl: Layer<H>): (r: Layer<H>)
    ensures forall name :: !FileExists(r, name)
  {
    Layer(map[])
  }

  /** The `windows(2)` gaps `second.offset - first.offset` of
      `chunk_count_distribution`, in order: one per span but the last.
      None when a span starts before the one before it, where the `usize`
      subtraction underflows and the source panics. */
  function Gaps<H>(spans: seq<FileSpan<H>>): (r: Option<seq<nat>>)
    ensures r.Some? ==> |r.value| == if |spans| == 0 then 0 else |spans| - 1
    ensures r.Some? ==> forall i {:trigger r.value[i]} :: 0 <= i < |r.value| ==> r.value[i] == spans[i + 1].offset - spans[i].offset
    decreases |spans|
  {
    if |spans| < 2 then
      Some([])
    else if spans[1].offset < spans[0].offset then
      None
    else
      var rest := Gaps(spans[1..]);
      if rest.None? then None else Some([spans[1].offset - spans[0].offset] + rest.value)
  }

  /** The distribution of the first `n` spans, each paired with its gap to
      the next: a hash seen again has its count raised, a new hash is
      entered with count 1 and its gap. */
  function Distribution<H>(spans: seq<FileSpan<H>>, gaps: seq<nat>, n: nat): (d: map<H, (nat, nat)>)
    requires n <= |spans| && n <= |gaps|
    ensures forall k :: k in d ==> d[k].0 > 0
    decreases n
  {
    if n == 0 then
      map[]
    else
      var d := Distribution(spans, gaps, n - 1);
      var h := spans[n - 1].hash;
      if h in d then d[h := (d[h].0 + 1, d[h].1)] else d[h := (1, gaps[n - 1])]
  }

  /** `FileLayer::chunk_count_distribution`: the distribution of the
      handle's file. None where the source panics: when the handle's file
      is gone (`find_file` unwraps) and when its offsets do not ascend. */
  function ChunkCountDistribution<H>(fl: Layer<H>, h: FileHandle): (d: Option<map<H, (nat, nat)>>)
    ensures d.Some? <==> h.fileName in fl.files && Ascending(fl.files[h.fileName].spans)
    ensures d.Some? ==> h.fileName in fl.files && Counts(fl.files[h.fileName].spans, d.value)
  {
    if h.fileName in fl.files then SpanDistribution(fl.files[h.fileName].spans) else None
  }

  /** `d` holds the distribution of the spans but the last: each hash of
      those spans maps to how many of them carry it and the gap after the
      first of them, and no other hash is entered. */
  ghost predicate Counts<H>(spans: seq<FileSpan<H>>, d: map<H, (nat, nat)>)
  {
    && (forall k :: k in d ==> |spans| > 0 && CountOf(spans, |spans| - 1, k) > 0 && Entry(spans, k, d[k]))
    && (forall i :: 0 <= i < |spans| - 1 ==> spans[i].hash in d)
  }

  /** The entry for hash `k`: how many of the spans but the last carry it,
      and the gap after the first of them. */
  ghost predicate Entry<H>(spans: seq<FileSpan<H>>, k: H, e: (nat, nat))
    requires |spans| > 0 && CountOf(spans, |spans| - 1, k) > 0
  {
    var f := FirstOf(spans, |spans| - 1, k);
    e.0 == CountOf(spans, |spans| - 1, k) && e.1 == spans[f + 1].offset - spans[f].offset
  }

  /** The distribution of `chunk_count_distribution` on the spans
      themselves: spans are zipped with the gaps to their successors, so the
      last span is never counted. None exactly when the offsets do not
      ascend, where a gap underflows and the source panics. */
  function SpanDistribution<H>(spans: seq<FileSpan<H>>): (d: Option<map<H, (nat, nat)>>)
    ensures d.Some? <==> Ascending(spans)
    ensures d.Some? ==> Counts(spans, d.value)
  {
    var gaps := Gaps(spans);
    GapsAscend(spans);
    if gaps.None? then
      None
    else if |spans| == 0 then
      Some(map[])
    else
      DistributionOfGaps(spans, gaps.value);
      Some(Distribution(spans, gaps.value, |spans| - 1))
  }

  /** How many of the first `n` spans carry hash `k`. */
  ghost function CountOf<H>(spans: seq<FileSpan<H>>, n: nat, k: H): nat
    requires n <= |spans|
    decreases n
  {
    if n == 0 then 0 else CountOf(spans, n - 1, k) + (if spans[n - 1].hash == k then 1 else 0)
  }

  /** The first of the first `n` spans that carries hash `k`. */
  ghost function FirstOf<H>(spans: seq<FileSpan<H>>, n: nat, k: H): (i: nat)
    requires n <= |spans| && CountOf(spans, n, k) > 0
    ensures i < n && spans[i].hash == k
    ensures forall j :: 0 <= j < i ==> spans[j].hash != k
    decreases n
  {
    if CountOf(spans, n - 1, k) > 0 then FirstOf(spans, n - 1, k) else
      NoneCounted(spans, n - 1, k);
      n - 1
  }

  /** Each of the first `n` spans is counted under its hash. */
  lemma {:induction false} Counted<H>(spans: seq<FileSpan<H>>, n: nat, i: nat)
    requires i < n <= |spans|
    ensures CountOf(spans, n, spans[i].hash) > 0
    decreases n
  {
    if i < n - 1 {
      Counted(spans, n - 1, i);
    }
  }

  lemma {:induction false} NoneCounted<H>(spans: seq<FileSpan<H>>, n: nat, k: H)
    requires n <= |spans| && CountOf(spans, n, k) == 0
    ensures forall j :: 0 <= j < n ==> spans[j].hash != k
    decreases n
  {
    if n > 0 {
      NoneCounted(spans, n - 1, k);
    }
  }

  /** The distribution counts every hash: a hash is entered exactly when one
      of the counted spans carries it, with the number of such spans and the
      gap of the first one. */
  lemma {:induction false} DistributionCounts<H>(spans: seq<FileSpan<H>>, gaps: seq<nat>, n: nat, k: H)
    requires n <= |spans| && n <= |gaps|
    ensures k in Distribution(spans, gaps, n) <==> CountOf(spans, n, k) > 0
    ensures k in Distribution(spans, gaps, n) ==>
      Distribution(spans, gaps, n)[k] == (CountOf(spans, n, k), gaps[FirstOf(spans, n, k)])
    decreases n
  {
    if n > 0 {
      DistributionCounts(spans, gaps, n - 1, k);
    }
  }

  /** With the file's own gaps, the distribution of all spans but the last
      is their counts. */
  lemma {:induction false} DistributionOfGaps<H>(spans: seq<FileSpan<H>>, gaps: seq<nat>)
    requires |spans| > 0 && Gaps(spans) == Some(gaps)
    ensures Counts(spans, Distribution(spans, gaps, |spans| - 1))
  {
    var n := |spans| - 1;
    var d := Distribution(spans, gaps, n);
    forall k | k in d
      ensures CountOf(spans, n, k) > 0 && Entry(spans, k, d[k])
    {
      DistributionEntry(spans, gaps, n, k);
    }
    forall i | 0 <= i < n
      ensures spans[i].hash in d
    {
      Counted(spans, n, i);
      DistributionCounts(spans, gaps, n, spans[i].hash);
    }
    assert forall k :: k in d ==> |spans| > 0 && CountOf(spans, |spans| - 1, k) > 0 && Entry(spans, k, d[k]);
    assert forall i :: 0 <= i < |spans| - 1 ==> spans[i].hash in d;
  }

  /** One entry of `DistributionOfGaps`. */
  lemma {:induction false} DistributionEntry<H>(spans: seq<FileSpan<H>>, gaps: seq<nat>, n: nat, k: H)
    requires n < |spans| && Gaps(spans) == Some(gaps) && n <= |gaps|
    requires k in Distribution(spans, gaps, n)
    ensures CountOf(spans, n, k) > 0
    ensures n == |spans| - 1 ==> Entry(spans, k, Distribution(spans, gaps, n)[k])
  {
    DistributionCounts(spans, gaps, n, k);
    var f := FirstOf(spans, n, k);
    assert gaps[f] == spans[f + 1].offset - spans[f].offset;
  }

  /** Every suffix of ascending spans ascends. */
  lemma AscendingSuffix<H>(spans: seq<FileSpan<H>>, k: nat)
    requires k <= |spans|
    ensures Ascending(spans) ==> Ascending(spans[k..])
  {
    assert forall i :: 0 <= i < |spans| - k ==> spans[k..][i] == spans[k + i];
  }

  /** The gaps are computed exactly when the offsets ascend: a span before
      its predecessor anywhere in the file makes one underflow. */
  lemma {:induction false} GapsAscend<H>(spans: seq<FileSpan<H>>)
    ensures Gaps(spans).Some? <==> Ascending(spans)
    decreases |spans|
  {
    if |spans| >= 2 {
      GapsAscend(spans[1..]);
      AscendingCons(spans);
    }
  }

  /** Spans ascend exactly when the first two do and the rest ascend. */
  lemma {:induction false} AscendingCons<H>(spans: seq<FileSpan<H>>)
    requires |spans| >= 2
    ensures Ascending(spans) <==> spans[0].offset <= spans[1].offset && Ascending(spans[1..])
  {
    if spans[0].offset <= spans[1].offset && Ascending(spans[1..]) {
      forall i, j | 0 <= i < j < |spans|
        ensures spans[i].offset <= spans[j].offset
      {
        if i == 0 && j > 1 {
          assert spans[1..][0] == spans[1] && spans[1..][j - 1] == spans[j];
        } else if i > 0 {
          assert spans[1..][i - 1] == spans[i] && spans[1..][j - 1] == spans[j];
        }
      }
    }
    if Ascending(spans) {
      AscendingSuffix(spans, 1);
    }
  }

  /** `write` appends: the earlier spans stay as they were, and the new ones
      carry the input hashes in order, the first at the handle's offset and
      each next one the previous length further on; the handle ends past the
      last of them. */
  lemma {:induction false} WriteAppends<H>(fl: Layer<H>, h: FileHandle, info: Storage.SpansInfo<H>)
    requires h.fileName in fl.files
    ensures var (fl', h') := Write(fl, h, info);
      var before := fl.files[h.fileName].spans;
      var after := fl'.files[h.fileName].spans;
      && |after| == |before| + |info.spans|
      && after[..|before|] == before
      && HashesOf(after[|before|..]) == Storage.Hashes(info.spans)
      && (|info.spans| > 0 ==> after[|before|].offset == h.offset)
      && (forall i :: |before| <= i < |after| - 1 ==>
            after[i + 1].offset == after[i].offset + info.spans[i - |before|].length)
      && h'.offset == h.offset + Storage.SpanTotal(info.spans)
  {
    var before := fl.files[h.fileName].spans;
    var placed := Place(info.spans, h.offset);
    PlaceSpans(info.spans, h.offset);
    var after := before + placed;
    assert after[|before|..] == placed;
    assert after[..|before|] == before;
    forall i | |before| <= i < |after| - 1
      ensures after[i + 1].offset == after[i].offset + info.spans[i - |before|].length
    {
      assert after[i] == placed[i - |before|] && after[i + 1] == placed[i - |before| + 1];
    }
  }

  /** `write` adds the input span hashes to the end of `read_complete` and
      moves the handle by their total length. */
  lemma {:induction false} WriteAddsHashes<H>(fl: Layer<H>, h: FileHandle, info: Storage.SpansInfo<H>)
    requires h.fileName in fl.files
    ensures var (fl', h') := Write(fl, h, info);
      && h'.fileName in fl'.files
      && ReadComplete(fl', h').value == ReadComplete(fl, h).value + Storage.Hashes(info.spans)
      && h'.offset == h.offset + Storage.SpanTotal(info.spans)
  {
    var before := fl.files[h.fileName].spans;
    var placed := Place(info.spans, h.offset);
    PlaceSpans(info.spans, h.offset);
    assert HashesOf(before + placed) == HashesOf(before) + Storage.Hashes(info.spans);
  }

  /** What `Place` lays out: the hashes in order, the first at `offset`, each
      next one the previous length further on, and all of them within the
      total length from `offset`. */
  lemma {:induction false} PlaceSpans<H>(spans: seq<Storage.Span<H>>, offset: nat)
    ensures var r := Place(spans, offset);
      && (forall i :: 0 <= i < |r| ==> r[i].hash == spans[i].hash)
      && (|r| > 0 ==> r[0].offset == offset)
      && (forall i :: 0 <= i < |r| - 1 ==> r[i + 1].offset == r[i].offset + spans[i].length)
      && (forall i :: 0 <= i < |r| ==> offset <= r[i].offset <= offset + Storage.SpanTotal(spans))
    decreases |spans|
  {
    if |spans| > 0 {
      var tail := Place(spans[1..], offset + spans[0].length);
      PlaceSpans(spans[1..], offset + spans[0].length);
      var r := Place(spans, offset);
      assert forall i :: 1 <= i < |r| ==> r[i] == tail[i - 1];
      assert forall i :: 1 <= i < |spans| ==> spans[i] == spans[1..][i - 1];
    }
  }

  /** `write` keeps a file's offsets ascending and behind the writing
      handle, when they were before: appending through one handle at a time
      lays the file out in order. */
  lemma {:induction false} WriteKeepsOrder<H>(fl: Layer<H>, h: FileHandle, info: Storage.SpansInfo<H>)
    requires h.fileName in fl.files
    requires Ascending(fl.files[h.fileName].spans) && Behind(fl.files[h.fileName].spans, h.offset)
    ensures var (fl', h') := Write(fl, h, info);
      Ascending(fl'.files[h.fileName].spans) && Behind(fl'.files[h.fileName].spans, h'.offset)
  {
    var before := fl.files[h.fileName].spans;
    var placed := Place(info.spans, h.offset);
    PlaceSpans(info.spans, h.offset);
    PlaceAscending(info.spans, h.offset);
    var after := before + placed;
    forall i, j | 0 <= i < j < |after|
      ensures after[i].offset <= after[j].offset
    {
      if j >= |before| && i < |before| {
        assert after[j] == placed[j - |before|];
      } else if i >= |before| {
        assert after[i] == placed[i - |before|] && after[j] == placed[j - |before|];
      }
    }
  }

  /** Placed spans ascend. */
  lemma {:induction false} PlaceAscending<H>(spans: seq<Storage.Span<H>>, offset: nat)
    ensures Ascending(Place(spans, offset))
    decreases |spans|
  {
    if |spans| > 0 {
      var tail := Place(spans[1..], offset + spans[0].length);
      PlaceAscending(spans[1..], offset + spans[0].length);
      PlaceSpans(spans[1..], offset + spans[0].length);
      var r := Place(spans, offset);
      assert forall i :: 1 <= i < |r| ==> r[i] == tail[i - 1];
    }
  }

  /** The run `read` takes from spans starting at or after `origin`, with
      `bytes_read` counted from `origin`: the spans that start less than
      `SEG_SIZE` past `origin`, and a `bytes_read` that reaches the start of
      the span that stopped the run, or of the last span taken. */
  lemma {:induction false} TakeRunReads<H>(spans: seq<FileSpan<H>>, origin: nat, bytesRead: nat, lastOffset: nat)
    requires Ascending(spans) && (|spans| > 0 ==> lastOffset <= spans[0].offset)
    requires lastOffset == origin + bytesRead
    ensures var e := FirstAtOrAfter(spans, origin + Storage.SegSize);
      && TakeRun(spans, bytesRead, lastOffset).Some?
      && TakeRun(spans, bytesRead, lastOffset).value.0 == HashesOf(spans[..e])
      && origin + TakeRun(spans, bytesRead, lastOffset).value.1 ==
           if e < |spans| then spans[e].offset else if e > 0 then spans[e - 1].offset else lastOffset
    decreases |spans|
  {
    if |spans| > 0 {
      var read := bytesRead + (spans[0].offset - lastOffset);
      if read < Storage.SegSize {
        AscendingSuffix(spans, 1);
        TakeRunReads(spans[1..], origin, read, spans[0].offset);
        var e := FirstAtOrAfter(spans, origin + Storage.SegSize);
        var e1 := FirstAtOrAfter(spans[1..], origin + Storage.SegSize);
        assert e == e1 + 1;
        assert spans[1..][..e1] == spans[1..e];
        assert HashesOf(spans[..e]) == [spans[0].hash] + HashesOf(spans[1..e]);
      }
    }
  }

  /** What `read` returns: with `k` the first span at or after the handle's
      offset and `e` the first at or after `SEG_SIZE` past it, the hashes of
      spans `k` to `e`, and an offset moved to the start of span `e`, or of
      the last span when the run reaches the end of the file. */
  lemma {:induction false} ReadRun<H>(fl: Layer<H>, h: FileHandle)
    requires h.fileName in fl.files && Ascending(fl.files[h.fileName].spans)
    ensures var spans := fl.files[h.fileName].spans;
      var k := FirstAtOrAfter(spans, h.offset);
      var e := FirstAtOrAfter(spans, h.offset + Storage.SegSize);
      && k <= e
      && Read(fl, h).Some?
      && Read(fl, h).value.0 == HashesOf(spans[k..e])
      && Read(fl, h).value.1.offset ==
           if e < |spans| then spans[e].offset else if e > k then spans[e - 1].offset else h.offset
  {
    var spans := fl.files[h.fileName].spans;
    RunFrom(spans, h.offset);
    var run := ReadSpans(spans, h.offset).value;
    assert Read(fl, h).value.0 == run.0 && Read(fl, h).value.1.offset == h.offset + run.1;
  }

  /** `ReadRun` on the spans themselves. */
  lemma {:induction false} RunFrom<H>(spans: seq<FileSpan<H>>, offset: nat)
    requires Ascending(spans)
    ensures var k := FirstAtOrAfter(spans, offset);
      var e := FirstAtOrAfter(spans, offset + Storage.SegSize);
      && k <= e
      && ReadSpans(spans, offset).Some?
      && ReadSpans(spans, offset).value.0 == HashesOf(spans[k..e])
      && offset + ReadSpans(spans, offset).value.1 ==
           if e < |spans| then spans[e].offset else if e > k then spans[e - 1].offset else offset
  {
    var k := FirstAtOrAfter(spans, offset);
    var rest := spans[k..];
    FirstAtOrAfterSplits(spans, offset);
    AscendingSuffix(spans, k);
    TakeRunReads(rest, offset, 0, offset);
    var e1 := FirstAtOrAfter(rest, offset + Storage.SegSize);
    FirstAtOrAfterSuffix(spans, k, offset + Storage.SegSize);
    SliceAt(spans, k, e1);
  }

  /** Indexing into a suffix. */
  lemma SliceAt<T>(s: seq<T>, k: nat, n: nat)
    requires k + n <= |s|
    ensures s[k..][..n] == s[k..k + n]
    ensures n < |s| - k ==> s[k..][n] == s[k + n]
    ensures 0 < n ==> s[k..][n - 1] == s[k + n - 1]
  {
  }

  /** Where the first span at or after `limit` lies, seen from a suffix
      whose dropped spans all start before `limit`. */
  lemma {:induction false} FirstAtOrAfterSuffix<H>(spans: seq<FileSpan<H>>, k: nat, limit: nat)
    requires k <= |spans| && forall i :: 0 <= i < k ==> spans[i].offset < limit
    ensures FirstAtOrAfter(spans, limit) == k + FirstAtOrAfter(spans[k..], limit)
    decreases k
  {
    if k > 0 {
      assert spans[1..][k - 1..] == spans[k..];
      FirstAtOrAfterSuffix(spans[1..], k - 1, limit);
    }
  }

  /** `read` never moves the handle past the start of the file's last
      span: at that offset a read returns the last span's hash again and the
      offset stays, so reading until an empty result does not end. */
  lemma {:induction false} ReadStallsAtLastSpan<H>(fl: Layer<H>, h: FileHandle)
    requires h.fileName in fl.files && Ascending(fl.files[h.fileName].spans)
    requires |fl.files[h.fileName].spans| > 0
    requires h.offset == fl.files[h.fileName].spans[|fl.files[h.fileName].spans| - 1].offset
    ensures Read(fl, h).Some?
    ensures |Read(fl, h).value.0| > 0
    ensures Read(fl, h).value.0[|Read(fl, h).value.0| - 1] == fl.files[h.fileName].spans[|fl.files[h.fileName].spans| - 1].hash
    ensures Read(fl, h).value.1.offset == h.offset
  {
    var spans := fl.files[h.fileName].spans;
    ReadRun(fl, h);
    FirstAtOrAfterSplits(spans, h.offset);
    FirstAtOrAfterSplits(spans, h.offset + Storage.SegSize);
    var k := FirstAtOrAfter(spans, h.offset);
    var e := FirstAtOrAfter(spans, h.offset + Storage.SegSize);
    assert e == |spans|;
  }

  /** `open` gives a writable handle at offset 0 whatever the file holds,
      so a write through it places the new spans from offset 0 on, after
      the spans already there. */
  lemma ReopenWritesFromZero<H>(fl: Layer<H>, name: string, chunker: Storage.ChunkFn, info: Storage.SpansInfo<H>)
    requires name in fl.files && fl.files[name].name == name
    ensures Write(fl, Open(fl, name, chunker).value, info).0.files[name].spans ==
      fl.files[name].spans + Place(info.spans, 0)
  {
  }

  /** Reopening a file and writing to it again breaks the source's reads:
      when the file has spans, ascending, and its last one starts past 0 but
      less than `SEG_SIZE` in, the new spans are placed from 0 on after it,
      so the offsets no longer ascend, a read from the start runs into the
      underflow, and so does the chunk count distribution. */
  lemma {:induction false} ReopenedWriteUnderflows<H>(
    fl: Layer<H>, name: string, chunker: Storage.ChunkFn, info: Storage.SpansInfo<H>)
    requires name in fl.files && fl.files[name].name == name
    requires Ascending(fl.files[name].spans) && |fl.files[name].spans| > 0
    requires 0 < fl.files[name].spans[|fl.files[name].spans| - 1].offset < Storage.SegSize
    requires |info.spans| > 0
    ensures var w := Write(fl, Open(fl, name, chunker).value, info);
      && !Ascending(w.0.files[name].spans)
      && Read(w.0, Open(w.0, name, chunker).value).None?
      && ChunkCountDistribution(w.0, w.1).None?
  {
    var spans := fl.files[name].spans;
    var h := Open(fl, name, chunker).value;
    ReopenWritesFromZero(fl, name, chunker, info);
    var w := Write(fl, h, info);
    var placed := Place(info.spans, 0);
    var after := w.0.files[name].spans;
    assert after == spans + placed;
    assert placed[0].offset == 0;
    assert after[|spans| - 1].offset > after[|spans|].offset;
    TakeRunMeetsEarlier(spans, placed, 0, 0);
    assert FirstAtOrAfter(after, 0) == 0;
    assert after[0..] == after;
  }

  /** A run from ascending spans that all start less than `SEG_SIZE` past
      the origin reaches what follows them; when that starts before the last
      of them, the subtraction underflows. */
  lemma {:induction false} TakeRunMeetsEarlier<H>(
    spans: seq<FileSpan<H>>, more: seq<FileSpan<H>>, bytesRead: nat, lastOffset: nat)
    requires Ascending(spans) && |spans| > 0 && lastOffset <= spans[0].offset
    requires bytesRead + (spans[|spans| - 1].offset - lastOffset) < Storage.SegSize
    requires |more| > 0 && more[0].offset < spans[|spans| - 1].offset
    ensures TakeRun(spans + more, bytesRead, lastOffset).None?
    decreases |spans|
  {
    var all := spans + more;
    assert all[0] == spans[0];
    assert spans[0].offset <= spans[|spans| - 1].offset;
    var read := bytesRead + (spans[0].offset - lastOffset);
    if |spans| == 1 {
      assert all[1..] == more;
    } else {
      AscendingSuffix(spans, 1);
      assert all[1..] == spans[1..] + more;
      assert spans[1..][|spans| - 2] == spans[|spans| - 1];
      TakeRunMeetsEarlier(spans[1..], more, read, spans[0].offset);
    }
  }

  /** `create` then `open` and `read_complete`: the new file exists and is
      empty, whether or not a file of that name existed before. */
  lemma CreateThenRead<H>(fl: Layer<H>, name: string, chunker: Storage.ChunkFn)
    ensures Create(fl, name, chunker, true).Ok?
    ensures var (fl', h) := Create(fl, name, chunker, true).value;
      && FileExists(fl', name)
      && Open(fl', name, chunker).Ok?
      && ReadComplete(fl', h) == Some([])
  {
  }
}

=== FILE: file_system.dfy ===
/** The `FileSystem` facade of src/system/mod.rs: a chunk storage and a file
    layer. Writing chunks the data into the storage and appends the spans
    to the file; reading looks the file's hashes up in the storage. The
    hasher and the writer's timings are parameters, as in `Storage`. */
module FileSystem {
  import opened Wrappers
  import Storage
  import FileLayer

  /** `FileSystem`: the chunk storage and the file layer. */
  datatype Fs<H, K> = Fs(storage: Storage.ChunkStorage<H, K>, files: FileLayer.Layer<H>)

  /** `FileSystem::new`: no files, no bytes written yet. */
  function New<H, K>(database: map<H, Storage.DataContainer<K>>, targetMap: map<K, seq<byte>>): (fs: Fs<H, K>)
    ensures fs.files.files.Keys == {} && fs.storage.sizeWritten == 0
  {
    Fs(Storage.New(database, targetMap), FileLayer.Empty())
  }

  /** `FileSystem::file_exists`. */
  predicate FileExists<H, K>(fs: Fs<H, K>, name: string)
  {
    FileLayer.FileExists(fs.files, name)
  }

  /** `FileSystem::open_file`: the file layer's `open` with the given
      chunker. */
  function OpenFile<H, K>(fs: Fs<H, K>, name: string, chunker: Storage.ChunkFn): (r: Result<FileLayer.FileHandle>)
    ensures r.Ok? <==> FileExists(fs, name)
    ensures r.Err? ==> r.error == NotFound
    ensures r.Ok? ==> r.value.fileName == fs.files.files[name].name && r.value.chunker.Some?
  {
    FileLayer.Open(fs.files, name, chunker)
  }

  /** `FileSystem::open_file_readonly`: the file layer's `open_readonly`. */
  function OpenFileReadonly<H, K>(fs: Fs<H, K>, name: string): (r: Result<FileLayer.FileHandle>)
    ensures r.Ok? <==> FileExists(fs, name)
    ensures r.Err? ==> r.error == NotFound
    ensures r.Ok? ==> r.value.fileName == fs.files.files[name].name && r.value.chunker.None?
  {
    FileLayer.OpenReadonly(fs.files, name)
  }

  /** `FileSystem::create_file`: always `create` with `create_new` set, so
      it never fails, and a file of the same name is replaced by an empty
      one (the AlreadyExists its documentation mentions cannot happen). */
  function CreateFile<H, K>(fs: Fs<H, K>, name: string, chunker: Storage.ChunkFn)
    : (r: Result<(Fs<H, K>, FileLayer.FileHandle)>)
    ensures r.Ok?
    ensures r.value.0.storage == fs.storage
    ensures r.value.0.files.files.Keys == fs.files.files.Keys + {name}
    ensures r.value.0.files.files[name].spans == []
    ensures forall n :: n in fs.files.files && n != name ==> r.value.0.files.files[n] == fs.files.files[n]
    ensures r.value.1.fileName == name && r.value.1.offset == 0
    ensures r.value.1.chunker.Some? && r.value.1.chunker.value == chunker
  {
    var (fl, h) := FileLayer.Create(fs.files, name, chunker, true).value;
    Ok((fs.(files := fl), h))
  }

  /** `file_layer.write` applied to each writer result in order. */
  function AppendAll<H>(fl: FileLayer.Layer<H>, h: FileLayer.FileHandle, infos: seq<Storage.SpansInfo<H>>)
    : (r: (FileLayer.Layer<H>, FileLayer.FileHandle))
    requires h.fileName in fl.files
    ensures r.0.files.Keys == fl.files.Keys
    ensures forall n :: n in fl.files && n != h.fileName ==> r.0.files[n] == fl.files[n]
    ensures r.0.files[h.fileName].name == fl.files[h.fileName].name
    ensures r.1.fileName == h.fileName && r.1.chunker == h.chunker
    decreases |infos|
  {
    if |infos| == 0 then
      (fl, h)
    else
      var w := FileLayer.Write(fl, h, infos[0]);
      AppendAll(w.0, w.1, infos[1..])
  }

  /** `FileSystem::write_to_file`: NotFound when the handle's file is gone,
      then PermissionDenied for a read-only handle, both before the storage
      is touched; otherwise the data is written to the storage with the
      handle's chunker and every writer result is appended to the file. */
  function WriteToFile<H, K>(
    fs: Fs<H, K>, h: FileLayer.FileHandle, data: seq<byte>, hash: seq<byte> -> H,
    times: nat -> Storage.WriteMeasurements)
    : (r: Result<(Fs<H, K>, FileLayer.FileHandle)>)
    requires h.chunker.Some? ==> Storage.Bounded(h.chunker.value)
    ensures r.Err? <==> !FileExists(fs, h.fileName) || h.chunker.None?
    ensures !FileExists(fs, h.fileName) ==> r == Err(NotFound)
    ensures FileExists(fs, h.fileName) && h.chunker.None? ==> r == Err(PermissionDenied)
    ensures r.Ok? ==>
      && r.value.0.files.files.Keys == fs.files.files.Keys
      && r.value.0.storage.targetMap == fs.storage.targetMap
      && r.value.0.storage.sizeWritten == fs.storage.sizeWritten + |data|
      && r.value.1.fileName == h.fileName && r.value.1.chunker == h.chunker
      && (forall n :: n in fs.files.files ==> r.value.0.files.files[n].name == fs.files.files[n].name)
  {
    if !FileExists(fs, h.fileName) then
      Err(NotFound)
    else if h.chunker.None? then
      Err(PermissionDenied)
    else
      var written := Storage.Write(fs.storage, data, h.chunker.value, hash, times);
      var appended := AppendAll(fs.files, h, written.1);
      Ok((Fs(written.0, appended.0), appended.1))
  }

  /** `FileSystem::write_from_stream`, given the reader's successive reads
      and how it stops (see `Storage.WriteFromStream`): the same two checks
      in the same order, then `write_from_stream` on the storage. Returns the
      file system afterwards with the outcome: on a failing read the storage
      keeps the chunks of the earlier reads but nothing is appended to the
      file and the handle is not moved. */
  function WriteFromStream<H, K>(
    fs: Fs<H, K>, h: FileLayer.FileHandle, input: seq<seq<byte>>, failure: Option<IoError>,
    hash: seq<byte> -> H, times: nat -> Storage.WriteMeasurements)
    : (r: (Fs<H, K>, Result<FileLayer.FileHandle>))
    requires h.chunker.Some? ==> Storage.Bounded(h.chunker.value)
    requires forall i :: 0 <= i < |input| ==> 0 < |input[i]| <= Storage.SegSize
    ensures r.1.Err? <==> !FileExists(fs, h.fileName) || h.chunker.None? || failure.Some?
    ensures !FileExists(fs, h.fileName) ==> r == (fs, Err(NotFound))
    ensures FileExists(fs, h.fileName) && h.chunker.None? ==> r == (fs, Err(PermissionDenied))
    ensures FileExists(fs, h.fileName) && h.chunker.Some? && failure.Some? ==>
      && r.1 == Err(failure.value)
      && r.0.files == fs.files
      && r.0.storage.targetMap == fs.storage.targetMap
      && r.0.storage.sizeWritten >= fs.storage.sizeWritten
    ensures r.1.Ok? ==>
      && r.0.files.files.Keys == fs.files.files.Keys
      && r.0.storage.targetMap == fs.storage.targetMap
      && r.1.value.fileName == h.fileName && r.1.value.chunker == h.chunker
  {
    if !FileExists(fs, h.fileName) then
      (fs, Err(NotFound))
    else if h.chunker.None? then
      (fs, Err(PermissionDenied))
    else
      var (storage, written) := Storage.WriteFromStream(fs.storage, input, failure, h.chunker.value, hash, times);
      if written.Err? then
        (fs.(storage := storage), Err(written.error))
      else
        var appended := AppendAll(fs.files, h, written.value);
        (Fs(storage, appended.0), Ok(appended.1))
  }

  /** `FileSystem::close_file`: NotFound when the handle's file is gone,
      else the measurements the handle gathered. */
  function CloseFile<H, K>(fs: Fs<H, K>, h: FileLayer.FileHandle): (r: Result<Storage.WriteMeasurements>)
    ensures r.Err? <==> !FileExists(fs, h.fileName)
    ensures r.Err? ==> r.error == NotFound
    ensures r.Ok? ==> r.value == FileLayer.Close(h)
  {
    if !FileExists(fs, h.fileName) then Err(NotFound) else Ok(FileLayer.Close(h))
  }

  /** `FileSystem::read_file_complete`: the storage's bytes for every hash
      of the file, concatenated in file order; NotFound if one is not
      stored. None when the handle's file is gone, where the file layer
      unwraps and the source panics. */
  function ReadFileComplete<H, K>(fs: Fs<H, K>, h: FileLayer.FileHandle): (r: Option<Result<seq<byte>>>)
    ensures r.Some? <==> FileExists(fs, h.fileName)
    ensures r.Some? ==>
      (r.value.Ok? <==> Storage.Retrieve(fs.storage, FileLayer.ReadComplete(fs.files, h).value).Ok?)
    ensures r.Some? && r.value.Err? ==> r.value.error == NotFound
  {
    var hashes := FileLayer.ReadComplete(fs.files, h);
    if hashes.None? then
      None
    else
      var parts := Storage.Retrieve(fs.storage, hashes.value);
      if parts.Err? then Some(Err(parts.error)) else Some(Ok(Concat(parts.value)))
  }

  /** `FileSystem::read_from_file`: the bytes of the hashes `read` returns,
      or NotFound if one of them is not stored, together with the handle as
      `read` moved it; `read` moves the handle before the bytes are
      retrieved, so the move stands on the error path too. None where
      `read` panics: when the handle's file is gone, and on an underflow,
      which a file whose offsets ascend never meets. */
  function ReadFromFile<H, K>(fs: Fs<H, K>, h: FileLayer.FileHandle)
    : (r: Option<(Result<seq<byte>>, FileLayer.FileHandle)>)
    ensures r.Some? <==> FileLayer.Read(fs.files, h).Some?
    ensures FileExists(fs, h.fileName) && FileLayer.Ascending(fs.files.files[h.fileName].spans) ==> r.Some?
    ensures r.Some? ==> r.value.1 == FileLayer.Read(fs.files, h).value.1 && r.value.1.offset >= h.offset
    ensures r.Some? ==>
      (r.value.0.Ok? <==> Storage.Retrieve(fs.storage, FileLayer.Read(fs.files, h).value.0).Ok?)
    ensures r.Some? && r.value.0.Err? ==> r.value.0.error == NotFound
  {
    var read := FileLayer.Read(fs.files, h);
    if read.None? then
      None
    else
      var parts := Storage.Retrieve(fs.storage, read.value.0);
      if parts.Err? then Some((Err(parts.error), read.value.1)) else Some((Ok(Concat(parts.value)), read.value.1))
  }

  /** `FileSystem::clear_database`: every file is dropped and the chunk
      database emptied; the target map stays. */
  function ClearDatabase<H, K>(fs: Fs<H, K>): (r: Result<Fs<H, K>>)
    ensures r.Ok?
    ensures forall name :: !FileExists(r.value, name)
    ensures r.value.storage.database.Keys == {} && r.value.storage.sizeWritten == 0
    ensures r.value.storage.targetMap == fs.storage.targetMap
  {
    var storage := Storage.ClearDatabase(fs.storage).value;
    Ok(Fs(storage, FileLayer.Clear(fs.files)))
  }

  /** `FileSystem::clear_file_system`: as `clear_database`, and the target
      map is emptied too. */
  function ClearFileSystem<H, K>(fs: Fs<H, K>): (r: Result<Fs<H, K>>)
    ensures r.Ok?
    ensures forall name :: !FileExists(r.value, name)
    ensures r.value.storage.database.Keys == {} && r.value.storage.targetMap.Keys == {}
  {
    var storage := Storage.ClearDatabaseFull(fs.storage).value;
    Ok(Fs(storage, FileLayer.Clear(fs.files)))
  }

  /** Appending writer results adds their hashes, in order, to the end of
      the file and moves the handle by their total length. */
  lemma {:induction false} AppendAllAppends<H>(
    fl: FileLayer.Layer<H>, h: FileLayer.FileHandle, infos: seq<Storage.SpansInfo<H>>)
    requires h.fileName in fl.files
    ensures var (fl', h') := AppendAll(fl, h, infos);
      && h'.fileName in fl'.files
      && FileLayer.ReadComplete(fl', h').value ==
           FileLayer.ReadComplete(fl, h).value + Storage.Hashes(Storage.AllSpans(infos))
      && h'.offset == h.offset + Storage.SpanTotal(Storage.AllSpans(infos))
    decreases |infos|
  {
    if |infos| > 0 {
      var w := FileLayer.Write(fl, h, infos[0]);
      FileLayer.WriteAddsHashes(fl, h, infos[0]);
      AppendAllAppends(w.0, w.1, infos[1..]);
      var first, rest := infos[0].spans, Storage.AllSpans(infos[1..]);
      assert Storage.AllSpans(infos) == first + rest;
      Storage.HashesAppend(first, rest);
      Storage.SpanTotalAppend(first, rest);
      var r := AppendAll(fl, h, infos);
      assert r == AppendAll(w.0, w.1, infos[1..]);
      AssocHashes(FileLayer.ReadComplete(fl, h).value, Storage.Hashes(first), Storage.Hashes(rest));
    }
  }

  lemma AssocHashes<T>(a: seq<T>, b: seq<T>, c: seq<T>)
    ensures (a + b) + c == a + (b + c)
  {
  }

  /** Appending writer results through a handle that no span of the file
      starts after keeps the file's offsets ascending and behind the
      handle. */
  lemma {:induction false} AppendAllKeepsOrder<H>(
    fl: FileLayer.Layer<H>, h: FileLayer.FileHandle, infos: seq<Storage.SpansInfo<H>>)
    requires h.fileName in fl.files
    requires FileLayer.Ascending(fl.files[h.fileName].spans)
    requires FileLayer.Behind(fl.files[h.fileName].spans, h.offset)
    ensures var (fl', h') := AppendAll(fl, h, infos);
      FileLayer.Ascending(fl'.files[h.fileName].spans) && FileLayer.Behind(fl'.files[h.fileName].spans, h'.offset)
    decreases |infos|
  {
    if |infos| > 0 {
      var w := FileLayer.Write(fl, h, infos[0]);
      FileLayer.WriteKeepsOrder(fl, h, infos[0]);
      AppendAllKeepsOrder(w.0, w.1, infos[1..]);
    }
  }

  /** A file written with a chunker whose chunks tile its input and a
      collision-free hasher reads back as before followed by the data; the
      storage stays consistent, and the handle moves by the data length. */
  lemma {:induction false} WriteThenReadBack<H, K>(
    fs: Fs<H, K>, h: FileLayer.FileHandle, data: seq<byte>, hash: seq<byte> -> H,
    times: nat -> Storage.WriteMeasurements, before: seq<byte>)
    requires h.fileName in fs.files.files && h.chunker.Some?
    requires Storage.Bounded(h.chunker.value) && Storage.Tiling(h.chunker.value)
    requires Storage.Injective(hash) && Storage.Consistent(fs.storage.database, hash)
    requires ReadFileComplete(fs, h) == Some(Ok(before))
    ensures WriteToFile(fs, h, data, hash, times).Ok?
    ensures var (fs', h') := WriteToFile(fs, h, data, hash, times).value;
      && h'.fileName in fs'.files.files
      && ReadFileComplete(fs', h') == Some(Ok(before + data))
      && Storage.Consistent(fs'.storage.database, hash)
      && h'.offset == h.offset + |data|
  {
    var chunker := h.chunker.value;
    var (s', infos) := Storage.Write(fs.storage, data, chunker, hash, times);
    Storage.WriteThenRetrieve(fs.storage, data, chunker, hash, times);
    var (fl', h') := AppendAll(fs.files, h, infos);
    AppendAllAppends(fs.files, h, infos);
    var fs' := Fs(s', fl');
    assert WriteToFile(fs, h, data, hash, times) == Ok((fs', h'));
    var earlier := FileLayer.ReadComplete(fs.files, h).value;
    var added := Storage.Hashes(Storage.AllSpans(infos));
    Storage.RetrieveExtends(fs.storage, s', earlier);
    Storage.RetrieveAppend(s', earlier, added);
    var parts := Storage.Retrieve(fs.storage, earlier).value;
    var more := Storage.Retrieve(s', added).value;
    ConcatAppend(parts, more);
    assert FileLayer.ReadComplete(fl', h').value == earlier + added;
  }

  /** A freshly created file reads back empty. */
  lemma CreateThenReadEmpty<H, K>(fs: Fs<H, K>, name: string, chunker: Storage.ChunkFn)
    ensures var (fs', h) := CreateFile(fs, name, chunker).value;
      h.fileName in fs'.files.files && ReadFileComplete(fs', h) == Some(Ok([]))
  {
    var (fs', h) := CreateFile(fs, name, chunker).value;
    assert FileLayer.ReadComplete(fs'.files, h) == Some([]);
  }

  /** The file-system round trip: create a file, write data to it with a
      tiling chunker and a collision-free hasher, and reading it back gives
      the data. */
  lemma CreateWriteRead<H, K>(
    fs: Fs<H, K>, name: string, chunker: Storage.ChunkFn, data: seq<byte>, hash: seq<byte> -> H,
    times: nat -> Storage.WriteMeasurements)
    requires Storage.Bounded(chunker) && Storage.Tiling(chunker)
    requires Storage.Injective(hash) && Storage.Consistent(fs.storage.database, hash)
    ensures var (fs1, h1) := CreateFile(fs, name, chunker).value;
      && WriteToFile(fs1, h1, data, hash, times).Ok?
      && var (fs2, h2) := WriteToFile(fs1, h1, data, hash, times).value;
      && h2.fileName in fs2.files.files
      && ReadFileComplete(fs2, h2) == Some(Ok(data))
  {
    var (fs1, h1) := CreateFile(fs, name, chunker).value;
    CreateThenReadEmpty(fs, name, chunker);
    WriteThenReadBack(fs1, h1, data, hash, times, []);
    assert [] + data == data;
  }

  /** Writing from a stream that yields the `SEG_SIZE` pieces of the data
      and then ends, with a tiling chunker, is writing the data: the same
      failures, and on success the same file system and handle. */
  lemma StreamMatchesWrite<H, K>(
    fs: Fs<H, K>, h: FileLayer.FileHandle, data: seq<byte>, hash: seq<byte> -> H,
    times: nat -> Storage.WriteMeasurements)
    requires h.chunker.Some? ==> Storage.Bounded(h.chunker.value) && Storage.Tiling(h.chunker.value)
    ensures var (fs', r) := WriteFromStream(fs, h, Storage.Pieces(data), None, hash, times);
      var w := WriteToFile(fs, h, data, hash, times);
      && (r.Ok? <==> w.Ok?)
      && (w.Ok? ==> w.value == (fs', r.value))
      && (w.Err? ==> fs' == fs && r.error == w.error)
  {
    if FileExists(fs, h.fileName) && h.chunker.Some? {
      Storage.StreamMatchesWrite(fs.storage, data, h.chunker.value, hash, times);
    }
  }

  /** After `clear_database` a handle's file is gone: writing through it is
      NotFound, and so is closing it, while reading through it reaches the
      file layer's `unwrap` and panics. */
  lemma ClearThenWrite<H, K>(
    fs: Fs<H, K>, h: FileLayer.FileHandle, data: seq<byte>, hash: seq<byte> -> H,
    times: nat -> Storage.WriteMeasurements)
    requires h.chunker.Some? ==> Storage.Bounded(h.chunker.value)
    ensures WriteToFile(ClearDatabase(fs).value, h, data, hash, times) == Err(NotFound)
    ensures CloseFile(ClearDatabase(fs).value, h) == Err(NotFound)
    ensures ReadFileComplete(ClearDatabase(fs).value, h).None?
    ensures ReadFromFile(ClearDatabase(fs).value, h).None?
  {
  }
}

=== FILE: fixed_size.dfy ===
/** The fixed-size chunker of src/chunkers/fixed_size.rs. Unlike the covering
    variant of src/chunker.rs, it withholds a final chunk shorter than the
    chunk size: that tail is not returned but kept as `rest`. */
module FixedSize {
  import opened Wrappers
  import Chunker
  import Arith

  /** `FSChunker { chunk_size, rest }`. */
  datatype FsChunker = FsChunker(chunkSize: nat, rest: seq<byte>)

  /** `FSChunker::new(chunk_size)`. */
  function New(chunkSize: nat): (c: FsChunker)
    ensures c.chunkSize == chunkSize && c.rest == []
  {
    FsChunker(chunkSize, [])
  }

  /** The k-th full chunk of a fixed-size chunking. */
  function Full(k: nat, size: nat): Chunker.Chunk
  {
    Chunker.Chunk(k * size, size)
  }

  /** `FSChunker::chunk_data`. Empty data is outside the domain (the source
      unwraps `chunks.pop()`), and so is `chunk_size == 0`, the derived
      `Default`, whose loop never advances. */
  function ChunkData(c: FsChunker, data: seq<byte>): (r: (seq<Chunker.Chunk>, FsChunker))
    requires c.chunkSize > 0 && |data| > 0
    ensures r.1.chunkSize == c.chunkSize
    ensures forall k :: 0 <= k < |r.0| ==> r.0[k] == Full(k, c.chunkSize)
    ensures |r.1.rest| < c.chunkSize && |r.1.rest| <= |data|
    ensures Chunker.Tiles(r.0, |data| - |r.1.rest|)
    ensures r.1.rest == data[|data| - |r.1.rest|..]
  {
    var chunks := Chunker.FixedChunks(|data|, c.chunkSize, 0);
    FullChunks(chunks, |data|, c.chunkSize);
    var last := chunks[|chunks| - 1];
    Chunker.TilesFromSplitLast(chunks, 0, |data|);
    if last.length < c.chunkSize then
      var kept := chunks[..|chunks| - 1];
      var rest := data[last.offset..];
      assert |rest| == last.length;
      assert |data| - |rest| == last.offset;
      assert forall k :: 0 <= k < |kept| ==> kept[k] == Full(k, c.chunkSize);
      (kept, c.(rest := rest))
    else
      assert Chunker.Tiles(chunks, |data|);
      assert last == Full(|chunks| - 1, c.chunkSize);
      assert forall k :: 0 <= k < |chunks| ==> chunks[k] == Full(k, c.chunkSize);
      (chunks, c.(rest := []))
  }

  /** Every chunk of the fixed-size loop except the last is a full one. */
  lemma FullChunks(chunks: seq<Chunker.Chunk>, len: nat, size: nat)
    requires size > 0 && len > 0 && chunks == Chunker.FixedChunks(len, size, 0)
    ensures |chunks| > 0
    ensures forall k :: 0 <= k < |chunks| - 1 ==> chunks[k] == Full(k, size)
    ensures chunks[|chunks| - 1].length <= size
    ensures chunks[|chunks| - 1].offset == (|chunks| - 1) * size
  {
    Chunker.TilesFromConsecutive(chunks, 0, len);
    forall k | 0 <= k < |chunks| - 1
      ensures chunks[k] == Full(k, size)
    {
      assert chunks[k + 1].offset == k * size + size;
    }
  }

  /** `remainder()`. */
  function Remainder(c: FsChunker): seq<byte>
  {
    c.rest
  }

  /** `estimate_chunk_count = len / chunk_size + 1`. */
  function EstimateChunkCount(c: FsChunker, data: seq<byte>): nat
    requires c.chunkSize > 0
  {
    |data| / c.chunkSize + 1
  }

  /** The withheld tail is exactly `len mod chunk_size` bytes long, so it is
      empty precisely when the chunk size divides the data length, and the
      chunker returns exactly `len / chunk_size` chunks, one fewer than its
      estimate. After the call, `remainder()` yields that tail. */
  lemma {:induction false} TailIsLengthModChunkSize(c: FsChunker, data: seq<byte>)
    requires c.chunkSize > 0 && |data| > 0
    ensures |ChunkData(c, data).1.rest| == |data| % c.chunkSize
    ensures |ChunkData(c, data).0| == |data| / c.chunkSize
    ensures |ChunkData(c, data).0| + 1 == EstimateChunkCount(c, data)
    ensures Remainder(ChunkData(c, data).1) == data[|data| - |data| % c.chunkSize..]
  {
    var n, size := |data|, c.chunkSize;
    var chunks := Chunker.FixedChunks(n, size, 0);
    var k := |chunks| - 1;
    var last := chunks[k];
    Chunker.TilesFromSplitLast(chunks, 0, n);
    assert last.offset == k * size;
    if last.length < size {
      Arith.DivUnique(n, size, k, last.length);
    } else {
      assert n == (k + 1) * size + 0;
      Arith.DivUnique(n, size, k + 1, 0);
    }
  }
}

=== FILE: fuse.dfy ===
/** The FUSE adapter of src/system/fuse_filesystem.rs: the inode table, the
    name table and the open file handles kept around a `FileSystem`, and the
    permission and errno rules of `open`, `write`, `setattr`, `create` and
    `lookup`. Timestamps are an opaque `now` input, replies are a datatype,
    and a failed `unwrap` is the `Panic` reply. */
module Fuse {
  import opened Wrappers
  import Storage
  import FileLayer
  import FileSystem

  /** A timestamp; the adapter only copies them around. */
  type Time = nat

  // Linux errno values.
  const EPERM := 1
  const ENOENT := 2
  const EIO := 5
  const EBADF := 9
  const EACCES := 13
  const EINVAL := 22
  const ESTALE := 116

  // access(2) masks.
  const F_OK: bv32 := 0
  const X_OK: bv32 := 1
  const W_OK: bv32 := 2
  const R_OK: bv32 := 4

  // open(2) flags on Linux, and the kernel's exec marker.
  const O_ACCMODE: bv32 := 3
  const O_RDONLY: bv32 := 0
  const O_WRONLY: bv32 := 1
  const O_RDWR: bv32 := 2
  const O_TRUNC: bv32 := 0x200
  const FMODE_EXEC: bv32 := 0x20

  // Permission bits of a file mode (POSIX.1-2017, section 4.5 of the Base
  // Definitions: read, write and search bits per class).
  const IRUSR: bv16 := 0x100
  const IWUSR: bv16 := 0x80
  const IXUSR: bv16 := 0x40
  const IRGRP: bv16 := 0x20
  const IWGRP: bv16 := 0x10
  const IXGRP: bv16 := 0x8
  const IROTH: bv16 := 0x4
  const IWOTH: bv16 := 0x2
  const IXOTH: bv16 := 0x1

  datatype FileKind = Directory | RegularFile

  /** The attributes the adapter keeps for an inode. */
  datatype Attr = Attr(
    ino: nat, size: nat, kind: FileKind, perm: bv16, nlink: nat,
    uid: nat, gid: nat, flags: bv32,
    atime: Time, mtime: Time, ctime: Time, crtime: Time)

  /** The caller of a request. */
  datatype Request = Request(uid: nat, gid: nat)

  /** `FuseFile`: an inode's attributes, name, generation and open count. */
  datatype FuseFile = FuseFile(attr: Attr, name: string, generation: nat, handles: nat)

  /** `FuseFileHandle`: the file layer handle behind a FUSE fh. */
  datatype FuseHandle = FuseHandle(underlying: FileLayer.FileHandle, read: bool, write: bool, inode: nat)

  /** `FuseFS`: the wrapped file system, inodes, names, handles and the
      chunker every writable handle gets. */
  datatype FuseFs<H, K> = FuseFs(
    fs: FileSystem.Fs<H, K>,
    files: map<nat, FuseFile>,
    inodes: map<string, nat>,
    nextFh: nat,
    handles: map<nat, FuseHandle>,
    chunker: Storage.ChunkFn)

  /** What a request answers. */
  datatype Reply =
    | Error(errno: int)
    | Panic
    | Opened(fh: nat, openFlags: bv32)
    | Written(count: nat)
    | AttrOf(attr: Attr)
    | Entry(entryAttr: Attr, generation: nat)
    | Created(createdAttr: Attr, fh: nat, createFlags: bv32)

  /** The `as u32` cast of a byte count. */
  function U32(n: nat): (r: nat)
    ensures r < 0x1_0000_0000
    ensures n < 0x1_0000_0000 ==> r == n
  {
    n % 0x1_0000_0000
  }

  /** The directory attributes `new` gives "." and "..". */
  function DirAttr(ino: nat, uid: nat, gid: nat, now: Time): Attr
  {
    Attr(ino, 0, Directory, 0x1ED, 2, uid, gid, 0, now, now, now, now)
  }

  /** `FuseFS::new`: ".." is inode 0 and "." is inode 1, both directories
      of the mounting user with mode 0755; no handle is open. */
  function New<H, K>(
    database: map<H, Storage.DataContainer<K>>, chunker: Storage.ChunkFn,
    uid: nat, gid: nat, now: Time)
    : (st: FuseFs<H, K>)
    ensures st.files.Keys == {0, 1} && st.inodes == map["." := 1, ".." := 0]
    ensures st.files[1].attr.kind == Directory && st.files[1].attr.perm == 0x1ED
    ensures st.nextFh == 0 && st.handles == map[]
    ensures Valid(st)
  {
    var fs := FileSystem.New(database, map[]);
    var root := FuseFile(DirAttr(1, uid, gid, now), ".", 0, 0);
    var parent := FuseFile(DirAttr(0, uid, gid, now), "..", 0, 0);
    FuseFs(fs, map[0 := parent, 1 := root], map[".." := 0, "." := 1], 0, map[], chunker)
  }

  /** The bookkeeping the adapter relies on. */
  predicate Valid<H, K>(st: FuseFs<H, K>)
  {
    Numbered(st) && Backed(st)
  }

  /** Every fh handed out so far is below the next one, inodes are numbered
      below their count (so the count is unused), and every name and every
      handle refers to a known inode. */
  predicate Numbered<H, K>(st: FuseFs<H, K>)
  {
    && (forall fh :: fh in st.handles ==> fh < st.nextFh)
    && (forall i :: i in st.files ==> i < |st.files|)
    && (forall n :: n in st.inodes ==> st.inodes[n] in st.files)
    && (forall fh :: fh in st.handles ==> st.handles[fh].inode in st.files)
  }

  /** Regular files exist in the wrapped file system under their name, and
      a writable handle names an existing file and has a chunker. */
  predicate Backed<H, K>(st: FuseFs<H, K>)
  {
    && (forall i :: i in st.files && st.files[i].attr.kind == RegularFile ==>
          st.files[i].name in st.fs.files.files)
    && (forall n :: n in st.fs.files.files ==> st.fs.files.files[n].name == n)
    && (forall fh :: fh in st.handles && st.handles[fh].write ==>
          && st.handles[fh].underlying.chunker.Some?
          && st.handles[fh].underlying.fileName in st.fs.files.files)
  }

  /** Every writable handle's chunker keeps its chunks inside the buffer. */
  ghost predicate ChunkersBounded<H, K>(st: FuseFs<H, K>)
  {
    forall fh :: fh in st.handles && st.handles[fh].underlying.chunker.Some? ==>
      Storage.Bounded(st.handles[fh].underlying.chunker.value)
  }

  /** The numbering depends only on the keys of the tables, the inode of
      each handle and the name table. */
  lemma NumberedFrame<H, K>(st: FuseFs<H, K>, st': FuseFs<H, K>)
    requires Numbered(st)
    requires st'.nextFh == st.nextFh && st'.inodes == st.inodes
    requires st'.files.Keys == st.files.Keys && st'.handles.Keys == st.handles.Keys
    requires forall fh :: fh in st.handles ==> st'.handles[fh].inode == st.handles[fh].inode
    ensures Numbered(st')
  {
    assert |st'.files| == |st.files| by {
      assert st'.files.Keys == st.files.Keys;
    }
  }

  /** The backing depends only on the kinds and names of the inodes, the
      mode and file of each handle, and the names of the wrapped file
      system's files. */
  lemma BackedFrame<H, K>(st: FuseFs<H, K>, st': FuseFs<H, K>)
    requires Backed(st)
    requires st'.files.Keys == st.files.Keys
    requires forall i :: i in st.files ==>
      st'.files[i].attr.kind == st.files[i].attr.kind && st'.files[i].name == st.files[i].name
    requires st'.handles.Keys == st.handles.Keys
    requires forall fh :: fh in st.handles ==>
      && st'.handles[fh].write == st.handles[fh].write
      && st'.handles[fh].underlying.fileName == st.handles[fh].underlying.fileName
      && st'.handles[fh].underlying.chunker == st.handles[fh].underlying.chunker
    requires st'.fs.files.files.Keys == st.fs.files.files.Keys
    requires forall n :: n in st.fs.files.files ==> st'.fs.files.files[n].name == st.fs.files.files[n].name
    ensures Backed(st')
  {
  }

  /** `get_new_fh`: the next fh, and the counter moved past it. */
  function GetNewFh<H, K>(st: FuseFs<H, K>): (r: (FuseFs<H, K>, nat))
    ensures r.0 == st.(nextFh := r.1 + 1)
    ensures Valid(st) ==> r.1 !in st.handles
    ensures forall fh :: fh in st.handles && Valid(st) ==> fh < r.1
  {
    (st.(nextFh := st.nextFh + 1), st.nextFh)
  }

  /** Two fhs in a row are distinct and increasing, and neither was in use. */
  lemma FhsIncrease<H, K>(st: FuseFs<H, K>)
    requires Valid(st)
    ensures var st1 := GetNewFh(st).0; var a := GetNewFh(st).1;
      var b := GetNewFh(st1).1;
      a < b && a !in st.handles && b !in st.handles
  {
  }

  /** `get_new_inode` as written: the number of known names. */
  function GetNewInode<H, K>(st: FuseFs<H, K>): (ino: nat)
    ensures ino == |st.inodes.Keys|
  {
    |st.inodes|
  }

  /** The inode `create` should hand out: the number of inodes, which the
      bookkeeping keeps unused. */
  function FreshInode<H, K>(st: FuseFs<H, K>): (ino: nat)
    ensures Valid(st) ==> ino !in st.files
  {
    |st.files|
  }

  // ---------------------------------------------------------------------
  // check_access

  /** The permission class a request falls in for a file. */
  datatype PermClass = OwnerClass | GroupClass | OtherClass

  /** Owner if the uid matches, else group if the gid matches, else other. */
  function ClassOf(attr: Attr, req: Request): PermClass
  {
    if req.uid == attr.uid then OwnerClass else if req.gid == attr.gid then GroupClass else OtherClass
  }

  function ReadBit(c: PermClass): bv16
  {
    match c
    case OwnerClass => IRUSR
    case GroupClass => IRGRP
    case OtherClass => IROTH
  }

  function WriteBit(c: PermClass): bv16
  {
    match c
    case OwnerClass => IWUSR
    case GroupClass => IWGRP
    case OtherClass => IWOTH
  }

  function ExecBit(c: PermClass): bv16
  {
    match c
    case OwnerClass => IXUSR
    case GroupClass => IXGRP
    case OtherClass => IXOTH
  }

  /** Each of read, write and execute that the mask requests is granted to
      the class by the mode. */
  predicate Permits(perm: bv16, c: PermClass, mask: bv32)
  {
    && (mask & R_OK != 0 ==> perm & ReadBit(c) != 0)
    && (mask & W_OK != 0 ==> perm & WriteBit(c) != 0)
    && (mask & X_OK != 0 ==> perm & ExecBit(c) != 0)
  }

  /** How far `check_access` shifts the mode to bring the class's bits down
      to the mask bits. */
  function ClassShift(c: PermClass): bv32
  {
    match c
    case OwnerClass => 6
    case GroupClass => 3
    case OtherClass => 0
  }

  /** `access_mask -= access_mask & bits`: the requested bits `bits` does
      not grant. */
  function Strip(mask: bv32, bits: bv32): bv32
  {
    mask - (mask & bits)
  }

  /** The non-root rule: nothing is left of the mask once the bits of the
      class, shifted down, are stripped. */
  predicate ClassGranted(perm: bv16, c: PermClass, mask: bv32)
  {
    Strip(mask, (perm as bv32) >> ClassShift(c)) == 0
  }

  /** The root rule: only an execute request is checked, against the
      owner, group and other bits in turn. */
  predicate RootGranted(perm: bv16, mask: bv32)
  {
    var mode := perm as bv32;
    Strip(Strip(Strip(mask & X_OK, mode >> 6), mode >> 3), mode) == 0
  }

  /** `check_access`: existence is always granted; root is checked for
      execute only, anyone else for the bits of their class (see
      `CheckAccessRoot` and `CheckAccessClass`). */
  function CheckAccess(attr: Attr, req: Request, mask: bv32): (granted: bool)
    ensures mask == F_OK ==> granted
  {
    if mask == F_OK then true
    else if req.uid == 0 then RootGranted(attr.perm, mask)
    else ClassGranted(attr.perm, ClassOf(attr, req), mask)
  }

  /** Root may read and write anything, and execute when some execute bit
      is set. */
  lemma CheckAccessRoot(attr: Attr, req: Request, mask: bv32)
    requires req.uid == 0 && mask != F_OK
    ensures CheckAccess(attr, req, mask) <==>
      mask & X_OK == 0 || attr.perm & (IXUSR | IXGRP | IXOTH) != 0
  {
    RootExec(attr.perm, mask);
  }

  /** Anyone but root is granted a read, write and execute mask exactly
      when their class has each requested bit. */
  lemma CheckAccessClass(attr: Attr, req: Request, mask: bv32)
    requires req.uid != 0 && mask != F_OK && mask & 7 == mask
    ensures CheckAccess(attr, req, mask) <==> Permits(attr.perm, ClassOf(attr, req), mask)
  {
    ClassBits(attr.perm, ClassOf(attr, req), mask);
  }

  lemma ClassBits(perm: bv16, c: PermClass, mask: bv32)
    requires mask & 7 == mask
    ensures ClassGranted(perm, c, mask) <==> Permits(perm, c, mask)
  {
  }

  lemma RootExec(perm: bv16, mask: bv32)
    ensures RootGranted(perm, mask) <==> mask & X_OK == 0 || perm & (IXUSR | IXGRP | IXOTH) != 0
  {
  }

  // ---------------------------------------------------------------------
  // open

  /** The outcome of decoding `open` flags. */
  datatype OpenMode = Mode(mask: bv32, read: bool, write: bool) | Refused(errno: int)

  /** The flag decoding of `open`: read-only (execute for an exec open),
      write-only, read-write, or EINVAL; truncating a read-only open is
      EACCES. */
  function DecodeOpen(flags: bv32): (r: OpenMode)
    ensures flags & O_ACCMODE == O_ACCMODE <==> r == Refused(EINVAL)
    ensures flags & O_ACCMODE == O_RDONLY && flags & O_TRUNC != 0 <==> r == Refused(EACCES)
    ensures r.Mode? ==> r.mask != F_OK && r.mask & 7 == r.mask
    ensures r.Mode? ==> (r.write <==> flags & O_ACCMODE != O_RDONLY) && (r.write <==> r.mask & W_OK != 0)
    ensures r.Mode? ==> (r.read <==> flags & O_ACCMODE != O_WRONLY) && (r.read <==> r.mask & (R_OK | X_OK) != 0)
    ensures r.Mode? ==> (r.mask & X_OK != 0 <==> flags & O_ACCMODE == O_RDONLY && flags & FMODE_EXEC != 0)
  {
    var accmode := flags & O_ACCMODE;
    if accmode == O_RDONLY then
      if flags & O_TRUNC != 0 then Refused(EACCES)
      else if flags & FMODE_EXEC != 0 then Mode(X_OK, true, false)
      else Mode(R_OK, true, false)
    else if accmode == O_WRONLY then Mode(W_OK, false, true)
    else if accmode == O_RDWR then Mode(R_OK | W_OK, true, true)
    else Refused(EINVAL)
  }

  /** `open`: ENOENT for an unknown inode, then the flag decoding, then
      EACCES when `check_access` refuses the mode; otherwise the file is
      opened in the wrapped file system (with the chunker when writing), its
      handle count goes up, and a new fh is returned. Opening a name the
      wrapped file system lacks (the directories) panics. */
  function Open<H, K>(st: FuseFs<H, K>, req: Request, ino: nat, flags: bv32): (r: (FuseFs<H, K>, Reply))
    ensures ino !in st.files ==> r == (st, Error(ENOENT))
    ensures ino in st.files && DecodeOpen(flags).Refused? ==> r == (st, Error(DecodeOpen(flags).errno))
    ensures (ino in st.files && DecodeOpen(flags).Mode?
      && !CheckAccess(st.files[ino].attr, req, DecodeOpen(flags).mask)) ==> r == (st, Error(EACCES))
    ensures !r.1.Opened? ==> r.0 == st
    ensures r.1.Opened? ==>
      && ino in st.files && DecodeOpen(flags).Mode?
      && CheckAccess(st.files[ino].attr, req, DecodeOpen(flags).mask)
      && r.1.fh == st.nextFh && r.0.nextFh == st.nextFh + 1 && r.1.openFlags == flags
      && r.0.files == st.files[ino := st.files[ino].(handles := st.files[ino].handles + 1)]
      && r.0.handles.Keys == st.handles.Keys + {r.1.fh}
      && (forall fh :: fh in st.handles && fh != r.1.fh ==> r.0.handles[fh] == st.handles[fh])
      && r.0.handles[r.1.fh].inode == ino
      && r.0.handles[r.1.fh].read == DecodeOpen(flags).read
      && r.0.handles[r.1.fh].write == DecodeOpen(flags).write
      && r.0.handles[r.1.fh].underlying.offset == 0
      && r.0.fs == st.fs && r.0.inodes == st.inodes
  {
    if ino !in st.files then
      (st, Error(ENOENT))
    else
      var file := st.files[ino];
      match DecodeOpen(flags)
      case Refused(e) => (st, Error(e))
      case Mode(mask, read, write) =>
        if !CheckAccess(file.attr, req, mask) then
          (st, Error(EACCES))
        else
          var u :=
            if write then FileSystem.OpenFile(st.fs, file.name, st.chunker)
            else FileSystem.OpenFileReadonly(st.fs, file.name);
          if u.Err? then
            (st, Panic)
          else
            var counted := st.(files := st.files[ino := file.(handles := file.handles + 1)]);
            var next := GetNewFh(counted);
            (next.0.(handles := next.0.handles[next.1 := FuseHandle(u.value, read, write, ino)]),
             Opened(next.1, flags))
  }

  /** An open of a known regular file that `check_access` allows succeeds
      (it does not panic), with a fh never handed out before. */
  lemma OpenRegular<H, K>(st: FuseFs<H, K>, req: Request, ino: nat, flags: bv32)
    requires Valid(st) && ino in st.files && st.files[ino].attr.kind == RegularFile
    requires DecodeOpen(flags).Mode? && CheckAccess(st.files[ino].attr, req, DecodeOpen(flags).mask)
    ensures Open(st, req, ino, flags).1.Opened?
    ensures Open(st, req, ino, flags).1.fh !in st.handles
  {
    assert st.files[ino].name in st.fs.files.files;
  }

  /** Every open keeps the bookkeeping, and a successful one hands out a
      fh never handed out before. */
  lemma OpenKeepsValid<H, K>(st: FuseFs<H, K>, req: Request, ino: nat, flags: bv32)
    requires Valid(st)
    ensures Valid(Open(st, req, ino, flags).0)
    ensures Open(st, req, ino, flags).1.Opened? ==> Open(st, req, ino, flags).1.fh !in st.handles
  {
    OpenKeepsNumbered(st, req, ino, flags);
    OpenKeepsBacked(st, req, ino, flags);
  }

  lemma OpenKeepsNumbered<H, K>(st: FuseFs<H, K>, req: Request, ino: nat, flags: bv32)
    requires Valid(st)
    ensures Numbered(Open(st, req, ino, flags).0)
  {
    var st' := Open(st, req, ino, flags).0; var reply := Open(st, req, ino, flags).1;
    if reply.Opened? {
      assert st'.files.Keys == st.files.Keys;
    }
  }

  lemma OpenKeepsBacked<H, K>(st: FuseFs<H, K>, req: Request, ino: nat, flags: bv32)
    requires Valid(st)
    ensures Backed(Open(st, req, ino, flags).0)
  {
    var st' := Open(st, req, ino, flags).0; var reply := Open(st, req, ino, flags).1;
    if reply.Opened? {
      var name := st.files[ino].name;
      var u := st'.handles[reply.fh].underlying;
      assert u.fileName == st.fs.files.files[name].name;
    }
  }

  // ---------------------------------------------------------------------
  // write

  /** The checks of `write` that precede the write itself, with the access
      mask it asks `check_access` for. */
  predicate WriteAllowed<H, K>(st: FuseFs<H, K>, req: Request, ino: nat, fh: nat, offset: int, mask: bv32)
  {
    && fh in st.handles && st.handles[fh].inode == ino && ino in st.files
    && offset == st.files[ino].attr.size
    && CheckAccess(st.files[ino].attr, req, mask) && st.handles[fh].write
  }

  /** `write` with the access mask as a parameter: EBADF for an unknown fh,
      ESTALE for a fh of another inode, ENOENT for an unknown inode, EINVAL
      unless the write appends at the current size, EACCES if the mask is
      refused or the handle is not writable, EIO if the wrapped file system
      fails; otherwise the data is appended, size and generation go up and
      the count written is returned. Nothing changes on an error. */
  function WriteWith<H, K>(
    st: FuseFs<H, K>, req: Request, ino: nat, fh: nat, offset: int, data: seq<byte>,
    hash: seq<byte> -> H, times: nat -> Storage.WriteMeasurements, now: Time, mask: bv32)
    : (r: (FuseFs<H, K>, Reply))
    requires ChunkersBounded(st)
    ensures fh !in st.handles ==> r == (st, Error(EBADF))
    ensures fh in st.handles && st.handles[fh].inode != ino ==> r == (st, Error(ESTALE))
    ensures fh in st.handles && st.handles[fh].inode == ino && ino !in st.files ==> r == (st, Error(ENOENT))
    ensures (fh in st.handles && st.handles[fh].inode == ino && ino in st.files
      && offset != st.files[ino].attr.size) ==> r == (st, Error(EINVAL))
    ensures (fh in st.handles && st.handles[fh].inode == ino && ino in st.files
      && offset == st.files[ino].attr.size
      && (!CheckAccess(st.files[ino].attr, req, mask) || !st.handles[fh].write)) ==> r == (st, Error(EACCES))
    ensures WriteAllowed(st, req, ino, fh, offset, mask) && !r.1.Written? ==> r == (st, Error(EIO))
    ensures !r.1.Written? ==> r.0 == st
    ensures r.1.Written? ==> WriteAllowed(st, req, ino, fh, offset, mask) && r.1.count == U32(|data|)
  {
    if fh !in st.handles then
      (st, Error(EBADF))
    else
      var handle := st.handles[fh];
      if handle.inode != ino then
        (st, Error(ESTALE))
      else if ino !in st.files then
        (st, Error(ENOENT))
      else
        var file := st.files[ino];
        if offset < 0 || offset != file.attr.size then
          (st, Error(EINVAL))
        else if !CheckAccess(file.attr, req, mask) || !handle.write then
          (st, Error(EACCES))
        else
          var w := FileSystem.WriteToFile(st.fs, handle.underlying, data, hash, times);
          if w.Err? then
            (st, Error(EIO))
          else
            var attr := file.attr.(ctime := now, mtime := now, size := file.attr.size + |data|);
            var file' := file.(attr := attr, generation := file.generation + 1);
            (st.(fs := w.value.0,
                 files := st.files[ino := file'],
                 handles := st.handles[fh := handle.(underlying := w.value.1)]),
             Written(U32(|data|)))
  }

  /** `write` as written: it asks `check_access` for read access. */
  function WriteAsWritten<H, K>(
    st: FuseFs<H, K>, req: Request, ino: nat, fh: nat, offset: int, data: seq<byte>,
    hash: seq<byte> -> H, times: nat -> Storage.WriteMeasurements, now: Time)
    : (r: (FuseFs<H, K>, Reply))
    requires ChunkersBounded(st)
    ensures r.1.Written? ==> WriteAllowed(st, req, ino, fh, offset, R_OK)
    ensures !r.1.Written? ==> r.0 == st
  {
    WriteWith(st, req, ino, fh, offset, data, hash, times, now, R_OK)
  }

  /** `write` as intended: it asks `check_access` for write access. */
  function Write<H, K>(
    st: FuseFs<H, K>, req: Request, ino: nat, fh: nat, offset: int, data: seq<byte>,
    hash: seq<byte> -> H, times: nat -> Storage.WriteMeasurements, now: Time)
    : (r: (FuseFs<H, K>, Reply))
    requires ChunkersBounded(st)
    ensures r.1.Written? ==> WriteAllowed(st, req, ino, fh, offset, W_OK)
    ensures !r.1.Written? ==> r.0 == st
  {
    WriteWith(st, req, ino, fh, offset, data, hash, times, now, W_OK)
  }

  /** With the bookkeeping in place a write that passes the checks never
      fails in the wrapped file system. */
  lemma WriteSucceeds<H, K>(
    st: FuseFs<H, K>, req: Request, ino: nat, fh: nat, offset: int, data: seq<byte>,
    hash: seq<byte> -> H, times: nat -> Storage.WriteMeasurements, now: Time, mask: bv32)
    requires Valid(st) && ChunkersBounded(st)
    ensures WriteWith(st, req, ino, fh, offset, data, hash, times, now, mask).1.Written?
      <==> WriteAllowed(st, req, ino, fh, offset, mask)
  {
    if WriteAllowed(st, req, ino, fh, offset, mask) {
      var handle := st.handles[fh];
      assert FileSystem.WriteToFile(st.fs, handle.underlying, data, hash, times).Ok?;
    }
  }

  /** A write keeps the bookkeeping. */
  lemma WriteKeepsValid<H, K>(
    st: FuseFs<H, K>, req: Request, ino: nat, fh: nat, offset: int, data: seq<byte>,
    hash: seq<byte> -> H, times: nat -> Storage.WriteMeasurements, now: Time, mask: bv32)
    requires Valid(st) && ChunkersBounded(st)
    ensures Valid(WriteWith(st, req, ino, fh, offset, data, hash, times, now, mask).0)
  {
    WriteKeepsNumbered(st, req, ino, fh, offset, data, hash, times, now, mask);
    WriteKeepsBacked(st, req, ino, fh, offset, data, hash, times, now, mask);
  }

  lemma WriteKeepsNumbered<H, K>(
    st: FuseFs<H, K>, req: Request, ino: nat, fh: nat, offset: int, data: seq<byte>,
    hash: seq<byte> -> H, times: nat -> Storage.WriteMeasurements, now: Time, mask: bv32)
    requires Numbered(st) && ChunkersBounded(st)
    ensures Numbered(WriteWith(st, req, ino, fh, offset, data, hash, times, now, mask).0)
  {
    var r := WriteWith(st, req, ino, fh, offset, data, hash, times, now, mask);
    if r.1.Written? {
      WriteEffects(st, req, ino, fh, offset, data, hash, times, now, mask);
      NumberedFrame(st, r.0);
    }
  }

  lemma WriteKeepsBacked<H, K>(
    st: FuseFs<H, K>, req: Request, ino: nat, fh: nat, offset: int, data: seq<byte>,
    hash: seq<byte> -> H, times: nat -> Storage.WriteMeasurements, now: Time, mask: bv32)
    requires Backed(st) && ChunkersBounded(st)
    ensures Backed(WriteWith(st, req, ino, fh, offset, data, hash, times, now, mask).0)
  {
    var r := WriteWith(st, req, ino, fh, offset, data, hash, times, now, mask);
    if r.1.Written? {
      WriteEffects(st, req, ino, fh, offset, data, hash, times, now, mask);
      AppendedKeepsBacked(st, r.0, ino, fh, data, now);
    }
  }

  /** A write keeps every handle's chunker. */
  lemma WriteKeepsBounded<H, K>(
    st: FuseFs<H, K>, req: Request, ino: nat, fh: nat, offset: int, data: seq<byte>,
    hash: seq<byte> -> H, times: nat -> Storage.WriteMeasurements, now: Time, mask: bv32)
    requires ChunkersBounded(st)
    ensures ChunkersBounded(WriteWith(st, req, ino, fh, offset, data, hash, times, now, mask).0)
  {
    var r := WriteWith(st, req, ino, fh, offset, data, hash, times, now, mask);
    if r.1.Written? {
      WriteEffects(st, req, ino, fh, offset, data, hash, times, now, mask);
    }
  }

  /** A successful write appends: the inode's size grows by the data
      length, its generation goes up, mtime and ctime become the request's
      time and nothing else of it changes; only the handle's file layer
      handle and the wrapped file system's contents change besides, and the
      storage counts the data as written. */
  lemma WriteEffects<H, K>(
    st: FuseFs<H, K>, req: Request, ino: nat, fh: nat, offset: int, data: seq<byte>,
    hash: seq<byte> -> H, times: nat -> Storage.WriteMeasurements, now: Time, mask: bv32)
    requires ChunkersBounded(st)
    requires WriteWith(st, req, ino, fh, offset, data, hash, times, now, mask).1.Written?
    ensures Appended(st, WriteWith(st, req, ino, fh, offset, data, hash, times, now, mask).0, ino, fh, data, now)
  {
    var handle := st.handles[fh];
    var w := FileSystem.WriteToFile(st.fs, handle.underlying, data, hash, times);
    var st' := WriteWith(st, req, ino, fh, offset, data, hash, times, now, mask).0;
    assert st'.fs == w.value.0;
    assert st'.handles[fh].underlying == w.value.1;
  }

  /** `st'` is `st` after `data` was appended to inode `ino` through `fh`
      at time `now`. */
  ghost predicate Appended<H, K>(st: FuseFs<H, K>, st': FuseFs<H, K>, ino: nat, fh: nat, data: seq<byte>, now: Time)
  {
    && fh in st.handles && ino in st.files
    && ino in st'.files
    && st'.files == st.files[ino := st'.files[ino]]
    && st'.files[ino] == st.files[ino].(
         attr := st.files[ino].attr.(size := st.files[ino].attr.size + |data|, mtime := now, ctime := now),
         generation := st.files[ino].generation + 1)
    && fh in st'.handles
    && st'.handles == st.handles[fh := st.handles[fh].(underlying := st'.handles[fh].underlying)]
    && st'.handles[fh].underlying.fileName == st.handles[fh].underlying.fileName
    && st'.handles[fh].underlying.chunker == st.handles[fh].underlying.chunker
    && st'.fs.files.files.Keys == st.fs.files.files.Keys
    && (forall n :: n in st.fs.files.files ==> st'.fs.files.files[n].name == st.fs.files.files[n].name)
    && st'.fs.storage.sizeWritten == st.fs.storage.sizeWritten + |data|
    && st'.inodes == st.inodes && st'.nextFh == st.nextFh && st'.chunker == st.chunker
  }

  /** An append keeps the backing of every file and handle. */
  lemma AppendedKeepsBacked<H, K>(st: FuseFs<H, K>, st': FuseFs<H, K>, ino: nat, fh: nat, data: seq<byte>, now: Time)
    requires Backed(st) && Appended(st, st', ino, fh, data, now)
    ensures Backed(st')
  {
    forall i | i in st.files
      ensures st'.files[i].attr.kind == st.files[i].attr.kind && st'.files[i].name == st.files[i].name
    {
      if i != ino {
        assert st'.files[i] == st.files[i];
      }
    }
    BackedFrame(st, st');
  }

  /** A successful write appends the data to what the handle's file reads
      back in the wrapped file system. */
  lemma WriteAppendsContent<H, K>(
    st: FuseFs<H, K>, req: Request, ino: nat, fh: nat, offset: int, data: seq<byte>,
    hash: seq<byte> -> H, times: nat -> Storage.WriteMeasurements, now: Time, before: seq<byte>)
    requires Valid(st) && ChunkersBounded(st) && WriteAllowed(st, req, ino, fh, offset, W_OK)
    requires Storage.Tiling(st.handles[fh].underlying.chunker.value)
    requires Storage.Injective(hash) && Storage.Consistent(st.fs.storage.database, hash)
    requires FileSystem.ReadFileComplete(st.fs, st.handles[fh].underlying) == Some(Ok(before))
    ensures var st' := Write(st, req, ino, fh, offset, data, hash, times, now).0; var reply := Write(st, req, ino, fh, offset, data, hash, times, now).1;
      && reply == Written(U32(|data|))
      && st'.handles[fh].underlying.fileName in st'.fs.files.files
      && FileSystem.ReadFileComplete(st'.fs, st'.handles[fh].underlying) == Some(Ok(before + data))
      && st'.files[ino].attr.size == st.files[ino].attr.size + |data|
  {
    var handle := st.handles[fh];
    assert Storage.Bounded(handle.underlying.chunker.value);
    FileSystem.WriteThenReadBack(st.fs, handle.underlying, data, hash, times, before);
    var w := FileSystem.WriteToFile(st.fs, handle.underlying, data, hash, times);
    WriteSucceeds(st, req, ino, fh, offset, data, hash, times, now, W_OK);
    WriteEffects(st, req, ino, fh, offset, data, hash, times, now, W_OK);
    var r := Write(st, req, ino, fh, offset, data, hash, times, now);
    assert r.0.fs == w.value.0;
    assert r.0.handles[fh].underlying == w.value.1;
  }

  /** The check as written refuses the owner of a write-only file a write
      through a handle opened for writing, which the intended check grants. */
  lemma WriteOnlyFileRefused<H, K>(
    st: FuseFs<H, K>, req: Request, ino: nat, fh: nat, data: seq<byte>,
    hash: seq<byte> -> H, times: nat -> Storage.WriteMeasurements, now: Time)
    requires Valid(st) && ChunkersBounded(st)
    requires fh in st.handles && st.handles[fh].inode == ino && st.handles[fh].write && ino in st.files
    requires req.uid != 0 && req.uid == st.files[ino].attr.uid
    requires st.files[ino].attr.perm == IWUSR
    ensures CheckAccess(st.files[ino].attr, req, DecodeOpen(O_WRONLY).mask)
    ensures WriteAsWritten(st, req, ino, fh, st.files[ino].attr.size, data, hash, times, now) == (st, Error(EACCES))
    ensures Write(st, req, ino, fh, st.files[ino].attr.size, data, hash, times, now).1 == Written(U32(|data|))
  {
    CheckAccessClass(st.files[ino].attr, req, W_OK);
    CheckAccessClass(st.files[ino].attr, req, R_OK);
    WriteSucceeds(st, req, ino, fh, st.files[ino].attr.size, data, hash, times, now, W_OK);
  }

  /** The intended check: a writable handle whose file grants the caller
      write access accepts an appending write. */
  lemma WriteGranted<H, K>(
    st: FuseFs<H, K>, req: Request, ino: nat, fh: nat, data: seq<byte>,
    hash: seq<byte> -> H, times: nat -> Storage.WriteMeasurements, now: Time)
    requires Valid(st) && ChunkersBounded(st)
    requires fh in st.handles && st.handles[fh].inode == ino && st.handles[fh].write && ino in st.files
    requires CheckAccess(st.files[ino].attr, req, W_OK)
    ensures Write(st, req, ino, fh, st.files[ino].attr.size, data, hash, times, now).1 == Written(U32(|data|))
  {
    WriteSucceeds(st, req, ino, fh, st.files[ino].attr.size, data, hash, times, now, W_OK);
  }

  // ---------------------------------------------------------------------
  // setattr

  /** A time to set: a given one, or the time of the request. */
  datatype TimeOrNow = SpecificTime(time: Time) | Now

  function TimeOf(t: TimeOrNow, now: Time): Time
  {
    match t
    case SpecificTime(time) => time
    case Now => now
  }

  /** The `mode as u16` cast. */
  function Mode16(mode: bv32): (perm: bv16)
    ensures perm as bv32 == mode & 0xFFFF
  {
    (mode & 0xFFFF) as bv16
  }

  /** The outcome of one time update of `setattr`. */
  datatype TimeUpdate = Updated(attr: Attr) | Denied(errno: int)

  /** One of the atime/mtime updates of `setattr`: only the owner or root
      may set an explicit time (EPERM), and anyone else needs write access
      (EACCES); the time and ctime are then set. */
  function SetTime(attr: Attr, req: Request, t: TimeOrNow, now: Time, mtime: bool): (r: TimeUpdate)
    ensures attr.uid != req.uid && req.uid != 0 && t != Now <==> r == Denied(EPERM)
    ensures r.Denied? && r.errno != EPERM ==>
      r.errno == EACCES && attr.uid != req.uid && !CheckAccess(attr, req, W_OK)
    ensures r.Updated? ==> attr.uid == req.uid || CheckAccess(attr, req, W_OK)
    ensures r.Updated? ==>
      && r.attr.ctime == now
      && (if mtime then r.attr.mtime == TimeOf(t, now) && r.attr.atime == attr.atime
          else r.attr.atime == TimeOf(t, now) && r.attr.mtime == attr.mtime)
      && r.attr.perm == attr.perm && r.attr.size == attr.size && r.attr.uid == attr.uid
  {
    if attr.uid != req.uid && req.uid != 0 && t != Now then
      Denied(EPERM)
    else if attr.uid != req.uid && !CheckAccess(attr, req, W_OK) then
      Denied(EACCES)
    else if mtime then
      Updated(attr.(mtime := TimeOf(t, now), ctime := now))
    else
      Updated(attr.(atime := TimeOf(t, now), ctime := now))
  }

  /** `setattr`, for the attributes it handles: ENOENT for an unknown inode;
      a mode change needs root or the owner (EPERM), sets the permission
      bits and ctime and ignores the times; otherwise atime and then mtime
      are updated, and an mtime refusal keeps an atime already set. */
  function SetAttr<H, K>(
    st: FuseFs<H, K>, req: Request, ino: nat, mode: Option<bv32>,
    atime: Option<TimeOrNow>, mtime: Option<TimeOrNow>, now: Time)
    : (r: (FuseFs<H, K>, Reply))
    ensures r.0.files.Keys == st.files.Keys
    ensures ino !in st.files ==> r == (st, Error(ENOENT))
    ensures ino in st.files && mode.Some? ==>
      (r.1 == Error(EPERM) <==> req.uid != 0 && req.uid != st.files[ino].attr.uid)
    ensures ino in st.files && mode.Some? && r.1 != Error(EPERM) ==>
      && r.1.AttrOf? && r.1.attr == r.0.files[ino].attr
      && r.0.files[ino].attr == st.files[ino].attr.(perm := Mode16(mode.value), ctime := now)
    ensures forall i :: i in st.files && i != ino ==> r.0.files[i] == st.files[i]
    ensures r.0.handles == st.handles && r.0.inodes == st.inodes && r.0.fs == st.fs
    ensures r.1.AttrOf? ==>
      ino in st.files && r.1.attr == r.0.files[ino].attr && r.0.files[ino].attr.size == st.files[ino].attr.size
  {
    if ino !in st.files then
      (st, Error(ENOENT))
    else
      var file := st.files[ino];
      var attr := file.attr;
      if mode.Some? then
        if req.uid != 0 && req.uid != attr.uid then
          (st, Error(EPERM))
        else
          var attr' := attr.(perm := Mode16(mode.value), ctime := now);
          (st.(files := st.files[ino := file.(attr := attr')]), AttrOf(attr'))
      else
        var a := if atime.Some? then SetTime(attr, req, atime.value, now, false) else Updated(attr);
        if a.Denied? then
          (st, Error(a.errno))
        else
          var m := if mtime.Some? then SetTime(a.attr, req, mtime.value, now, true) else Updated(a.attr);
          if m.Denied? then
            (st.(files := st.files[ino := file.(attr := a.attr)]), Error(m.errno))
          else
            (st.(files := st.files[ino := file.(attr := m.attr)]), AttrOf(m.attr))
  }

  /** After the owner gives themselves read access with `setattr`, an open
      for reading passes the permission check. */
  lemma ChmodThenReadable<H, K>(st: FuseFs<H, K>, req: Request, ino: nat, mode: bv32, now: Time)
    requires ino in st.files && req.uid != 0 && req.uid == st.files[ino].attr.uid
    requires mode & (IRUSR as bv32) != 0
    ensures var st' := SetAttr(st, req, ino, Some(mode), None, None, now).0; var reply := SetAttr(st, req, ino, Some(mode), None, None, now).1;
      reply.AttrOf? && CheckAccess(st'.files[ino].attr, req, DecodeOpen(O_RDONLY).mask)
  {
    var st' := SetAttr(st, req, ino, Some(mode), None, None, now).0; var reply := SetAttr(st, req, ino, Some(mode), None, None, now).1;
    CheckAccessClass(st'.files[ino].attr, req, R_OK);
  }

  // ---------------------------------------------------------------------
  // create

  /** The access-mode decoding of `create`: read-only, write-only,
      read-write, or none. */
  function CreateMode(flags: bv32): (r: Option<(bool, bool)>)
    ensures r.None? <==> flags & O_ACCMODE == O_ACCMODE
    ensures r.Some? ==> (r.value.0 <==> flags & O_ACCMODE != O_WRONLY)
    ensures r.Some? ==> (r.value.1 <==> flags & O_ACCMODE != O_RDONLY)
  {
    var accmode := flags & O_ACCMODE;
    if accmode == O_RDONLY then Some((true, false))
    else if accmode == O_WRONLY then Some((false, true))
    else if accmode == O_RDWR then Some((true, true))
    else None
  }

  /** The permission bits of a new file: the mode without the umask bits,
      cut to 16 bits. */
  function NewPerm(mode: bv32, umask: bv32): (perm: bv16)
    ensures forall c: PermClass :: perm & ReadBit(c) != 0 <==> mode & (ReadBit(c) as bv32) != 0 && umask & (ReadBit(c) as bv32) == 0
    ensures forall c: PermClass :: perm & WriteBit(c) != 0 <==> mode & (WriteBit(c) as bv32) != 0 && umask & (WriteBit(c) as bv32) == 0
    ensures forall c: PermClass :: perm & ExecBit(c) != 0 <==> mode & (ExecBit(c) as bv32) != 0 && umask & (ExecBit(c) as bv32) == 0
  {
    Mode16(mode & !umask)
  }

  /** `create` once the inode number is chosen: EINVAL for a parent other
      than the root; otherwise a fh is taken and the file is created (empty)
      in the wrapped file system, both before EINVAL for a missing access
      mode; then the inode, its name and the handle are recorded. EEXIST
      cannot happen: the wrapped `create_file` replaces an existing file. */
  function CreateAt<H, K>(
    st: FuseFs<H, K>, req: Request, parent: nat, name: string, mode: bv32, umask: bv32,
    flags: bv32, now: Time, ino: nat)
    : (r: (FuseFs<H, K>, Reply))
    ensures parent != 1 ==> r == (st, Error(EINVAL))
    ensures parent == 1 ==> r.0.nextFh == st.nextFh + 1 && FileSystem.FileExists(r.0.fs, name)
    ensures parent == 1 && CreateMode(flags).None? ==>
      r.1 == Error(EINVAL) && r.0.files == st.files && r.0.inodes == st.inodes && r.0.handles == st.handles
    ensures r.1.Created? ==>
      && parent == 1 && CreateMode(flags).Some?
      && r.1.fh == st.nextFh && r.1.createFlags == flags
      && r.1.createdAttr.ino == ino && r.1.createdAttr.size == 0
      && r.1.createdAttr.kind == RegularFile && r.1.createdAttr.perm == NewPerm(mode, umask)
      && r.1.createdAttr.uid == req.uid && r.1.createdAttr.gid == req.gid
      && r.0.inodes == st.inodes[name := ino]
      && r.0.files == st.files[ino := FuseFile(r.1.createdAttr, name, 0, 1)]
      && r.1.fh in r.0.handles && r.0.handles == st.handles[r.1.fh := r.0.handles[r.1.fh]]
      && r.0.handles[r.1.fh].inode == ino
      && r.0.handles[r.1.fh].read == CreateMode(flags).value.0
      && r.0.handles[r.1.fh].write == CreateMode(flags).value.1
      && r.0.handles[r.1.fh].underlying.fileName == name
      && r.0.handles[r.1.fh].underlying.chunker == Some(st.chunker)
      && r.0.handles[r.1.fh].underlying.offset == 0
      && r.0.fs.files.files[name].spans == []
  {
    if parent != 1 then
      (st, Error(EINVAL))
    else
      var next := GetNewFh(st);
      var created := FileSystem.CreateFile(next.0.fs, name, st.chunker).value;
      var st1 := next.0.(fs := created.0);
      match CreateMode(flags)
      case None => (st1, Error(EINVAL))
      case Some((read, write)) =>
        var attr := Attr(ino, 0, RegularFile, NewPerm(mode, umask), 1, req.uid, req.gid, flags,
                         now, now, now, now);
        (st1.(files := st1.files[ino := FuseFile(attr, name, 0, 1)],
              inodes := st1.inodes[name := ino],
              handles := st1.handles[next.1 := FuseHandle(created.1, read, write, ino)]),
         Created(attr, next.1, flags))
  }

  /** `create` as written: the inode is the number of known names. */
  function CreateAsWritten<H, K>(
    st: FuseFs<H, K>, req: Request, parent: nat, name: string, mode: bv32, umask: bv32,
    flags: bv32, now: Time)
    : (r: (FuseFs<H, K>, Reply))
    ensures r.1.Created? ==> r.1.createdAttr.ino == |st.inodes| && name in r.0.inodes && r.0.inodes[name] == |st.inodes|
  {
    CreateAt(st, req, parent, name, mode, umask, flags, now, GetNewInode(st))
  }

  /** `create` as intended: the inode is one no file has. */
  function Create<H, K>(
    st: FuseFs<H, K>, req: Request, parent: nat, name: string, mode: bv32, umask: bv32,
    flags: bv32, now: Time)
    : (r: (FuseFs<H, K>, Reply))
    ensures r.1.Created? ==> r.1.createdAttr.ino == |st.files| && name in r.0.inodes && r.0.inodes[name] == |st.files|
  {
    CreateAt(st, req, parent, name, mode, umask, flags, now, FreshInode(st))
  }

  /** Creating a name that is already known leaves the number of names
      unchanged, so the next create of a new name gets the same inode: two
      names share one inode and the first file's entry is overwritten. */
  lemma CreateReusesInode<H, K>(
    st: FuseFs<H, K>, req: Request, a: string, b: string, mode: bv32, umask: bv32, now: Time)
    requires a in st.inodes && b !in st.inodes && a != b
    ensures var st1 := CreateAsWritten(st, req, 1, a, mode, umask, O_RDWR, now).0; var r1 := CreateAsWritten(st, req, 1, a, mode, umask, O_RDWR, now).1;
      var st2 := CreateAsWritten(st1, req, 1, b, mode, umask, O_RDWR, now).0; var r2 := CreateAsWritten(st1, req, 1, b, mode, umask, O_RDWR, now).1;
      && r1.Created? && r2.Created?
      && r1.createdAttr.ino == r2.createdAttr.ino
      && st2.inodes[a] == st2.inodes[b]
      && st2.files[st2.inodes[a]].name == b
  {
    var st1 := CreateAsWritten(st, req, 1, a, mode, umask, O_RDWR, now).0; var r1 := CreateAsWritten(st, req, 1, a, mode, umask, O_RDWR, now).1;
    assert st1.inodes.Keys == st.inodes.Keys;
  }

  /** The intended create hands out an inode no file had and a fh never
      handed out, and leaves every other inode as it was. */
  lemma CreateFresh<H, K>(
    st: FuseFs<H, K>, req: Request, parent: nat, name: string, mode: bv32, umask: bv32,
    flags: bv32, now: Time)
    requires Valid(st)
    ensures var st' := Create(st, req, parent, name, mode, umask, flags, now).0; var reply := Create(st, req, parent, name, mode, umask, flags, now).1;
      && (reply.Created? ==> reply.createdAttr.ino !in st.files && reply.fh !in st.handles)
      && (forall i :: i in st.files ==> i in st'.files && st'.files[i] == st.files[i])
  {
  }

  /** The intended create keeps the bookkeeping. */
  lemma CreateKeepsValid<H, K>(
    st: FuseFs<H, K>, req: Request, parent: nat, name: string, mode: bv32, umask: bv32,
    flags: bv32, now: Time)
    requires Valid(st)
    ensures Valid(Create(st, req, parent, name, mode, umask, flags, now).0)
  {
    CreateKeepsNumbered(st, req, parent, name, mode, umask, flags, now);
    CreateKeepsBacked(st, req, parent, name, mode, umask, flags, now);
  }

  lemma CreateKeepsNumbered<H, K>(
    st: FuseFs<H, K>, req: Request, parent: nat, name: string, mode: bv32, umask: bv32,
    flags: bv32, now: Time)
    requires Valid(st)
    ensures Numbered(Create(st, req, parent, name, mode, umask, flags, now).0)
  {
    var st' := Create(st, req, parent, name, mode, umask, flags, now).0; var reply := Create(st, req, parent, name, mode, umask, flags, now).1;
    if reply.Created? {
      assert |st'.files| == |st.files| + 1;
    }
  }

  lemma CreateKeepsBacked<H, K>(
    st: FuseFs<H, K>, req: Request, parent: nat, name: string, mode: bv32, umask: bv32,
    flags: bv32, now: Time)
    requires Valid(st)
    ensures Backed(Create(st, req, parent, name, mode, umask, flags, now).0)
  {
  }

  /** The handle `create` returns reads back an empty file. */
  lemma CreateThenReadEmpty<H, K>(
    st: FuseFs<H, K>, req: Request, name: string, mode: bv32, umask: bv32, flags: bv32, now: Time)
    ensures var st' := Create(st, req, 1, name, mode, umask, flags, now).0; var reply := Create(st, req, 1, name, mode, umask, flags, now).1;
      reply.Created? ==>
        && st'.handles[reply.fh].underlying.fileName in st'.fs.files.files
        && FileSystem.ReadFileComplete(st'.fs, st'.handles[reply.fh].underlying) == Some(Ok([]))
  {
    var st' := Create(st, req, 1, name, mode, umask, flags, now).0; var reply := Create(st, req, 1, name, mode, umask, flags, now).1;
    if reply.Created? {
      var h := st'.handles[reply.fh].underlying;
      assert FileLayer.ReadComplete(st'.fs.files, h) == Some([]);
    }
  }

  // ---------------------------------------------------------------------
  // lookup and getattr

  /** `lookup`: EINVAL outside the root directory, ENOENT for an unknown
      name, else the attributes and generation of its inode (a name whose
      inode is missing panics). */
  function Lookup<H, K>(st: FuseFs<H, K>, parent: nat, name: string): (r: Reply)
    ensures parent != 1 ==> r == Error(EINVAL)
    ensures parent == 1 && name !in st.inodes ==> r == Error(ENOENT)
    ensures r.Entry? ==>
      && name in st.inodes && st.inodes[name] in st.files
      && r.entryAttr == st.files[st.inodes[name]].attr
      && r.generation == st.files[st.inodes[name]].generation
    ensures Valid(st) && parent == 1 && name in st.inodes ==> r.Entry?
  {
    if parent != 1 then
      Error(EINVAL)
    else if name !in st.inodes then
      Error(ENOENT)
    else if st.inodes[name] !in st.files then
      Panic
    else
      var file := st.files[st.inodes[name]];
      Entry(file.attr, file.generation)
  }

  /** `getattr`: the attributes of a known inode, else ENOENT. */
  function GetAttr<H, K>(st: FuseFs<H, K>, ino: nat): (r: Reply)
    ensures r.AttrOf? <==> ino in st.files
    ensures r.AttrOf? ==> r.attr == st.files[ino].attr
    ensures !r.AttrOf? ==> r == Error(ENOENT)
  {
    if ino in st.files then AttrOf(st.files[ino].attr) else Error(ENOENT)
  }

  /** A created file is found by name with the attributes `create`
      reported, generation 0, size 0. */
  lemma CreateThenLookup<H, K>(
    st: FuseFs<H, K>, req: Request, name: string, mode: bv32, umask: bv32, flags: bv32, now: Time)
    requires Valid(st) && CreateMode(flags).Some?
    ensures var st' := Create(st, req, 1, name, mode, umask, flags, now).0; var reply := Create(st, req, 1, name, mode, umask, flags, now).1;
      && reply.Created?
      && Lookup(st', 1, name) == Entry(reply.createdAttr, 0)
      && GetAttr(st', reply.createdAttr.ino) == AttrOf(reply.createdAttr)
      && reply.createdAttr.size == 0
  {
  }

  /** The handle `create` returns for a writable access mode, on a mode
      that lets the owner write, passes every check of an appending write at
      offset 0. */
  lemma CreateReadyToWrite<H, K>(
    st: FuseFs<H, K>, req: Request, name: string, mode: bv32, umask: bv32, flags: bv32, now: Time)
    requires Valid(st) && ChunkersBounded(st) && Storage.Bounded(st.chunker)
    requires CreateMode(flags).Some? && CreateMode(flags).value.1
    requires req.uid != 0 && mode & (IWUSR as bv32) != 0 && umask & (IWUSR as bv32) == 0
    ensures var st1 := Create(st, req, 1, name, mode, umask, flags, now).0; var r1 := Create(st, req, 1, name, mode, umask, flags, now).1;
      && r1.Created? && Valid(st1) && ChunkersBounded(st1)
      && WriteAllowed(st1, req, r1.createdAttr.ino, r1.fh, 0, W_OK)
  {
    var st1 := Create(st, req, 1, name, mode, umask, flags, now).0; var r1 := Create(st, req, 1, name, mode, umask, flags, now).1;
    CreateKeepsValid(st, req, 1, name, mode, umask, flags, now);
    CreateFresh(st, req, 1, name, mode, umask, flags, now);
    CreateKeepsChunkersBounded(st, req, name, mode, umask, flags, now);
    CheckAccessClass(r1.createdAttr, req, W_OK);
  }

  /** The handle `create` opens gets the file system's chunker, so every
      handle's chunker stays bounded. */
  lemma CreateKeepsChunkersBounded<H, K>(
    st: FuseFs<H, K>, req: Request, name: string, mode: bv32, umask: bv32, flags: bv32, now: Time)
    requires ChunkersBounded(st) && Storage.Bounded(st.chunker)
    ensures ChunkersBounded(Create(st, req, 1, name, mode, umask, flags, now).0)
  {
    var r := Create(st, req, 1, name, mode, umask, flags, now);
    if CreateMode(flags).Some? {
      assert r.1.Created?;
      forall fh | fh in r.0.handles && r.0.handles[fh].underlying.chunker.Some?
        ensures Storage.Bounded(r.0.handles[fh].underlying.chunker.value)
      {
        if fh != r.1.fh {
          assert r.0.handles[fh] == st.handles[fh];
        }
      }
    }
  }

  /** A write through the handle `create` returned, at offset 0, is
      accepted when the mode lets the owner write and the handle is
      writable, and the size becomes the data length. */
  lemma CreateThenWrite<H, K>(
    st: FuseFs<H, K>, req: Request, name: string, mode: bv32, umask: bv32, flags: bv32, now: Time,
    data: seq<byte>, hash: seq<byte> -> H, times: nat -> Storage.WriteMeasurements)
    requires Valid(st) && ChunkersBounded(st) && Storage.Bounded(st.chunker)
    requires CreateMode(flags).Some? && CreateMode(flags).value.1
    requires req.uid != 0 && mode & (IWUSR as bv32) != 0 && umask & (IWUSR as bv32) == 0
    ensures var st1 := Create(st, req, 1, name, mode, umask, flags, now).0; var r1 := Create(st, req, 1, name, mode, umask, flags, now).1;
      && r1.Created? && ChunkersBounded(st1)
      && var st2 := Write(st1, req, r1.createdAttr.ino, r1.fh, 0, data, hash, times, now).0; var r2 := Write(st1, req, r1.createdAttr.ino, r1.fh, 0, data, hash, times, now).1;
      && r2 == Written(U32(|data|))
      && st2.files[r1.createdAttr.ino].attr.size == |data|
  {
    var st1 := Create(st, req, 1, name, mode, umask, flags, now).0; var r1 := Create(st, req, 1, name, mode, umask, flags, now).1;
    CreateReadyToWrite(st, req, name, mode, umask, flags, now);
    AllowedWrite(st1, req, r1.createdAttr.ino, r1.fh, data, hash, times, now);
  }

  /** An allowed write to an empty file succeeds and sets its size. */
  lemma AllowedWrite<H, K>(
    st: FuseFs<H, K>, req: Request, ino: nat, fh: nat, data: seq<byte>,
    hash: seq<byte> -> H, times: nat -> Storage.WriteMeasurements, now: Time)
    requires Valid(st) && ChunkersBounded(st) && WriteAllowed(st, req, ino, fh, 0, W_OK)
    ensures Write(st, req, ino, fh, 0, data, hash, times, now).1 == Written(U32(|data|))
    ensures Write(st, req, ino, fh, 0, data, hash, times, now).0.files[ino].attr.size == |data|
  {
    WriteSucceeds(st, req, ino, fh, 0, data, hash, times, now, W_OK);
    WriteEffects(st, req, ino, fh, 0, data, hash, times, now, W_OK);
  }
}

=== FILE: hashers.dfy ===
/** The hashers of src/hashers.rs. `SimpleHasher` is the identity, so it is
    the concrete collision-free hasher of the model; `Sha256Hasher` is kept
    abstract over the digest function, and the model only tracks the digest
    state that `finalize_reset` clears. */
module Hashers {
  import opened Wrappers

  /** `SimpleHasher::hash`: a copy of the input. */
  function SimpleHash(data: seq<byte>): (h: seq<byte>)
  {
    data
  }

  /** `Hasher::len` for a byte-vector hash. */
  function HashLen(hash: seq<byte>): nat
  {
    |hash|
  }

  /** The simple hasher is collision-free: keys are equal exactly when the
      hashed chunks are equal, and a key is as long as its chunk. */
  lemma SimpleHashInjective(a: seq<byte>, b: seq<byte>)
    ensures SimpleHash(a) == SimpleHash(b) <==> a == b
    ensures HashLen(SimpleHash(a)) == |a|
  {
  }

  /** `Output<Sha256>`: a digest is always 32 bytes. */
  type Sha256Digest = d: seq<byte> | |d| == 32 witness Repeat(0, 32)

  /** A SHA-256 hasher: `pending` is the input absorbed by `Digest::update`
      and not yet consumed by a finalization. */
  datatype Sha256Hasher = Sha256Hasher(pending: seq<byte>)

  /** `Sha256Hasher::default()`. */
  const Fresh := Sha256Hasher([])

  /** `Sha256Hasher::hash`: `update` with the data, then `finalize_reset`,
      which yields the digest of everything absorbed and clears the state. */
  function Sha256Hash(h: Sha256Hasher, data: seq<byte>, digest: seq<byte> -> Sha256Digest)
    : (r: (Sha256Digest, Sha256Hasher))
    ensures r.1 == Fresh
  {
    (digest(h.pending + data), Sha256Hasher([]))
  }

  /** Hashing a series of inputs with one hasher, returning every output and
      the final hasher. */
  function HashAll(h: Sha256Hasher, inputs: seq<seq<byte>>, digest: seq<byte> -> Sha256Digest)
    : (r: (seq<Sha256Digest>, Sha256Hasher))
    ensures |r.0| == |inputs|
    decreases |inputs|
  {
    if |inputs| == 0 then ([], h)
    else
      var (first, h') := Sha256Hash(h, inputs[0], digest);
      var (others, last) := HashAll(h', inputs[1..], digest);
      ([first] + others, last)
  }

  /** Because every call resets the digest state, a default hasher used for
      any number of calls hashes each input on its own: the i-th output
      depends only on the i-th input. */
  lemma {:induction false} OutputDependsOnlyOnCurrentData(
    inputs: seq<seq<byte>>, digest: seq<byte> -> Sha256Digest)
    ensures forall i :: 0 <= i < |inputs| ==> HashAll(Fresh, inputs, digest).0[i] == digest(inputs[i])
    ensures |inputs| > 0 ==> HashAll(Fresh, inputs, digest).1 == Fresh
    decreases |inputs|
  {
    if |inputs| > 0 {
      OutputDependsOnlyOnCurrentData(inputs[1..], digest);
      assert Fresh.pending + inputs[0] == inputs[0];
      var r := HashAll(Fresh, inputs, digest);
      forall i | 1 <= i < |inputs|
        ensures r.0[i] == digest(inputs[i])
      {
        assert inputs[i] == inputs[1..][i - 1];
      }
    }
  }

  /** `Sha256Hasher::len` is the length of the returned digest, which is
      always 32 bytes. */
  lemma Sha256LenIsDigestLength(h: Sha256Hasher, data: seq<byte>, digest: seq<byte> -> Sha256Digest)
    ensures HashLen(Sha256Hash(h, data, digest).0) == 32
  {
  }
}

=== FILE: lib.dfy ===
/** The batch driver of chunkfs-cli/src/lib.rs: every dataset is measured
    with every chunker, on a cleared database, and three chunk-size
    distributions of each run are saved under names derived from the
    dataset, the chunker and the adjustment.

    A chunker's `Debug` text, a measurement and the distribution of a
    state are parameters; writing the CSV and JSON files is I/O and only
    the path and the saved pairs are modelled. */
module Lib {
  import opened Wrappers
  import Text
  import FileSystem
  import Bench
  import Arith

  /** The fixture's file system: Sha256 hashes (byte strings) over a
      `HashMap`, with no target map. */
  type State = FileSystem.Fs<seq<byte>, ()>

  /** The chunker part of a distribution's file name: its `Debug` text up
      to the first ',', or all of it when there is none. */
  function ChunkerName(debug: string): (r: string)
    ensures r <= debug && ',' !in r
    ensures |r| < |debug| ==> debug[|r|] == ','
  {
    Text.Before(debug, ',')
  }

  /** `distributions/distribution-{name}-{chunker_name}-{adjustment}.json`. */
  function DistributionPath(name: string, chunkerName: string, adjustment: nat): (path: string)
    ensures "distributions/distribution-" <= path
    ensures path[|path| - 5..] == ".json"
  {
    "distributions/distribution-" + name + "-" + chunkerName + "-" + Text.Decimal(adjustment) + ".json"
  }

  /** For one dataset and chunker, distinct adjustments are saved to
      distinct files. */
  lemma PathsDistinctByAdjustment(name: string, chunkerName: string, a: nat, b: nat)
    requires a != b
    ensures DistributionPath(name, chunkerName, a) != DistributionPath(name, chunkerName, b)
  {
    var prefix := "distributions/distribution-" + name + "-" + chunkerName + "-";
    if DistributionPath(name, chunkerName, a) == DistributionPath(name, chunkerName, b) {
      assert DistributionPath(name, chunkerName, a) == prefix + Text.Decimal(a) + ".json";
      assert DistributionPath(name, chunkerName, b) == prefix + Text.Decimal(b) + ".json";
      Text.WrappedInjective(prefix, Text.Decimal(a), Text.Decimal(b), ".json");
      Text.DecimalInjective(a, b);
    }
  }

  /** A saved distribution: where it goes and the (size, count) pairs
      written, in the map's iteration order. */
  datatype Saved = Saved(path: string, pairs: seq<(nat, nat)>)

  /** `keys` lists every key of `m` once: the map's iteration order. */
  predicate EnumeratesKeys(keys: seq<nat>, m: map<nat, nat>)
  {
    && (forall i, j :: 0 <= i < j < |keys| ==> keys[i] != keys[j])
    && m.Keys == set i | 0 <= i < |keys| :: keys[i]
  }

  /** `save_distribution`: the map's entries collected in iteration order
      and the path derived from the dataset name, the chunker's `Debug`
      text and the adjustment. */
  function SaveDistribution(name: string, debug: string, adjustment: nat, m: map<nat, nat>, order: seq<nat>)
    : (r: Saved)
    requires EnumeratesKeys(order, m)
    ensures r.path == DistributionPath(name, ChunkerName(debug), adjustment)
    ensures forall p :: p in r.pairs <==> p.0 in m && m[p.0] == p.1
    ensures |r.pairs| == |m|
  {
    var pairs := seq(|order|, i requires 0 <= i < |order| && order[i] in m => (order[i], m[order[i]]));
    assert forall p :: p in pairs <==> p.0 in m && m[p.0] == p.1 by {
      forall p
        ensures p in pairs <==> p.0 in m && m[p.0] == p.1
      {
        if p.0 in m && m[p.0] == p.1 {
          var i :| 0 <= i < |order| && order[i] == p.0;
          assert pairs[i] == p;
        }
      }
    }
    DistinctCard(order, m.Keys);
    Saved(DistributionPath(name, ChunkerName(debug), adjustment), pairs)
  }

  /** A duplicate-free listing of a set is as long as the set is large. */
  lemma {:induction false} DistinctCard(keys: seq<nat>, s: set<nat>)
    requires forall i, j :: 0 <= i < j < |keys| ==> keys[i] != keys[j]
    requires s == set i | 0 <= i < |keys| :: keys[i]
    ensures |s| == |keys|
    decreases |keys|
  {
    if |keys| > 0 {
      var init := keys[..|keys| - 1];
      var last := keys[|keys| - 1];
      var s' := set i | 0 <= i < |init| :: init[i];
      DistinctCard(init, s');
      assert s == s' + {last} by {
        forall x
          ensures x in s <==> x in s' + {last}
        {
          if x in s {
            var i :| 0 <= i < |keys| && keys[i] == x;
            if i < |init| {
              assert init[i] == x;
            }
          }
          if x in s' {
            var i :| 0 <= i < |init| && init[i] == x;
            assert keys[i] == x;
          }
        }
      }
      assert last !in s';
    }
  }

  /** The adjustments each run is saved with, in order. */
  const Adjustments: seq<nat> := [100, 500, 1000]

  /** `iproduct!(datasets, chunkers)`: every pair, datasets in the outer
      loop and chunkers in the inner one. */
  function Product<D, C>(datasets: seq<D>, chunkers: seq<C>): (r: seq<(D, C)>)
    ensures |r| == |datasets| * |chunkers|
    decreases |datasets|
  {
    if |datasets| == 0 then []
    else
      seq(|chunkers|, j requires 0 <= j < |chunkers| => (datasets[0], chunkers[j]))
        + Product(datasets[1..], chunkers)
  }

  /** The pair at position `i·|chunkers| + j` is the i-th dataset with the
      j-th chunker. */
  lemma {:induction false} ProductAt<D, C>(datasets: seq<D>, chunkers: seq<C>, i: nat, j: nat)
    requires i < |datasets| && j < |chunkers|
    ensures i * |chunkers| + j < |Product(datasets, chunkers)|
    ensures Product(datasets, chunkers)[i * |chunkers| + j] == (datasets[i], chunkers[j])
    decreases i
  {
    var n := |chunkers|;
    var head := seq(n, k requires 0 <= k < n => (datasets[0], chunkers[k]));
    assert Product(datasets, chunkers) == head + Product(datasets[1..], chunkers);
    if i == 0 {
      assert Product(datasets, chunkers)[j] == head[j];
    } else {
      ProductAt(datasets[1..], chunkers, i - 1, j);
      assert i * n + j == n + ((i - 1) * n + j);
      assert datasets[1..][i - 1] == datasets[i];
    }
    Arith.MulMonotone(i, |datasets| - 1, n);
    assert (|datasets| - 1) * n + n == |datasets| * n;
  }

  /** One (dataset, chunker) run: the cleared state the measurement
      started from, its place in the loop, its result, and the saved
      distributions. */
  datatype PairRun<D, C, R> = PairRun(dataset: D, chunker: C, input: State, index: nat, result: R, saved: seq<Saved>)

  /** A measurement of one dataset with one chunker, as the run with the
      given index: what the run draws from the clock and from fresh file
      names is part of the function at that index. */
  type PairMeasure<!D, !C, !R> = (State, D, C, nat) -> Result<(State, R)>

  /** The three distributions of one run, saved with the adjustments 100,
      500 and 1000 in that order. */
  function SaveAll(
    name: string,
    debug: string,
    fs: State,
    distribution: (State, nat) -> map<nat, nat>,
    order: map<nat, nat> -> seq<nat>)
    : (r: seq<Saved>)
    requires forall m :: EnumeratesKeys(order(m), m)
    ensures |r| == |Adjustments|
    ensures forall k :: 0 <= k < |r| ==>
      r[k] == SaveDistribution(name, debug, Adjustments[k], distribution(fs, Adjustments[k]),
                               order(distribution(fs, Adjustments[k])))
  {
    seq(|Adjustments|, k requires 0 <= k < |Adjustments| =>
      SaveDistribution(name, debug, Adjustments[k], distribution(fs, Adjustments[k]),
                       order(distribution(fs, Adjustments[k]))))
  }

  /** The loop of `measure_datasets` over the remaining pairs, the first
      of them run `next`: clear, then measure, then save; the first error
      ends it. */
  function RunPairs<D, C, R>(
    fs: State,
    next: nat,
    pairs: seq<(D, C)>,
    name: D -> string,
    debug: C -> string,
    measure: PairMeasure<D, C, R>,
    distribution: (State, nat) -> map<nat, nat>,
    order: map<nat, nat> -> seq<nat>)
    : (r: Result<(State, seq<PairRun<D, C, R>>)>)
    requires forall m :: EnumeratesKeys(order(m), m)
    ensures r.Ok? ==> |r.value.1| == |pairs|
    ensures r.Ok? ==> forall k :: 0 <= k < |pairs| ==>
      r.value.1[k].index == next + k && PairDone(r.value.1[k], pairs[k], name, debug, measure, distribution, order)
    decreases |pairs|
  {
    if |pairs| == 0 then
      Ok((fs, []))
    else
      var (dataset, chunker) := pairs[0];
      var cleared := Bench.Clear(fs);
      var (after, result) :- measure(cleared, dataset, chunker, next);
      var saved := SaveAll(name(dataset), debug(chunker), after, distribution, order);
      var rest :- RunPairs(after, next + 1, pairs[1..], name, debug, measure, distribution, order);
      Ok((rest.0, [PairRun(dataset, chunker, cleared, next, result, saved)] + rest.1))
  }

  /** A run of a pair: it measured that pair on a cleared database and
      saved the three distributions of the state the measurement left. */
  ghost predicate PairDone<D, C, R>(
    run: PairRun<D, C, R>,
    pair: (D, C),
    name: D -> string,
    debug: C -> string,
    measure: PairMeasure<D, C, R>,
    distribution: (State, nat) -> map<nat, nat>,
    order: map<nat, nat> -> seq<nat>)
    requires forall m :: EnumeratesKeys(order(m), m)
  {
    && run.dataset == pair.0 && run.chunker == pair.1
    && Bench.Cleared(run.input)
    && measure(run.input, pair.0, pair.1, run.index).Ok?
    && run.result == measure(run.input, pair.0, pair.1, run.index).value.1
    && run.saved == SaveAll(name(pair.0), debug(pair.1), measure(run.input, pair.0, pair.1, run.index).value.0, distribution, order)
  }

  /** `measure_datasets` with the Sha256 hasher over a `HashMap`: the
      k-th run measured the k-th (dataset, chunker) pair of the cartesian
      product (`ProductAt` says which pair that is) on a cleared database,
      as run k. */
  function MeasureDatasets<D, C, R>(
    fs: State,
    datasets: seq<D>,
    chunkers: seq<C>,
    name: D -> string,
    debug: C -> string,
    measure: PairMeasure<D, C, R>,
    distribution: (State, nat) -> map<nat, nat>,
    order: map<nat, nat> -> seq<nat>)
    : (r: Result<seq<PairRun<D, C, R>>>)
    requires forall m :: EnumeratesKeys(order(m), m)
    ensures r.Ok? ==> |r.value| == |datasets| * |chunkers|
    ensures r.Ok? ==> forall k :: 0 <= k < |r.value| ==>
      r.value[k].index == k && PairDone(r.value[k], Product(datasets, chunkers)[k], name, debug, measure, distribution, order)
  {
    var runs :- RunPairs(fs, 0, Product(datasets, chunkers), name, debug, measure, distribution, order);
    Ok(runs.1)
  }
}

=== FILE: plotting.dfy ===
/** The table handling of plotting/measurements.py,
    `create_grouped_bar_charts`: which rows are plotted, how chunker labels
    are shortened, which columns become charts, and the axis label and file
    name of each chart.

    Reading the CSV, pivoting (a mean over floating-point cells) and
    drawing are left to pandas and matplotlib; a chart is recorded as its
    file name, its axis label and the rows it is drawn from. */
module Plotting {
  import opened Wrappers
  import Text

  /** The chunker label whose rows are not plotted. */
  const ExcludedChunker: string := "Fixed size chunking, chunk size: 4096"

  /** The column where the metrics begin. */
  const FirstMetric: string := "dedup_ratio"

  /** A row of the measurements table: dataset name, chunker label, and
      the other cells. */
  datatype Row = Row(name: string, chunker: string, cells: seq<string>)

  /** The table `pd.read_csv` returns: column names (pandas renames
      repeated names, so they are distinct) and rows. */
  datatype Table = Table(columns: seq<string>, rows: seq<Row>)

  /** Column names are distinct. */
  predicate DistinctColumns(columns: seq<string>)
  {
    forall i, j :: 0 <= i < j < |columns| ==> columns[i] != columns[j]
  }

  /** `df[df['chunker'] != ExcludedChunker]`. */
  function DropExcluded(rows: seq<Row>): (r: seq<Row>)
    ensures forall i :: 0 <= i < |r| ==> r[i].chunker != ExcludedChunker
    ensures forall x :: x in r ==> x in rows
    decreases |rows|
  {
    if |rows| == 0 then []
    else (if rows[0].chunker == ExcludedChunker then [] else [rows[0]]) + DropExcluded(rows[1..])
  }

  /** The filter works row by row: on a concatenation it is the
      concatenation of the filtered parts, so kept rows stay in order. */
  lemma {:induction false} DropExcludedAppend(a: seq<Row>, b: seq<Row>)
    ensures DropExcluded(a + b) == DropExcluded(a) + DropExcluded(b)
    decreases |a|
  {
    if |a| == 0 {
      assert a + b == b;
    } else {
      assert (a + b)[0] == a[0];
      assert (a + b)[1..] == a[1..] + b;
      DropExcludedAppend(a[1..], b);
    }
  }

  /** Rows with other labels are all kept, unchanged and in order. */
  lemma {:induction false} DropExcludedKeepsOthers(rows: seq<Row>)
    requires forall i :: 0 <= i < |rows| ==> rows[i].chunker != ExcludedChunker
    ensures DropExcluded(rows) == rows
    decreases |rows|
  {
    if |rows| > 0 {
      DropExcludedKeepsOthers(rows[1..]);
      assert [rows[0]] + rows[1..] == rows;
    }
  }

  /** `str.split(',').str[0].str.strip()`: the text before its first
      comma, without surrounding whitespace. */
  function ShortLabel(text: string): (r: string)
    ensures ',' !in r
    ensures |r| > 0 ==> !Text.IsSpace(r[0]) && !Text.IsSpace(r[|r| - 1])
  {
    var before := Text.Before(text, ',');
    Text.StripSlice(before);
    Text.Strip(before)
  }

  /** Where the short label sits in the label: `k` is the first comma, or
      the end, and the short label is the part of `text[..k]` left between
      whitespace on either side. */
  lemma ShortLabelSlice(text: string)
    ensures var k := |Text.Before(text, ',')|;
      && k <= |text| && ',' !in text[..k] && (k == |text| || text[k] == ',')
      && exists i, j ::
        && 0 <= i <= j <= k
        && ShortLabel(text) == text[i..j]
        && Text.AllSpace(text[..i]) && Text.AllSpace(text[j..k])
  {
    var before := Text.Before(text, ',');
    var k := |before|;
    Text.StripSlice(before);
    var i := Text.StripStart(before);
    var j := i + |Text.Strip(before)|;
    PrefixSlices(text, before, i, j);
    assert ShortLabel(text) == text[i..j];
    assert Text.AllSpace(text[..i]) && Text.AllSpace(text[j..k]);
    assert 0 <= i <= j <= k;
  }

  /** Slices of a prefix are the same slices of the whole. */
  lemma PrefixSlices(text: string, before: string, i: nat, j: nat)
    requires before <= text && i <= j <= |before|
    ensures text[..|before|] == before
    ensures text[i..j] == before[i..j] && text[..i] == before[..i] && text[j..|before|] == before[j..]
  {
  }

  /** The short label is the only slice of the label so placed that neither
      starts nor ends with whitespace: any `text[i..j]` inside the first
      field, with only whitespace before it and between it and the first
      comma or the end, and no whitespace at its own ends, is it. */
  lemma ShortLabelUnique(text: string, i: nat, j: nat, k: nat)
    requires k <= |text| && ',' !in text[..k] && (k == |text| || text[k] == ',')
    requires i <= j <= k && Text.AllSpace(text[..i]) && Text.AllSpace(text[j..k])
    requires i < j ==> !Text.IsSpace(text[i]) && !Text.IsSpace(text[j - 1])
    ensures ShortLabel(text) == text[i..j]
  {
    var before := text[..k];
    Text.BeforeUnique(text, ',', before);
    assert before[..i] == text[..i] && before[j..] == text[j..k] && before[i..j] == text[i..j];
    Text.StripUnique(before, i, j);
  }

  /** The rows with shortened chunker labels. */
  function ShortenLabels(rows: seq<Row>): (r: seq<Row>)
    ensures |r| == |rows|
    ensures forall i :: 0 <= i < |rows| ==>
      r[i].name == rows[i].name && r[i].cells == rows[i].cells && r[i].chunker == ShortLabel(rows[i].chunker)
  {
    seq(|rows|, i requires 0 <= i < |rows| => rows[i].(chunker := ShortLabel(rows[i].chunker)))
  }

  /** The position of a name among distinct column names. */
  function IndexOf(columns: seq<string>, name: string): (i: nat)
    requires name in columns
    ensures i < |columns| && columns[i] == name
    ensures forall k :: 0 <= k < i ==> columns[k] != name
    decreases |columns|
  {
    if columns[0] == name then 0 else 1 + IndexOf(columns[1..], name)
  }

  /** `df.columns[df.columns.get_loc('dedup_ratio'):]`; `get_loc` raises
      for a missing column (None). */
  function Metrics(columns: seq<string>): (r: Option<seq<string>>)
    requires DistinctColumns(columns)
    ensures r.Some? <==> FirstMetric in columns
    ensures r.Some? ==> 0 < |r.value| <= |columns| && r.value[0] == FirstMetric
    ensures r.Some? ==> r.value == columns[|columns| - |r.value|..]
    ensures r.Some? ==> forall k :: 0 <= k < |columns| - |r.value| ==> columns[k] != FirstMetric
  {
    if FirstMetric in columns then Some(columns[IndexOf(columns, FirstMetric)..]) else None
  }

  /** The unit suffix of an axis label: " (MB/s)" for throughputs, taking
      precedence over " (s)" for times. */
  function UnitSuffix(text: string): (suffix: string)
    ensures Text.Contains(text, "Throughput") ==> suffix == " (MB/s)"
    ensures !Text.Contains(text, "Throughput") && Text.Contains(text, "Time") ==> suffix == " (s)"
    ensures !Text.Contains(text, "Throughput") && !Text.Contains(text, "Time") ==> suffix == ""
  {
    if Text.Contains(text, "Throughput") then " (MB/s)"
    else if Text.Contains(text, "Time") then " (s)"
    else ""
  }

  /** The y-axis label of a metric column: '_' becomes ' ', the words are
      title-cased, and the unit is appended. */
  function AxisLabel(key: string): (text: string)
    ensures Text.Title(Text.Replace(key, '_', ' ')) <= text
    ensures text[|key|..] == UnitSuffix(Text.Title(Text.Replace(key, '_', ' ')))
  {
    var words := Text.Title(Text.Replace(key, '_', ' '));
    words + UnitSuffix(words)
  }

  /** No axis label contains '_', and each of its words starts with a
      capital: the character at position i of the key's part is upper case
      where the key's character i starts a word, lower case otherwise. */
  lemma AxisLabelWords(key: string)
    ensures '_' !in AxisLabel(key)
    ensures forall i :: 0 <= i < |key| && key[i] != '_' ==>
      AxisLabel(key)[i] ==
        if i > 0 && Text.IsLetter(key[i - 1]) then Text.Lower(key[i]) else Text.Upper(key[i])
  {
    var spaced := Text.Replace(key, '_', ' ');
    var words := Text.Title(spaced);
    Text.TitleChars(spaced);
    var text := AxisLabel(key);
    assert text == words + UnitSuffix(words);
    forall i | 0 <= i < |text|
      ensures text[i] != '_'
    {
      if i < |words| {
        assert text[i] == words[i];
        assert spaced[i] != '_';
        assert words[i] == if i > 0 && Text.IsLetter(spaced[i - 1]) then Text.Lower(spaced[i]) else Text.Upper(spaced[i]);
      } else {
        var suffix := UnitSuffix(words);
        assert suffix == " (MB/s)" || suffix == " (s)" || suffix == "";
        assert text[i] == suffix[i - |words|];
      }
    }
    forall i | 0 <= i < |key| && key[i] != '_'
      ensures text[i] == if i > 0 && Text.IsLetter(key[i - 1]) then Text.Lower(key[i]) else Text.Upper(key[i])
    {
      assert text[i] == words[i];
      if i > 0 {
        assert Text.IsLetter(spaced[i - 1]) == Text.IsLetter(key[i - 1]);
      }
    }
  }

  /** `graph_{key}.png`, named after the raw column name. */
  function ChartFileName(key: string): (name: string)
    ensures "graph_" <= name
    ensures name[|name| - 4..] == ".png"
  {
    "graph_" + key + ".png"
  }

  /** Distinct metrics are saved to distinct files. */
  lemma ChartFilesDistinct(a: string, b: string)
    requires a != b
    ensures ChartFileName(a) != ChartFileName(b)
  {
    if ChartFileName(a) == ChartFileName(b) {
      Text.WrappedInjective("graph_", a, b, ".png");
    }
  }

  /** A chart: its file, its y-axis label, and the rows it is drawn from. */
  datatype Chart = Chart(fileName: string, yLabel: string, rows: seq<Row>)

  /** How a run of the script ends: the input file is missing (one message,
      no charts), `get_loc` raised, or the charts were drawn. */
  datatype Outcome = FileMissing | Raised | Drawn(charts: seq<Chart>)

  /** One chart per metric, in column order, each drawn from `rows`. */
  function DrawCharts(metrics: seq<string>, rows: seq<Row>): (charts: seq<Chart>)
    ensures |charts| == |metrics|
    ensures forall k :: 0 <= k < |metrics| ==>
      charts[k] == Chart(ChartFileName(metrics[k]), AxisLabel(metrics[k]), rows)
    decreases |metrics|
  {
    if |metrics| == 0 then []
    else [Chart(ChartFileName(metrics[0]), AxisLabel(metrics[0]), rows)] + DrawCharts(metrics[1..], rows)
  }

  /** `create_grouped_bar_charts` on the table read from the CSV file, or
      None when the file does not exist. */
  function CreateCharts(table: Option<Table>): (r: Outcome)
    requires table.Some? ==> DistinctColumns(table.value.columns)
    ensures table.None? <==> r.FileMissing?
    ensures r.Raised? <==> table.Some? && Metrics(table.value.columns).None?
    ensures r.Drawn? ==> |r.charts| == |Metrics(table.value.columns).value|
    ensures r.Drawn? ==> forall k :: 0 <= k < |r.charts| ==>
      var key := Metrics(table.value.columns).value[k];
      && r.charts[k].fileName == ChartFileName(key)
      && r.charts[k].yLabel == AxisLabel(key)
      && r.charts[k].rows == ShortenLabels(DropExcluded(table.value.rows))
  {
    if table.None? then
      FileMissing
    else
      var metrics := Metrics(table.value.columns);
      if metrics.None? then Raised
      else
        var rows := ShortenLabels(DropExcluded(table.value.rows));
        var charts := DrawCharts(metrics.value, rows);
        Drawn(charts)
  }
}

=== FILE: storage.dfy ===
/** The chunk storage of src/system/storage.rs: data is chunked, every chunk
    but the last of a batch is stored under its hash (the first write of a
    hash wins), the last one is carried forward as `rest` and stored by the
    final flush; reading maps hashes back to bytes.

    The chunker and the hasher are parameters: a chunker is a function from
    a buffer to the chunks it cuts, a hasher a function from bytes to keys.
    The chunk database and the target map are the `HashMap` implementations
    of the `Database` trait, i.e. maps. */
module Storage {
  import opened Wrappers
  import Chunker
  import Database

  /** `SEG_SIZE`, the piece size `ChunkStorage::write` hands to the writer;
      the doc comments call it 1 MB. */
  const SegSize: nat := 1024 * 1024

  /** The times one writer call measured, as `WriteMeasurements::new(save,
      chunk, hash)` builds them. */
  datatype WriteMeasurements = WriteMeasurements(saveTime: nat, chunkTime: nat, hashTime: nat)

  /** The default, all-zero measurements. */
  const NoTime := WriteMeasurements(0, 0, 0)

  /** `+=` on measurements: field-wise addition. */
  function AddTimes(a: WriteMeasurements, b: WriteMeasurements): (r: WriteMeasurements)
    ensures r.saveTime - a.saveTime == b.saveTime
    ensures r.chunkTime - a.chunkTime == b.chunkTime
    ensures r.hashTime - a.hashTime == b.hashTime
  {
    WriteMeasurements(a.saveTime + b.saveTime, a.chunkTime + b.chunkTime, a.hashTime + b.hashTime)
  }

  /** `Data`: a chunk's bytes, or the target-map keys whose values, in order,
      make up the chunk. */
  datatype Data<K> = Chunk(bytes: seq<byte>) | TargetChunk(keys: seq<K>)

  /** `DataContainer`, the value type of the chunk database. */
  datatype DataContainer<K> = DataContainer(data: Data<K>)

  /** `DataContainer::make_target`: the container now holds target keys. */
  function MakeTarget<K>(c: DataContainer<K>, keys: seq<K>): (r: DataContainer<K>)
    ensures r.data.TargetChunk? && r.data.keys == keys
  {
    DataContainer(TargetChunk(keys))
  }

  /** `DataContainer::unwrap_chunk`; a target container is outside its
      domain (the source panics). */
  function UnwrapChunk<K>(c: DataContainer<K>): (r: seq<byte>)
    requires c.data.Chunk?
    ensures DataContainer(Chunk(r)) == c
  {
    c.data.bytes
  }

  /** A hashed span of a file, with its length. */
  datatype Span<H> = Span(hash: H, length: nat)

  /** The spans one writer call produced, with its times and the sum of the
      span lengths. */
  datatype SpansInfo<H> = SpansInfo(spans: seq<Span<H>>, measurements: WriteMeasurements, totalLength: nat)

  /** `SpansInfo::default()`. */
  function NoSpans<H>(): SpansInfo<H>
  {
    SpansInfo([], NoTime, 0)
  }

  /** The writer's state: the bytes carried forward to the next call. */
  datatype StorageWriter = StorageWriter(rest: seq<byte>)

  /** `ChunkStorage`: the chunk database, the target map and the number of
      bytes written so far. */
  datatype ChunkStorage<H, K> = ChunkStorage(
    database: map<H, DataContainer<K>>,
    targetMap: map<K, seq<byte>>,
    sizeWritten: nat)

  /** `ChunkStorage::new`. */
  function New<H, K>(database: map<H, DataContainer<K>>, targetMap: map<K, seq<byte>>): (s: ChunkStorage<H, K>)
    ensures s.sizeWritten == 0 && s.database == database && s.targetMap == targetMap
  {
    ChunkStorage(database, targetMap, 0)
  }

  type ChunkFn = seq<byte> -> seq<Chunker.Chunk>

  /** Every chunk lies inside the buffer it was cut from: the slicing in the
      writer does not panic. */
  ghost predicate Bounded(chunkFn: ChunkFn)
  {
    forall buf :: BoundedOn(chunkFn, buf)
  }

  predicate BoundedOn(chunkFn: ChunkFn, buf: seq<byte>)
  {
    Chunker.InBounds(chunkFn(buf), |buf|)
  }

  /** The chunks of a non-empty buffer tile it and none is empty; the
      withholding fixed-size chunker is not of this kind. */
  ghost predicate Tiling(chunkFn: ChunkFn)
  {
    forall buf :: TilesOn(chunkFn, buf)
  }

  predicate TilesOn(chunkFn: ChunkFn, buf: seq<byte>)
  {
    |buf| > 0 ==>
      Chunker.Tiles(chunkFn(buf), |buf|) && forall i :: 0 <= i < |chunkFn(buf)| ==> chunkFn(buf)[i].length > 0
  }

  /** Equal hashes mean equal bytes (`SimpleHasher` is such a hasher). */
  ghost predicate Injective<H>(hash: seq<byte> -> H)
  {
    forall a, b :: hash(a) == hash(b) ==> a == b
  }

  /** The bytes of all chunks but the last, which is carried forward. */
  function Cut(buffer: seq<byte>, chunks: seq<Chunker.Chunk>): (r: (seq<seq<byte>>, seq<byte>))
    requires |chunks| > 0 && Chunker.InBounds(chunks, |buffer|)
    ensures |r.0| == |chunks| - 1
    ensures forall i :: 0 <= i < |r.0| ==> |r.0[i]| == chunks[i].length
  {
    var n := |chunks| - 1;
    assert Chunker.InBounds(chunks[..n], |buffer|) by {
      forall i | 0 <= i < n ensures chunks[..n][i] == chunks[i] {}
    }
    (Chunker.AllBytes(buffer, chunks[..n]), Chunker.Bytes(buffer, chunks[n]))
  }

  /** When the chunks tile the buffer, the stored chunks followed by the
      carried bytes are the buffer again. */
  lemma {:induction false} CutTiles(buffer: seq<byte>, chunks: seq<Chunker.Chunk>)
    requires |chunks| > 0 && Chunker.Tiles(chunks, |buffer|)
    ensures Chunker.InBounds(chunks, |buffer|)
    ensures Concat(Cut(buffer, chunks).0) + Cut(buffer, chunks).1 == buffer
  {
    var n := |chunks| - 1;
    Chunker.TilesFromBounds(chunks, 0, |buffer|);
    Chunker.TilesFromSplitLast(chunks, 0, |buffer|);
    Chunker.TilesFromConcat(buffer, chunks[..n], 0, chunks[n].offset);
    assert buffer == buffer[..chunks[n].offset] + buffer[chunks[n].offset..];
  }

  /** The spans of stored chunks: their hashes and lengths. */
  function SpansOf<H>(chunks: seq<seq<byte>>, hash: seq<byte> -> H): (r: seq<Span<H>>)
    ensures |r| == |chunks|
    ensures forall i :: 0 <= i < |r| ==> r[i] == Span(hash(chunks[i]), |chunks[i]|)
  {
    seq(|chunks|, i requires 0 <= i < |chunks| => Span(hash(chunks[i]), |chunks[i]|))
  }

  /** The (hash, `Data::Chunk`) pairs the writer try-inserts. */
  function ChunkPairs<H, K>(chunks: seq<seq<byte>>, hash: seq<byte> -> H): (r: seq<(H, DataContainer<K>)>)
    ensures |r| == |chunks|
    ensures forall i :: 0 <= i < |r| ==> r[i] == (hash(chunks[i]), DataContainer(Chunk(chunks[i])))
  {
    seq(|chunks|, i requires 0 <= i < |chunks| => (hash(chunks[i]), DataContainer(Chunk(chunks[i]))))
  }

  /** `try_insert_multi` of the chunks on the map database, which never
      fails. */
  function InsertChunks<H, K>(db: map<H, DataContainer<K>>, chunks: seq<seq<byte>>, hash: seq<byte> -> H)
    : map<H, DataContainer<K>>
  {
    Database.MapTryInsertMultiOk(db, ChunkPairs(chunks, hash));
    Database.TryInsertMulti(db, ChunkPairs(chunks, hash), Database.TryInsert).value
  }

  /** `StorageWriter::write`: chunks `rest ++ data`; with no chunks nothing
      changes; otherwise the last chunk becomes the new `rest` and the others
      are try-inserted under their hashes and reported as spans. */
  function WriterWrite<H, K>(
    w: StorageWriter, data: seq<byte>, db: map<H, DataContainer<K>>,
    chunkFn: ChunkFn, hash: seq<byte> -> H, times: WriteMeasurements)
    : (r: (SpansInfo<H>, StorageWriter, map<H, DataContainer<K>>))
    requires Bounded(chunkFn)
    ensures |chunkFn(w.rest + data)| == 0 ==> r == (NoSpans(), w, db)
    ensures |chunkFn(w.rest + data)| > 0 ==>
      var chunks := chunkFn(w.rest + data);
      && |r.0.spans| == |chunks| - 1
      && (forall i :: 0 <= i < |r.0.spans| ==> r.0.spans[i].length == chunks[i].length)
      && |r.1.rest| == chunks[|chunks| - 1].length
  {
    var buffer := w.rest + data;
    var chunks := chunkFn(buffer);
    assert BoundedOn(chunkFn, buffer);
    if |chunks| == 0 then
      (NoSpans(), w, db)
    else
      var (stored, rest) := Cut(buffer, chunks);
      (SpansInfo(SpansOf(stored, hash), times, SumLengths(stored)),
       StorageWriter(rest),
       InsertChunks(db, stored, hash))
  }

  /** `StorageWriter::flush`: nothing when `rest` is empty; otherwise `rest`
      is try-inserted under its hash and reported as one span, with a zero
      chunking time. */
  function Flush<H, K>(w: StorageWriter, db: map<H, DataContainer<K>>, hash: seq<byte> -> H, times: WriteMeasurements)
    : (r: (SpansInfo<H>, map<H, DataContainer<K>>))
    ensures |w.rest| == 0 ==> r == (NoSpans(), db)
    ensures |w.rest| > 0 ==>
      && r.0.spans == [Span(hash(w.rest), |w.rest|)]
      && r.0.totalLength == |w.rest|
      && r.0.measurements.chunkTime == 0
      && hash(w.rest) in r.1
  {
    if |w.rest| == 0 then
      (NoSpans(), db)
    else
      var h := hash(w.rest);
      (SpansInfo([Span(h, |w.rest|)], times.(chunkTime := 0), |w.rest|),
       Database.TryInsert(db, h, DataContainer(Chunk(w.rest))).value)
  }

  /** The spans of a sequence of writer results, in order. */
  function AllSpans<H>(infos: seq<SpansInfo<H>>): seq<Span<H>>
    decreases |infos|
  {
    if |infos| == 0 then [] else infos[0].spans + AllSpans(infos[1..])
  }

  /** The hashes of the spans, in order. */
  function Hashes<H>(spans: seq<Span<H>>): (r: seq<H>)
    ensures |r| == |spans| && forall i :: 0 <= i < |r| ==> r[i] == spans[i].hash
  {
    seq(|spans|, i requires 0 <= i < |spans| => spans[i].hash)
  }

  /** The sum of the span lengths. */
  function SpanTotal<H>(spans: seq<Span<H>>): nat
    decreases |spans|
  {
    if |spans| == 0 then 0 else spans[0].length + SpanTotal(spans[1..])
  }

  /** The sum of the `total_length`s. */
  function TotalLengths<H>(infos: seq<SpansInfo<H>>): nat
    decreases |infos|
  {
    if |infos| == 0 then 0 else infos[0].totalLength + TotalLengths(infos[1..])
  }

  /** `retain(|span| span.total_length > 0)`: the results with a non-zero
      total length, in order. */
  function Retain<H>(infos: seq<SpansInfo<H>>): (r: seq<SpansInfo<H>>)
    ensures forall i :: 0 <= i < |r| ==> r[i].totalLength > 0
    ensures |r| <= |infos|
    decreases |infos|
  {
    if |infos| == 0 then []
    else if infos[0].totalLength > 0 then [infos[0]] + Retain(infos[1..])
    else Retain(infos[1..])
  }

  /** `data` cut into consecutive pieces of `min(SEG_SIZE, remaining)` bytes:
      they are non-empty, all but the last are exactly `SEG_SIZE` long, and
      together they are `data`. */
  function Pieces(data: seq<byte>): (r: seq<seq<byte>>)
    ensures Concat(r) == data
    ensures forall i :: 0 <= i < |r| ==> 0 < |r[i]| <= SegSize
    ensures forall i :: 0 <= i < |r| - 1 ==> |r[i]| == SegSize
    decreases |data|
  {
    if |data| == 0 then
      []
    else
      var n := if |data| < SegSize then |data| else SegSize;
      var r := [data[..n]] + Pieces(data[n..]);
      assert data == data[..n] + data[n..];
      assert forall i :: 1 <= i < |r| ==> r[i] == Pieces(data[n..])[i - 1];
      r
  }

  /** The writer fed with the pieces in order, from call number `k` on. */
  function WriteAll<H, K>(
    w: StorageWriter, db: map<H, DataContainer<K>>, pieces: seq<seq<byte>>,
    chunkFn: ChunkFn, hash: seq<byte> -> H, times: nat -> WriteMeasurements, k: nat)
    : (r: (StorageWriter, map<H, DataContainer<K>>, seq<SpansInfo<H>>))
    requires Bounded(chunkFn)
    ensures |r.2| == |pieces|
    decreases |pieces|
  {
    if |pieces| == 0 then
      (w, db, [])
    else
      var (info, w1, db1) := WriterWrite(w, pieces[0], db, chunkFn, hash, times(k));
      var (w2, db2, infos) := WriteAll(w1, db1, pieces[1..], chunkFn, hash, times, k + 1);
      (w2, db2, [info] + infos)
  }

  /** `ChunkStorage::write`: one writer is fed the `SEG_SIZE` pieces of the
      data in order and flushed once; results with no length are dropped and
      `size_written` grows by the data length. The i-th writer call measures
      `times(i)`, the flush `times(number of pieces)`. */
  function Write<H, K>(
    s: ChunkStorage<H, K>, data: seq<byte>, chunkFn: ChunkFn, hash: seq<byte> -> H,
    times: nat -> WriteMeasurements)
    : (r: (ChunkStorage<H, K>, seq<SpansInfo<H>>))
    requires Bounded(chunkFn)
    ensures r.0.sizeWritten == s.sizeWritten + |data|
    ensures r.0.targetMap == s.targetMap
    ensures forall i :: 0 <= i < |r.1| ==> r.1[i].totalLength > 0
  {
    var out := WriteAndFlush(s.database, Pieces(data), chunkFn, hash, times);
    (s.(database := out.0, sizeWritten := s.sizeWritten + |data|), Retain(out.1))
  }

  /** `ChunkStorage::write_from_stream`, given the successive non-empty reads
      of the reader (each at most `SEG_SIZE` bytes) and how the reader stops:
      `failure` is None when its next read returns 0 bytes, or the error that
      read returns. Each read is fed to the writer, which stores its chunks
      and adds the lengths it reports to `size_written` at once. At the end
      of the stream the writer is flushed and the non-empty results are
      returned, like `write`; on a failing read the error is returned without
      a flush, and the chunks and lengths of the earlier reads stay. */
  function WriteFromStream<H, K>(
    s: ChunkStorage<H, K>, input: seq<seq<byte>>, failure: Option<IoError>, chunkFn: ChunkFn,
    hash: seq<byte> -> H, times: nat -> WriteMeasurements)
    : (r: (ChunkStorage<H, K>, Result<seq<SpansInfo<H>>>))
    requires Bounded(chunkFn)
    requires forall i :: 0 <= i < |input| ==> 0 < |input[i]| <= SegSize
    ensures r.0.targetMap == s.targetMap
    ensures r.0.sizeWritten >= s.sizeWritten
    ensures r.1.Err? <==> failure.Some?
    ensures r.1.Err? ==> r.1.error == failure.value
    ensures r.1.Ok? ==> forall i :: 0 <= i < |r.1.value| ==> r.1.value[i].totalLength > 0
  {
    if failure.Some? then
      var (_, db, infos) := WriteAll(StorageWriter([]), s.database, input, chunkFn, hash, times, 0);
      (s.(database := db, sizeWritten := s.sizeWritten + TotalLengths(infos)), Err(failure.value))
    else
      var out := WriteAndFlush(s.database, input, chunkFn, hash, times);
      (s.(database := out.0, sizeWritten := s.sizeWritten + TotalLengths(out.1)), Ok(Retain(out.1)))
  }

  /** A fresh writer fed the pieces in order and flushed once: the final
      database and every result, the flush's last. */
  function WriteAndFlush<H, K>(
    db: map<H, DataContainer<K>>, pieces: seq<seq<byte>>, chunkFn: ChunkFn, hash: seq<byte> -> H,
    times: nat -> WriteMeasurements)
    : (r: (map<H, DataContainer<K>>, seq<SpansInfo<H>>))
    requires Bounded(chunkFn)
    ensures |r.1| == |pieces| + 1
  {
    var (w, db1, infos) := WriteAll(StorageWriter([]), db, pieces, chunkFn, hash, times, 0);
    var (last, db2) := Flush(w, db1, hash, times(|pieces|));
    (db2, infos + [last])
  }

  /** The values of the target keys, in order. */
  function TargetValues<K>(targetMap: map<K, seq<byte>>, keys: seq<K>): seq<seq<byte>>
    requires forall i :: 0 <= i < |keys| ==> keys[i] in targetMap
  {
    seq(|keys|, i requires 0 <= i < |keys| && keys[i] in targetMap => targetMap[keys[i]])
  }

  /** The bytes a container stands for: a chunk's own bytes, or the
      concatenated target-map values of its keys (NotFound if one is
      missing). */
  function Resolve<K>(targetMap: map<K, seq<byte>>, c: DataContainer<K>): (r: Result<seq<byte>>)
    ensures c.data.Chunk? ==> r == Ok(c.data.bytes)
    ensures c.data.TargetChunk? ==>
      (r.Ok? <==> forall i :: 0 <= i < |c.data.keys| ==> c.data.keys[i] in targetMap)
    ensures c.data.TargetChunk? && r.Ok? ==> r.value == Concat(TargetValues(targetMap, c.data.keys))
    ensures r.Err? ==> r.error == NotFound
  {
    match c.data
    case Chunk(bytes) => Ok(bytes)
    case TargetChunk(keys) =>
      Database.MapGetMulti(targetMap, keys);
      var parts :- Database.GetMulti(targetMap, keys, Database.Get);
      assert parts == TargetValues(targetMap, keys);
      Ok(Concat(parts))
  }

  /** `ChunkStorage::retrieve`: the bytes of every requested hash in order,
      or NotFound if a hash, or a target key one of them refers to, is not
      stored. */
  function Retrieve<H, K>(s: ChunkStorage<H, K>, request: seq<H>): (r: Result<seq<seq<byte>>>)
    ensures r.Ok? <==> forall i :: 0 <= i < |request| ==>
      request[i] in s.database && Resolve(s.targetMap, s.database[request[i]]).Ok?
    ensures r.Ok? ==> |r.value| == |request| && forall i :: 0 <= i < |request| ==>
      r.value[i] == Resolve(s.targetMap, s.database[request[i]]).value
    ensures r.Err? ==> r.error == NotFound
  {
    var containers :- Database.GetMulti(s.database, request, Database.Get);
    Database.GetMulti(s.targetMap, containers, Resolve)
  }

  /** The number of chunk bytes a container holds; a target container
      counts nothing. */
  function ChunkLength<K>(c: DataContainer<K>): nat
  {
    if c.data.Chunk? then |c.data.bytes| else 0
  }

  /** `total_cdc_size`: the sum of the lengths of the stored `Data::Chunk`s,
      in any iteration order. */
  ghost function TotalCdcSize<H, K>(db: map<H, DataContainer<K>>): nat
    decreases |db.Keys|
  {
    if db.Keys == {} then
      0
    else
      var h := Pick(db);
      assert (db - {h}).Keys == db.Keys - {h};
      ChunkLength(db[h]) + TotalCdcSize(db - {h})
  }

  /** Some key of a non-empty map. */
  ghost function Pick<H, V>(m: map<H, V>): (h: H)
    requires m.Keys != {}
    ensures h in m
  {
    var h :| h in m.Keys; h
  }

  /** `clear_database`: `size_written` is zero and the chunk database empty;
      the target map is untouched. */
  function ClearDatabase<H, K>(s: ChunkStorage<H, K>): (r: Result<ChunkStorage<H, K>>)
    ensures r.Ok? && r.value.sizeWritten == 0 && r.value.database.Keys == {}
    ensures r.Ok? && r.value.targetMap == s.targetMap
  {
    Ok(s.(sizeWritten := 0, database := map[]))
  }

  /** `clear_database_full`: the target map is emptied too. */
  function ClearDatabaseFull<H, K>(s: ChunkStorage<H, K>): (r: Result<ChunkStorage<H, K>>)
    ensures r.Ok? && r.value.sizeWritten == 0 && r.value.database.Keys == {} && r.value.targetMap.Keys == {}
  {
    Ok(s.(sizeWritten := 0, database := map[], targetMap := map[]))
  }

  /** Every stored container is a chunk filed under the hash of its bytes,
      as the writer stores them. */
  ghost predicate Consistent<H, K>(db: map<H, DataContainer<K>>, hash: seq<byte> -> H)
  {
    forall h :: h in db ==> db[h].data.Chunk? && hash(db[h].data.bytes) == h
  }

  /** `b` is stored as a chunk under its hash. */
  ghost predicate Holds<H, K>(db: map<H, DataContainer<K>>, hash: seq<byte> -> H, b: seq<byte>)
  {
    hash(b) in db && db[hash(b)] == DataContainer(Chunk(b))
  }

  /** `db'` keeps every entry of `db`. */
  ghost predicate Extends<H, K>(db: map<H, DataContainer<K>>, db': map<H, DataContainer<K>>)
  {
    forall h :: h in db ==> h in db' && db'[h] == db[h]
  }

  /** Every span's hash is stored as a chunk of the span's length. */
  ghost predicate Recoverable<H, K>(db: map<H, DataContainer<K>>, spans: seq<Span<H>>)
  {
    forall i :: 0 <= i < |spans| ==>
      && spans[i].hash in db
      && db[spans[i].hash].data.Chunk?
      && |db[spans[i].hash].data.bytes| == spans[i].length
  }

  /** The stored chunks of the spans, in order. */
  ghost function Recovered<H, K>(db: map<H, DataContainer<K>>, spans: seq<Span<H>>): (r: seq<seq<byte>>)
    requires Recoverable(db, spans)
    ensures |r| == |spans|
  {
    seq(|spans|, i requires 0 <= i < |spans| => db[spans[i].hash].data.bytes)
  }

  /** A writer result whose total is the sum of its span lengths, and zero
      exactly when it has no spans. */
  ghost predicate WellSized<H>(info: SpansInfo<H>)
  {
    info.totalLength == SpanTotal(info.spans) && (info.totalLength == 0 <==> info.spans == [])
  }

  /** On the map database, inserting chunks under their hashes keeps the
      database consistent, changes no stored entry and leaves every chunk
      stored, provided the hash is collision-free. */
  lemma {:induction false} InsertChunksStores<H, K>(db: map<H, DataContainer<K>>, chunks: seq<seq<byte>>, hash: seq<byte> -> H)
    requires Injective(hash) && Consistent(db, hash)
    ensures Consistent(InsertChunks(db, chunks, hash), hash)
    ensures Extends(db, InsertChunks(db, chunks, hash))
    ensures forall i :: 0 <= i < |chunks| ==> Holds(InsertChunks(db, chunks, hash), hash, chunks[i])
    decreases |chunks|
  {
    if |chunks| > 0 {
      var c := chunks[0];
      var db1 := Database.TryInsert(db, hash(c), DataContainer(Chunk(c))).value;
      assert ChunkPairs<H, K>(chunks, hash)[1..] == ChunkPairs<H, K>(chunks[1..], hash);
      assert InsertChunks(db, chunks, hash) == InsertChunks(db1, chunks[1..], hash);
      InsertChunksStores(db1, chunks[1..], hash);
      assert Holds(db1, hash, c);
      forall i | 1 <= i < |chunks|
        ensures chunks[i] == chunks[1..][i - 1]
      {
      }
    }
  }

  /** Inserting chunks that are all stored already changes nothing. */
  lemma {:induction false} InsertChunksPresent<H, K>(db: map<H, DataContainer<K>>, chunks: seq<seq<byte>>, hash: seq<byte> -> H)
    requires forall i :: 0 <= i < |chunks| ==> hash(chunks[i]) in db
    ensures InsertChunks(db, chunks, hash) == db
    decreases |chunks|
  {
    if |chunks| > 0 {
      assert ChunkPairs<H, K>(chunks, hash)[1..] == ChunkPairs<H, K>(chunks[1..], hash);
      InsertChunksPresent(db, chunks[1..], hash);
    }
  }

  /** What an extending database recovers for spans the smaller one
      recovers is the same. */
  lemma RecoveredExtends<H, K>(db: map<H, DataContainer<K>>, db': map<H, DataContainer<K>>, spans: seq<Span<H>>)
    requires Recoverable(db, spans) && Extends(db, db')
    ensures Recoverable(db', spans) && Recovered(db', spans) == Recovered(db, spans)
  {
  }

  lemma RecoveredAppend<H, K>(db: map<H, DataContainer<K>>, a: seq<Span<H>>, b: seq<Span<H>>)
    requires Recoverable(db, a) && Recoverable(db, b)
    ensures Recoverable(db, a + b) && Recovered(db, a + b) == Recovered(db, a) + Recovered(db, b)
  {
  }

  /** The recovered chunks are as long as the spans say. */
  lemma {:induction false} RecoveredLength<H, K>(db: map<H, DataContainer<K>>, spans: seq<Span<H>>)
    requires Recoverable(db, spans)
    ensures SumLengths(Recovered(db, spans)) == SpanTotal(spans)
    decreases |spans|
  {
    if |spans| > 0 {
      RecoveredLength(db, spans[1..]);
      assert Recovered(db, spans)[1..] == Recovered(db, spans[1..]);
    }
  }

  lemma {:induction false} SpanTotalOf<H>(chunks: seq<seq<byte>>, hash: seq<byte> -> H)
    ensures SpanTotal(SpansOf(chunks, hash)) == SumLengths(chunks)
    decreases |chunks|
  {
    if |chunks| > 0 {
      assert SpansOf(chunks, hash)[1..] == SpansOf(chunks[1..], hash);
      SpanTotalOf(chunks[1..], hash);
    }
  }

  /** A tiling chunker cuts a non-empty buffer into at least one chunk. */
  lemma TilingCuts(chunkFn: ChunkFn, buffer: seq<byte>)
    requires Tiling(chunkFn) && |buffer| > 0
    ensures |chunkFn(buffer)| > 0
    ensures Chunker.Tiles(chunkFn(buffer), |buffer|)
    ensures forall i :: 0 <= i < |chunkFn(buffer)| ==> chunkFn(buffer)[i].length > 0
  {
    assert TilesOn(chunkFn, buffer);
  }

  /** One writer call with a tiling chunker: its spans plus the new `rest`
      account for `rest ++ data` byte for byte, in length. */
  lemma {:induction false} WriterWriteLengths<H, K>(
    w: StorageWriter, data: seq<byte>, db: map<H, DataContainer<K>>,
    chunkFn: ChunkFn, hash: seq<byte> -> H, times: WriteMeasurements)
    requires Bounded(chunkFn) && Tiling(chunkFn) && |data| > 0
    ensures var (info, w', _) := WriterWrite(w, data, db, chunkFn, hash, times);
      && WellSized(info)
      && info.totalLength + |w'.rest| == |w.rest| + |data|
  {
    var buffer := w.rest + data;
    var chunks := chunkFn(buffer);
    TilingCuts(chunkFn, buffer);
    assert BoundedOn(chunkFn, buffer);
    var (stored, rest) := Cut(buffer, chunks);
    CutTiles(buffer, chunks);
    ConcatLength(stored);
    SpanTotalOf(stored, hash);
  }

  /** One writer call with a tiling chunker and a collision-free hasher: the
      database stays consistent and keeps its entries, and the chunks the
      spans recover, followed by the new `rest`, are `rest ++ data`. */
  lemma {:induction false} WriterWriteStores<H, K>(
    w: StorageWriter, data: seq<byte>, db: map<H, DataContainer<K>>,
    chunkFn: ChunkFn, hash: seq<byte> -> H, times: WriteMeasurements)
    requires Bounded(chunkFn) && Tiling(chunkFn) && Injective(hash) && Consistent(db, hash) && |data| > 0
    ensures var (info, w', db') := WriterWrite(w, data, db, chunkFn, hash, times);
      && Consistent(db', hash) && Extends(db, db')
      && Recoverable(db', info.spans)
      && Concat(Recovered(db', info.spans)) + w'.rest == w.rest + data
  {
    var buffer := w.rest + data;
    var chunks := chunkFn(buffer);
    TilingCuts(chunkFn, buffer);
    assert BoundedOn(chunkFn, buffer);
    var (stored, rest) := Cut(buffer, chunks);
    CutTiles(buffer, chunks);
    InsertChunksStores<H, K>(db, stored, hash);
    var (info, w', db') := WriterWrite(w, data, db, chunkFn, hash, times);
    assert Recovered(db', info.spans) == stored;
  }

  /** `flush` stores `rest` under its hash and reports it as its spans. */
  lemma FlushStores<H, K>(w: StorageWriter, db: map<H, DataContainer<K>>, hash: seq<byte> -> H, times: WriteMeasurements)
    requires Injective(hash) && Consistent(db, hash)
    ensures var (info, db') := Flush(w, db, hash, times);
      && Consistent(db', hash) && Extends(db, db')
      && Recoverable(db', info.spans)
      && Concat(Recovered(db', info.spans)) == w.rest
      && WellSized(info)
  {
    var (info, db') := Flush(w, db, hash, times);
    if |w.rest| > 0 {
      assert Holds(db', hash, w.rest);
      assert Recovered(db', info.spans) == [w.rest];
      assert Concat([w.rest]) == w.rest + Concat<byte>([]);
    }
  }

  /** The writer fed with non-empty pieces: every result is well sized and
      the totals plus the final `rest` account for the input. */
  lemma {:induction false} WriteAllLengths<H, K>(
    w: StorageWriter, db: map<H, DataContainer<K>>, pieces: seq<seq<byte>>,
    chunkFn: ChunkFn, hash: seq<byte> -> H, times: nat -> WriteMeasurements, k: nat)
    requires Bounded(chunkFn) && Tiling(chunkFn)
    requires forall i :: 0 <= i < |pieces| ==> |pieces[i]| > 0
    ensures var (w', _, infos) := WriteAll(w, db, pieces, chunkFn, hash, times, k);
      && (forall i :: 0 <= i < |infos| ==> WellSized(infos[i]))
      && TotalLengths(infos) + |w'.rest| == |w.rest| + SumLengths(pieces)
    decreases |pieces|
  {
    if |pieces| > 0 {
      var (info, w1, db1) := WriterWrite(w, pieces[0], db, chunkFn, hash, times(k));
      WriterWriteLengths(w, pieces[0], db, chunkFn, hash, times(k));
      WriteAllLengths(w1, db1, pieces[1..], chunkFn, hash, times, k + 1);
      var (w2, db2, infos) := WriteAll(w1, db1, pieces[1..], chunkFn, hash, times, k + 1);
      assert ([info] + infos)[1..] == infos;
      forall i | 1 <= i < |pieces|
        ensures pieces[i] == pieces[1..][i - 1]
      {
      }
    }
  }

  /** The writer fed with non-empty pieces, with a tiling chunker and a
      collision-free hasher: the chunks all spans recover, followed by the
      final `rest`, are the pieces concatenated. */
  lemma {:induction false} WriteAllStores<H, K>(
    w: StorageWriter, db: map<H, DataContainer<K>>, pieces: seq<seq<byte>>,
    chunkFn: ChunkFn, hash: seq<byte> -> H, times: nat -> WriteMeasurements, k: nat)
    requires Bounded(chunkFn) && Tiling(chunkFn) && Injective(hash) && Consistent(db, hash)
    requires forall i :: 0 <= i < |pieces| ==> |pieces[i]| > 0
    ensures var (w', db', infos) := WriteAll(w, db, pieces, chunkFn, hash, times, k);
      && Consistent(db', hash) && Extends(db, db')
      && Recoverable(db', AllSpans(infos))
      && Concat(Recovered(db', AllSpans(infos))) + w'.rest == w.rest + Concat(pieces)
    decreases |pieces|
  {
    if |pieces| > 0 {
      var (info, w1, db1) := WriterWrite(w, pieces[0], db, chunkFn, hash, times(k));
      WriterWriteStores(w, pieces[0], db, chunkFn, hash, times(k));
      forall i | 1 <= i < |pieces|
        ensures pieces[i] == pieces[1..][i - 1]
      {
      }
      WriteAllStores(w1, db1, pieces[1..], chunkFn, hash, times, k + 1);
      var (w2, db2, infos) := WriteAll(w1, db1, pieces[1..], chunkFn, hash, times, k + 1);
      RecoveredExtends(db1, db2, info.spans);
      assert ([info] + infos)[1..] == infos;
      assert AllSpans([info] + infos) == info.spans + AllSpans(infos);
      RecoveredAppend(db2, info.spans, AllSpans(infos));
      ConcatAppend(Recovered(db2, info.spans), Recovered(db2, AllSpans(infos)));
      var x := Concat(Recovered(db2, info.spans));
      var y := Concat(Recovered(db2, AllSpans(infos)));
      Chain(x, y, w.rest, w1.rest, w2.rest, pieces[0], Concat(pieces[1..]));
    }
  }

  /** Two consecutive stages of the writer's bookkeeping compose. */
  lemma Chain<T>(x: seq<T>, y: seq<T>, r0: seq<T>, r1: seq<T>, r2: seq<T>, p: seq<T>, q: seq<T>)
    requires x + r1 == r0 + p && y + r2 == r1 + q
    ensures (x + y) + r2 == r0 + (p + q)
  {
    calc {
      (x + y) + r2;
      x + (y + r2);
      x + (r1 + q);
      (x + r1) + q;
      (r0 + p) + q;
    }
  }

  /** Dropping results without spans drops no span. */
  lemma {:induction false} RetainKeepsSpans<H>(infos: seq<SpansInfo<H>>)
    requires forall i :: 0 <= i < |infos| ==> WellSized(infos[i])
    ensures AllSpans(Retain(infos)) == AllSpans(infos)
    decreases |infos|
  {
    if |infos| > 0 {
      RetainKeepsSpans(infos[1..]);
      if infos[0].totalLength > 0 {
        assert ([infos[0]] + Retain(infos[1..]))[1..] == Retain(infos[1..]);
      }
    }
  }

  lemma {:induction false} AllSpansAppend<H>(a: seq<SpansInfo<H>>, b: seq<SpansInfo<H>>)
    ensures AllSpans(a + b) == AllSpans(a) + AllSpans(b)
    decreases |a|
  {
    if |a| > 0 {
      assert (a + b)[1..] == a[1..] + b;
      AllSpansAppend(a[1..], b);
      assert AllSpans(a + b) == a[0].spans + AllSpans(a[1..] + b);
    } else {
      assert a + b == b;
    }
  }

  lemma {:induction false} TotalLengthsAppend<H>(a: seq<SpansInfo<H>>, b: seq<SpansInfo<H>>)
    ensures TotalLengths(a + b) == TotalLengths(a) + TotalLengths(b)
    decreases |a|
  {
    if |a| > 0 {
      assert (a + b)[1..] == a[1..] + b;
      TotalLengthsAppend(a[1..], b);
      assert TotalLengths(a + b) == a[0].totalLength + TotalLengths(a[1..] + b);
    } else {
      assert a + b == b;
    }
  }

  /** Retrieving recoverable spans returns the stored chunks. */
  lemma RetrieveRecovered<H, K>(s: ChunkStorage<H, K>, spans: seq<Span<H>>)
    requires Recoverable(s.database, spans)
    ensures Retrieve(s, Hashes(spans)) == Ok(Recovered(s.database, spans))
  {
    var request := Hashes(spans);
    forall i | 0 <= i < |request|
      ensures request[i] in s.database && Resolve(s.targetMap, s.database[request[i]]).Ok?
    {
    }
    var r := Retrieve(s, request);
    assert r.value == Recovered(s.database, spans);
  }

  /** Retrieving two requests one after the other is retrieving them
      together. */
  lemma RetrieveAppend<H, K>(s: ChunkStorage<H, K>, a: seq<H>, b: seq<H>)
    ensures Retrieve(s, a + b).Ok? <==> Retrieve(s, a).Ok? && Retrieve(s, b).Ok?
    ensures Retrieve(s, a + b).Ok? ==> Retrieve(s, a + b).value == Retrieve(s, a).value + Retrieve(s, b).value
  {
    if Retrieve(s, a).Ok? && Retrieve(s, b).Ok? {
      RetrieveJoin(s, a, b);
    } else if Retrieve(s, a + b).Ok? {
      RetrieveSplit(s, a, b);
      assert false;
    }
  }

  lemma {:induction false} RetrieveJoin<H, K>(s: ChunkStorage<H, K>, a: seq<H>, b: seq<H>)
    requires Retrieve(s, a).Ok? && Retrieve(s, b).Ok?
    ensures Retrieve(s, a + b) == Ok(Retrieve(s, a).value + Retrieve(s, b).value)
  {
    var ab := a + b;
    var ra, rb := Retrieve(s, a).value, Retrieve(s, b).value;
    var joined := ra + rb;
    forall i | 0 <= i < |ab|
      ensures ab[i] in s.database && Resolve(s.targetMap, s.database[ab[i]]).Ok?
      ensures joined[i] == Resolve(s.targetMap, s.database[ab[i]]).value
    {
      if i < |a| {
        assert ab[i] == a[i] && joined[i] == ra[i];
      } else {
        assert ab[i] == b[i - |a|] && joined[i] == rb[i - |a|];
      }
    }
    var rab := Retrieve(s, ab);
    assert rab.Ok?;
    assert rab.value == joined;
  }

  lemma {:induction false} RetrieveSplit<H, K>(s: ChunkStorage<H, K>, a: seq<H>, b: seq<H>)
    requires Retrieve(s, a + b).Ok?
    ensures Retrieve(s, a).Ok? && Retrieve(s, b).Ok?
  {
    var ab := a + b;
    forall i | 0 <= i < |a|
      ensures a[i] in s.database && Resolve(s.targetMap, s.database[a[i]]).Ok?
    {
      assert ab[i] == a[i];
    }
    forall i | 0 <= i < |b|
      ensures b[i] in s.database && Resolve(s.targetMap, s.database[b[i]]).Ok?
    {
      assert ab[|a| + i] == b[i];
    }
  }

  /** A request that succeeds keeps its result once the database grows and
      the target map stays. */
  lemma RetrieveExtends<H, K>(s: ChunkStorage<H, K>, s': ChunkStorage<H, K>, request: seq<H>)
    requires Retrieve(s, request).Ok?
    requires Extends(s.database, s'.database) && s'.targetMap == s.targetMap
    ensures Retrieve(s', request) == Retrieve(s, request)
  {
    assert forall i :: 0 <= i < |request| ==> s'.database[request[i]] == s.database[request[i]];
    var r, r' := Retrieve(s, request), Retrieve(s', request);
    assert r'.Ok?;
    assert forall i :: 0 <= i < |request| ==> r'.value[i] == r.value[i];
    assert r'.value == r.value;
  }

  lemma {:induction false} HashesAppend<H>(a: seq<Span<H>>, b: seq<Span<H>>)
    ensures Hashes(a + b) == Hashes(a) + Hashes(b)
  {
  }

  lemma {:induction false} SpanTotalAppend<H>(a: seq<Span<H>>, b: seq<Span<H>>)
    ensures SpanTotal(a + b) == SpanTotal(a) + SpanTotal(b)
    decreases |a|
  {
    if |a| > 0 {
      assert (a + b)[1..] == a[1..] + b;
      SpanTotalAppend(a[1..], b);
    } else {
      assert a + b == b;
    }
  }

  /** A fresh writer fed non-empty pieces and flushed, with a tiling
      chunker and a collision-free hasher: the spans recover exactly the
      pieces, every result is well sized, and nothing stored changes. */
  lemma {:induction false} WriteAndFlushStores<H, K>(
    db: map<H, DataContainer<K>>, pieces: seq<seq<byte>>, chunkFn: ChunkFn, hash: seq<byte> -> H,
    times: nat -> WriteMeasurements)
    requires Bounded(chunkFn) && Tiling(chunkFn) && Injective(hash) && Consistent(db, hash)
    requires forall i :: 0 <= i < |pieces| ==> |pieces[i]| > 0
    ensures var (db', infos) := WriteAndFlush(db, pieces, chunkFn, hash, times);
      && Consistent(db', hash) && Extends(db, db')
      && (forall i :: 0 <= i < |infos| ==> WellSized(infos[i]))
      && Recoverable(db', AllSpans(infos))
      && Concat(Recovered(db', AllSpans(infos))) == Concat(pieces)
  {
    var w0 := StorageWriter([]);
    var (w, db1, infos) := WriteAll(w0, db, pieces, chunkFn, hash, times, 0);
    WriteAllStores(w0, db, pieces, chunkFn, hash, times, 0);
    WriteAllLengths(w0, db, pieces, chunkFn, hash, times, 0);
    var (last, db2) := Flush(w, db1, hash, times(|pieces|));
    FlushStores(w, db1, hash, times(|pieces|));
    RecoveredExtends(db1, db2, AllSpans(infos));
    AllSpansAppend(infos, [last]);
    assert AllSpans([last]) == last.spans + AllSpans<H>([]);
    var spans := AllSpans(infos + [last]);
    assert spans == AllSpans(infos) + last.spans;
    RecoveredAppend(db2, AllSpans(infos), last.spans);
    var front := Recovered(db2, AllSpans(infos));
    var back := Recovered(db2, last.spans);
    assert Recovered(db2, spans) == front + back;
    ConcatAppend(front, back);
    Glue(Concat(front), w.rest, Concat(pieces));
    calc {
      Concat(Recovered(db2, spans));
      Concat(front + back);
      Concat(front) + Concat(back);
      Concat(front) + w.rest;
      Concat(pieces);
    }
  }

  /** The writer's reported totals add up to the pieces' length. */
  lemma {:induction false} WriteAndFlushLengths<H, K>(
    db: map<H, DataContainer<K>>, pieces: seq<seq<byte>>, chunkFn: ChunkFn, hash: seq<byte> -> H,
    times: nat -> WriteMeasurements)
    requires Bounded(chunkFn) && Tiling(chunkFn)
    requires forall i :: 0 <= i < |pieces| ==> |pieces[i]| > 0
    ensures TotalLengths(WriteAndFlush(db, pieces, chunkFn, hash, times).1) == SumLengths(pieces)
  {
    var w0 := StorageWriter([]);
    var (w, db1, infos) := WriteAll(w0, db, pieces, chunkFn, hash, times, 0);
    WriteAllLengths(w0, db, pieces, chunkFn, hash, times, 0);
    var (last, db2) := Flush(w, db1, hash, times(|pieces|));
    TotalLengthsAppend(infos, [last]);
    assert TotalLengths([last]) == last.totalLength + TotalLengths<H>([]);
  }

  /** The storage round trip: with a chunker whose chunks tile its input and
      a collision-free hasher, retrieving the hashes of the spans `write`
      returns, in order, gives back exactly the written data, and the span
      lengths add up to the data length. Nothing stored before changes. */
  lemma {:induction false} WriteThenRetrieve<H, K>(
    s: ChunkStorage<H, K>, data: seq<byte>, chunkFn: ChunkFn, hash: seq<byte> -> H,
    times: nat -> WriteMeasurements)
    requires Bounded(chunkFn) && Tiling(chunkFn) && Injective(hash) && Consistent(s.database, hash)
    ensures var (s', infos) := Write(s, data, chunkFn, hash, times);
      && Consistent(s'.database, hash) && Extends(s.database, s'.database)
      && Retrieve(s', Hashes(AllSpans(infos))).Ok?
      && Concat(Retrieve(s', Hashes(AllSpans(infos))).value) == data
      && SpanTotal(AllSpans(infos)) == |data|
  {
    var (db', all) := WriteAndFlush(s.database, Pieces(data), chunkFn, hash, times);
    WriteAndFlushStores(s.database, Pieces(data), chunkFn, hash, times);
    RetainKeepsSpans(all);
    var (s', out) := Write(s, data, chunkFn, hash, times);
    var spans := AllSpans(out);
    assert spans == AllSpans(all);
    RetrieveRecovered(s', spans);
    RecoveredLength(db', spans);
    ConcatLength(Recovered(db', spans));
  }

  /** A write keeps every earlier retrieval as it was. */
  lemma WriteKeepsRetrievable<H, K>(
    s: ChunkStorage<H, K>, data: seq<byte>, chunkFn: ChunkFn, hash: seq<byte> -> H,
    times: nat -> WriteMeasurements, spans: seq<Span<H>>)
    requires Bounded(chunkFn) && Tiling(chunkFn) && Injective(hash) && Consistent(s.database, hash)
    requires Recoverable(s.database, spans)
    ensures Retrieve(Write(s, data, chunkFn, hash, times).0, Hashes(spans)) == Retrieve(s, Hashes(spans))
  {
    WriteAndFlushStores(s.database, Pieces(data), chunkFn, hash, times);
    var s' := Write(s, data, chunkFn, hash, times).0;
    RecoveredExtends(s.database, s'.database, spans);
    RetrieveRecovered(s, spans);
    RetrieveRecovered(s', spans);
  }

  /** With a tiling chunker, writing from a stream that yields the `SEG_SIZE`
      pieces of the data is the same as `write`: the same database, spans and
      `size_written`, since the writer then reports every byte. */
  lemma StreamMatchesWrite<H, K>(
    s: ChunkStorage<H, K>, data: seq<byte>, chunkFn: ChunkFn, hash: seq<byte> -> H,
    times: nat -> WriteMeasurements)
    requires Bounded(chunkFn) && Tiling(chunkFn)
    ensures var (s', r) := WriteFromStream(s, Pieces(data), None, chunkFn, hash, times);
      r.Ok? && (s', r.value) == Write(s, data, chunkFn, hash, times)
  {
    var pieces := Pieces(data);
    WriteAndFlushLengths<H, K>(s.database, pieces, chunkFn, hash, times);
    ConcatLength(pieces);
    var a := WriteFromStream(s, pieces, None, chunkFn, hash, times);
    var b := Write(s, data, chunkFn, hash, times);
    assert a.0.database == b.0.database && a.0.targetMap == b.0.targetMap;
    assert a.0.sizeWritten == b.0.sizeWritten;
    assert a.1.value == b.1;
  }

  /** A stream whose reader fails after some reads keeps what those reads
      stored: with a tiling chunker and a collision-free hasher the database
      stays consistent and keeps every earlier entry, and the stream that
      ends there instead stores everything the failing one did and counts at
      least as many bytes. */
  lemma {:induction false} StreamFailureKeepsStored<H, K>(
    s: ChunkStorage<H, K>, input: seq<seq<byte>>, e: IoError, chunkFn: ChunkFn,
    hash: seq<byte> -> H, times: nat -> WriteMeasurements)
    requires Bounded(chunkFn) && Tiling(chunkFn) && Injective(hash) && Consistent(s.database, hash)
    requires forall i :: 0 <= i < |input| ==> 0 < |input[i]| <= SegSize
    ensures var failed := WriteFromStream(s, input, Some(e), chunkFn, hash, times).0;
      var ended := WriteFromStream(s, input, None, chunkFn, hash, times).0;
      && Consistent(failed.database, hash)
      && Extends(s.database, failed.database)
      && Extends(failed.database, ended.database)
      && failed.sizeWritten <= ended.sizeWritten
  {
    var w0 := StorageWriter([]);
    var (w, db1, infos) := WriteAll(w0, s.database, input, chunkFn, hash, times, 0);
    WriteAllStores(w0, s.database, input, chunkFn, hash, times, 0);
    var (last, db2) := Flush(w, db1, hash, times(|input|));
    FlushStores(w, db1, hash, times(|input|));
    TotalLengthsAppend(infos, [last]);
    assert TotalLengths([last]) == last.totalLength + TotalLengths<H>([]);
  }

  /** Gluing an empty prefix. */
  lemma Glue<T>(x: seq<T>, r: seq<T>, c: seq<T>)
    requires x + r == [] + c
    ensures x + r == c
  {
  }

  /** `total_cdc_size` does not depend on which entry is counted first. */
  lemma {:induction false} TotalCdcSizeRemove<H, K>(db: map<H, DataContainer<K>>, h: H)
    requires h in db
    ensures TotalCdcSize(db) == ChunkLength(db[h]) + TotalCdcSize(db - {h})
    decreases |db.Keys|
  {
    var h' := Pick(db);
    if h' != h {
      var rest := db - {h'};
      assert rest.Keys == db.Keys - {h'};
      TotalCdcSizeRemove(rest, h);
      var both := rest - {h};
      assert (db - {h}) - {h'} == both;
      assert (db - {h}).Keys == db.Keys - {h};
      TotalCdcSizeRemove(db - {h}, h');
    }
  }

  /** `try_insert` of a container adds its chunk length to `total_cdc_size`
      exactly when the key is new. */
  lemma TotalCdcSizeTryInsert<H, K>(db: map<H, DataContainer<K>>, h: H, c: DataContainer<K>)
    ensures TotalCdcSize(Database.TryInsert(db, h, c).value)
      == TotalCdcSize(db) + if h in db then 0 else ChunkLength(c)
  {
    if h !in db {
      var db' := db[h := c];
      TotalCdcSizeRemove(db', h);
      assert db' - {h} == db;
    }
  }

  /** Storing any number of copies of one chunk in an empty database counts
      that chunk once: deduplication. */
  lemma TotalCdcSizeOfCopies<H, K>(chunks: seq<seq<byte>>, hash: seq<byte> -> H, b: seq<byte>)
    requires |chunks| > 0 && forall i :: 0 <= i < |chunks| ==> chunks[i] == b
    ensures TotalCdcSize(InsertChunks<H, K>(map[], chunks, hash)) == |b|
  {
    var db1: map<H, DataContainer<K>> := map[hash(b) := DataContainer(Chunk(b))];
    assert ChunkPairs<H, K>(chunks, hash)[1..] == ChunkPairs<H, K>(chunks[1..], hash);
    InsertChunksPresent(db1, chunks[1..], hash);
    TotalCdcSizeTryInsert<H, K>(map[], hash(b), DataContainer(Chunk(b)));
  }

  /** After either clear, nothing is counted and no hash can be retrieved. */
  lemma ClearForgets<H, K>(s: ChunkStorage<H, K>, request: seq<H>)
    requires |request| > 0
    ensures TotalCdcSize(ClearDatabase(s).value.database) == 0
    ensures Retrieve(ClearDatabase(s).value, request) == Err(NotFound)
    ensures Retrieve(ClearDatabaseFull(s).value, request) == Err(NotFound)
  {
  }
}

=== FILE: text.dfy ===
/** String helpers shared by the command-line tool and the plotting
    script: decimal rendering of naturals (Rust's `{}` for `usize`), the
    text before the first separator (`split(sep).next()` in Rust,
    `split(sep)[0]` in Python), and Python's `str.replace`, `str.strip`
    and `str.title` on single characters. Letters and case are those of
    ASCII; whitespace is Python's `str.isspace` set. */
module Text {

  /** A decimal digit. */
  predicate IsDigit(c: char)
  {
    '0' <= c <= '9'
  }

  /** Every character is a decimal digit. */
  predicate AllDigits(s: string)
  {
    forall i :: 0 <= i < |s| ==> IsDigit(s[i])
  }

  /** The digit character of a value below ten. */
  function DigitChar(d: nat): (c: char)
    requires d < 10
    ensures IsDigit(c) && c as int - '0' as int == d
  {
    ('0' as int + d) as char
  }

  /** `n` written in decimal: the shortest digit string, so no leading
      zero except for zero itself. */
  function Decimal(n: nat): (s: string)
    ensures |s| > 0 && AllDigits(s)
    ensures s[0] == '0' <==> n == 0
    ensures n == 0 ==> s == "0"
    decreases n
  {
    if n < 10 then [DigitChar(n)] else Decimal(n / 10) + [DigitChar(n % 10)]
  }

  /** The value of a digit string, most significant digit first. */
  function DigitsValue(s: string): nat
    requires AllDigits(s)
    decreases |s|
  {
    if |s| == 0 then 0
    else DigitsValue(s[..|s| - 1]) * 10 + (s[|s| - 1] as int - '0' as int)
  }

  /** Reading back a rendered number gives the number. */
  lemma {:induction false} DecimalRoundTrip(n: nat)
    ensures DigitsValue(Decimal(n)) == n
    decreases n
  {
    if n >= 10 {
      DecimalRoundTrip(n / 10);
      var s := Decimal(n);
      assert s[..|s| - 1] == Decimal(n / 10);
    }
  }

  /** Distinct numbers are rendered differently. */
  lemma DecimalInjective(a: nat, b: nat)
    requires Decimal(a) == Decimal(b)
    ensures a == b
  {
    DecimalRoundTrip(a);
    DecimalRoundTrip(b);
  }

  /** The text before the first `sep`, or all of `s` when it has none. */
  function Before(s: string, sep: char): (r: string)
    ensures r <= s && sep !in r
    ensures |r| < |s| ==> s[|r|] == sep
    decreases |s|
  {
    if |s| == 0 || s[0] == sep then "" else [s[0]] + Before(s[1..], sep)
  }

  /** The prefix `Before` returns is the only one free of `sep` that ends
      at a `sep` or at the end of `s`. */
  lemma BeforeUnique(s: string, sep: char, p: string)
    requires p <= s && sep !in p && (|p| == |s| || s[|p|] == sep)
    ensures Before(s, sep) == p
  {
  }

  /** `str.replace(from, to)` for single characters. */
  function Replace(s: string, from: char, to: char): (r: string)
    ensures |r| == |s|
    ensures forall i :: 0 <= i < |s| ==> r[i] == if s[i] == from then to else s[i]
    decreases |s|
  {
    if |s| == 0 then "" else [if s[0] == from then to else s[0]] + Replace(s[1..], from, to)
  }

  /** A character Python's `str.isspace` accepts. */
  predicate IsSpace(c: char)
  {
    var n := c as int;
    || 0x09 <= n <= 0x0D || 0x1C <= n <= 0x20 || n == 0x85 || n == 0xA0
    || n == 0x1680 || 0x2000 <= n <= 0x200A || n == 0x2028 || n == 0x2029
    || n == 0x202F || n == 0x205F || n == 0x3000
  }

  /** Every character is whitespace. */
  predicate AllSpace(s: string)
  {
    forall i :: 0 <= i < |s| ==> IsSpace(s[i])
  }

  /** `s` without its leading whitespace. */
  function TrimStart(s: string): (r: string)
    ensures |r| <= |s| && r == s[|s| - |r|..]
    ensures AllSpace(s[..|s| - |r|])
    ensures |r| > 0 ==> !IsSpace(r[0])
    decreases |s|
  {
    if |s| > 0 && IsSpace(s[0]) then TrimStart(s[1..]) else s
  }

  /** `s` without its trailing whitespace. */
  function TrimEnd(s: string): (r: string)
    ensures |r| <= |s| && r == s[..|r|]
    ensures AllSpace(s[|r|..])
    ensures |r| > 0 ==> !IsSpace(r[|r| - 1])
    decreases |s|
  {
    if |s| > 0 && IsSpace(s[|s| - 1]) then TrimEnd(s[..|s| - 1]) else s
  }

  /** The number of leading whitespace characters. */
  function StripStart(s: string): (i: nat)
    ensures i <= |s|
  {
    |s| - |TrimStart(s)|
  }

  /** `str.strip()`: the result neither starts nor ends with whitespace
      (`StripSlice` says where it sits in `s`). */
  function Strip(s: string): (r: string)
    ensures |r| > 0 ==> !IsSpace(r[0]) && !IsSpace(r[|r| - 1])
  {
    TrimEnd(TrimStart(s))
  }

  /** `s` is the stripped text with whitespace around it. */
  lemma StripSlice(s: string)
    ensures StripStart(s) + |Strip(s)| <= |s|
    ensures Strip(s) == s[StripStart(s)..StripStart(s) + |Strip(s)|]
    ensures AllSpace(s[..StripStart(s)]) && AllSpace(s[StripStart(s) + |Strip(s)|..])
  {
    var t := TrimStart(s);
    var r := TrimEnd(t);
    SpaceAround(s, t, r);
  }

  /** A prefix `r` of a suffix `t` of `s`, with only whitespace cut off on
      either side, sits in `s` where `t` starts, between whitespace. */
  lemma SpaceAround(s: string, t: string, r: string)
    requires |t| <= |s| && t == s[|s| - |t|..] && AllSpace(s[..|s| - |t|])
    requires |r| <= |t| && r == t[..|r|] && AllSpace(t[|r|..])
    ensures r == s[|s| - |t|..|s| - |t| + |r|]
    ensures AllSpace(s[|s| - |t| + |r|..])
  {
    var i := |s| - |t|;
    assert s[i + |r|..] == t[|r|..];
  }

  /** `s[i..j]` is `s` with only whitespace cut off on either side, and
      neither starts nor ends with whitespace. */
  predicate Framed(s: string, i: nat, j: nat)
  {
    && i <= j <= |s|
    && AllSpace(s[..i]) && AllSpace(s[j..])
    && (i < j ==> !IsSpace(s[i]) && !IsSpace(s[j - 1]))
  }

  /** `str.strip()` is the only slice so framed: whitespace cut off on
      both sides, none left at either end. */
  lemma StripUnique(s: string, i: nat, j: nat)
    requires Framed(s, i, j)
    ensures Strip(s) == s[i..j]
  {
    StripSlice(s);
    SameFrame(s, i, j, StripStart(s), StripStart(s) + |Strip(s)|);
  }

  /** Two framed slices of the same text are equal. */
  lemma SameFrame(s: string, i1: nat, j1: nat, i2: nat, j2: nat)
    requires Framed(s, i1, j1) && Framed(s, i2, j2)
    ensures s[i1..j1] == s[i2..j2]
  {
    if i1 < j1 && i2 < j2 {
      SpaceBefore(s, i1, i2);
      SpaceBefore(s, i2, i1);
      SpaceAfter(s, j1, j2 - 1);
      SpaceAfter(s, j2, j1 - 1);
    } else {
      if i1 == j1 {
        SpaceThroughout(s, i1);
      }
      if i2 == j2 {
        SpaceThroughout(s, i2);
      }
    }
  }

  /** A character inside a whitespace prefix is whitespace. */
  lemma SpaceBefore(s: string, i: nat, k: nat)
    requires i <= |s| && AllSpace(s[..i]) && k < |s|
    ensures k < i ==> IsSpace(s[k])
  {
    if k < i {
      assert s[..i][k] == s[k];
    }
  }

  /** A character inside a whitespace suffix is whitespace. */
  lemma SpaceAfter(s: string, j: nat, k: nat)
    requires j <= |s| && AllSpace(s[j..]) && k < |s|
    ensures j <= k ==> IsSpace(s[k])
  {
    if j <= k {
      assert s[j..][k - j] == s[k];
    }
  }

  /** Whitespace on both sides of a cut is whitespace throughout. */
  lemma SpaceThroughout(s: string, i: nat)
    requires i <= |s| && AllSpace(s[..i]) && AllSpace(s[i..])
    ensures AllSpace(s)
  {
    forall k | 0 <= k < |s|
      ensures IsSpace(s[k])
    {
      if k < i {
        assert s[..i][k] == s[k];
      } else {
        assert s[i..][k - i] == s[k];
      }
    }
  }

  /** A cased character: an ASCII letter. */
  predicate IsLetter(c: char)
  {
    'a' <= c <= 'z' || 'A' <= c <= 'Z'
  }

  /** The upper-case form of a letter; other characters are unchanged. */
  function Upper(c: char): (u: char)
    ensures IsLetter(c) ==> IsLetter(u) && 'A' <= u <= 'Z'
    ensures !IsLetter(c) ==> u == c
  {
    if 'a' <= c <= 'z' then (c as int - 32) as char else c
  }

  /** The lower-case form of a letter; other characters are unchanged. */
  function Lower(c: char): (l: char)
    ensures IsLetter(c) ==> IsLetter(l) && 'a' <= l <= 'z'
    ensures !IsLetter(c) ==> l == c
  {
    if 'A' <= c <= 'Z' then (c as int + 32) as char else c
  }

  /** `str.title()` from a point where the previous character was cased
      (`afterLetter`) or not. */
  function TitleFrom(s: string, afterLetter: bool): (r: string)
    ensures |r| == |s|
    decreases |s|
  {
    if |s| == 0 then ""
    else [if afterLetter then Lower(s[0]) else Upper(s[0])] + TitleFrom(s[1..], IsLetter(s[0]))
  }

  /** `str.title()`: a letter is upper-cased when it starts a word (it is
      first, or follows a non-letter) and lower-cased otherwise; other
      characters are kept. */
  function Title(s: string): (r: string)
    ensures |r| == |s|
  {
    TitleFrom(s, false)
  }

  /** The per-character rule of `str.title()`. */
  lemma {:induction false} TitleFromChars(s: string, afterLetter: bool)
    ensures forall i :: 0 <= i < |s| ==>
      TitleFrom(s, afterLetter)[i] ==
        if (if i == 0 then afterLetter else IsLetter(s[i - 1])) then Lower(s[i]) else Upper(s[i])
    decreases |s|
  {
    if |s| > 0 {
      TitleFromChars(s[1..], IsLetter(s[0]));
      var r := TitleFrom(s, afterLetter);
      assert r[1..] == TitleFrom(s[1..], IsLetter(s[0]));
      forall i | 1 <= i < |s|
        ensures r[i] == if IsLetter(s[i - 1]) then Lower(s[i]) else Upper(s[i])
      {
        assert r[i] == r[1..][i - 1];
        assert s[1..][i - 1] == s[i];
        if i >= 2 {
          assert s[1..][i - 2] == s[i - 1];
        }
      }
    }
  }

  /** Title case of a whole string: each letter is upper-case exactly when
      it starts a word. */
  lemma TitleChars(s: string)
    ensures forall i :: 0 <= i < |s| ==>
      Title(s)[i] == if i > 0 && IsLetter(s[i - 1]) then Lower(s[i]) else Upper(s[i])
  {
    TitleFromChars(s, false);
    assert Title(s) == TitleFrom(s, false);
  }

  /** `sub` occurs in `s` at position `i`. */
  predicate OccursAt(s: string, sub: string, i: nat)
  {
    i + |sub| <= |s| && s[i..i + |sub|] == sub
  }

  /** Python's `sub in s`: some position of `s` starts an occurrence. */
  function Contains(s: string, sub: string): (b: bool)
    ensures b <==> exists i: nat :: OccursAt(s, sub, i)
    decreases |s|
  {
    if OccursAt(s, sub, 0) then true
    else if |s| == 0 then false
    else
      var rest := Contains(s[1..], sub);
      assert forall i: nat :: OccursAt(s[1..], sub, i) <==> OccursAt(s, sub, i + 1) by {
        forall i: nat
          ensures OccursAt(s[1..], sub, i) <==> OccursAt(s, sub, i + 1)
        {
          if i + |sub| <= |s[1..]| {
            assert s[1..][i..i + |sub|] == s[i + 1..i + 1 + |sub|];
          }
        }
      }
      if !rest then
        assert forall i: nat :: !OccursAt(s, sub, i) by {
          forall i: nat
            ensures !OccursAt(s, sub, i)
          {
            if i > 0 {
              assert !OccursAt(s[1..], sub, i - 1);
            }
          }
        }
        false
      else
        true
  }

  /** A string wrapped in a fixed prefix and suffix determines what they
      wrap. */
  lemma WrappedInjective(prefix: string, a: string, b: string, suffix: string)
    requires prefix + a + suffix == prefix + b + suffix
    ensures a == b
  {
    var x := prefix + a + suffix;
    assert |a| == |b|;
    assert a == x[|prefix|..|prefix| + |a|];
    assert b == (prefix + b + suffix)[|prefix|..|prefix| + |b|];
  }
}

=== FILE: wrappers.dfy ===
/** Shared value types of the model: bytes, the `std::io::ErrorKind`s the
    library returns, and the Option/Result wrappers used for fallible
    operations. */
module Wrappers {

  /** An unsigned 8-bit value, as `u8` in the library. */
  newtype byte = x: int | 0 <= x < 256

  datatype Option<+T> = None | Some(value: T)

  /** The error kinds the modelled code returns through `io::Result`. */
  datatype IoError =
    | NotFound
    | PermissionDenied
    | AlreadyExists
    | InvalidData
    | InvalidInput
    | OutOfMemory
    | Other

  /** `io::Result<T>`. */
  datatype Result<+T> = Ok(value: T) | Err(error: IoError) {
    predicate IsFailure() {
      Err?
    }

    function PropagateFailure<U>(): Result<U>
      requires Err?
    {
      Err(error)
    }

    function Extract(): T
      requires Ok?
    {
      value
    }
  }

  /** `n` copies of the byte `b`, as `vec![b; n]`. */
  function Repeat(b: byte, n: nat): (r: seq<byte>)
    ensures |r| == n
    ensures forall i :: 0 <= i < n ==> r[i] == b
  {
    seq(n, _ => b)
  }

  /** Concatenation of a sequence of sequences, as `Vec::concat`. */
  function Concat<T>(parts: seq<seq<T>>): seq<T>
  {
    if |parts| == 0 then [] else parts[0] + Concat(parts[1..])
  }

  /** Sum of the lengths of the parts. */
  function SumLengths<T>(parts: seq<seq<T>>): nat
  {
    if |parts| == 0 then 0 else |parts[0]| + SumLengths(parts[1..])
  }

  lemma {:induction false} ConcatAppend<T>(a: seq<seq<T>>, b: seq<seq<T>>)
    ensures Concat(a + b) == Concat(a) + Concat(b)
  {
    if |a| == 0 {
      assert a + b == b;
    } else {
      assert (a + b)[1..] == a[1..] + b;
      ConcatAppend(a[1..], b);
    }
  }

  lemma {:induction false} ConcatLength<T>(parts: seq<seq<T>>)
    ensures |Concat(parts)| == SumLengths(parts)
  {
    if |parts| > 0 {
      ConcatLength(parts[1..]);
    }
  }

  /** Adding one more part to a prefix adds its length. */
  lemma SumLengthsSnoc<T>(parts: seq<seq<T>>, i: nat)
    requires i < |parts|
    ensures SumLengths(parts[..i + 1]) == SumLengths(parts[..i]) + |parts[i]|
  {
    assert parts[..i + 1] == parts[..i] + [parts[i]];
    ConcatLength(parts[..i + 1]);
    ConcatLength(parts[..i]);
    ConcatLength([parts[i]]);
    ConcatAppend(parts[..i], [parts[i]]);
  }

  /** The i-th part sits in the concatenation right after the parts before
      it. */
  lemma ConcatSlice<T>(parts: seq<seq<T>>, i: nat)
    requires i < |parts|
    ensures SumLengths(parts[..i]) + |parts[i]| <= |Concat(parts)|
    ensures Concat(parts)[SumLengths(parts[..i])..SumLengths(parts[..i]) + |parts[i]|] == parts[i]
  {
    assert parts == parts[..i] + ([parts[i]] + parts[i + 1..]);
    ConcatAppend(parts[..i], [parts[i]] + parts[i + 1..]);
    ConcatAppend([parts[i]], parts[i + 1..]);
    ConcatLength(parts[..i]);
    assert Concat([parts[i]]) == parts[i] + Concat([parts[i]][1..]);
    assert [parts[i]][1..] == [];
  }
}
